=== FILE: README.md ===
# TKOM template compiler, modelled in Dafny

TKOM compiles HTML templates into HTML. A template is a list of functions `<:def name(args)> … </:def>`. Their bodies mix literal text, HTML tags, `{a.b[0]}` value references, `<:if …>`/`<:else>` and `<:for x in xs>` blocks, and calls to other functions. A JSON model supplies the values. The entry point is `main`, which takes the model as its one parameter.

The project models the compiler stage by stage:

- **Strings reader** (`StringsReader.dfy`): the cursor over the template text, with its position, current sign and line/column counters.
- **Lexical tables and tokens** (`Tokens.dfy`, `Keywords.dfy`): the keyword automaton and the special-sign dictionary. An independent spelling of every token is a reference, and lemmas connect each table to it in both directions.
- **Scanner** (`Lexicon.dfy`, `Scanner.dfy`): `Lexicon` is a declarative lexer over the remaining text. It defines which lexeme stands at a position, with the escape rules for text and strings. `Scanner` follows `ReadNextToken`, `TryReadText`, `TryReadString` and their helpers branch by branch, but over the corrected reader (see "Findings"). Lemmas prove each helper agrees with its reference. `ScannerAsWritten.dfy` models the steps that rewind over the reader as written. It proves they agree with `Scanner` away from the end of the text, and shows where they throw, repeat a token or loop at the end.
- **Parser** (`Parser.dfy`, `ParserRoundTrip.dfy`): the recursive-descent parser for function headers and bodies, over a cursor that is proved to agree with the scanner. A printer for templates is a partner: parsing the printed text of printable functions gives them back. A function is printable when its name and arguments are identifiers that do not start with `in`, and its body is empty or one literal that does not start with whitespace or '='. Names starting with `in` cannot be read back at all, because the scanner reads `in` as a keyword there (`ParserRoundTrip.InNameRejected`).
- **AST, checker and IR** (`Ast.dfy`, `Checker.dfy`, `Ir.dfy`): the semantic checks on function names, parameters, `main`, if/else pairing, variable references and calls, and the translation into blocks and scope prototypes.
- **Values** (`Values.dfy`): the walk of an `a[i].b` path over the JSON model, and the string builder for attribute values.
- **Conditions** (`Conditions.dfy`): `if` conditions, boolean and numeric conversions, and the comparisons against numbers, strings and other values.
- **Interpreter** (`Interpreter.dfy`): execution of blocks, `if`, `for`, function calls and HTML tags. Output is an appended string, indented two spaces per nesting level.
- **Earlier lexer** (`BufferedReader.dfy`, `StreamKeywords.dfy`, `StreamLexicon.dfy`, `StreamScanner.dfy`, `StreamExamples.dfy`): the buffered push-back reader and the table-driven scanner of the older generation. Each is specified by a reference lexer over the text still to come, and the scanner's tests are stated as lemmas.
- **JSON** (`Json.dfy`): the JSON value datatype. The library's conversions (number parsing, boolean parsing, member lookup) are a record of functions passed as a parameter. `Json.Lawful` states what the model relies on about them.
- **Support** (`Wrappers.dfy`, `Errors.dfy`): the `Result`/`Option` types and one error datatype per exception the source throws (`ParsingException`, `SemanticsException`, `RuntimeException`, the reader's exceptions).

The repository is mid-refactor, so the model takes each file's logic on its own terms rather than as one program that compiles. The older lexer under `TKOM/Parser/` and the newer one under `TKOM/Tools/` are both modelled. Every exception becomes a `Failure` result.

Where a test and the code disagree, the model follows the code:

- `ReadsAllTokensInFunction` (TKOM.Test/Parser/ScannerTest.cs:106-139) expects the body after `>` to be one text token that includes the newline. The earlier scanner skips the newline as whitespace and lexes `whatever` as an identifier, because a space follows it. The test also reads element 8 of an eight-element array. `StreamExamples.ScansFunctionBody` states what the code yields.
- The HTML-tag tests expect a layout that the code in these sources does not produce when the new-line flag is off: a leading line break, and for a tag with nested instructions each instruction on its own line, indented two spaces, with the closing tag on its own line. That layout depends on `PerformBlock`, which is not in the sources; see "Left out".

## Model

| member | source | states |
|---|---|---|
| StringsReader.SignAt | TKOM/Readers/StringsReader.cs:27-33 | the sign at an index is the end marker -1 exactly when the index lies outside the text |
| StringsReader.ReadAsWritten | TKOM/Readers/StringsReader.cs:25-44 | as written: a read takes the next character and advances, but leaves the position alone at the end and yields -1; exactly one of the line and column counters goes up |
| StringsReader.NewAsWritten | TKOM/Readers/StringsReader.cs:10-17 | the constructor zeroes the counters and reads once: the current sign is the first character or -1, one counter is 1 |
| StringsReader.RewindAsWritten | TKOM/Readers/StringsReader.cs:46-54 | as written: a rewind to a position below 1 throws; otherwise the position moves back and the current sign is the character just before it; the counters are not touched |
| StringsReader.ReadAsWrittenKeepsValid | TKOM/Readers/StringsReader.cs:25-44 | reading never moves the position past the end, and the current sign stays the one before the position unless the text is exhausted |
| StringsReader.RewindAsWrittenKeepsValid | TKOM/Readers/StringsReader.cs:46-54 | a rewind that does not throw keeps that invariant |
| StringsReader.ReadAsWrittenStopsAtEnd | TKOM/Readers/StringsReader.cs:27-30 | once the text is exhausted, further reads change neither the position nor the current sign |
| StringsReader.ExampleReadRewindAsWritten | TKOM.Test/Readers/StringsReaderTest.cs:8-79 | the reader's tests: 'e' after construction, -1 on empty text, 'a' after two reads, then 'x' or 'e' after rewinding one or two signs |
| StringsReader.RewindAfterEndAsWrittenLandsEarly | TKOM/Readers/StringsReader.cs:27-30 | the defect: on "ab", a one-sign rewind after reading past the end gives 'a', not 'b'; on "i" the same rewind throws |
| StringsReader.Read | TKOM/Readers/StringsReader.cs:25-44 | corrected read: the position always advances and the current sign is the character at the old position, or -1 past the end; one counter goes up |
| StringsReader.New | TKOM/Readers/StringsReader.cs:10-17 | the corrected constructor leaves a valid reader at position 1 on the first sign |
| StringsReader.Rewind | TKOM/Readers/StringsReader.cs:46-54 | succeeds exactly when the new position is at least 1, and then stands on the character before that position, or -1 past the end; counters unchanged |
| StringsReader.ReadKeepsValid | TKOM/Readers/StringsReader.cs:25-35 | a read before the end marker keeps the corrected invariant |
| StringsReader.ReadN | TKOM/Readers/StringsReader.cs:25-44 | n reads advance the position by n and the counters by n in total, ending on the sign at the new position minus one |
| StringsReader.ReadNThenRead | TKOM/Readers/StringsReader.cs:25-44 | one more read after n reads is n + 1 reads |
| StringsReader.ReadNAdd | TKOM/Readers/StringsReader.cs:25-44 | a reads followed by b reads are a + b reads |
| StringsReader.RewindUndoesReads | TKOM/Readers/StringsReader.cs:46-54 | rewinding n signs after k >= n reads succeeds and stands where only k - n reads would have left the reader |
| StringsReader.RewindAfterEndCorrected | TKOM/Readers/StringsReader.cs:46-54 | with the correction, the defect's inputs rewind to 'b' on "ab" and to 'i' on "i" |
| StringsReader.ReadAgreesBeforeEnd | TKOM/Readers/StringsReader.cs:31-35 | before the end of the text the corrected read and the read as written coincide |
| Tokens.MakeToken | TKOM/Utils/Token.cs:39-52 | a token keeps its kind, value and line, and stores one less than the column it is given |
| Keywords.Lookup | TKOM/Tools/Scanner.cs:161-164 | a current sign finds a table entry exactly when it is a character code that is a key, and then finds that key's entry; -1 never does |
| Keywords.KeywordAutomatonShape | TKOM/Utils/Keywords.cs:9-20 | the automaton starts at ':' and 'i' only, its tails are non-empty, and the tails under one start character begin with distinct characters |
| Keywords.KeywordAutomatonSpellsKeywords | TKOM/Utils/Keywords.cs:9-20 | each automaton entry spells its keyword (start character then tail), and every keyword has an entry |
| Keywords.KeywordSpellingsPrefixFree | TKOM/Utils/Keywords.cs:11-19 | no keyword spelling is a prefix of a different one, so at most one keyword matches at a position |
| Keywords.SpecialSignDictSpellsSigns | TKOM/Utils/Keywords.cs:21-43 | every one-character entry is spelled by its key, and every follower entry by its key followed by the follower |
| Keywords.SingleSpelled | TKOM/Utils/Keywords.cs:21-43 | the one-character token of an entry, when present, is a sign spelled by the key alone |
| Keywords.FollowersSpelled | TKOM/Utils/Keywords.cs:21-31 | each follower of an extensible entry gives the two-character sign spelled by the key and the follower |
| Keywords.SignsStartWithKeys | TKOM/Utils/Keywords.cs:21-43 | every sign token starts with a key of the dictionary |
| Keywords.SpecialSignDictShape | TKOM/Utils/Keywords.cs:21-43 | '/' is the only key without a one-character token; exactly braces, parentheses, comma, dot, square brackets and '"' have no followers |
| Keywords.SignFromDict | TKOM/Utils/Keywords.cs:21-43 | conversely, every sign token is found in the dictionary: a one-character sign as its key's single token, a two-character sign as a follower |
| Lexicon.RunEnd | TKOM/Tools/Scanner.cs:197-204 | the end of a run of signs with a property: every sign from the start to it has the property and the sign there does not |
| Lexicon.RunEndUnique | TKOM/Tools/Scanner.cs:197-204 | any index before which all signs have the property and at which the sign does not is the run's end |
| Lexicon.KeywordAtUnique | TKOM/Utils/Keywords.cs:9-20 | at most one keyword is spelled at a position |
| Lexicon.SignSpellingsDistinct | TKOM/Utils/Keywords.cs:21-43 | two sign tokens with the same spelling are the same token |
| Lexicon.LongestSignUnique | TKOM/Tools/Scanner.cs:161-194 | the longest sign spelled at a position is unique |
| Lexicon.Escape | TKOM/Tools/Scanner.cs:268-295 | writing a value with escapes never shortens it |
| Lexicon.UnescapeEscape | TKOM/Tools/Scanner.cs:268-295 | escaping a value and reading it back up to a stop character gives the value and consumes exactly the escaped text |
| Lexicon.LeadingSpaces | TKOM/Tools/Scanner.cs:101-108 | the number of leading spaces: all signs before it are spaces and the sign at it is not |
| Lexicon.LeadingWhitespace | TKOM/Tools/Scanner.cs:82-90 | the number of leading blanks (space, newline, carriage return), characterised the same way |
| Lexicon.KeywordSigns | TKOM/Tools/Scanner.cs:118-159 | a keyword is spelled at a position exactly when the sign-by-sign keyword decision finds it there |
| Lexicon.SpelledKeywordFound | TKOM/Tools/Scanner.cs:118-159 | a spelled keyword is found |
| Lexicon.FoundKeywordSpelled | TKOM/Tools/Scanner.cs:118-159 | a found keyword is spelled |
| Lexicon.KeywordAtComplete | TKOM/Tools/Scanner.cs:118-159 | for every token kind, being spelled at a position and being found there coincide |
| Lexicon.KeywordAtSpelled | TKOM/Tools/Scanner.cs:118-159 | the keyword decision finds a spelled keyword, and finds nothing exactly when no keyword is spelled |
| Lexicon.SignSigns | TKOM/Utils/Keywords.cs:21-43 | a sign's spelling stands at a position exactly when its one or two signs stand there |
| Lexicon.SignTokenAtSpelled | TKOM/Tools/Scanner.cs:161-194 | the sign decision yields a sign that is spelled at the position |
| Lexicon.SignTokenAtLongest | TKOM/Tools/Scanner.cs:161-194 | the sign decision yields the longest spelled sign, and nothing exactly when no sign is spelled |
| Lexicon.SpelledSignFound | TKOM/Tools/Scanner.cs:161-194 | every spelled sign is found, as a sign at least as long |
| Lexicon.LexemeAt | TKOM/Tools/Scanner.cs:22-44 | the reference token at a position: the end marker exactly at the end of the text, an invalid token spans nothing, any other token spans at least one sign within the text |
| Lexicon.LexemeIsKeyword | TKOM/Tools/Scanner.cs:34 | a keyword is tried first and spans its spelling |
| Lexicon.LexemeIsSign | TKOM/Tools/Scanner.cs:34-35 | without a keyword, a sign comes next and spans its spelling |
| Lexicon.LexemeIsNumber | TKOM/Tools/Scanner.cs:34-36 | without a keyword or sign, a number comes next and carries its digits |
| Lexicon.LexemeIsIdentifierOrInvalid | TKOM/Tools/Scanner.cs:34-43 | otherwise an identifier, or an invalid token when there is none |
| Lexicon.TextValueEscape | TKOM/Tools/Scanner.cs:46-63 | escaped text that does not start with a blank reads back as the escaped value and consumes exactly the escaped text |
| Lexicon.StringValueEscape | TKOM/Tools/Scanner.cs:65-80 | escaped string contents read back as the escaped value |
| Scanner.NewScanner | TKOM/Tools/Scanner.cs:13-20 | a new scanner holds its reader and no token yet |
| Scanner.ScanWhile | TKOM/Tools/Scanner.cs:200-204 | reading while a sign has a property stops at the first sign without it, returning exactly the signs passed |
| Scanner.SkipWhitespaces | TKOM/Tools/Scanner.cs:82-90 | the reader ends at the end of the run of spaces, line feeds and carriage returns, over the same text |
| Scanner.ReadWhitespacesUnlessNewLine | TKOM/Tools/Scanner.cs:101-116 | leading spaces followed by a line break give nothing and all blanks are skipped; otherwise the leading spaces are returned and passed |
| Scanner.SpacesScanned | TKOM/Tools/Scanner.cs:104-110 | the spaces collected are the leading spaces, and a line break follows them exactly when the next sign is a line feed or carriage return |
| Scanner.WhitespaceAfterSpaces | TKOM/Tools/Scanner.cs:109-113 | skipping blanks after the leading spaces reaches the end of all leading blanks |
| Scanner.FilterByFirst | TKOM/Tools/Scanner.cs:126-127 | the surviving candidates are exactly the entries whose tail starts with the next sign |
| Scanner.MatchTail | TKOM/Tools/Scanner.cs:136-144 | matching a keyword tail sign by sign fails exactly when the tail does not stand in the text; success reads the whole tail |
| Scanner.EntryOf | TKOM/Utils/Keywords.cs:9-20 | every keyword has an entry in the automaton under its first character, with the rest of its spelling as tail |
| Scanner.EntrySpelled | TKOM/Utils/Keywords.cs:9-20 | an automaton entry spells its keyword, and the keyword stands in the text exactly when its key and its tail do |
| Scanner.SpelledKeywordIsCandidate | TKOM/Tools/Scanner.cs:121-135 | a keyword standing in the text survives the filter by its second sign as the first candidate |
| Scanner.TryReadKeyword | TKOM/Tools/Scanner.cs:118-159 | success exactly when a keyword stands at the current sign; then it is the token and the reader is after it; otherwise the reader is back in place |
| Scanner.TryReadCandidates | TKOM/Tools/Scanner.cs:121-150 | the same promise once the current sign is a key of the automaton |
| Scanner.TryReadTail | TKOM/Tools/Scanner.cs:135-156 | the same promise once the first survivor is chosen |
| Scanner.TailMismatch | TKOM/Tools/Scanner.cs:146-150 | a failed tail match means no keyword stands there and the rewind puts the reader back in place |
| Scanner.MismatchNoKeyword | TKOM/Tools/Scanner.cs:136-146 | when the first survivor's tail is not in the text, no keyword stands at the sign |
| Scanner.MismatchReads | TKOM/Tools/Scanner.cs:146-149 | rewinding by the count of matched signs returns the reader to where the keyword would start |
| Scanner.BackOverReads | TKOM/Tools/Scanner.cs:148 | going back over `n` reads restores the place before them |
| Scanner.TailMatch | TKOM/Tools/Scanner.cs:151-156 | a complete tail match yields the keyword token and leaves the reader after the keyword |
| Scanner.KeywordMatched | TKOM/Tools/Scanner.cs:151-156 | a fully matched survivor is the keyword at that position, and its spelling fits in the text |
| Scanner.NoKeywordUnlessStart | TKOM/Tools/Scanner.cs:121 | without an automaton key at the sign no keyword stands there |
| Scanner.NoKeywordUnlessSurvivor | TKOM/Tools/Scanner.cs:126-132 | with no survivor after filtering, no keyword stands there |
| Scanner.NoKeywordUnlessTail | TKOM/Tools/Scanner.cs:135-146 | when the first survivor's tail fails, no keyword stands there |
| Scanner.SpelledSignInEntry | TKOM/Tools/Scanner.cs:164-191 | a sign standing at a dictionary key is that key's one-character token or its follower token, and the entry yields a token |
| Scanner.EntryYieldsLongest | TKOM/Tools/Scanner.cs:164-185 | the token an entry yields is the longest sign standing at the position |
| Scanner.SignFromEntry | TKOM/Tools/Scanner.cs:164-191 | the longest sign token at a dictionary key is what the entry yields |
| Scanner.TryReadSpecialSign | TKOM/Tools/Scanner.cs:161-194 | success exactly when a sign token stands at the current sign; the token is the longest one and the reader is after it; otherwise the reader is back in place |
| Scanner.SignOfEntry | TKOM/Tools/Scanner.cs:166-185 | one read for a one-character token, two for a follower, and the longest sign is read |
| Scanner.EntryTokenLength | TKOM/Utils/Keywords.cs:21-43 | an entry's token is a sign spelled with one sign, or two when a follower matched |
| Scanner.NoSignOfEntry | TKOM/Tools/Scanner.cs:186-190 | '/' without '>' is no sign and the reader goes back one sign |
| Scanner.NoSignUnlessKey | TKOM/Tools/Scanner.cs:163-193 | without a dictionary key at the sign no sign token stands there |
| Scanner.TryReadNumber | TKOM/Tools/Scanner.cs:197-221 | success exactly when digits stand at the sign followed by a sign allowed after a number; the token carries the digits; otherwise the reader is back in place |
| Scanner.NumberAccepted | TKOM/Tools/Scanner.cs:205-213 | digits followed by an allowed sign give a number token |
| Scanner.NumberRejected | TKOM/Tools/Scanner.cs:214-218 | digits followed by another sign are rewound |
| Scanner.NoDigits | TKOM/Tools/Scanner.cs:220 | with no digits there is no number and nothing moves |
| Scanner.TryReadIdentifier | TKOM/Tools/Scanner.cs:223-254 | success exactly when an identifier stands at the sign followed by a sign allowed after it; the token carries its name; otherwise the reader is back in place |
| Scanner.IdentifierAccepted | TKOM/Tools/Scanner.cs:236-246 | a name followed by an allowed sign gives an identifier token |
| Scanner.IdentifierRejected | TKOM/Tools/Scanner.cs:247-251 | a name followed by another sign is rewound |
| Scanner.IdentifierRead | TKOM/Tools/Scanner.cs:226-232 | the signs collected are the letter or '_' and the run of identifier signs after it |
| Scanner.ReadNextToken | TKOM/Tools/Scanner.cs:22-44 | after the blanks, the token is the reference token at that position with the line and column taken there, and the reader is after it |
| Scanner.ReadTokenAt | TKOM/Tools/Scanner.cs:34-43 | trying keyword, sign, number and identifier in turn gives the reference token, or an invalid one with the reader unmoved |
| Scanner.ReadSignOnward | TKOM/Tools/Scanner.cs:35-43 | the same once no keyword stands there |
| Scanner.ReadNumberOnward | TKOM/Tools/Scanner.cs:36-43 | the same once no keyword or sign stands there |
| Scanner.ReadIdentifierOnward | TKOM/Tools/Scanner.cs:37-43 | the same once no keyword, sign or number stands there |
| Scanner.EscapeIfNeeded | TKOM/Tools/Scanner.cs:268-295 | a backslash before an escapable sign is passed over; anything else leaves the reader in place |
| Scanner.Collect | TKOM/Tools/Scanner.cs:50-55 | collecting up to a stop sign gives the unescaped value and consumes exactly its escaped length |
| Scanner.CollectSign | TKOM/Tools/Scanner.cs:52-54 | one sign of the collection is the escaped sign or the current one, then the rest |
| Scanner.CollectStep | TKOM/Tools/Scanner.cs:52-54 | one round of collection in terms of the unescaped reading of the text |
| Scanner.TryReadText | TKOM/Tools/Scanner.cs:46-63 | success exactly when the text value is non-empty; the token carries the value with the previous line and column; the reader passes the whole text |
| Scanner.TextParts | TKOM/Tools/Scanner.cs:49-55 | the text value is the kept spaces followed by the unescaped rest |
| Scanner.TryReadString | TKOM/Tools/Scanner.cs:65-80 | success exactly when the string value is non-empty; the token is a text token carrying it; the reader passes the escaped contents |
| ScannerAsWritten.ValidBeforeEnd | TKOM/Readers/StringsReader.cs:25-35 | before the last sign the as-written reader's invariant implies the corrected one, and both name the same current index |
| ScannerAsWritten.RewindAgreesBeforeEnd | TKOM/Readers/StringsReader.cs:46-54 | a rewind that lands within the text gives the same reader as written and corrected |
| ScannerAsWritten.MatchTailAsWritten | TKOM/Tools/Scanner.cs:136-144 | as written: matching a keyword tail counts at least the signs it started with and at most the tail; success counts the whole tail; the reader stays within the text |
| ScannerAsWritten.MatchTailAgrees | TKOM/Tools/Scanner.cs:136-144 | when every read of the match stays before the end of the text, the as-written match equals the corrected one |
| ScannerAsWritten.TryReadKeywordAsWritten | TKOM/Tools/Scanner.cs:118-159 | as written: the keyword step either throws the rewind-before-start exception or leaves a reader within the text; a success yields a keyword token with the counters kept, a miss keeps the old token |
| ScannerAsWritten.GiveUpAsWritten | TKOM/Tools/Scanner.cs:146-149 | giving up a step rewinds over the signs counted: it succeeds exactly when the new position is at least 1, then reports no match and keeps the old token; otherwise it throws the rewind-before-start exception |
| ScannerAsWritten.KeywordCandidatesAsWritten | TKOM/Tools/Scanner.cs:123-150 | the keyword step once the current sign is a key of the automaton: throws only the rewind exception, and a match is a keyword token |
| ScannerAsWritten.KeywordTailAsWritten | TKOM/Tools/Scanner.cs:133-156 | the keyword step once the first survivor is chosen: a match is that survivor's keyword token at the line and column the step started with |
| ScannerAsWritten.SurvivorIsKeyword | TKOM/Tools/Scanner.cs:126-135 | the first survivor of the filter is an entry of the automaton for a keyword, with a non-empty tail |
| ScannerAsWritten.KeywordAgreesAwayFromEnd | TKOM/Tools/Scanner.cs:118-159 | with five or more signs after the current one, the keyword step as written does not throw and equals the corrected step |
| ScannerAsWritten.TailAtMostFour | TKOM/Utils/Keywords.cs:9-20 | no keyword tail in the automaton has more than four signs |
| ScannerAsWritten.KeywordAtLastSignAsWritten | TKOM/Tools/Scanner.cs:121-132 | on a trailing ':' or 'i' the keyword step throws if the text is that one sign, and otherwise lands on the sign before it without a token |
| ScannerAsWritten.KeywordAtLastSignCorrected | TKOM/Tools/Scanner.cs:121-132 | the corrected step on the same trailing sign finds no keyword and leaves the reader on that sign |
| ScannerAsWritten.KeywordThrowsOnLoneSign | TKOM/Tools/Scanner.cs:146-149 | the templates "i" and ":" make the keyword step throw |
| ScannerAsWritten.KeywordThrowsOnColonD | TKOM/Tools/Scanner.cs:135-149 | the template ":d" makes the keyword step throw after matching fails on the end marker |
| ScannerAsWritten.TryReadSpecialSignAsWritten | TKOM/Tools/Scanner.cs:161-194 | as written: the sign step either throws the rewind-before-start exception or leaves a reader within the text; a success yields a sign token with the counters kept, a miss keeps the old token |
| ScannerAsWritten.SignAgreesAwayFromEnd | TKOM/Tools/Scanner.cs:161-194 | with two or more signs after the current one, the sign step as written does not throw and equals the corrected step |
| ScannerAsWritten.SlashAtLastSignAsWritten | TKOM/Tools/Scanner.cs:186-190 | on a trailing '/' the sign step throws if the text is that one sign and otherwise lands on the sign before, while the corrected step stays on the '/' |
| ScannerAsWritten.SignThrowsOnLoneSlash | TKOM/Tools/Scanner.cs:186-190 | the template "/" makes the sign step throw |
| ScannerAsWritten.ParenthesisReadTwice | TKOM/Tools/Scanner.cs:34-35 | on "<:def main(i", standing on the trailing 'i', the keyword step lands back on '(' and the sign step then yields a second '(' token |
| ScannerAsWritten.EscapeIfNeededAsWritten | TKOM/Tools/Scanner.cs:268-295 | as written: the escape step either throws or stands on a sign of the text; away from a backslash it does not move |
| ScannerAsWritten.CollectAsWritten | TKOM/Tools/Scanner.cs:50-55 | as written, with a bound on its rounds: the text loop throws, runs out of rounds, or stops on the end marker or a stop sign |
| ScannerAsWritten.CollectRound | TKOM/Tools/Scanner.cs:50-55 | one round of the loop as written appends the sign the escape step stands on and continues one sign after it; a failure of the rest is the failure of the whole |
| ScannerAsWritten.CollectAtStop | TKOM/Tools/Scanner.cs:50 | at the end marker or a stop sign the loop as written collects nothing and does not move, as the reference unescaping does |
| ScannerAsWritten.NextRound | TKOM/Tools/Scanner.cs:50-55 | away from a trailing backslash a round does not throw, and one round per sign left is enough for the rest |
| ScannerAsWritten.CollectAgreesStep | TKOM/Tools/Scanner.cs:50-55 | a round followed by a rest that matches the reference unescaping matches the reference as a whole |
| ScannerAsWritten.CollectAsWrittenAgrees | TKOM/Tools/Scanner.cs:50-55 | unless the text ends in a backslash, the loop as written ends within one round per sign left and collects the reference unescaped value, stopping where it stops |
| ScannerAsWritten.EscapeAgrees | TKOM/Tools/Scanner.cs:268-295 | away from a trailing backslash the escape step as written does not throw and moves as the reference unescaping does |
| ScannerAsWritten.TrailingBackslashNeverEnds | TKOM/Tools/Scanner.cs:268-281 | a backslash as the last of two or more signs makes the loop run out of every bound: each round puts the reader back where it started |
| ScannerAsWritten.TrailingBackslashExample | TKOM/Tools/Scanner.cs:46-80 | on the template `a\` the text loop and the string loop as written never end |
| ScannerAsWritten.SignThenTrailingBackslash | TKOM/Tools/Scanner.cs:50-55 | for any stop signs that exclude 'a' and the backslash, the loop as written on `a\` never ends |
| ScannerAsWritten.TrailingBackslashCorrected | TKOM/Tools/Scanner.cs:46-80 | the corrected loop on `a\` collects both signs, as text and as string contents |
| ScannerAsWritten.UnescapeTrailingBackslash | TKOM/Tools/Scanner.cs:268-281 | the reference unescaping of `a\` keeps both signs |
| ScannerAsWritten.LoneBackslashThrows | TKOM/Tools/Scanner.cs:268-281 | a template that is one backslash makes the text and string loops throw |
| Parser.Start | TKOM/Tools/Parser.cs:14-17 | a parser starts at the beginning of the text |
| Parser.Next | TKOM/Tools/Parser.cs:32 | asking the scanner for a token never moves back, and a token that spans nothing is the end marker or an invalid token |
| Parser.ReadText | TKOM/Tools/Parser.cs:39-42 | free text is taken exactly when its value is non-empty, and the token then carries that value; otherwise the current token stays |
| Parser.NextAgrees | TKOM/Tools/Scanner.cs:22-44 | the parser's view of the scanner after reading a token is the view's own next token |
| Parser.StartAgrees | TKOM/Tools/Parser.cs:14-21 | the first token of a fresh scanner is the view's first token |
| Parser.ReadTextAgrees | TKOM/Tools/Scanner.cs:46-63 | reading free text in the scanner and in the parser's view agree |
| Parser.Ahead | TKOM/Tools/Parser.cs:63-74 | the kinds of the next `n` tokens, starting with the current one |
| Parser.Expect | TKOM/Tools/Parser.cs:162-169 | succeeds exactly when the current token has the expected kind, then reads on; otherwise fails naming the expected kind and the kind found |
| Parser.ParseArguments | TKOM/Tools/Parser.cs:75-87 | on success stops at ')'; a ')' at once gives no arguments; a first identifier is the first argument; on failure a token other than an identifier or ')' was met where an identifier was expected |
| Parser.ParseDefOpeningTag | TKOM/Tools/Parser.cs:53-96 | on success the four tokens were `<`, `:def`, an identifier and `(`, the name is the identifier's value, and '>' is the current token |
| Parser.HeaderFails | TKOM/Tools/Parser.cs:63-68 | a header that is not `< :def identifier (` fails at the first wrong token, naming what was expected and what was found |
| Parser.ParseStatement | TKOM/Tools/Parser.cs:98-129 | a parsed statement leaves the cursor further on |
| Parser.StatementText | TKOM/Tools/Parser.cs:100-106 | free text first becomes a literal with the text's value |
| Parser.StatementTag | TKOM/Tools/Parser.cs:107-121 | after '<', the statement succeeds exactly when `:if`, `:for` or an identifier follows, and fails with the token found otherwise |
| Parser.TagStubKinds | TKOM/Tools/Parser.cs:110-119 | a tag statement exists exactly for `:if`, `:for` and an identifier |
| Parser.StatementValueOf | TKOM/Tools/Parser.cs:122-126 | '{' opens a value reference |
| Parser.StatementOther | TKOM/Tools/Parser.cs:128 | any other token fails the parse |
| Parser.ParseBody | TKOM/Tools/Parser.cs:43-48 | the statements up to '</', which is the current token on success; a body that starts with '</' is empty |
| Parser.BodyAtEndFails | TKOM/Tools/Parser.cs:44-47 | a body that runs into the end of the text fails instead of looping |
| Parser.ParseDefinition | TKOM/Tools/Parser.cs:37-48 | a parsed definition ends at '</' further on in the same text |
| Parser.ClosingAtKinds | TKOM/Tools/Parser.cs:157-161 | a closing tag stands at the cursor exactly when the next three kinds are `</`, `:def`, `>` |
| Parser.ParseDefClosingTagAsWritten | TKOM/Tools/Parser.cs:155-170 | succeeds exactly at a closing tag and reads one token past its '>' |
| Parser.ParseDefClosingTag | TKOM/Tools/Parser.cs:155-170 | succeeds exactly at a closing tag and stops on its '>' |
| Parser.ParseFunction | TKOM/Tools/Parser.cs:30-51 | no definition exactly when only whitespace is left; a definition moves the cursor on |
| Parser.ParseFunctionAsWritten | TKOM/Tools/Parser.cs:30-51 | the same promise for the parser with the closing tag as written |
| Parser.BlankIsEof | TKOM/Tools/Parser.cs:32-36 | the next token is the end marker exactly when only whitespace is left |
| Parser.ParseFrom | TKOM/Tools/Parser.cs:20-27 | only whitespace left gives no definitions |
| Parser.ParseFromAsWritten | TKOM/Tools/Parser.cs:20-27 | the same for the parser as written |
| Parser.Parse | TKOM/Tools/Parser.cs:18-28 | blank text has no definitions |
| Parser.ParseAsWritten | TKOM/Tools/Parser.cs:18-28 | the same for the parser as written |
| ParserRoundTrip.ArgumentsRoundTrip | TKOM/Tools/Parser.cs:75-87 | identifiers that do not start with `in`, written separated by ", " and closed by ')', read back as exactly those arguments |
| ParserRoundTrip.HeaderRead | TKOM/Tools/Parser.cs:53-96 | a written opening tag whose name and arguments do not start with `in` reads back as that name and those arguments, with '>' current |
| ParserRoundTrip.BodyRead | TKOM/Tools/Parser.cs:39-42 | an escaped body that is empty or does not start with whitespace, read after the opening tag, gives back that literal |
| ParserRoundTrip.ClosingRead | TKOM/Tools/Parser.cs:155-170 | a written closing tag not followed by '=' reads as `</ :def >`, and the corrected parser stops on its '>' |
| ParserRoundTrip.DefinitionRead | TKOM/Tools/Parser.cs:37-48 | a written printable definition reads back as itself up to its closing tag |
| ParserRoundTrip.FunctionRoundTrip | TKOM/Tools/Parser.cs:30-51 | a written printable definition not followed by '=' reads back as itself, stopping on the '>' of its closing tag |
| ParserRoundTrip.ParseFromPrinted | TKOM/Tools/Parser.cs:20-27 | written printable definitions that run to the end of the text read back as themselves, in order |
| ParserRoundTrip.ParsePrinted | TKOM/Tools/Parser.cs:18-28 | parsing the printed text of printable definitions gives them back: names and arguments not starting with `in`, bodies empty or one literal not starting with whitespace or '=' |
| ParserRoundTrip.AsWrittenFailsOnTwo | TKOM/Tools/Parser.cs:162-169 | with two or more printable definitions the corrected parser reads them back, while the closing tag as written swallows the second '<' and the parse fails expecting '<' and finding `:def` |
| ParserRoundTrip.AsWrittenFailsOnExample | TKOM/Tools/Parser.cs:162-169 | the smallest instance: `<:def a()></:def><:def b(x)>hi</:def>` fails as written and reads back when corrected |
| ParserRoundTrip.InNameRejected | TKOM/Tools/Scanner.cs:118-158 | a definition whose name starts with `in` fails, as written and corrected, expecting an identifier and finding `in`: the keyword step accepts `in` without looking at the sign after it (Parser.cs:64-68) |
| ParserRoundTrip.InArgumentRejected | TKOM/Tools/Scanner.cs:118-158 | a definition whose first argument starts with `in` fails the same way, in the argument loop (Parser.cs:75-80) |
| ParserRoundTrip.InNameExample | TKOM/Tools/Parser.cs:64-68 | `<:def index()></:def>` fails expecting an identifier and finding `in` |
| ParserRoundTrip.InArgumentExample | TKOM/Tools/Parser.cs:75-80 | `<:def f(input)></:def>` fails expecting an identifier and finding `in` |
| Ir.NewPrototype | TKOM/Structures/IR/ScopePrototype.cs:8-12 | a named prototype starts with no variables and no upper prototype |
| Ir.NewUndefinedPrototype | TKOM/Structures/IR/ScopePrototype.cs:14-18 | an unnamed prototype is named "Undefined" and starts empty |
| Ir.TryAddVariable | TKOM/Structures/IR/ScopePrototype.cs:24-30 | adding succeeds exactly when the name is new, appending it and keeping name and upper; a repeated name fails as a duplicate |
| Ir.TryAddVariableKeepsDistinct | TKOM/Structures/IR/ScopePrototype.cs:24-30 | adding keeps the variables free of repetitions |
| Ir.FirstRepeat | TKOM/Structures/IR/Block.cs:19-22 | the index of the first name repeating an earlier one: the names before it are distinct |
| Ir.FirstRepeatDistinct | TKOM/Structures/IR/Block.cs:19-22 | no name repeats exactly when the first repeat is past the end |
| Ir.DeclareAllSpec | TKOM/Structures/IR/Block.cs:19-31 | declaring names one by one succeeds exactly when they are distinct from each other and from those declared, and fails on the first repeated name |
| Ir.NewBlockSpec | TKOM/Structures/IR/Block.cs:14-31 | a block is created exactly when its variables are distinct; it has them in order, no values, no nested blocks and the given upper scope; otherwise it fails naming the first repeat |
| Ir.BindSpec | TKOM/Structures/IR/Block.cs:50-54 | binding distinct names to values maps exactly those names, each to the value at its position |
| Ir.Initialize | TKOM/Structures/IR/Block.cs:38-56 | too many values and too few values fail with their own errors; otherwise every variable is bound, in order, to the value at its position and nothing else changes |
| Ir.InitializeForgets | TKOM/Structures/IR/Block.cs:40 | values bound before are dropped by initialising |
| Ir.FindValueInnermost | TKOM.Test/Structures/IR/ScopeTest.cs:123-196 | lookup finds the value in the nearest scope of the chain that binds the name, and nothing exactly when no scope does |
| Values.IndexInto | TKOM/Structures/IR/ValueOfInstruction.cs:43-51 | indexing succeeds exactly within the children and gives the child there; an index past the end fails as out of range, a negative one fails with a library error, as the .NET list indexer over the children throws |
| Values.Descend | TKOM/Structures/IR/ValueOfInstruction.cs:53-60 | stepping into a member succeeds exactly when an object has it and gives a member with that name; a missing member fails naming it |
| Values.WalkFollowsSteps | TKOM/Structures/IR/ValueOfInstruction.cs:39-63 | the walk over a chain of references agrees with following its flat path of steps one at a time |
| Values.FollowAppend | TKOM/Structures/IR/ValueOfInstruction.cs:41-62 | following two paths one after the other is following their concatenation, stopping at the first failure |
| Values.ReturnValue | TKOM/Structures/IR/ValueOfInstruction.cs:28-64 | an unknown variable fails; a number is returned as its text when there are no indices or members and fails otherwise; a JSON text is parsed and walked |
| Values.BuildAppend | TKOM/Structures/IR/StringValueBuilder.cs:9-25 | building two component lists one after the other is building their concatenation |
| Values.BuildLiterals | TKOM/Structures/IR/StringValueBuilder.cs:12-17 | literal components build to their joined contents |
| Values.BuildFailsOnFirstBadReference | TKOM/Structures/IR/StringValueBuilder.cs:18-22 | building fails exactly when some reference fails, and then with the error of the first one |
| Values.ArrayIndexExample | TKOM.Test/Structures/IR/ValueOfInstructionTest.cs:34-56 | the third element of the array [1, 3, 6] is 6 |
| Values.NestedMemberExample | TKOM.Test/Structures/IR/ValueOfInstructionTest.cs:84-114 | a member of an object inside an array inside an object is found |
| Values.UpperScopeExample | TKOM.Test/Structures/IR/ValueOfInstructionTest.cs:115-140 | a variable of the upper scope is found from an inner scope |
| Values.BuildTwo | TKOM/Structures/IR/StringValueBuilder.cs:12-24 | two components build to their two pieces joined |
| Values.AlternatingBuildExample | TKOM.Test/Structures/IR/StringValueBuilderTest.cs:45-91 | literals and references alternating build to their values joined in order |
| Conditions.Negation | TKOM/Structures/IR/IfIntstruction.cs:119-135 | the complementary comparison holds exactly when the comparison does not |
| Conditions.Negate | TKOM/Structures/IR/IfIntstruction.cs:146-147 | negating a result flips a boolean and keeps an error |
| Conditions.GetIRValue | TKOM/Structures/AST/NumericValue.cs:14-21 | a number literal becomes a numeric value: its integer when it is one, else its real |
| Conditions.AsBoolean | TKOM/Structures/IR/IfIntstruction.cs:71-83 | converting to a boolean succeeds exactly when the JSON library converts, giving its value, and fails as not boolean otherwise |
| Conditions.EvaluateSimple | TKOM/Structures/AST/SimpleCondition.cs:11-25 | a simple condition resolves its reference, failing with its error, and converts the value to a boolean |
| Conditions.PerformComparisonOnRhs | TKOM/Structures/AST/NumericValue.cs:23-53 | comparing with a number succeeds exactly when the left side converts to a number, and then holds exactly when the comparison of the two numbers does |
| Conditions.CheckConditionWithString | TKOM/Structures/IR/IfIntstruction.cs:85-105 | a left side that is not text fails; an ordering on text fails; equality compares with the built string, and inequality negates it |
| Conditions.CheckIfTwoValuesOfAreEqual | TKOM/Structures/IR/IfIntstruction.cs:159-181 | fails exactly when the two values are neither both numbers nor both texts, as incomparable |
| Conditions.TryCompareValuesOfAsNumericValues | TKOM/Structures/IR/IfIntstruction.cs:183-209 | succeeds exactly when both values convert to numbers, and then holds exactly when their comparison does; fails as not a number otherwise |
| Conditions.CheckConditionWithValueOf | TKOM/Structures/IR/IfIntstruction.cs:138-157 | a failing right-hand reference fails the comparison with its error |
| Conditions.IsComparisonTrue | TKOM/Structures/IR/IfIntstruction.cs:41-69 | the left-hand reference is resolved first and its failure is the result; a simple condition converts it to a boolean; against a number it must convert to a number and the two compare by the condition type, otherwise it fails as not a number; against a quoted string it compares as `CheckConditionWithString` does, against a second reference as `CheckConditionWithValueOf` does; a bare literal on the right fails as an unknown condition value |
| Conditions.NumericCopiesAgree | TKOM/Structures/IR/IfIntstruction.cs:107-136 | the instruction's own numeric comparison and the value's comparison agree on every input |
| Conditions.SimpleCopiesAgree | TKOM/Structures/IR/IfIntstruction.cs:47-50 | the instruction's simple condition and the condition's own evaluation agree |
| Conditions.ComplementFlips | TKOM/Structures/IR/IfIntstruction.cs:41-209 | the complementary condition gives the negated result, errors unchanged, except where an ordering on text fails both ways |
| Conditions.StringComplement | TKOM/Structures/IR/IfIntstruction.cs:96-104 | '!=' against a string is the negation of '==', and the orderings fail both ways |
| Conditions.ValueOfComplement | TKOM/Structures/IR/IfIntstruction.cs:142-157 | the complementary comparison of two references negates the result |
| Conditions.EqualitySymmetric | TKOM/Structures/IR/IfIntstruction.cs:159-181 | equality of two references does not depend on their order |
| Conditions.EqualityReflexive | TKOM/Structures/IR/IfIntstruction.cs:159-181 | a number or a text equals itself |
| Conditions.NumberAgainstLiteral | TKOM/Structures/IR/IfIntstruction.cs:107-136 | a reference to a number compared with a number literal is the comparison of the two numbers |
| Conditions.TextAgainstLiterals | TKOM/Structures/IR/IfIntstruction.cs:96-103 | a reference to a text compared with literal text is text equality, and '!=' its negation |
| Conditions.NoOrderingOnText | TKOM/Structures/IR/IfIntstruction.cs:104 | an ordering against a string fails |
| Conditions.Field1Example | TKOM.Test/Structures/IR/IfIntructionTest.cs:14-56 | the reference model.field1[1] resolves to the second element |
| Conditions.SimpleConditionExample | TKOM.Test/Structures/IR/IfIntructionTest.cs:14-99 | a simple condition on 5 is true and on 0 is false |
| Conditions.NumericTextsEqualExample | TKOM/Structures/IR/IfIntstruction.cs:159-167 | the texts "5" and "5.0" are equal, as numbers |
| Conditions.OrderingTextsExample | TKOM.Test/Structures/IR/IfIntructionTest.cs:1052-1113 | ordering two texts that are not numbers fails |
| Json.Children | TKOM/Structures/IR/ValueOfInstruction.cs:45 | the children of an array are its items, of an object its properties in order, of a property its value; other values have none |
| Json.Find | TKOM/Structures/IR/ValueOfInstruction.cs:55-59 | a member is found exactly when some member has the name, and then it is one of the members |
| Json.Member | TKOM/Structures/IR/ValueOfInstruction.cs:55 | looking up by name succeeds exactly on an object and finds the member there; on an array it fails in the library |
| Checker.Identifiers | TKOM/Tools/SemanticsChecker.cs:30-32 | the names of the functions, in order |
| Checker.ScanFunctionsSpec | TKOM/Tools/SemanticsChecker.cs:28-42 | registration succeeds exactly when no function repeats a parameter or an earlier name; it then holds one fresh block per function keyed by name; otherwise it reports the first offending function |
| Checker.ScanAdds | TKOM/Tools/SemanticsChecker.cs:30-41 | a function with distinct parameters and a new name adds its fresh block to the table |
| Checker.ScanOne | TKOM/Tools/SemanticsChecker.cs:30-41 | a single function with distinct parameters is registered alone |
| Checker.CheckMain | TKOM/Tools/SemanticsChecker.cs:44-59 | succeeds exactly when `main` is registered with one parameter; a missing `main` and a `main` of another arity fail with their own errors |
| Checker.MainSpec | TKOM/Tools/SemanticsChecker.cs:44-59 | the registered table has a one-parameter `main` exactly when the program declares one |
| Checker.CheckDeclared | TKOM/Tools/SemanticsChecker.cs:201-207 | a reference passes exactly when its variable is declared in the scope, and fails naming it otherwise |
| Checker.CheckArguments | TKOM/Tools/SemanticsChecker.cs:165-175 | a call passes exactly when every reference among its arguments names a declared variable |
| Checker.LoopScope | TKOM/Tools/SemanticsChecker.cs:144-153 | a loop body's scope holds the element as its only variable, with the enclosing scope above it |
| Checker.PopulateIsTranslate | TKOM/Tools/SemanticsChecker.cs:71-131 | the single pass with a pending `:if` gives the same result as the reference translation that pairs each `:if` with the `:else` right after it |
| Checker.PendingIsTranslate | TKOM/Tools/SemanticsChecker.cs:76-89 | with an `:if` pending, the pass is the translation of the list with that `:if` in front |
| Checker.TranslateSound | TKOM/Tools/SemanticsChecker.cs:71-131 | a successful translation has checked every top-level instruction, and yields one executable per instruction other than the `:else` blocks absorbed by their `:if` |
| Checker.TranslateChecked | TKOM/Tools/SemanticsChecker.cs:71-211 | the translation of a body succeeds if and only if every check holds at every depth: each `:else` directly follows an `:if`, every loop collection, reference and reference argument names a variable of the scope it is translated in (a loop body in its loop scope), every callee is registered, and no other value object stands in a list; otherwise it fails |
| Checker.LeafChecked | TKOM/Tools/SemanticsChecker.cs:102-124 | an instruction without a body translates if and only if it passes its own check |
| Checker.TopLevelSplit | TKOM/Tools/SemanticsChecker.cs:73-101 | the top-level checks of a list are those of an `:if`-`:else` pair and the rest, or of the head and the rest |
| Checker.LeadingChecked | TKOM/Tools/SemanticsChecker.cs:74-125 | a successful translation has checked its first instruction |
| Checker.TraverseAST | TKOM/Tools/SemanticsChecker.cs:61-69 | translating the bodies keeps the set of registered functions |
| Checker.TraverseASTSpec | TKOM/Tools/SemanticsChecker.cs:61-69 | translation succeeds exactly when every body translates; it then stores each body in its function's block and leaves the scopes alone; otherwise it reports the first failing function's error |
| Checker.CheckASTSpec | TKOM/Tools/SemanticsChecker.cs:20-26 | a program is accepted exactly when its functions are well declared, `main` takes one parameter and every body translates; the result maps each function to its block with the translated body; a well-declared program without `main` fails as missing it |
| Checker.Declared | TKOM/Tools/SemanticsChecker.cs:28-42 | every declared function name is among the names |
| Checker.MainValueExample | TKOM.Test/Tools/SemanticsCheckerTest.cs:14-47 | `main(model)` printing `model.nested_val` gives one block with one parameter and one reference instruction |
| Checker.MissingMainExample | TKOM.Test/Tools/SemanticsCheckerTest.cs:49-83 | a program without `main` is rejected |
| Checker.MainArityExample | TKOM.Test/Tools/SemanticsCheckerTest.cs:121-155 | `main` with two parameters is rejected |
| Checker.UndeclaredExample | TKOM.Test/Tools/SemanticsCheckerTest.cs:157-191 | a reference to an undeclared variable is rejected |
| Interpreter.Spaces | TKOM/Structures/IR/Executable.cs:23-26 | `n` spaces |
| Interpreter.Format | TKOM/Structures/IR/Executable.cs:18-28 | nothing on one line; otherwise a line break and two spaces per level |
| Interpreter.Argument | TKOM/Structures/IR/FunctionCallInstruction.cs:26-52 | a number argument becomes its numeric value, a literal its serialised text, a reference the serialised value it resolves to; any other value fails as unknown |
| Interpreter.Arguments | TKOM/Structures/IR/FunctionCallInstruction.cs:25-52 | the arguments succeed exactly when each does, giving one value per argument in order; otherwise some argument's error is reported |
| Interpreter.AttributeText | TKOM/Structures/IR/HtmlTagInstruction.cs:26 | an attribute is written exactly when its value builds, and fails with the build's error otherwise; the built value stands unescaped between the quotes after ` name=` |
| Interpreter.Attributes | TKOM/Structures/IR/HtmlTagInstruction.cs:24-27 | the attributes are written exactly when every one of them builds; otherwise the first that fails ends the tag with its error |
| Interpreter.InlineTagAsWritten | TKOM/Structures/IR/HtmlInlineTagInstruction.cs:17-26 | as written the self-closing tag never fails and is framed by the line's layout, the tag name and `/>`; between them stand the attributes as written, whose values never reach the output (`AsWrittenIgnoresValue`) |
| Interpreter.InlineTag | TKOM/Structures/IR/HtmlInlineTagInstruction.cs:17-26 | the corrected self-closing tag succeeds exactly when its attributes build, fails with their error otherwise, is framed by the layout, the tag name and `/>`, and agrees with the tag as written when there are no attributes |
| Interpreter.AcceptedIsWellFormed | TKOM/Structures/IR/Block.cs:14-31 | every block of a program the checker accepts declares its variables once, so the interpreter's precondition holds of the checker's output |
| Interpreter.IterationScope | TKOM/Structures/IR/ForInstruction.cs:33-38 | each element gets a scope whose only variable is the loop variable, bound to the element's serialised text (a choice of the model; see "Left out"), above which is the enclosing scope |
| Interpreter.Exec | TKOM/Structures/IR/Executable.cs:13-16 | every instruction other than `if` and `for` starts with the layout of its line; a literal never fails; a call succeeds only on a registered callee with evaluable arguments and fuel left; a tag succeeds only when its self-closing form does |
| Interpreter.ExecAll | TKOM/Structures/IR/HtmlTagInstruction.cs:29 | a list of instructions runs without error exactly when each of its instructions does |
| Interpreter.ExecBlock | TKOM/Structures/IR/Block.cs:58-67 | a block runs without error exactly when each of its instructions does one level deeper, and its output starts with its own line |
| Interpreter.Loop | TKOM/Structures/IR/ForInstruction.cs:33-40 | the loop runs without error exactly when the body block does for every item, each in that item's own scope |
| Interpreter.Then | TKOM/Structures/IR/Executable.cs:13-16 | output joins in order and the first error ends the run |
| Interpreter.ExecAllAppend | TKOM/Structures/IR/Block.cs:58-67 | running two lists one after the other is running their concatenation: outputs join in order and the first error is kept |
| Interpreter.LoopAppend | TKOM/Structures/IR/ForInstruction.cs:33-40 | looping over two arrays one after the other is looping over their concatenation |
| Interpreter.LoopOnce | TKOM/Structures/IR/ForInstruction.cs:33-40 | one element runs the body block once in the element's own scope |
| Interpreter.ForSpec | TKOM/Structures/IR/ForInstruction.cs:24-41 | a failing collection lookup fails the loop, a collection that is no array is rejected, an empty array prints nothing, and an array loops over its items |
| Interpreter.OneBranchRuns | TKOM/Structures/IR/IfIntstruction.cs:27-39 | when the condition holds only the if block runs and the else block is never looked at, and the other way round; a condition that fails runs neither |
| Interpreter.IfComplement | TKOM/Structures/IR/IfIntstruction.cs:27-39 | complementing the comparison and swapping the blocks gives the same output |
| Interpreter.CallSpec | TKOM/Structures/IR/FunctionCallInstruction.cs:19-55 | an unknown callee fails; the first failing argument fails the call before the callee runs; too many or too few values fail; otherwise the callee's block runs in a scope binding each parameter to its argument's value |
| Interpreter.TagExtendsInline | TKOM/Structures/IR/HtmlTagInstruction.cs:20-31 | the paired tag writes what the corrected self-closing tag writes up to its `/>`, then `>`, its body and the closing tag of the same name |
| Interpreter.EmptyTags | TKOM/Structures/IR/HtmlTagInstruction.cs:20-31 | without attributes an empty tag is `<name></name>` and a self-closing one is `<name/>` |
| Interpreter.BlockNestsDeeper | TKOM/Structures/IR/Block.cs:58-67 | the instructions of a block are laid out one level deeper than the block |
| Interpreter.TagWithoutBody | TKOM/Structures/IR/HtmlTagInstruction.cs:22-30 | a tag without a body writes its attributes and then its closing tag |
| Interpreter.AsWrittenIgnoresValue | TKOM/Structures/IR/HtmlInlineTagInstruction.cs:23 | as written, no attribute value reaches the output |
| Interpreter.InlineTagWritesValue | TKOM/Structures/IR/HtmlInlineTagInstruction.cs:17-26 | corrected, a literal attribute value is written as it is |
| Interpreter.InlineTagAsWrittenLosesValue | TKOM/Structures/IR/HtmlInlineTagInstruction.cs:23 | on `<br class="a"/>` the tag as written and the corrected tag disagree |
| Interpreter.PrintsProp | TKOM.Test/Structures/IR/ForInstructionTest.cs:59-107 | one iteration prints the element's `prop` |
| Interpreter.ForExample | TKOM.Test/Structures/IR/ForInstructionTest.cs:59-107 | looping over three objects prints their `prop` values 2, 5 and 8, once each and in order |
| Interpreter.QuotedAttributeExample | TKOM.Test/Structures/IR/HtmlTagInstructionTest.cs:14-49 | the test's tag with the line flag off: a literal attribute holding quotes is printed unescaped between quotes, `<div style="{color: "blue"}"></div>` |
| Interpreter.ArgumentOutOfRangeExample | TKOM.Test/Structures/IR/FunctionCallInstructionTest.cs:17-68 | an argument that indexes past the end of an array fails the call before the callee runs |
| BufferedReader.New | TKOM/Parser/Reader.cs:12-17 | a new reader has the whole stream upcoming and nothing consumed |
| BufferedReader.IsEndOfStream | TKOM/Parser/Reader.cs:19-27 | the end is reached exactly when nothing is upcoming |
| BufferedReader.Peek | TKOM/Parser/Reader.cs:29-36 | the next character's code, or -1 at the end, without consuming it |
| BufferedReader.Read | TKOM/Parser/Reader.cs:38-52 | a read hands out the first upcoming character, moves it to the consumed text and drops it from what is upcoming; past the end it hands out U+FFFF |
| BufferedReader.Rewind | TKOM/Parser/Reader.cs:54-61 | a rewind succeeds exactly when it stays within what was consumed, and then moves the last `n` consumed characters back in front of what is upcoming |
| BufferedReader.ClearBuffer | TKOM/Parser/Reader.cs:63-70 | clearing keeps what is upcoming; with nothing rewound it drops the buffer, otherwise it leaves the reader alone |
| BufferedReader.ReadManyMoves | TKOM/Parser/Reader.cs:38-52 | `k` reads move the first `k` upcoming characters to the consumed text, handing them out in order |
| BufferedReader.ReadManyPastEnd | TKOM/Parser/Reader.cs:38-52 | reads past the end hand out U+FFFF and leave nothing upcoming |
| BufferedReader.RewindReplays | TKOM/Parser/Reader.cs:38-61 | a rewind by `n` followed by `n` reads replays the last `n` characters handed out and restores what was upcoming |
| BufferedReader.ReadThenRewind | TKOM/Parser/Reader.cs:38-61 | reading `k` characters and rewinding by `k` restores what was upcoming |
| BufferedReader.PeekThenRead | TKOM.Test/Parser/ReaderTest.cs:10-51 | peeking shows the next character without consuming it, reading consumes it |
| BufferedReader.RewindByTwo | TKOM.Test/Parser/ReaderTest.cs:52-82 | after four reads and a rewind by two, the reads return the third, fourth and fifth characters |
| BufferedReader.RewindByTwoExample | TKOM.Test/Parser/ReaderTest.cs:52-82 | on "abcdefghijk": 'c', 'd', 'e' after the rewind, with 'd' peeked in between |
| BufferedReader.PeekAtEnd | TKOM.Test/Parser/ReaderTest.cs:83-103 | after reading the whole stream the reader is at its end and a peek gives -1 |
| StreamKeywords.Spelling | TKOM/Parser/Token.cs:5-47 | a spelling exists exactly for the keywords and the one- and two-character signs |
| StreamKeywords.KeywordDictSpelled | TKOM/Parser/Keywords.cs:8-20 | every entry of the keyword table is a keyword spelled as its key |
| StreamKeywords.KeywordInDict | TKOM/Parser/Keywords.cs:8-20 | every keyword is in the table under its spelling |
| StreamKeywords.SignDictSpelled | TKOM/Parser/Keywords.cs:22-34 | the sign table holds exactly the one-character signs, each under its spelling |
| StreamKeywords.FollowedSignDictSpelled | TKOM/Parser/Keywords.cs:36-41 | the followed-sign table holds exactly the two-character signs, under their first and second characters |
| StreamKeywords.LoneEqualIsNoSign | TKOM/Parser/Keywords.cs:22-41 | '=' is the only starter of a two-character sign that is no sign on its own |
| StreamKeywords.TwoCharSignsEndInEqual | TKOM/Parser/Keywords.cs:36-41 | every two-character sign goes on with '=' |
| StreamLexicon.StopsTextSigns | TKOM/Parser/Scanner.cs:236-247 | text stops exactly at the end of input and at the characters of the sign tables |
| StreamLexicon.TextSign | TKOM/Parser/Scanner.cs:188-203 | one character of text spans at least one sign |
| StreamLexicon.TextAt | TKOM/Parser/Scanner.cs:164-176 | text holds at least one character and spans no more signs than there are |
| StreamLexicon.Blanks | TKOM/Parser/Scanner.cs:38-47 | the leading blanks lie within the text |
| StreamLexicon.FirstLexeme | TKOM/Parser/Scanner.cs:15-36 | the first token of a non-blank text spans at least one sign and is not the end marker |
| StreamLexicon.LexemeAt | TKOM/Parser/Scanner.cs:15-36 | the token is the end marker exactly when only blanks are left; any other token spans the blanks and at least one sign more |
| StreamLexicon.LexemeBounds | TKOM/Parser/Scanner.cs:49-162 | every recognizer that finds something spans at least one sign of the text and names its own kind |
| StreamLexicon.KeywordAtSpelled | TKOM/Parser/Scanner.cs:49-82 | a keyword is found exactly when the text starts with its spelling and that ends in '>' or a space follows; the token carries no value and spans the spelling |
| StreamLexicon.KeywordShape | TKOM/Parser/Keywords.cs:8-20 | every keyword starts with a candidate starter and goes on with candidate characters, except a final '>' |
| StreamLexicon.WrittenKeywordFound | TKOM/Parser/Scanner.cs:49-82 | a written keyword is found, spanning its spelling |
| StreamLexicon.TwoCharSignAtSpelled | TKOM/Parser/Scanner.cs:84-102 | a two-character sign is found exactly when the text starts with its spelling |
| StreamLexicon.OneCharSignAtSpelled | TKOM/Parser/Scanner.cs:104-115 | a one-character sign is found exactly when the text starts with its spelling |
| StreamLexicon.NumberAtDigits | TKOM/Parser/Scanner.cs:118-138 | a number is found exactly when a run of digits is followed by a number follower, and it carries the digits |
| StreamLexicon.IdentifierAtName | TKOM/Parser/Scanner.cs:140-162 | an identifier is found exactly when a letter or '_' and identifier characters are followed by an identifier follower, and it carries the name |
| StreamLexicon.EscapeText | TKOM/Parser/Scanner.cs:188-203 | escaping never shortens a value and keeps only the empty value empty |
| StreamLexicon.TextSignEscape | TKOM/Parser/Scanner.cs:188-203 | the first escaped character reads back as the value's first character |
| StreamLexicon.TextAtEscape | TKOM/Parser/Scanner.cs:164-203 | escaped text followed by a stop reads back as the value and spans exactly the escaped text |
| StreamLexicon.EscapeTextStart | TKOM/Parser/Scanner.cs:236-247 | escaped text never starts with a stop |
| StreamLexicon.LexTokens | TKOM/Parser/Scanner.cs:15-36 | the first `k` tokens of a text |
| StreamScanner.ReadWhileRuns | TKOM/Parser/Scanner.cs:118-162 | reading while a sign has a property takes the maximal run of such signs and nothing more |
| StreamScanner.RewindRestores | TKOM/Parser/Reader.cs:54-61 | rewinding by what was read since an earlier reader restores its upcoming text |
| StreamScanner.LookupPeek | TKOM/Parser/Scanner.cs:84-115 | looking up the peeked sign, cast to a character, finds a key exactly when the upcoming text starts with it |
| StreamScanner.SkipWhitespacesSkips | TKOM/Parser/Scanner.cs:38-47 | skipping whitespace leaves exactly the text after the leading blanks |
| StreamScanner.KeywordOrRewindAgrees | TKOM/Parser/Scanner.cs:72-81 | a candidate in the table is the keyword; otherwise the rewind restores the upcoming text |
| StreamScanner.CandidateRead | TKOM/Parser/Scanner.cs:56-60 | a first character and the run after it are the text up to the end of the run |
| StreamScanner.CloseKeywordAgrees | TKOM/Parser/Scanner.cs:61-81 | closing a candidate agrees with the reference keyword |
| StreamScanner.ReadKeywordAgrees | TKOM/Parser/Scanner.cs:49-82 | reading a keyword yields the reference keyword and moves past it, or yields nothing and restores the upcoming text |
| StreamScanner.KeywordCandidateAgrees | TKOM/Parser/Scanner.cs:53-81 | the same once the first character starts a keyword |
| StreamScanner.ReadSpecialTwoCharSignAgrees | TKOM/Parser/Scanner.cs:84-102 | reading a two-character sign yields the reference sign or restores the upcoming text |
| StreamScanner.ReadSpecialOneCharSignAgrees | TKOM/Parser/Scanner.cs:104-115 | reading a one-character sign yields the reference sign or leaves the reader alone |
| StreamScanner.ReadNumberAgrees | TKOM/Parser/Scanner.cs:118-138 | reading a number yields the reference number or restores the upcoming text |
| StreamScanner.ReadIdentifierAgrees | TKOM/Parser/Scanner.cs:140-162 | reading an identifier yields the reference identifier or restores the upcoming text |
| StreamScanner.EscapeAgrees | TKOM/Parser/Scanner.cs:188-203 | escaping leaves the reader right before the character the reference reads as the next character of text |
| StreamScanner.EscapeShrinks | TKOM/Parser/Scanner.cs:188-203 | escaping never makes the upcoming text longer |
| StreamScanner.CollectTextAgrees | TKOM/Parser/Scanner.cs:164-176 | the text loop reads the reference text and stops at its end |
| StreamScanner.KeywordOnwardAgrees | TKOM/Parser/Scanner.cs:24-33 | trying the recognizers in order yields the reference's first token |
| StreamScanner.ReadNextTokenAgrees | TKOM/Parser/Scanner.cs:15-36 | the scanner yields the reference token of the upcoming text and consumes exactly its characters |
| StreamScanner.ScanTokensAgree | TKOM/Parser/Scanner.cs:15-36 | `k` tokens scanned in a row are the reference's first `k` tokens |
| StreamExamples.FreshScan | TKOM.Test/Parser/ScannerTest.cs:12-28 | a fresh scanner over a text scans the reference tokens of that text |
| StreamExamples.ScansEof | TKOM.Test/Parser/ScannerTest.cs:12-28 | the empty text scans to the end marker |
| StreamExamples.ScansFunctionOpen | TKOM.Test/Parser/ScannerTest.cs:30-49 | "<:def " scans to the function-open keyword and the end marker |
| StreamExamples.ScansFunctionClose | TKOM.Test/Parser/ScannerTest.cs:51-70 | "</:def>" scans to the function-close keyword and the end marker |
| StreamExamples.ScansFunctionWithOneArgument | TKOM.Test/Parser/ScannerTest.cs:72-104 | a header with one argument scans to its six tokens and the end marker |
| StreamExamples.ScansFunctionWithMultipleArguments | TKOM.Test/Parser/ScannerTest.cs:141-181 | a header with three arguments scans to its tokens, commas included |
| StreamExamples.ScansFunctionBody | TKOM.Test/Parser/ScannerTest.cs:106-139 | a definition with a body scans its header and then the first body word as an identifier |

## Left out

- Scanner.TryReadKeyword: its promise holds over the corrected reader only. As written, on a trailing ':' or 'i', or on ":d", the source's step throws when the text is that short and otherwise lands one sign early, so `<:def main(i` yields '(' twice (`ScannerAsWritten.KeywordAtLastSignAsWritten`, `ScannerAsWritten.ParenthesisReadTwice`). Five or more signs before the end, it agrees (`ScannerAsWritten.KeywordAgreesAwayFromEnd`).
- Scanner.TryReadCandidates: holds over the corrected reader only; see Scanner.TryReadKeyword.
- Scanner.TryReadTail: holds over the corrected reader only; see Scanner.TryReadKeyword.
- Scanner.TailMismatch: holds over the corrected reader only; as written the rewind after a mismatch at the end of the text lands early or throws, as on ":d".
- Scanner.MismatchReads: holds over the corrected reader only; see Scanner.TailMismatch.
- Scanner.BackOverReads: holds over the corrected reader only: as written, reads at the end do not move the position, so going back over them overshoots.
- Scanner.TryReadSpecialSign: its promise holds over the corrected reader only. As written, a trailing '/' makes the source's step throw when the text is that one sign and otherwise land on the sign before it (`ScannerAsWritten.SlashAtLastSignAsWritten`). Two or more signs before the end, it agrees (`ScannerAsWritten.SignAgreesAwayFromEnd`).
- Scanner.NoSignOfEntry: holds over the corrected reader only; see Scanner.TryReadSpecialSign.
- Scanner.ReadNextToken: its promise holds over the corrected reader only. Through the keyword and sign steps, the source's scanner throws on templates ending in a lone 'i', ':' or '/', or in ":d", and repeats the sign before a trailing 'i', ':' or '/'. The model has no as-written version of the whole token step, only of the steps that rewind.
- Scanner.ReadTokenAt: holds over the corrected reader only; see Scanner.ReadNextToken.
- Scanner.ReadSignOnward: holds over the corrected reader only; see Scanner.ReadNextToken.
- Scanner.ReadNumberOnward: holds over the corrected reader only; see Scanner.ReadNextToken.
- Scanner.ReadIdentifierOnward: holds over the corrected reader only; see Scanner.ReadNextToken.
- Scanner.EscapeIfNeeded: its promise holds over the corrected reader only. As written, a backslash as the last sign makes the source's escape step rewind from a position that did not move: it throws when the backslash is the whole text and otherwise steps back onto the sign before it (`ScannerAsWritten.EscapeIfNeededAsWritten`).
- Scanner.Collect: holds over the corrected reader only. As written, the text and string loops never end on a text ending in a backslash after another sign, such as `a\` (`ScannerAsWritten.TrailingBackslashNeverEnds`). Otherwise they agree (`ScannerAsWritten.CollectAsWrittenAgrees`).
- Scanner.CollectSign: holds over the corrected reader only; see Scanner.Collect.
- Scanner.CollectStep: holds over the corrected reader only; see Scanner.Collect.
- Scanner.TryReadText: its promise holds over the corrected reader only: on free text ending in a backslash the source loops forever, or throws when the backslash is the whole text; see Scanner.Collect.
- Scanner.TextParts: holds over the corrected reader only; see Scanner.TryReadText.
- Scanner.TryReadString: its promise holds over the corrected reader only: on string contents ending in a backslash the source loops forever, or throws when the backslash is the whole text; see Scanner.Collect.
- Parser.NextAgrees: holds over the corrected scanner only; see Scanner.ReadNextToken.
- Parser.StartAgrees: holds over the corrected scanner only; see Scanner.ReadNextToken.
- Parser.ReadTextAgrees: holds over the corrected scanner only; see Scanner.TryReadText.
- ParserRoundTrip.ParsePrinted: the round trip covers printable definitions only. A name or argument starting with `in` cannot be read back, because the scanner's keyword step takes `in` whatever follows it, unlike the earlier scanner, which wants '>' or a space after a keyword (`ParserRoundTrip.InNameRejected`, `ParserRoundTrip.InArgumentRejected`). A body starting with whitespace reads back without it, because reading trims it. A body starting with '=' joins the '>' before it into '>='. The printer writes no body of more than one instruction.
- ParserRoundTrip.ArgumentsRoundTrip: only for arguments that do not start with `in`; see ParserRoundTrip.ParsePrinted.
- ParserRoundTrip.HeaderRead: only for a name and arguments that do not start with `in`; see ParserRoundTrip.ParsePrinted.
- ParserRoundTrip.BodyRead: only for a body that is empty or does not start with whitespace, which reading trims; see ParserRoundTrip.ParsePrinted.
- ParserRoundTrip.ClosingRead: only for a closing tag not followed by '=', which would join its '>' into '>='.
- ParserRoundTrip.DefinitionRead: only for printable definitions; see ParserRoundTrip.ParsePrinted.
- ParserRoundTrip.FunctionRoundTrip: only for printable definitions not followed by '='; see ParserRoundTrip.ParsePrinted.
- ParserRoundTrip.ParseFromPrinted: only for printable definitions; see ParserRoundTrip.ParsePrinted.
- ParserRoundTrip.AsWrittenFailsOnTwo: only for printable definitions; see ParserRoundTrip.ParsePrinted.
- StringsReader.Read: signs are Unicode scalar values, while the source's string indexes UTF-16 code units. A character outside the Basic Multilingual Plane is one sign here but two signs in the source, which shifts its positions, columns and rewind counts. A lone surrogate, which a C# string can hold, is not a Dafny character.
- StringsReader.ReadAsWritten: the same difference between scalar values and UTF-16 code units as StringsReader.Read.
- BufferedReader.Read: the same difference between scalar values and UTF-16 code units as StringsReader.Read. The U+FFFF it hands out past the end is the source's `(char)-1`.
- Ir.Initialize: the source enumerates the declared names from a `HashSet`, whose order .NET does not document. The model enumerates them in insertion order, which is what .NET does for a set that never had a removal. The promise that the i-th argument binds the i-th declared parameter rests on that order.
- Input and output: `Program.cs`, the file reader and the `StreamWriter` the instructions write to are not modelled. Output is the returned string, and the template text and JSON model are parameters.
- The file reader (TKOM/Readers/FileReader.cs) is not modelled. It reads bytes rather than characters and has no line or column counters. Its position also stays put at the end of the file, so a rewind after reading the end lands one byte early, as `StringsReader.RewindAsWritten` does for text, and the scanner's end-of-text behaviour in `ScannerAsWritten` applies to it as well.
- The JSON library: parsing the model file, and the library's conversions of JSON values to numbers, booleans and strings, are foreign code. They are a `JsonLibrary` parameter, and only the laws in `Json.Lawful` are assumed of it.
- Floating point: the source's `double` values are modelled as mathematical reals. Rounding, NaN and the text format of doubles are not modelled; the NaN exceptions to the complement and equality lemmas are listed below.
- Conditions.ComplementFlips: holds for the model's reals, which have no NaN. In the source a text "NaN", or the JSON library's `NaN` literal, converts to `double.NaN`. Then `<` and `>=` are both false, and so are `>` and `<=`, so complementing an ordering does not negate its outcome; `==` and `!=` still negate each other.
- Conditions.ValueOfComplement: the same NaN exception: when either reference converts to `double.NaN`, an ordering of two references and its complement are both false.
- Conditions.EqualityReflexive: the same NaN exception: a value that converts to `double.NaN` is not equal to itself in the source, since `NaN == NaN` is false for doubles.
- Interpreter.IfComplement: the same NaN exception: with a NaN on either side of an ordering, the source runs the else block for both the condition and its complement, so swapping the blocks does not give the same output.
- Interpreter.IterationScope: TKOM/Structures/IR/ForInstruction.cs:37 passes the JSON element to an `AssignedValue` constructor that TKOM/Structures/IR/AssignedValue.cs does not declare (it has a parameterless and a `string` constructor only), so the source does not determine the binding. Binding the loop variable to the element's serialised JSON text is the model's choice, the same conversion `FunctionCallInstruction` makes with `JsonConvert.SerializeObject` for its arguments.
- Logging: the logger calls have no effect on results and are left out.
- `PerformBlock`, which the tag and if-instructions call, is not in the sources. It is modelled as running the nested list in order at the caller's level and with the caller's line flag, writing nothing of its own. With the flag off the model therefore writes a tag and everything in it on one line, `<div>literal<br/></div>`. The HTML-tag tests expect a leading line break and, for a tag with nested instructions, each nested instruction on its own line indented two spaces and the closing tag on its own line, `"\n<div>\n  literal\n  <br/>\n</div>"` (TKOM.Test/Structures/IR/HtmlTagInstructionTest.cs:172, and likewise :237, :303 and :368). The tests at :46, :102 and :135 differ from the model by the leading break alone. That multi-line, indented layout is not modelled.
- Partial output on error: when an instruction fails, the model returns only the error, without the text written before it.
- Interpreter.Exec: function calls may recurse without bound in the source. The model gives every call one unit of `fuel` and fails with `OutOfFuel` when it runs out, so it says nothing about runs deeper than the fuel given. It also writes a self-closing tag with the corrected `InlineTag` of the "Findings" row, not as `HtmlInlineTagInstruction` writes it: on `<br class="{x}"/>` the model writes the value of `x` and fails when `x` cannot be resolved, where the source writes the type name `TKOM.Structures.AST.StringValue` and cannot fail at that point. `InlineTagAsWritten` is the tag as written.
- Shared callee scopes: the source re-initialises the callee's block in place, so a recursive call overwrites its caller's bindings. The model binds a fresh scope for each call instead.
- Running `main`: `Executor.cs`, which binds the JSON model to `main`'s parameter and runs it, is not part of this model. The checker stops at the translated blocks.
- The `Negated` flag of an if-expression is carried in the AST. The source never reads it, and neither does the model.
- The parser's `ParseIfExpression`, `ParseForExpression`, `ParseHtmlTagOrHtmlTagInline` and `ParseValueOfOrFunctionCall` are stubs that return empty nodes. The model returns the same empty nodes and does not invent a grammar for them.
- Scanner.SkipNewLines is never called in the sources and is not modelled.
- BufferedReader.Rewind: takes a non-negative length. The source also accepts a negative one, which would move the position forward past what was read; the scanner never passes one.
- The earlier scanner's token `Line` and `Column` are never set by its code, so they are not modelled.
- The earlier scanner's unfinished branch for an unreadable sign (marked as a to-do that should throw) cannot be reached, because its text reader accepts any non-empty rest. It is not modelled as an error.
- `tools/generate_data.py`, a script that generates test data, is not part of the compiler and is not modelled.
- Values.ReturnValue: the source reads through mutable scope objects; the model takes the scope as an immutable value, so "it does not modify the scope" holds by construction rather than being stated.

## Findings

| source | as written | input that shows it | evidently intended | confidence | as-written member | corrected member |
|---|---|---|---|---|---|---|
| TKOM/Readers/StringsReader.cs:27-30 | a read at the end of the text sets the sign to -1 but does not advance the position, so a later rewind counts one sign too many | on "ab", two reads and a rewind by one give 'a', not 'b'; on "i", one read and a rewind by one throw | the position advances on every read, so a rewind by n undoes the last n reads | not executed | StringsReader.ReadAsWritten, StringsReader.RewindAfterEndAsWrittenLandsEarly | StringsReader.Read, StringsReader.RewindAfterEndCorrected, StringsReader.RewindUndoesReads |
| TKOM/Tools/Scanner.cs:118-194 | the keyword and sign steps rewind over signs read through the reader above, including a read past the end | the template "i", ":", ":d" or "/" throws; on `<:def main(i` the token '(' is read twice | a rewind puts the scanner back on the sign where the step started, so a trailing 'i' is an identifier and a trailing '/' an invalid token | not executed | ScannerAsWritten.TryReadKeywordAsWritten, ScannerAsWritten.KeywordThrowsOnLoneSign, ScannerAsWritten.KeywordThrowsOnColonD, ScannerAsWritten.ParenthesisReadTwice, ScannerAsWritten.TryReadSpecialSignAsWritten, ScannerAsWritten.SignThrowsOnLoneSlash, ScannerAsWritten.SlashAtLastSignAsWritten | Scanner.TryReadKeyword, Scanner.TryReadSpecialSign, ScannerAsWritten.KeywordAtLastSignCorrected |
| TKOM/Tools/Scanner.cs:268-295 | the escape step reads past a trailing backslash and rewinds one sign from a position that did not move | the free text or string `a\` makes the loop run forever; a lone backslash throws | a backslash with nothing after it stands for itself and ends the text | not executed | ScannerAsWritten.CollectAsWritten, ScannerAsWritten.TrailingBackslashNeverEnds, ScannerAsWritten.TrailingBackslashExample, ScannerAsWritten.LoneBackslashThrows | Scanner.Collect, Scanner.TryReadText, Scanner.TryReadString, ScannerAsWritten.TrailingBackslashCorrected |
| TKOM/Tools/Parser.cs:162-169 | the closing tag of a definition reads the token after its final '>', so the next definition starts one token late | `<:def a()></:def><:def b(x)>hi</:def>` fails with "expected '<', found def" | '>' stays the current token, as after the opening tag, and any sequence of printable definitions parses back | not executed | Parser.ParseDefClosingTagAsWritten, ParserRoundTrip.AsWrittenFailsOnExample | Parser.ParseDefClosingTag, ParserRoundTrip.ParsePrinted |
| TKOM/Structures/IR/HtmlInlineTagInstruction.cs:23 | an attribute is written from the value object itself, whose text is its type name, instead of from the built string | `<br class="a"/>` is written as `<br class="TKOM.Structures.AST.StringValue"/>` | the attribute's value is the string built from its components | not executed | Interpreter.InlineTagAsWritten, Interpreter.InlineTagAsWrittenLosesValue | Interpreter.InlineTag, Interpreter.InlineTagWritesValue, Interpreter.TagExtendsInline |

=== FILE: Ast.dfy ===
/** The abstract syntax tree the semantic checker reads
    (TKOM/Structures/AST). Every class of that directory becomes a
    constructor. `Size` is a measure on instruction trees that lets the
    checker recurse into nested bodies. */
module Ast {
  import opened Wrappers

  datatype ConditionType = Equal | NotEqual | LessThan | LessEqualThan | GreaterThan | GreaterEqualThan

  /** A reference `name[index].nested…` into the JSON model. The index is
      a nullable `int` in the source. */
  datatype ValueOf = ValueOf(name: string, index: Option<int>, nested: Option<ValueOf>)

  /** A piece of a quoted string: literal text or a value reference. */
  datatype StringComponent =
    | LiteralComponent(content: string)
    | ValueOfComponent(ref: ValueOf)

  /** A right-hand side or a call argument. The call instruction also
      handles a literal argument, so a literal is among the values here. */
  datatype Value =
    | NumericValue(integer: bool, intValue: int, realValue: real)
    | StringValue(components: seq<StringComponent>)
    | ValueOfValue(ref: ValueOf)
    | LiteralValue(content: string)

  datatype Condition =
    | SimpleCondition(lhs: ValueOf)
    | ConditionWithValue(lhs: ValueOf, op: ConditionType, rhs: Value)

  datatype Attribute = Attribute(name: string, value: seq<StringComponent>)

  /** A value object the checker does not dispatch on when it stands in an
      instruction list: a number or a quoted string. A literal or a
      reference in the list is a `Literal` or a `ValueReference`
      instruction. */
  type StrayPayload = v: Value | v.NumericValue? || v.StringValue?
    witness NumericValue(true, 0, 0.0)

  /** An instruction of a function body. `Literal` and `ValueReference` are
      the Literal and ValueOf objects of the instruction list, the classes
      the checker dispatches on; `StrayValue` is any other value object
      there, which the checker rejects. */
  datatype Instruction =
    | IfExpression(condition: Condition, negated: bool, body: seq<Instruction>)
    | ElseExpression(body: seq<Instruction>)
    | ForExpression(collection: ValueOf, element: string, body: seq<Instruction>)
    | FunctionCall(callee: string, arguments: seq<Value>)
    | HtmlInlineTag(tag: string, attributes: seq<Attribute>)
    | HtmlTag(tag: string, attributes: seq<Attribute>, body: seq<Instruction>)
    | Literal(content: string)
    | ValueReference(ref: ValueOf)
    | StrayValue(value: StrayPayload)

  datatype Function = Function(identifier: string, arguments: seq<string>, instructions: seq<Instruction>)

  datatype Program = Program(functions: seq<Function>)

  /** Whether an instruction has a nested body. */
  predicate HasBody(i: Instruction) {
    i.IfExpression? || i.ElseExpression? || i.ForExpression? || i.HtmlTag?
  }

  function Size(i: Instruction): (n: nat)
    ensures n >= 1
    ensures HasBody(i) ==> n > SizeAll(i.body)
  {
    match i
    case IfExpression(_, _, body) => 1 + SizeAll(body)
    case ElseExpression(body) => 1 + SizeAll(body)
    case ForExpression(_, _, body) => 1 + SizeAll(body)
    case HtmlTag(_, _, body) => 1 + SizeAll(body)
    case _ => 1
  }

  function SizeAll(list: seq<Instruction>): (n: nat)
    decreases list
  {
    if list == [] then 0 else Size(list[0]) + SizeAll(list[1..])
  }
}

=== FILE: BufferedReader.dfy ===
/** The buffered push-back reader of the earlier lexer (TKOM/Parser/Reader.cs).
    The reader pulls characters from a stream into a buffer. The position is
    the index in the buffer of the last character handed out, so it is -1
    when nothing has been read. `Rewind` moves the position back, and the
    next reads then come from the buffer. `ClearBuffer` drops the buffer once
    everything in it has been handed out.
    The stream is the string still to come. Its `Peek` gives the next
    character's code, or -1 when it is exhausted. A read from an exhausted
    stream yields -1 cast to a 16-bit character, U+FFFF.
    Two views of a reader serve as its specification. `Consumed` is what has
    been handed out since the buffer was last cleared. `Upcoming` is what the
    next reads return. Every operation is stated in terms of these views. */
module BufferedReader {
  import opened Wrappers
  import opened Errors
  import StringsReader

  /** What the cast `(char) -1` yields after a read past the end of the stream. */
  const PastEnd: char := 0xFFFF as char

  datatype Reader = Reader(buffer: string, position: int, stream: string)

  /** The invariant the reader keeps between operations: the position names
      a buffered character or lies just before the buffer. */
  predicate Valid(r: Reader) {
    -1 <= r.position <= |r.buffer| - 1
  }

  /** What the next reads return: the buffered characters not yet handed out
      again, then the rest of the stream. */
  function Upcoming(r: Reader): string
    requires Valid(r)
  {
    r.buffer[r.position + 1..] + r.stream
  }

  /** What has been handed out since the buffer was last cleared, counting
      rewound characters as given back. */
  function Consumed(r: Reader): string
    requires Valid(r)
  {
    r.buffer[..r.position + 1]
  }

  /** The next sign of a text: its first character's code, or -1. */
  function NextSign(u: string): int {
    StringsReader.SignAt(u, 0)
  }

  /** The reader a scanner starts with. */
  function New(s: string): (r: Reader)
    ensures Valid(r)
    ensures Upcoming(r) == s && Consumed(r) == []
  {
    Reader("", -1, s)
  }

  function IsEndOfStream(r: Reader): (b: bool)
    requires Valid(r)
    ensures b <==> Upcoming(r) == []
  {
    r.position == |r.buffer| - 1 && NextSign(r.stream) == StringsReader.EndOfInput
  }

  /** The next character's code without consuming it. The source also takes
      this branch for positions it never reaches, so no invariant is needed. */
  function Peek(r: Reader): (c: int)
    ensures Valid(r) ==> c == NextSign(Upcoming(r))
  {
    if r.position > -2 && |r.buffer| > r.position + 1
    then r.buffer[r.position + 1] as int
    else NextSign(r.stream)
  }

  function Read(r: Reader): (res: (char, Reader))
    requires Valid(r)
    ensures Valid(res.1)
    ensures Upcoming(r) != [] ==> res.0 == Upcoming(r)[0] && Upcoming(res.1) == Upcoming(r)[1..]
    ensures Upcoming(r) == [] ==> res.0 == PastEnd && Upcoming(res.1) == []
    ensures Consumed(res.1) == Consumed(r) + [res.0]
  {
    if |r.buffer| == 0 || r.position == |r.buffer| - 1 then
      var sign := if r.stream == [] then PastEnd else r.stream[0];
      var rest := if r.stream == [] then [] else r.stream[1..];
      var r' := Reader(r.buffer + [sign], r.position + 1, rest);
      assert Consumed(r') == r.buffer + [sign];
      (sign, r')
    else
      var r' := r.(position := r.position + 1);
      assert r.buffer[r.position + 1..] == [r.buffer[r.position + 1]] + r.buffer[r.position + 2..];
      assert Consumed(r') == Consumed(r) + [r.buffer[r.position + 1]];
      (r.buffer[r.position + 1], r')
  }

  /** Moves back `n` characters. The source subtracts first and throws when
      the position falls before the buffer; the model reports the failure
      instead of keeping the broken reader. Only the non-negative lengths the
      scanner passes are modelled. */
  function Rewind(r: Reader, n: nat): (res: Result<Reader, Error>)
    ensures Valid(r) ==> (res.Success? <==> n <= |Consumed(r)|)
    ensures Valid(r) && res.Success? ==>
              Valid(res.value)
              && Consumed(res.value) == Consumed(r)[..|Consumed(r)| - n]
              && Upcoming(res.value) == Consumed(r)[|Consumed(r)| - n..] + Upcoming(r)
  {
    var r' := r.(position := r.position - n);
    if r'.position < -1 then Failure(RewindBeforeStart)
    else
      assert Valid(r) ==> r.buffer[r'.position + 1..] == r.buffer[r'.position + 1..r.position + 1] + r.buffer[r.position + 1..];
      Success(r')
  }

  /** Empties the buffer, but only once every buffered character has been
      handed out; otherwise the reader is left as it is. */
  function ClearBuffer(r: Reader): (r': Reader)
    requires Valid(r)
    ensures Valid(r') && Upcoming(r') == Upcoming(r)
    ensures Upcoming(r) == r.stream ==> Consumed(r') == [] && r'.buffer == []
    ensures Upcoming(r) != r.stream ==> r' == r
  {
    if r.position == |r.buffer| - 1 then Reader("", -1, r.stream) else r
  }

  // ---------------------------------------------------------------------
  // Reading several characters
  // ---------------------------------------------------------------------

  /** `k` reads in a row and the characters they return. */
  function ReadMany(r: Reader, k: nat): (res: (string, Reader))
    requires Valid(r)
    ensures Valid(res.1) && |res.0| == k
    decreases k
  {
    if k == 0 then ([], r)
    else
      var (c, r1) := Read(r);
      var (s, r2) := ReadMany(r1, k - 1);
      ([c] + s, r2)
  }

  /** No reads leave the reader alone; `k` reads are one read followed by
      `k - 1` more. */
  lemma {:induction false} ReadManyStep(r: Reader, k: nat)
    requires Valid(r)
    ensures k == 0 ==> ReadMany(r, k) == ([], r)
    ensures 0 < k ==> ReadMany(r, k).0 == [Read(r).0] + ReadMany(Read(r).1, k - 1).0
    ensures 0 < k ==> ReadMany(r, k).1 == ReadMany(Read(r).1, k - 1).1
  {
  }

  /** Reading `k` characters that the reader holds moves them from the front
      of what is upcoming to the end of what is consumed. */
  lemma {:induction false} ReadManyMoves(r: Reader, k: nat)
    requires Valid(r) && k <= |Upcoming(r)|
    ensures ReadMany(r, k).0 == Upcoming(r)[..k]
    ensures Upcoming(ReadMany(r, k).1) == Upcoming(r)[k..]
    ensures Consumed(ReadMany(r, k).1) == Consumed(r) + Upcoming(r)[..k]
    decreases k
  {
    hide ReadMany;
    ReadManyStep(r, k);
    if k > 0 {
      var (c, r1) := Read(r);
      ReadManyMoves(r1, k - 1);
      var u := Upcoming(r);
      var s := ReadMany(r1, k - 1).0;
      assert s == u[1..][..k - 1];
      assert u[..k] == [u[0]] + u[1..][..k - 1];
      assert u[k..] == u[1..][k - 1..];
      assert Consumed(r1) + s == Consumed(r) + [c] + s;
    }
  }

  /** Reading past the end of the stream hands out U+FFFF and leaves nothing
      upcoming. */
  lemma {:induction false} ReadManyPastEnd(r: Reader, k: nat)
    requires Valid(r) && Upcoming(r) == []
    ensures ReadMany(r, k).0 == seq(k, _ => PastEnd)
    ensures Upcoming(ReadMany(r, k).1) == []
    decreases k
  {
    if k > 0 {
      var (c, r1) := Read(r);
      ReadManyPastEnd(r1, k - 1);
    }
  }

  /** A rewind by `n` followed by `n` reads replays exactly the last `n`
      characters handed out, in order, and leaves the reader where the rewind
      found it as far as the upcoming text goes. */
  lemma {:induction false} RewindReplays(r: Reader, n: nat)
    requires Valid(r) && n <= |Consumed(r)|
    ensures Rewind(r, n).Success?
    ensures ReadMany(Rewind(r, n).value, n).0 == Consumed(r)[|Consumed(r)| - n..]
    ensures Upcoming(ReadMany(Rewind(r, n).value, n).1) == Upcoming(r)
  {
    var r1 := Rewind(r, n).value;
    var back := Consumed(r)[|Consumed(r)| - n..];
    assert Upcoming(r1) == back + Upcoming(r);
    ReadManyMoves(r1, n);
    assert Upcoming(r1)[..n] == back;
    assert Upcoming(r1)[n..] == Upcoming(r);
  }

  /** Reading `k` characters and rewinding by `k` always succeeds and gives
      back the text that was upcoming before the reads. */
  lemma {:induction false} ReadThenRewind(r: Reader, k: nat)
    requires Valid(r) && k <= |Upcoming(r)|
    ensures Rewind(ReadMany(r, k).1, k).Success?
    ensures Upcoming(Rewind(ReadMany(r, k).1, k).value) == Upcoming(r)
  {
    var r1 := ReadMany(r, k).1;
    ReadManyMoves(r, k);
    var c := Consumed(r1);
    assert c[|c| - k..] == Upcoming(r)[..k];
    assert Upcoming(r)[..k] + Upcoming(r)[k..] == Upcoming(r);
  }

  // ---------------------------------------------------------------------
  // Examples from the reader's tests
  // ---------------------------------------------------------------------

  /** Peeking twice at a fresh reader gives the first character both times;
      a read returns it and the next peek shows the second. */
  lemma PeekThenRead()
    ensures Peek(New("abcdefghijk")) == 'a' as int
    ensures Read(New("abcdefghijk")).0 == 'a'
    ensures Peek(Read(New("abcdefghijk")).1) == 'b' as int
    ensures Read(Read(New("abcdefghijk")).1).0 == 'b'
  {
    var r := New("abcdefghijk");
    assert Upcoming(Read(r).1) == "bcdefghijk";
  }

  /** Four reads return the first four characters; after a rewind by two
      the reads return the third, the fourth and then the fifth, and a peek
      in between shows the fourth. */
  lemma {:induction false} RewindByTwo(s: string)
    requires 5 <= |s|
    ensures ReadMany(New(s), 4).0 == s[..4]
    ensures Rewind(ReadMany(New(s), 4).1, 2).Success?
    ensures ReadMany(Rewind(ReadMany(New(s), 4).1, 2).value, 3).0 == s[2..5]
    ensures Peek(Read(Rewind(ReadMany(New(s), 4).1, 2).value).1) == s[3] as int
  {
    hide ReadMany, Rewind, Read, Peek;
    var r := New(s);
    ReadManyMoves(r, 4);
    var r4 := ReadMany(r, 4).1;
    var r5 := Rewind(r4, 2).value;
    assert Upcoming(r5) == s[2..4] + s[4..] == s[2..];
    ReadManyMoves(r5, 3);
    assert Upcoming(r5)[..3] == s[2..5];
    var r6 := Read(r5).1;
    assert Upcoming(r6) == s[3..];
    assert Peek(r6) == s[3] as int;
  }

  /** The reader test's instance: 'a' to 'd', then 'c', 'd', 'e' after the
      rewind, with 'd' peeked in between. */
  lemma RewindByTwoExample()
    ensures ReadMany(Rewind(ReadMany(New("abcdefghijk"), 4).1, 2).value, 3).0 == "cde"
    ensures Peek(Read(Rewind(ReadMany(New("abcdefghijk"), 4).1, 2).value).1) == 'd' as int
  {
    hide ReadMany, Rewind, Read, Peek, New;
    var s := "abcdefghijk";
    RewindByTwo(s);
    assert s[2..5] == "cde" by { assert s[2] == 'c' && s[3] == 'd' && s[4] == 'e'; }
  }

  /** After reading a whole stream, a peek reports the end. */
  lemma {:induction false} PeekAtEnd()
    ensures IsEndOfStream(ReadMany(New("abc"), 3).1)
    ensures Peek(ReadMany(New("abc"), 3).1) == -1
  {
    ReadManyMoves(New("abc"), 3);
  }
}

=== FILE: Checker.dfy ===
/** The semantic checker (TKOM/Tools/SemanticsChecker.cs): it registers a
    block per function, requires a one-parameter `main`, and translates
    each function body into executable instructions, pairing every `:if`
    with an `:else` that directly follows it.

    `PopulateInstructions` is the source's loop with its pending `:if`.
    Its partner `Translate` looks one instruction ahead instead;
    `PopulateIsTranslate` proves the two agree on every list, errors
    included. Names are checked against the variables of the immediately
    enclosing scope only, as the source does. */
module Checker {
  import opened Wrappers
  import opened Errors
  import opened Ast
  import opened Ir

  // ---------------------------------------------------------------------
  // Registering the functions
  // ---------------------------------------------------------------------

  function Identifiers(fs: seq<Function>): (ids: seq<string>)
    ensures |ids| == |fs|
    ensures forall i | 0 <= i < |fs| :: ids[i] == fs[i].identifier
  {
    seq(|fs|, i requires 0 <= i < |fs| => fs[i].identifier)
  }

  /** The block a function is registered with: its parameters, no values,
      no upper scope and no instructions yet. */
  function FreshBlock(f: Function): Block {
    Block(Scope(f.arguments, map[], None), [])
  }

  /** The source's loop over the functions, in order: the block is built
      first (repeated parameters fail there), then the name is added to the
      table (a name already present fails). The source's later check for
      repeated parameters can never fail, so it is not modelled. */
  function ScanFunctions(fs: seq<Function>): (r: Result<map<string, Block>, Error>)
    decreases |fs|
  {
    if fs == [] then Success(map[])
    else
      var table :- ScanFunctions(fs[..|fs| - 1]);
      var f := fs[|fs| - 1];
      var b :- NewBlock(None, f.arguments);
      if f.identifier in table then Failure(Semantics(DuplicateFunction(f.identifier)))
      else Success(table[f.identifier := b])
  }

  /** Every function's parameters are distinct and no two functions share
      a name. */
  ghost predicate WellDeclared(fs: seq<Function>) {
    (forall i | 0 <= i < |fs| :: Distinct(fs[i].arguments)) && Distinct(Identifiers(fs))
  }

  /** The error the source reports for function `i`, given that all the
      functions before it were registered. */
  ghost predicate FailsAt(fs: seq<Function>, i: int, e: Error)
    requires 0 <= i < |fs|
  {
    var args := fs[i].arguments;
    WellDeclared(fs[..i]) &&
    if !Distinct(args) then
      FirstRepeat(args) < |args| && e == Semantics(DuplicateVariable(args[FirstRepeat(args)]))
    else
      fs[i].identifier in Identifiers(fs[..i]) && e == Semantics(DuplicateFunction(fs[i].identifier))
  }

  /** Registration succeeds exactly for well-declared functions; it then
      holds one fresh block per function, keyed by name. Otherwise the
      first function that repeats a parameter or a name is reported. */
  lemma {:induction false} ScanFunctionsSpec(fs: seq<Function>)
    ensures ScanFunctions(fs).Success? <==> WellDeclared(fs)
    ensures ScanFunctions(fs).Success? ==> Registered(fs, ScanFunctions(fs).value)
    ensures ScanFunctions(fs).Failure? ==>
              exists i | 0 <= i < |fs| :: FailsAt(fs, i, ScanFunctions(fs).error)
    decreases |fs|
  {
    if fs == [] {
      return;
    }
    var p := fs[..|fs| - 1];
    ScanFunctionsSpec(p);
    var scanned := ScanFunctions(p);
    if scanned.Failure? {
      ScanPrefixFails(fs, p, scanned.error);
    } else {
      ScanLast(fs, scanned.value);
    }
  }

  /** The table holds exactly one fresh block per function, keyed by name. */
  ghost predicate Registered(fs: seq<Function>, table: map<string, Block>) {
    table.Keys == (set i | 0 <= i < |fs| :: fs[i].identifier) &&
    forall i | 0 <= i < |fs| :: table[fs[i].identifier] == FreshBlock(fs[i])
  }

  /** A failure among the earlier functions is the failure of the whole. */
  lemma {:induction false} ScanPrefixFails(fs: seq<Function>, p: seq<Function>, e: Error)
    requires |fs| > 0 && p == fs[..|fs| - 1]
    requires ScanFunctions(p) == Failure(e)
    requires exists i | 0 <= i < |p| :: FailsAt(p, i, e)
    ensures ScanFunctions(fs) == Failure(e) && !WellDeclared(fs)
    ensures exists i | 0 <= i < |fs| :: FailsAt(fs, i, e)
  {
    var i :| 0 <= i < |p| && FailsAt(p, i, e);
    assert fs[..i] == p[..i] && fs[i] == p[i];
    assert FailsAt(fs, i, e);
    if !Distinct(p[i].arguments) {
      assert !WellDeclared(fs);
    } else {
      var j :| 0 <= j < i && Identifiers(p[..i])[j] == p[i].identifier;
      assert Identifiers(fs)[j] == Identifiers(fs)[i];
    }
  }

  /** With the earlier functions registered, the last one either fails on
      its own or is added. */
  lemma {:induction false} ScanLast(fs: seq<Function>, table: map<string, Block>)
    requires |fs| > 0
    requires ScanFunctions(fs[..|fs| - 1]) == Success(table)
    requires WellDeclared(fs[..|fs| - 1]) && Registered(fs[..|fs| - 1], table)
    ensures ScanFunctions(fs).Success? <==> WellDeclared(fs)
    ensures ScanFunctions(fs).Success? ==> Registered(fs, ScanFunctions(fs).value)
    ensures ScanFunctions(fs).Failure? ==> FailsAt(fs, |fs| - 1, ScanFunctions(fs).error)
  {
    var n := |fs| - 1;
    var p := fs[..n];
    var f := fs[n];
    assert fs[..n] == p;
    assert Identifiers(fs) == Identifiers(p) + [f.identifier];
    NewBlockSpec(None, f.arguments);
    if !Distinct(f.arguments) {
      return;
    }
    if f.identifier in table {
      var i :| 0 <= i < |p| && p[i].identifier == f.identifier;
      assert Identifiers(p)[i] == f.identifier;
      assert Identifiers(fs)[i] == Identifiers(fs)[n];
      return;
    }
    ScanAdds(fs, table);
  }

  lemma {:induction false} ScanAdds(fs: seq<Function>, table: map<string, Block>)
    requires |fs| > 0
    requires ScanFunctions(fs[..|fs| - 1]) == Success(table)
    requires WellDeclared(fs[..|fs| - 1]) && Registered(fs[..|fs| - 1], table)
    requires Distinct(fs[|fs| - 1].arguments) && fs[|fs| - 1].identifier !in table
    ensures ScanFunctions(fs) == Success(table[fs[|fs| - 1].identifier := FreshBlock(fs[|fs| - 1])])
    ensures WellDeclared(fs) && Registered(fs, ScanFunctions(fs).value)
  {
    var n := |fs| - 1;
    var p := fs[..n];
    var f := fs[n];
    NewBlockSpec(None, f.arguments);
    IdentifiersGrow(fs, table);
    var result := table[f.identifier := FreshBlock(f)];
    KeysGrow(fs, table);
    forall i | 0 <= i < |fs|
      ensures result[fs[i].identifier] == FreshBlock(fs[i])
    {
      assert fs[i].identifier in result.Keys;
      if i < n {
        assert fs[i] == p[i];
        assert Identifiers(fs)[i] != Identifiers(fs)[n];
      }
    }
  }

  /** A new identifier keeps the identifiers distinct. */
  lemma {:induction false} IdentifiersGrow(fs: seq<Function>, table: map<string, Block>)
    requires |fs| > 0
    requires Distinct(Identifiers(fs[..|fs| - 1])) && Registered(fs[..|fs| - 1], table)
    requires fs[|fs| - 1].identifier !in table
    ensures Distinct(Identifiers(fs))
  {
    var n := |fs| - 1;
    var p := fs[..n];
    forall i, j | 0 <= i < j < |fs|
      ensures Identifiers(fs)[i] != Identifiers(fs)[j]
    {
      assert fs[i] == p[i];
      if j < n {
        assert fs[j] == p[j];
        assert Identifiers(p)[i] != Identifiers(p)[j];
      } else {
        assert p[i].identifier in table;
      }
    }
  }

  /** Registering the last function adds exactly its identifier. */
  lemma {:induction false} KeysGrow(fs: seq<Function>, table: map<string, Block>)
    requires |fs| > 0
    requires Registered(fs[..|fs| - 1], table)
    ensures table[fs[|fs| - 1].identifier := FreshBlock(fs[|fs| - 1])].Keys
            == (set i | 0 <= i < |fs| :: fs[i].identifier)
  {
    var n := |fs| - 1;
    var p := fs[..n];
    var f := fs[n];
    var result := table[f.identifier := FreshBlock(f)];
    forall k | k in result.Keys
      ensures k in (set i | 0 <= i < |fs| :: fs[i].identifier)
    {
      if k != f.identifier {
        var i :| 0 <= i < |p| && p[i].identifier == k;
        assert fs[i].identifier == k;
      }
    }
    forall i | 0 <= i < |fs|
      ensures fs[i].identifier in result.Keys
    {
      if i < n {
        assert fs[i] == p[i];
      }
    }
  }

  /** `CheckMain`: `main` must be registered with exactly one parameter. */
  function CheckMain(table: map<string, Block>): (r: Result<Block, Error>)
    ensures r.Success? <==> "main" in table && |table["main"].scope.variables| == 1
    ensures r.Success? ==> r.value == table["main"]
    ensures "main" !in table ==> r == Failure(Semantics(MissingMain))
    ensures "main" in table && |table["main"].scope.variables| != 1 ==> r == Failure(Semantics(MainArity))
  {
    if "main" !in table then Failure(Semantics(MissingMain))
    else if |table["main"].scope.variables| != 1 then Failure(Semantics(MainArity))
    else Success(table["main"])
  }

  // ---------------------------------------------------------------------
  // Translating instructions
  // ---------------------------------------------------------------------

  /** A value reference must name a variable of the enclosing scope. */
  function CheckDeclared(scope: Scope, name: string): (r: Result<bool, Error>)
    ensures r.Success? <==> name in scope.variables
    ensures r.Failure? ==> r.error == Semantics(UndeclaredVariable(name))
  {
    if name in scope.variables then Success(true) else Failure(Semantics(UndeclaredVariable(name)))
  }

  /** The call check: the callee must be registered, and every argument
      that is a reference must name a variable of the enclosing scope,
      checked in argument order. */
  function CheckArguments(scope: Scope, arguments: seq<Value>): (r: Result<bool, Error>)
    ensures r.Success? <==> forall i | 0 <= i < |arguments| ::
                              arguments[i].ValueOfValue? ==> arguments[i].ref.name in scope.variables
    decreases |arguments|
  {
    if arguments == [] then Success(true)
    else
      var _ :- if arguments[0].ValueOfValue? then CheckDeclared(scope, arguments[0].ref.name) else Success(true);
      var rest :- CheckArguments(scope, arguments[1..]);
      assert forall i | 1 <= i < |arguments| :: arguments[i] == arguments[1..][i - 1];
      Success(rest)
  }

  /** The instructions without a body and other than `:if` and `:else`:
      each becomes one executable, after its check. Any other value object
      in the list is an unknown instruction. */
  function Leaf(functions: set<string>, scope: Scope, instr: Instruction): (r: Result<Executable, Error>)
    requires !HasBody(instr)
  {
    match instr
    case FunctionCall(callee, arguments) =>
      if callee !in functions then Failure(Semantics(UndeclaredFunction(callee)))
      else
        var _ :- CheckArguments(scope, arguments);
        Success(FunctionCallInstruction(callee, arguments))
    case HtmlInlineTag(tag, attributes) => Success(HtmlInlineTagInstruction(tag, attributes))
    case Literal(content) => Success(LiteralInstruction(content))
    case ValueReference(ref) =>
      var _ :- CheckDeclared(scope, ref.name);
      Success(ValueOfInstruction(ref))
    case StrayValue(_) => Failure(Semantics(UnknownInstruction))
  }

  /** The block a loop body runs in: the element is its only variable, and
      the enclosing scope is its upper scope. */
  function LoopScope(scope: Scope, element: string): (s: Scope)
    ensures s.variables == [element] && s.upper == Some(scope) && s.values == map[]
  {
    Scope([element], map[], Some(scope))
  }

  function PendingSize(pending: Option<Instruction>): nat {
    if pending.Some? then Size(pending.value) else 0
  }

  /** `PopulateInstructions`, as written: an `:if` is held back until the
      next instruction shows whether an `:else` follows it. */
  function PopulateInstructions(functions: set<string>, scope: Scope, instrs: seq<Instruction>,
                                pending: Option<Instruction>): (r: Result<seq<Executable>, Error>)
    requires pending.Some? ==> pending.value.IfExpression?
    decreases SizeAll(instrs) + PendingSize(pending), |instrs|
  {
    if instrs == [] then
      if pending.None? then Success([])
      else
        var ifBlock :- PopulateInstructions(functions, scope, pending.value.body, None);
        Success([IfInstruction(pending.value.condition, ifBlock, [])])
    else
      var head := instrs[0];
      assert SizeAll(instrs) == Size(head) + SizeAll(instrs[1..]);
      if pending.Some? && head.ElseExpression? then
        var ifBlock :- PopulateInstructions(functions, scope, pending.value.body, None);
        var elseBlock :- PopulateInstructions(functions, scope, head.body, None);
        var rest :- PopulateInstructions(functions, scope, instrs[1..], None);
        Success([IfInstruction(pending.value.condition, ifBlock, elseBlock)] + rest)
      else if pending.Some? then
        var ifBlock :- PopulateInstructions(functions, scope, pending.value.body, None);
        var rest :- PopulateInstructions(functions, scope, instrs, None);
        Success([IfInstruction(pending.value.condition, ifBlock, [])] + rest)
      else
        match head
        case IfExpression(_, _, _) => PopulateInstructions(functions, scope, instrs[1..], Some(head))
        case ElseExpression(_) => Failure(Semantics(ElseWithoutIf))
        case ForExpression(collection, element, body) =>
          var _ :- CheckDeclared(scope, collection.name);
          var inner := LoopScope(scope, element);
          var nested :- PopulateInstructions(functions, inner, body, None);
          var rest :- PopulateInstructions(functions, scope, instrs[1..], None);
          Success([ForInstruction(collection, element, Block(inner, nested))] + rest)
        case HtmlTag(tag, attributes, body) =>
          var nested :- PopulateInstructions(functions, scope, body, None);
          var rest :- PopulateInstructions(functions, scope, instrs[1..], None);
          Success([HtmlTagInstruction(tag, attributes, nested)] + rest)
        case _ =>
          var e :- Leaf(functions, scope, head);
          var rest :- PopulateInstructions(functions, scope, instrs[1..], None);
          Success([e] + rest)
  }

  /** The translation with one instruction of lookahead: an `:if` takes
      the `:else` right after it as its else branch, and has an empty else
      branch otherwise. */
  function Translate(functions: set<string>, scope: Scope, instrs: seq<Instruction>): (r: Result<seq<Executable>, Error>)
    decreases SizeAll(instrs)
  {
    if instrs == [] then Success([])
    else
      var head := instrs[0];
      assert SizeAll(instrs) == Size(head) + SizeAll(instrs[1..]);
      match head
      case IfExpression(condition, _, body) =>
        var ifBlock :- Translate(functions, scope, body);
        if |instrs| > 1 && instrs[1].ElseExpression? then
          assert SizeAll(instrs[1..]) == Size(instrs[1]) + SizeAll(instrs[2..]) by {
            assert instrs[1..][1..] == instrs[2..];
          }
          var elseBlock :- Translate(functions, scope, instrs[1].body);
          var rest :- Translate(functions, scope, instrs[2..]);
          Success([IfInstruction(condition, ifBlock, elseBlock)] + rest)
        else
          var rest :- Translate(functions, scope, instrs[1..]);
          Success([IfInstruction(condition, ifBlock, [])] + rest)
      case ElseExpression(_) => Failure(Semantics(ElseWithoutIf))
      case ForExpression(collection, element, body) =>
        var _ :- CheckDeclared(scope, collection.name);
        var inner := LoopScope(scope, element);
        var nested :- Translate(functions, inner, body);
        var rest :- Translate(functions, scope, instrs[1..]);
        Success([ForInstruction(collection, element, Block(inner, nested))] + rest)
      case HtmlTag(tag, attributes, body) =>
        var nested :- Translate(functions, scope, body);
        var rest :- Translate(functions, scope, instrs[1..]);
        Success([HtmlTagInstruction(tag, attributes, nested)] + rest)
      case _ =>
        var e :- Leaf(functions, scope, head);
        var rest :- Translate(functions, scope, instrs[1..]);
        Success([e] + rest)
  }

  /** The held-back `:if` of the source's loop and the lookahead give the
      same instructions and the same first error, on every list. */
  lemma {:induction false} PopulateIsTranslate(functions: set<string>, scope: Scope, instrs: seq<Instruction>)
    ensures PopulateInstructions(functions, scope, instrs, None) == Translate(functions, scope, instrs)
    decreases SizeAll(instrs), 1
  {
    if instrs != [] {
      var head := instrs[0];
      assert SizeAll(instrs) == Size(head) + SizeAll(instrs[1..]);
      match head
      case IfExpression(_, _, _) =>
        PendingIsTranslate(functions, scope, instrs[1..], head);
        assert [head] + instrs[1..] == instrs;
      case ElseExpression(_) =>
      case ForExpression(_, element, body) =>
        PopulateIsTranslate(functions, LoopScope(scope, element), body);
        PopulateIsTranslate(functions, scope, instrs[1..]);
      case HtmlTag(_, _, body) =>
        PopulateIsTranslate(functions, scope, body);
        PopulateIsTranslate(functions, scope, instrs[1..]);
      case FunctionCall(_, _) =>
        PopulateIsTranslate(functions, scope, instrs[1..]);
      case HtmlInlineTag(_, _) =>
        PopulateIsTranslate(functions, scope, instrs[1..]);
      case Literal(_) =>
        PopulateIsTranslate(functions, scope, instrs[1..]);
      case ValueReference(_) =>
        PopulateIsTranslate(functions, scope, instrs[1..]);
      case StrayValue(_) =>
        PopulateIsTranslate(functions, scope, instrs[1..]);
    }
  }

  /** With an `:if` held back, the loop translates the `:if` followed by
      the remaining instructions. */
  lemma {:induction false} PendingIsTranslate(functions: set<string>, scope: Scope, instrs: seq<Instruction>, pending: Instruction)
    requires pending.IfExpression?
    ensures PopulateInstructions(functions, scope, instrs, Some(pending)) == Translate(functions, scope, [pending] + instrs)
    decreases SizeAll(instrs) + Size(pending), 0
  {
    var all := [pending] + instrs;
    assert all[0] == pending && all[1..] == instrs;
    assert SizeAll(all) == Size(pending) + SizeAll(instrs);
    PopulateIsTranslate(functions, scope, pending.body);
    if instrs == [] {
      var ifBlock := Translate(functions, scope, pending.body);
      if ifBlock.Success? {
        var x := IfInstruction(pending.condition, ifBlock.value, []);
        assert [x] + [] == [x];
      }
      return;
    }
    var head := instrs[0];
    assert SizeAll(instrs) == Size(head) + SizeAll(instrs[1..]);
    if head.ElseExpression? {
      assert all[2..] == instrs[1..];
      PopulateIsTranslate(functions, scope, head.body);
      PopulateIsTranslate(functions, scope, instrs[1..]);
    } else {
      PopulateIsTranslate(functions, scope, instrs);
    }
  }

  // ---------------------------------------------------------------------
  // What a successful translation guarantees
  // ---------------------------------------------------------------------

  /** The checks the translation makes at the top level of a list. */
  ghost predicate TopLevelChecked(functions: set<string>, scope: Scope, instrs: seq<Instruction>) {
    forall i | 0 <= i < |instrs| :: InstructionChecked(functions, scope, instrs, i)
  }

  ghost predicate InstructionChecked(functions: set<string>, scope: Scope, instrs: seq<Instruction>, i: int)
    requires 0 <= i < |instrs|
  {
    match instrs[i]
    case ElseExpression(_) => i > 0 && instrs[i - 1].IfExpression?
    case ForExpression(collection, _, _) => collection.name in scope.variables
    case FunctionCall(callee, arguments) =>
      callee in functions &&
      forall k | 0 <= k < |arguments| :: arguments[k].ValueOfValue? ==> arguments[k].ref.name in scope.variables
    case ValueReference(ref) => ref.name in scope.variables
    case StrayValue(_) => false
    case _ => true
  }

  /** The number of `:else` instructions in a list. */
  function Elses(instrs: seq<Instruction>): (n: nat)
    ensures n <= |instrs|
    decreases |instrs|
  {
    if instrs == [] then 0 else (if instrs[0].ElseExpression? then 1 else 0) + Elses(instrs[1..])
  }

  /** A successful translation passed every top-level check: each `:else`
      directly follows an `:if`, each referenced variable belongs to the
      enclosing scope, each callee is registered, and no stray value is
      left. Each `:else` is folded into its `:if`, and every other
      instruction gives exactly one executable. */
  lemma {:induction false} TranslateSound(functions: set<string>, scope: Scope, instrs: seq<Instruction>)
    requires Translate(functions, scope, instrs).Success?
    ensures TopLevelChecked(functions, scope, instrs)
    ensures |Translate(functions, scope, instrs).value| == |instrs| - Elses(instrs)
    decreases |instrs|
  {
    if instrs == [] {
      return;
    }
    var head := instrs[0];
    var tail := instrs[1..];
    if head.IfExpression? && |instrs| > 1 && instrs[1].ElseExpression? {
      var rest := instrs[2..];
      assert tail[1..] == rest;
      TranslateSound(functions, scope, rest);
      assert InstructionChecked(functions, scope, instrs, 0);
      assert InstructionChecked(functions, scope, instrs, 1);
      forall i | 2 <= i < |instrs|
        ensures InstructionChecked(functions, scope, instrs, i)
      {
        assert InstructionChecked(functions, scope, rest, i - 2);
        assert instrs[i] == rest[i - 2];
        if i > 2 {
          assert instrs[i - 1] == rest[i - 3];
        }
      }
      assert Elses(instrs) == Elses(rest) + 1 by {
        assert Elses(tail) == 1 + Elses(rest);
      }
    } else {
      TranslateSound(functions, scope, tail);
      LeadingChecked(functions, scope, instrs);
      forall i | 1 <= i < |instrs|
        ensures InstructionChecked(functions, scope, instrs, i)
      {
        assert InstructionChecked(functions, scope, tail, i - 1);
        assert instrs[i] == tail[i - 1];
        if i > 1 {
          assert instrs[i - 1] == tail[i - 2];
        }
      }
    }
  }

  /** The first instruction of a successfully translated list passed its
      own check. */
  lemma {:induction false} LeadingChecked(functions: set<string>, scope: Scope, instrs: seq<Instruction>)
    requires |instrs| > 0 && Translate(functions, scope, instrs).Success?
    ensures InstructionChecked(functions, scope, instrs, 0)
  {
  }

  /** Every check the translation makes, at every depth: the top-level
      checks of a list, and the same checks on each nested body in the
      scope that body is translated in. */
  ghost predicate Checked(functions: set<string>, scope: Scope, instrs: seq<Instruction>)
    decreases SizeAll(instrs), 1
  {
    TopLevelChecked(functions, scope, instrs) && BodiesChecked(functions, scope, instrs)
  }

  ghost predicate BodiesChecked(functions: set<string>, scope: Scope, instrs: seq<Instruction>)
    decreases SizeAll(instrs), 0
  {
    if instrs == [] then true
    else
      var head := instrs[0];
      (HasBody(head) ==> Checked(functions, BodyScope(scope, head), head.body)) &&
      BodiesChecked(functions, scope, instrs[1..])
  }

  /** The scope a nested body is translated in: a loop body gets its loop
      scope, every other body shares the enclosing one. */
  function BodyScope(scope: Scope, instr: Instruction): Scope {
    if instr.ForExpression? then LoopScope(scope, instr.element) else scope
  }

  /** The translation of a list succeeds exactly when every check holds at
      every depth; otherwise it fails with the checker's error. */
  lemma {:induction false} TranslateChecked(functions: set<string>, scope: Scope, instrs: seq<Instruction>)
    ensures Translate(functions, scope, instrs).Success? <==> Checked(functions, scope, instrs)
    decreases SizeAll(instrs)
  {
    if instrs == [] {
      return;
    }
    var head := instrs[0];
    var tail := instrs[1..];
    assert SizeAll(instrs) == Size(head) + SizeAll(tail);
    TopLevelSplit(functions, scope, instrs);
    if head.IfExpression? && |instrs| > 1 && instrs[1].ElseExpression? {
      var rest := instrs[2..];
      assert tail[1..] == rest;
      assert SizeAll(tail) == Size(instrs[1]) + SizeAll(rest);
      TranslateChecked(functions, scope, head.body);
      TranslateChecked(functions, scope, instrs[1].body);
      TranslateChecked(functions, scope, rest);
      assert BodiesChecked(functions, scope, tail) ==
             (Checked(functions, scope, instrs[1].body) && BodiesChecked(functions, scope, rest));
    } else {
      if HasBody(head) {
        TranslateChecked(functions, BodyScope(scope, head), head.body);
      } else {
        LeafChecked(functions, scope, instrs);
      }
      TranslateChecked(functions, scope, tail);
    }
  }

  /** An instruction without a body translates exactly when it passes its
      own check. */
  lemma {:induction false} LeafChecked(functions: set<string>, scope: Scope, instrs: seq<Instruction>)
    requires |instrs| > 0 && !HasBody(instrs[0])
    ensures Leaf(functions, scope, instrs[0]).Success? <==> InstructionChecked(functions, scope, instrs, 0)
  {
  }

  /** How the top-level checks of a list split at its head: an `:if` with
      its `:else` is checked as a pair, any other head on its own. */
  lemma {:induction false} TopLevelSplit(functions: set<string>, scope: Scope, instrs: seq<Instruction>)
    requires |instrs| > 0
    ensures instrs[0].IfExpression? && |instrs| > 1 && instrs[1].ElseExpression? ==>
              (TopLevelChecked(functions, scope, instrs) <==> TopLevelChecked(functions, scope, instrs[2..]))
    ensures !(instrs[0].IfExpression? && |instrs| > 1 && instrs[1].ElseExpression?) ==>
              (TopLevelChecked(functions, scope, instrs) <==>
                 InstructionChecked(functions, scope, instrs, 0) && TopLevelChecked(functions, scope, instrs[1..]))
  {
    var d := if instrs[0].IfExpression? && |instrs| > 1 && instrs[1].ElseExpression? then 2 else 1;
    var rest := instrs[d..];
    forall i | 0 <= i < |rest|
      ensures InstructionChecked(functions, scope, rest, i) <==> InstructionChecked(functions, scope, instrs, i + d)
    {
      assert rest[i] == instrs[i + d];
      if i > 0 {
        assert rest[i - 1] == instrs[i + d - 1];
      }
    }
    if TopLevelChecked(functions, scope, rest) && (d == 2 || InstructionChecked(functions, scope, instrs, 0)) {
      forall j | 0 <= j < |instrs|
        ensures InstructionChecked(functions, scope, instrs, j)
      {
        if j >= d {
          assert InstructionChecked(functions, scope, rest, j - d);
        }
      }
    }
  }

  // ---------------------------------------------------------------------
  // The whole check
  // ---------------------------------------------------------------------

  /** `TraverseAST`: every function's body, translated in the scope of its
      block, becomes the block's instructions. */
  function TraverseAST(table: map<string, Block>, fs: seq<Function>): (r: Result<map<string, Block>, Error>)
    requires forall i | 0 <= i < |fs| :: fs[i].identifier in table
    ensures r.Success? ==> r.value.Keys == table.Keys
    decreases |fs|
  {
    if fs == [] then Success(table)
    else
      var f := fs[0];
      var b := table[f.identifier];
      var nested :- PopulateInstructions(table.Keys, b.scope, f.instructions, None);
      TraverseAST(table[f.identifier := b.(nested := nested)], fs[1..])
  }

  /** A function's body translated in the scope of its block. */
  function Body(table: map<string, Block>, f: Function): (r: Result<seq<Executable>, Error>)
    requires f.identifier in table
  {
    Translate(table.Keys, table[f.identifier].scope, f.instructions)
  }

  ghost predicate AllTranslate(table: map<string, Block>, fs: seq<Function>)
    requires forall i | 0 <= i < |fs| :: fs[i].identifier in table
  {
    forall i | 0 <= i < |fs| :: Body(table, fs[i]).Success?
  }

  /** Each function's block in `out` holds its translated body. */
  ghost predicate Holds(out: map<string, Block>, table: map<string, Block>, fs: seq<Function>)
    requires forall i | 0 <= i < |fs| :: fs[i].identifier in table
  {
    forall i | 0 <= i < |fs| ::
      Body(table, fs[i]).Success? && fs[i].identifier in out &&
      out[fs[i].identifier] == table[fs[i].identifier].(nested := Body(table, fs[i]).value)
  }

  /** The blocks of names outside `fs` are as they were. */
  ghost predicate Untouched(out: map<string, Block>, table: map<string, Block>, fs: seq<Function>) {
    forall k | k in table && k !in Identifiers(fs) :: k in out && out[k] == table[k]
  }

  /** `e` is the error of the first body that does not translate. */
  ghost predicate FirstFailure(table: map<string, Block>, fs: seq<Function>, e: Error)
    requires forall i | 0 <= i < |fs| :: fs[i].identifier in table
  {
    exists i | 0 <= i < |fs| ::
      (forall j | 0 <= j < i :: Body(table, fs[j]).Success?) && Body(table, fs[i]) == Failure(e)
  }

  /** The traversal succeeds exactly when every body translates; each
      function's block then holds its translated body and nothing else in
      the table changes. Otherwise the error is that of the first body that
      does not translate. */
  lemma {:induction false} TraverseASTSpec(table: map<string, Block>, fs: seq<Function>)
    requires forall i | 0 <= i < |fs| :: fs[i].identifier in table
    requires Distinct(Identifiers(fs))
    ensures TraverseAST(table, fs).Success? <==> AllTranslate(table, fs)
    ensures TraverseAST(table, fs).Success? ==>
              Holds(TraverseAST(table, fs).value, table, fs) && Untouched(TraverseAST(table, fs).value, table, fs)
    ensures TraverseAST(table, fs).Failure? ==> FirstFailure(table, fs, TraverseAST(table, fs).error)
    decreases |fs|
  {
    if fs == [] {
      return;
    }
    var f := fs[0];
    var b := table[f.identifier];
    PopulateIsTranslate(table.Keys, b.scope, f.instructions);
    if Body(table, f).Failure? {
      assert !Body(table, fs[0]).Success?;
      assert FirstFailure(table, fs, TraverseAST(table, fs).error) by {
        assert Body(table, fs[0]) == Failure(TraverseAST(table, fs).error);
      }
      return;
    }
    var next := table[f.identifier := b.(nested := Body(table, f).value)];
    var rest := fs[1..];
    assert TraverseAST(table, fs) == TraverseAST(next, rest);
    SameBodies(table, next, f.identifier);
    RestDistinct(fs);
    TraverseASTSpec(next, rest);
    var r := TraverseAST(next, rest);
    if r.Success? {
      StepHolds(table, fs, next, r.value);
    } else {
      StepFails(table, fs, next, r.error);
    }
  }

  /** Storing a translated body changes no block's scope, so no body
      translates differently. */
  lemma {:induction false} SameBodies(table: map<string, Block>, next: map<string, Block>, name: string)
    requires name in table && exists n :: next == table[name := table[name].(nested := n)]
    ensures next.Keys == table.Keys
    ensures forall g: Function | g.identifier in table :: Body(next, g) == Body(table, g)
    ensures forall k | k in table :: next[k].scope == table[k].scope
  {
  }

  lemma {:induction false} RestDistinct(fs: seq<Function>)
    requires |fs| > 0 && Distinct(Identifiers(fs))
    ensures Distinct(Identifiers(fs[1..]))
    ensures fs[0].identifier !in Identifiers(fs[1..])
    ensures forall k | k in Identifiers(fs[1..]) :: k in Identifiers(fs)
  {
    var rest := fs[1..];
    assert forall i | 0 <= i < |rest| :: Identifiers(rest)[i] == Identifiers(fs)[i + 1];
  }

  lemma {:induction false} StepHolds(table: map<string, Block>, fs: seq<Function>, next: map<string, Block>, out: map<string, Block>)
    requires |fs| > 0 && forall i | 0 <= i < |fs| :: fs[i].identifier in table
    requires Body(table, fs[0]).Success?
    requires next == table[fs[0].identifier := table[fs[0].identifier].(nested := Body(table, fs[0]).value)]
    requires forall g: Function | g.identifier in table :: Body(next, g) == Body(table, g)
    requires fs[0].identifier !in Identifiers(fs[1..])
    requires forall k | k in Identifiers(fs[1..]) :: k in Identifiers(fs)
    requires forall i | 0 <= i < |fs[1..]| :: fs[1..][i].identifier in next
    requires AllTranslate(next, fs[1..]) && Holds(out, next, fs[1..]) && Untouched(out, next, fs[1..])
    ensures AllTranslate(table, fs) && Holds(out, table, fs) && Untouched(out, table, fs)
  {
    var rest := fs[1..];
    forall i | 0 <= i < |fs|
      ensures Body(table, fs[i]).Success? && fs[i].identifier in out &&
              out[fs[i].identifier] == table[fs[i].identifier].(nested := Body(table, fs[i]).value)
    {
      if i > 0 {
        assert rest[i - 1] == fs[i];
        assert Holds(out, next, rest);
      } else {
        assert Untouched(out, next, rest);
      }
    }
    forall k | k in table && k !in Identifiers(fs)
      ensures k in out && out[k] == table[k]
    {
      assert k != Identifiers(fs)[0];
      assert Untouched(out, next, rest);
    }
  }

  lemma {:induction false} StepFails(table: map<string, Block>, fs: seq<Function>, next: map<string, Block>, e: Error)
    requires |fs| > 0 && forall i | 0 <= i < |fs| :: fs[i].identifier in table
    requires Body(table, fs[0]).Success?
    requires next.Keys == table.Keys
    requires forall g: Function | g.identifier in table :: Body(next, g) == Body(table, g)
    requires forall i | 0 <= i < |fs[1..]| :: fs[1..][i].identifier in next
    requires !AllTranslate(next, fs[1..]) && FirstFailure(next, fs[1..], e)
    ensures !AllTranslate(table, fs) && FirstFailure(table, fs, e)
  {
    var rest := fs[1..];
    var i :| 0 <= i < |rest| && (forall j | 0 <= j < i :: Body(next, rest[j]).Success?) && Body(next, rest[i]) == Failure(e);
    assert rest[i] == fs[i + 1];
    forall j | 0 <= j < i + 1
      ensures Body(table, fs[j]).Success?
    {
      if j > 0 {
        assert rest[j - 1] == fs[j];
      }
    }
  }

  /** `main` is declared with exactly one parameter. */
  ghost predicate HasMain(fs: seq<Function>) {
    exists i | 0 <= i < |fs| :: fs[i].identifier == "main" && |fs[i].arguments| == 1
  }

  /** `CheckAST`: register the functions, check `main`, translate the
      bodies. */
  function CheckAST(program: Program): (r: Result<map<string, Block>, Error>)
  {
    var table :- ScanFunctions(program.functions);
    var _ :- CheckMain(table);
    ScanFunctionsSpec(program.functions);
    TraverseAST(table, program.functions)
  }

  /** The names a program declares. */
  function Declared(program: Program): (names: set<string>)
    ensures forall i | 0 <= i < |program.functions| :: program.functions[i].identifier in names
  {
    set i | 0 <= i < |program.functions| :: program.functions[i].identifier
  }

  /** The check accepts a program exactly when its functions are well
      declared, `main` takes one parameter and every body translates with
      its own parameters in scope. It then maps each function to a block
      holding those parameters and the translated body. */
  lemma {:induction false} CheckASTSpec(program: Program)
    ensures CheckAST(program).Success? <==>
              WellDeclared(program.functions) && HasMain(program.functions) &&
              forall i | 0 <= i < |program.functions| ::
                Translate(Declared(program), FreshBlock(program.functions[i]).scope,
                          program.functions[i].instructions).Success?
    ensures CheckAST(program).Success? ==>
              CheckAST(program).value.Keys == Declared(program) &&
              forall i | 0 <= i < |program.functions| ::
                CheckAST(program).value[program.functions[i].identifier] ==
                  FreshBlock(program.functions[i]).(nested := Translate(Declared(program),
                    FreshBlock(program.functions[i]).scope, program.functions[i].instructions).value)
    ensures WellDeclared(program.functions) && "main" !in Declared(program) ==>
              CheckAST(program) == Failure(Semantics(MissingMain))
  {
    var fs := program.functions;
    ScanFunctionsSpec(fs);
    var scanned := ScanFunctions(fs);
    if scanned.Failure? {
      return;
    }
    var table := scanned.value;
    assert table.Keys == Declared(program);
    MainSpec(fs, table);
    if CheckMain(table).Failure? {
      return;
    }
    TraverseASTSpec(table, fs);
    forall i | 0 <= i < |fs|
      ensures Body(table, fs[i]) == Translate(Declared(program), FreshBlock(fs[i]).scope, fs[i].instructions)
    {
      assert table[fs[i].identifier] == FreshBlock(fs[i]);
    }
  }

  /** `main` is in the table with one parameter exactly when the program
      declares it so. */
  lemma {:induction false} MainSpec(fs: seq<Function>, table: map<string, Block>)
    requires WellDeclared(fs) && Registered(fs, table)
    ensures CheckMain(table).Success? <==> HasMain(fs)
  {
    if "main" in table {
      var i :| 0 <= i < |fs| && fs[i].identifier == "main";
      assert table["main"] == FreshBlock(fs[i]);
      if HasMain(fs) {
        var j :| 0 <= j < |fs| && fs[j].identifier == "main" && |fs[j].arguments| == 1;
        assert Identifiers(fs)[i] == Identifiers(fs)[j];
      }
    }
  }

  // ---------------------------------------------------------------------
  // Programs from the checker's tests
  // ---------------------------------------------------------------------

  /** A single function with distinct parameters is registered alone. */
  lemma ScanOne(f: Function)
    requires Distinct(f.arguments)
    ensures ScanFunctions([f]) == Success(map[f.identifier := FreshBlock(f)])
  {
    assert [f][..0] == [];
    NewBlockSpec(None, f.arguments);
  }

  const ModelNested := ValueOf("model", None, Some(ValueOf("nested_val", None, None)))

  /** `main(model)` printing `model.nested_val` gives one block, with the
      one parameter and the one reference instruction. */
  lemma MainValueExample()
    ensures CheckAST(Program([Function("main", ["model"], [ValueReference(ModelNested)])])) ==
            Success(map["main" := Block(Scope(["model"], map[], None), [ValueOfInstruction(ModelNested)])])
  {
    var fs := [Function("main", ["model"], [ValueReference(ModelNested)])];
    assert Identifiers(fs) == ["main"];
    var table := map["main" := FreshBlock(fs[0])];
    ScanOne(fs[0]);
    var instrs := fs[0].instructions;
    assert "model" in table["main"].scope.variables;
    assert Leaf(table.Keys, table["main"].scope, instrs[0]) == Success(ValueOfInstruction(ModelNested));
    assert instrs[1..] == [];
    assert [ValueOfInstruction(ModelNested)] + [] == [ValueOfInstruction(ModelNested)];
    assert Translate(table.Keys, table["main"].scope, instrs) == Success([ValueOfInstruction(ModelNested)]);
    PopulateIsTranslate(table.Keys, table["main"].scope, instrs);
    var done := table["main" := table["main"].(nested := [ValueOfInstruction(ModelNested)])];
    assert done == map["main" := Block(Scope(["model"], map[], None), [ValueOfInstruction(ModelNested)])];
    assert TraverseAST(table, fs) == TraverseAST(done, []) == Success(done);
    assert CheckMain(table) == Success(table["main"]);
  }

  /** Without `main` the check fails, whatever else is declared. */
  lemma MissingMainExample()
    ensures CheckAST(Program([Function("not_main", ["model"], [ValueReference(ModelNested)])])) ==
            Failure(Semantics(MissingMain))
  {
    var fs := [Function("not_main", ["model"], [ValueReference(ModelNested)])];
    ScanOne(fs[0]);
  }

  /** `main` with two parameters is rejected. */
  lemma MainArityExample()
    ensures CheckAST(Program([Function("main", ["model", "unnecessary_arg"], [ValueReference(ModelNested)])])) ==
            Failure(Semantics(MainArity))
  {
    var fs := [Function("main", ["model", "unnecessary_arg"], [ValueReference(ModelNested)])];
    assert Distinct(fs[0].arguments);
    ScanOne(fs[0]);
  }

  /** A reference to a name that is not a parameter is rejected. */
  lemma UndeclaredExample()
    ensures CheckAST(Program([Function("main", ["model"], [ValueReference(ValueOf("nonexisting_val", None, None))])])) ==
            Failure(Semantics(UndeclaredVariable("nonexisting_val")))
  {
    var fs := [Function("main", ["model"], [ValueReference(ValueOf("nonexisting_val", None, None))])];
    var table := map["main" := FreshBlock(fs[0])];
    ScanOne(fs[0]);
    assert "nonexisting_val" !in table["main"].scope.variables;
  }
}

=== FILE: Conditions.dfy ===
/** Evaluating the condition of an `:if` (TKOM/Structures/IR/IfIntstruction.cs,
    with the per-class versions in TKOM/Structures/AST/NumericValue.cs and
    TKOM/Structures/AST/SimpleCondition.cs).

    The left-hand side is always a reference and is resolved first. A simple
    condition converts it to a boolean. A comparison depends on the kind of
    the right-hand side: a quoted string admits only `==` and `!=` on text,
    a number compares numerically, and a second reference is compared as
    numbers when both sides convert to numbers, else as texts for `==`/`!=`.

    Doubles are modelled as reals. */
module Conditions {
  import opened Wrappers
  import opened Errors
  import opened Json
  import opened Ast
  import opened Ir
  import opened Values

  /** The comparison a condition type makes between two numbers. */
  predicate Compare(op: ConditionType, a: real, b: real) {
    match op
    case Equal => a == b
    case NotEqual => a != b
    case LessThan => a < b
    case LessEqualThan => a <= b
    case GreaterThan => a > b
    case GreaterEqualThan => a >= b
  }

  /** The condition type that holds exactly when `op` does not. */
  function Negation(op: ConditionType): (n: ConditionType)
    ensures forall a: real, b: real :: Compare(n, a, b) <==> !Compare(op, a, b)
  {
    match op
    case Equal => NotEqual
    case NotEqual => Equal
    case LessThan => GreaterEqualThan
    case LessEqualThan => GreaterThan
    case GreaterThan => LessEqualThan
    case GreaterEqualThan => LessThan
  }

  /** Flips a successful outcome and keeps an error. */
  function Negate(r: Result<bool, Error>): (n: Result<bool, Error>)
    ensures n.Success? <==> r.Success?
    ensures n.Success? ==> n.value == !r.value
    ensures n.Failure? ==> n.error == r.error
  {
    match r
    case Success(b) => Success(!b)
    case Failure(e) => Failure(e)
  }

  /** The number a numeric literal stands for: its integer part when it
      was written without a fraction, its real part otherwise. */
  function NumericRhs(v: Value): real
    requires v.NumericValue?
  {
    if v.integer then v.intValue as real else v.realValue
  }

  /** `NumericValue.GetIRValue`: a numeric literal as a value stored in a
      scope. */
  function GetIRValue(v: Value): (a: Assigned)
    requires v.NumericValue?
    ensures a.NumericAssigned?
    ensures v.integer ==> a.number == v.intValue as real
    ensures !v.integer ==> a.number == v.realValue
  {
    NumericAssigned(NumericRhs(v))
  }

  /** Converting the left-hand side to a boolean for a simple condition. */
  function AsBoolean(lib: JsonLibrary, t: Json): (r: Result<bool, Error>)
    ensures r.Success? <==> lib.toBool(t).Some?
    ensures r.Success? ==> r.value == lib.toBool(t).value
    ensures r.Failure? ==> r.error == Runtime(NotBoolean)
  {
    match lib.toBool(t)
    case None => Failure(Runtime(NotBoolean))
    case Some(b) => Success(b)
  }

  /** `SimpleCondition.EvaluateCondition`. */
  function EvaluateSimple(lib: JsonLibrary, scope: Scope, lhs: ValueOf): (r: Result<bool, Error>)
    ensures ReturnValue(lib, scope, lhs).Failure? ==> r == Failure(ReturnValue(lib, scope, lhs).error)
    ensures ReturnValue(lib, scope, lhs).Success? ==> r == AsBoolean(lib, ReturnValue(lib, scope, lhs).value)
  {
    var t :- ReturnValue(lib, scope, lhs);
    AsBoolean(lib, t)
  }

  /** `NumericValue.PerformComparisonOnRhs`: the left-hand side must convert
      to a number, which is compared with the literal. */
  function PerformComparisonOnRhs(lib: JsonLibrary, lhs: Json, op: ConditionType, v: Value): (r: Result<bool, Error>)
    requires v.NumericValue?
    ensures r.Success? <==> lib.toNumber(lhs).Some?
    ensures r.Success? ==> (r.value <==> Compare(op, lib.toNumber(lhs).value, NumericRhs(v)))
    ensures r.Failure? ==> r.error == Runtime(NotNumber)
  {
    match lib.toNumber(lhs)
    case None => Failure(Runtime(NotNumber))
    case Some(x) => Success(Compare(op, x, NumericRhs(v)))
  }

  /** The if-instruction's own copy of the numeric comparison, written as
      its switch over the condition types. */
  function CheckConditionWithNumericValue(lib: JsonLibrary, lhs: Json, v: Value, op: ConditionType): (r: Result<bool, Error>)
    requires v.NumericValue?
  {
    match lib.toNumber(lhs)
    case None => Failure(Runtime(NotNumber))
    case Some(x) =>
      var y := if v.integer then v.intValue as real else v.realValue;
      match op
      case Equal => Success(x == y)
      case NotEqual => Success(x != y)
      case LessThan => Success(x < y)
      case LessEqualThan => Success(x <= y)
      case GreaterThan => Success(x > y)
      case GreaterEqualThan => Success(x >= y)
  }

  /** Comparing with a quoted string: the left-hand side must convert to
      text; only equality and inequality are defined, and the string is
      built only for those. */
  function CheckConditionWithString(lib: JsonLibrary, scope: Scope, lhs: Json, components: seq<StringComponent>,
                                    op: ConditionType): (r: Result<bool, Error>)
    ensures lib.toText(lhs).None? ==> r == Failure(Runtime(NotText))
    ensures lib.toText(lhs).Some? && op !in {Equal, NotEqual} ==> r == Failure(Runtime(OrderingOnText))
    ensures lib.toText(lhs).Some? && op == Equal ==>
              r == match Build(lib, scope, components)
                   case Failure(e) => Failure(e)
                   case Success(b) => Success(lib.toText(lhs).value == b)
    ensures lib.toText(lhs).Some? && op == NotEqual ==>
              r == match Build(lib, scope, components)
                   case Failure(e) => Failure(e)
                   case Success(b) => Success(lib.toText(lhs).value != b)
  {
    match lib.toText(lhs)
    case None => Failure(Runtime(NotText))
    case Some(s) =>
      if op == Equal then
        var b :- Build(lib, scope, components);
        Success(s == b)
      else if op == NotEqual then
        var b :- Build(lib, scope, components);
        Success(s != b)
      else Failure(Runtime(OrderingOnText))
  }

  /** Equality of two resolved references: as numbers when both convert to
      numbers, otherwise as texts when both convert to text. */
  function CheckIfTwoValuesOfAreEqual(lib: JsonLibrary, a: Json, b: Json): (r: Result<bool, Error>)
    ensures r.Failure? <==> (lib.toNumber(a).None? || lib.toNumber(b).None?) &&
                            (lib.toText(a).None? || lib.toText(b).None?)
    ensures r.Failure? ==> r.error == Runtime(Incomparable)
  {
    if lib.toNumber(a).Some? && lib.toNumber(b).Some? then Success(lib.toNumber(a).value == lib.toNumber(b).value)
    else if lib.toText(a).Some? && lib.toText(b).Some? then Success(lib.toText(a).value == lib.toText(b).value)
    else Failure(Runtime(Incomparable))
  }

  /** An ordering between two resolved references needs both to convert to
      numbers. */
  function TryCompareValuesOfAsNumericValues(lib: JsonLibrary, a: Json, b: Json, op: ConditionType): (r: Result<bool, Error>)
    ensures r.Success? <==> lib.toNumber(a).Some? && lib.toNumber(b).Some?
    ensures r.Success? ==> (r.value <==> Compare(op, lib.toNumber(a).value, lib.toNumber(b).value))
    ensures r.Failure? ==> r.error == Runtime(NotNumber)
  {
    if lib.toNumber(a).Some? && lib.toNumber(b).Some? then Success(Compare(op, lib.toNumber(a).value, lib.toNumber(b).value))
    else Failure(Runtime(NotNumber))
  }

  /** Comparing with a second reference, which is resolved before the
      condition type is looked at. */
  function CheckConditionWithValueOf(lib: JsonLibrary, scope: Scope, lhs: Json, rhs: ValueOf, op: ConditionType): (r: Result<bool, Error>)
    ensures ReturnValue(lib, scope, rhs).Failure? ==> r == Failure(ReturnValue(lib, scope, rhs).error)
  {
    var t :- ReturnValue(lib, scope, rhs);
    match op
    case Equal => CheckIfTwoValuesOfAreEqual(lib, lhs, t)
    case NotEqual => Negate(CheckIfTwoValuesOfAreEqual(lib, lhs, t))
    case _ => TryCompareValuesOfAsNumericValues(lib, lhs, t, op)
  }

  /** `IfInstruction.IsComparisonTrue`: the outcome of a condition in a
      scope, or the error that evaluating it raises. */
  function IsComparisonTrue(lib: JsonLibrary, scope: Scope, c: Condition): (r: Result<bool, Error>)
    ensures ReturnValue(lib, scope, c.lhs).Failure? ==> r == Failure(ReturnValue(lib, scope, c.lhs).error)
    ensures c.ConditionWithValue? && c.rhs.LiteralValue? && ReturnValue(lib, scope, c.lhs).Success? ==>
              r == Failure(Runtime(UnknownConditionValue))
    ensures c.SimpleCondition? && ReturnValue(lib, scope, c.lhs).Success? ==>
              r == AsBoolean(lib, ReturnValue(lib, scope, c.lhs).value)
    ensures c.ConditionWithValue? && c.rhs.NumericValue? && ReturnValue(lib, scope, c.lhs).Success? ==>
              var t := ReturnValue(lib, scope, c.lhs).value;
              (r.Success? <==> lib.toNumber(t).Some?) &&
              (r.Success? ==> (r.value <==> Compare(c.op, lib.toNumber(t).value, NumericRhs(c.rhs)))) &&
              (r.Failure? ==> r.error == Runtime(NotNumber))
    ensures c.ConditionWithValue? && c.rhs.StringValue? && ReturnValue(lib, scope, c.lhs).Success? ==>
              r == CheckConditionWithString(lib, scope, ReturnValue(lib, scope, c.lhs).value, c.rhs.components, c.op)
    ensures c.ConditionWithValue? && c.rhs.ValueOfValue? && ReturnValue(lib, scope, c.lhs).Success? ==>
              r == CheckConditionWithValueOf(lib, scope, ReturnValue(lib, scope, c.lhs).value, c.rhs.ref, c.op)
  {
    var t :- ReturnValue(lib, scope, c.lhs);
    match c
    case SimpleCondition(_) => AsBoolean(lib, t)
    case ConditionWithValue(_, op, rhs) =>
      match rhs
      case StringValue(components) => CheckConditionWithString(lib, scope, t, components, op)
      case NumericValue(_, _, _) => CheckConditionWithNumericValue(lib, t, rhs, op)
      case ValueOfValue(ref) => CheckConditionWithValueOf(lib, scope, t, ref, op)
      case LiteralValue(_) => Failure(Runtime(UnknownConditionValue))
  }

  // ---------------------------------------------------------------------
  // Properties
  // ---------------------------------------------------------------------

  /** The if-instruction's numeric switch agrees with the numeric value's
      own comparison. */
  lemma {:induction false} NumericCopiesAgree(lib: JsonLibrary, lhs: Json, v: Value, op: ConditionType)
    requires v.NumericValue?
    ensures CheckConditionWithNumericValue(lib, lhs, v, op) == PerformComparisonOnRhs(lib, lhs, op, v)
  {
  }

  /** A simple condition evaluated by the if-instruction is the one the
      condition class evaluates itself. */
  lemma {:induction false} SimpleCopiesAgree(lib: JsonLibrary, scope: Scope, lhs: ValueOf)
    ensures IsComparisonTrue(lib, scope, SimpleCondition(lhs)) == EvaluateSimple(lib, scope, lhs)
  {
  }

  /** Replacing the condition type by its complement flips the outcome of
      every comparison and keeps every error, whatever the right-hand
      side. */
  lemma {:induction false} ComplementFlips(lib: JsonLibrary, scope: Scope, lhs: ValueOf, op: ConditionType, rhs: Value)
    ensures IsComparisonTrue(lib, scope, ConditionWithValue(lhs, Negation(op), rhs)) ==
            Negate(IsComparisonTrue(lib, scope, ConditionWithValue(lhs, op, rhs)))
  {
    var t := ReturnValue(lib, scope, lhs);
    if t.Success? {
      match rhs
      case StringValue(components) =>
        StringComplement(lib, scope, t.value, components, op);
      case NumericValue(_, _, _) =>
        NumericCopiesAgree(lib, t.value, rhs, op);
        NumericCopiesAgree(lib, t.value, rhs, Negation(op));
      case ValueOfValue(ref) =>
        ValueOfComplement(lib, scope, t.value, ref, op);
      case LiteralValue(_) =>
    }
  }

  lemma {:induction false} StringComplement(lib: JsonLibrary, scope: Scope, t: Json, components: seq<StringComponent>, op: ConditionType)
    ensures CheckConditionWithString(lib, scope, t, components, Negation(op)) ==
            Negate(CheckConditionWithString(lib, scope, t, components, op))
  {
    var r := CheckConditionWithString(lib, scope, t, components, Equal);
    assert Negate(Negate(r)) == r;
  }

  lemma {:induction false} ValueOfComplement(lib: JsonLibrary, scope: Scope, t: Json, ref: ValueOf, op: ConditionType)
    ensures CheckConditionWithValueOf(lib, scope, t, ref, Negation(op)) ==
            Negate(CheckConditionWithValueOf(lib, scope, t, ref, op))
  {
    var u := ReturnValue(lib, scope, ref);
    if u.Success? && op == NotEqual {
      var r := CheckIfTwoValuesOfAreEqual(lib, t, u.value);
      assert Negate(Negate(r)) == r;
    }
  }

  /** Equality of two references does not depend on their order. */
  lemma {:induction false} EqualitySymmetric(lib: JsonLibrary, a: Json, b: Json)
    ensures CheckIfTwoValuesOfAreEqual(lib, a, b) == CheckIfTwoValuesOfAreEqual(lib, b, a)
  {
  }

  /** With a lawful library, every number and every text equals itself. */
  lemma {:induction false} EqualityReflexive(lib: JsonLibrary, a: Json)
    requires Lawful(lib) && (a.JNumber? || a.JString?)
    ensures CheckIfTwoValuesOfAreEqual(lib, a, a) == Success(true)
  {
  }

  /** With a lawful library, a number on the left compares with a numeric
      literal exactly as the numbers do. */
  lemma {:induction false} NumberAgainstLiteral(lib: JsonLibrary, scope: Scope, lhs: ValueOf, op: ConditionType, rhs: Value, x: real)
    requires Lawful(lib) && rhs.NumericValue?
    requires ReturnValue(lib, scope, lhs) == Success(JNumber(x))
    ensures IsComparisonTrue(lib, scope, ConditionWithValue(lhs, op, rhs)) == Success(Compare(op, x, NumericRhs(rhs)))
  {
    NumericCopiesAgree(lib, JNumber(x), rhs, op);
  }

  /** With a lawful library, a text on the left equals a quoted string of
      literals exactly when the texts are equal. */
  lemma {:induction false} TextAgainstLiterals(lib: JsonLibrary, scope: Scope, lhs: ValueOf, components: seq<StringComponent>, s: string)
    requires Lawful(lib)
    requires forall i | 0 <= i < |components| :: components[i].LiteralComponent?
    requires ReturnValue(lib, scope, lhs) == Success(JString(s))
    ensures IsComparisonTrue(lib, scope, ConditionWithValue(lhs, Equal, StringValue(components))) ==
            Success(s == LiteralText(components))
    ensures IsComparisonTrue(lib, scope, ConditionWithValue(lhs, NotEqual, StringValue(components))) ==
            Success(s != LiteralText(components))
  {
    BuildLiterals(lib, scope, components);
  }

  /** Ordering a quoted string is always an error once the left-hand side
      resolves to text. */
  lemma {:induction false} NoOrderingOnText(lib: JsonLibrary, scope: Scope, lhs: ValueOf, op: ConditionType, components: seq<StringComponent>)
    requires op !in {Equal, NotEqual}
    requires ReturnValue(lib, scope, lhs).Success? && lib.toText(ReturnValue(lib, scope, lhs).value).Some?
    ensures IsComparisonTrue(lib, scope, ConditionWithValue(lhs, op, StringValue(components))) ==
            Failure(Runtime(OrderingOnText))
  {
  }

  // ---------------------------------------------------------------------
  // The repository's own examples
  // ---------------------------------------------------------------------

  /** The reference `model.field1[1]`. */
  const Field1At1 := ValueOf("model", None, Some(ValueOf("field1", Some(1), None)))

  /** `model.field1[1]` of `{field1: [2, n, 8]}` is the number n. */
  lemma Field1Example(lib: JsonLibrary, text: string, n: real)
    requires lib.parse(text) == Some(JObject([("field1", JArray([JNumber(2.0), JNumber(n), JNumber(8.0)]))]))
    ensures ReturnValue(lib, TextScope("model", text), Field1At1) == Success(JNumber(n))
  {
    assert Steps(Field1At1) == [Field("field1"), At(1)];
  }

  /** A simple condition on 5 is true and on 0 is false. */
  lemma SimpleConditionExample(lib: JsonLibrary, text5: string, text0: string)
    requires Lawful(lib)
    requires lib.parse(text5) == Some(JObject([("field1", JArray([JNumber(2.0), JNumber(5.0), JNumber(8.0)]))]))
    requires lib.parse(text0) == Some(JObject([("field1", JArray([JNumber(2.0), JNumber(0.0), JNumber(8.0)]))]))
    ensures IsComparisonTrue(lib, TextScope("model", text5), SimpleCondition(Field1At1)) == Success(true)
    ensures IsComparisonTrue(lib, TextScope("model", text0), SimpleCondition(Field1At1)) == Success(false)
  {
    Field1Example(lib, text5, 5.0);
    Field1Example(lib, text0, 0.0);
  }

  /** Two references to the texts "5" and "5.0" are equal: both convert to
      the number 5, and numbers are tried before texts. */
  lemma NumericTextsEqualExample(lib: JsonLibrary, scope: Scope, a: ValueOf, b: ValueOf)
    requires Lawful(lib)
    requires ReturnValue(lib, scope, a) == Success(JString("5"))
    requires ReturnValue(lib, scope, b) == Success(JString("5.0"))
    ensures IsComparisonTrue(lib, scope, ConditionWithValue(a, Equal, ValueOfValue(b))) == Success(true)
    ensures IsComparisonTrue(lib, scope, ConditionWithValue(a, NotEqual, ValueOfValue(b))) == Success(false)
  {
  }

  /** Ordering two references to the text "literal" is a runtime error. */
  lemma OrderingTextsExample(lib: JsonLibrary, scope: Scope, a: ValueOf, b: ValueOf)
    requires Lawful(lib)
    requires ReturnValue(lib, scope, a) == Success(JString("literal"))
    requires ReturnValue(lib, scope, b) == Success(JString("literal"))
    ensures IsComparisonTrue(lib, scope, ConditionWithValue(a, LessThan, ValueOfValue(b))) == Failure(Runtime(NotNumber))
  {
  }
}

=== FILE: Errors.dfy ===
/** The exceptions the compiler raises, one constructor per distinct cause.
    A C# `throw` becomes a `Failure` carrying one of these. */
module Errors {
  import opened Tokens

  /** Causes of a ParsingException (TKOM/Exceptions/ParsingException.cs). */
  datatype ParsingError =
    | UnexpectedToken(expected: TokenType, found: TokenType)
    | ExpectedKeywordOrIdentifier(found: TokenType)
    | ParsingFailed

  /** Causes of a SemanticsException. */
  datatype SemanticsError =
    | DuplicateVariable(name: string)
    | DuplicateFunction(name: string)
    | MissingMain
    | MainArity
    | ElseWithoutIf
    | UndeclaredVariable(name: string)
    | UndeclaredFunction(name: string)
    | UnknownInstruction
    | TooManyValues
    | TooFewValues

  /** Causes of a RuntimeException. */
  datatype RuntimeError =
    | VariableNotFound(name: string)
    | MembersOfNumber
    | IndexOutOfRange(name: string)
    | MissingMember(name: string)
    | NotBoolean
    | NotNumber
    | NotText
    | OrderingOnText
    | Incomparable
    | NotAnArray
    | UnknownArgumentType
    | UnknownConditionValue

  /** Exceptions raised inside the .NET or JSON library rather than by the
      compiler's own code. */
  datatype LibraryError =
    | NegativeIndex
    | ChildOfPrimitive
    | ArrayByName
    | UnparsableJson
    | MissingFunction(name: string)

  datatype Error =
    | RewindBeforeStart
    | SignOutOfRange
    | Parsing(parsing: ParsingError)
    | Semantics(semantics: SemanticsError)
    | Runtime(runtime: RuntimeError)
    | Library(library: LibraryError)
    | OutOfFuel
}

=== FILE: Interpreter.dfy ===
/** Running the executable instructions (the `Execute` methods of
    TKOM/Structures/IR): each instruction appends text to the output.

    The output is the returned string; an error ends the run and the text
    written so far is not kept. `PerformBlock`, which the tag and the
    if-instruction call for their bodies, is not part of these sources: it
    is modelled as running the list in order with the caller's level and
    line flag, writing nothing of its own. Function calls may recurse, so
    every call spends one unit of `fuel`. */
module Interpreter {
  import opened Wrappers
  import opened Errors
  import opened Json
  import opened Ast
  import opened Ir
  import opened Values
  import opened Conditions
  import Checker

  // ---------------------------------------------------------------------
  // Layout
  // ---------------------------------------------------------------------

  /** `Executable.SpacesForTab`. */
  const SpacesForTab: nat := 2

  function Spaces(n: nat): (s: string)
    ensures |s| == n && forall i | 0 <= i < n :: s[i] == ' '
  {
    if n == 0 then "" else " " + Spaces(n - 1)
  }

  /** `Executable.Format`: a line break and the indentation of `level`, or
      nothing when the output is kept on one line. */
  function Format(level: nat, newLine: bool): (s: string)
    ensures !newLine ==> s == ""
    ensures newLine ==> |s| == 1 + level * SpacesForTab && s[0] == '\n' &&
                        forall i | 1 <= i < |s| :: s[i] == ' '
  {
    if newLine then "\n" + Spaces(level * SpacesForTab) else ""
  }

  // ---------------------------------------------------------------------
  // Attributes and arguments
  // ---------------------------------------------------------------------

  /** One attribute as a tag writes it: ` name="value"`, with the value
      built from its components and written unescaped. */
  function AttributeText(lib: JsonLibrary, scope: Scope, a: Attribute): (r: Result<string, Error>)
    ensures r.Success? <==> Build(lib, scope, a.value).Success?
    ensures r.Failure? ==> r.error == Build(lib, scope, a.value).error
    ensures r.Success? ==> var k := |a.name| + 3;
                           |r.value| == k + |Build(lib, scope, a.value).value| + 1 &&
                           r.value[..k] == " " + a.name + "=\"" && r.value[|r.value| - 1] == '"' &&
                           r.value[k..|r.value| - 1] == Build(lib, scope, a.value).value
  {
    var value :- Build(lib, scope, a.value);
    Success(" " + a.name + "=\"" + value + "\"")
  }

  /** The attributes in list order; the first that fails to build ends
      the tag with its error. */
  function Attributes(lib: JsonLibrary, scope: Scope, attributes: seq<Attribute>): (r: Result<string, Error>)
    ensures r.Success? <==> forall i | 0 <= i < |attributes| :: AttributeText(lib, scope, attributes[i]).Success?
    ensures r.Failure? ==> exists i | 0 <= i < |attributes| ::
                             (forall j | 0 <= j < i :: AttributeText(lib, scope, attributes[j]).Success?) &&
                             AttributeText(lib, scope, attributes[i]) == Failure(r.error)
    decreases |attributes|
  {
    if attributes == [] then Success("")
    else
      var first :- AttributeText(lib, scope, attributes[0]);
      var rest :- Attributes(lib, scope, attributes[1..]);
      assert forall i | 1 <= i < |attributes| :: attributes[i] == attributes[1..][i - 1];
      Success(first + rest)
  }

  /** The value a call argument passes: a number as a number, a literal
      or a reference as the JSON text of its value. A quoted string is not
      an argument kind the call accepts. */
  function Argument(lib: JsonLibrary, scope: Scope, v: Value): (r: Result<Assigned, Error>)
    ensures v.NumericValue? ==> r == Success(GetIRValue(v))
    ensures v.LiteralValue? ==> r == Success(TextAssigned(lib.serialize(JString(v.content))))
    ensures v.ValueOfValue? ==>
              r == if ReturnValue(lib, scope, v.ref).Failure? then Failure(ReturnValue(lib, scope, v.ref).error)
                   else Success(TextAssigned(lib.serialize(ReturnValue(lib, scope, v.ref).value)))
    ensures v.StringValue? ==> r == Failure(Runtime(UnknownArgumentType))
  {
    match v
    case NumericValue(_, _, _) => Success(GetIRValue(v))
    case LiteralValue(content) => Success(TextAssigned(lib.serialize(JString(content))))
    case ValueOfValue(ref) =>
      var j :- ReturnValue(lib, scope, ref);
      Success(TextAssigned(lib.serialize(j)))
    case StringValue(_) => Failure(Runtime(UnknownArgumentType))
  }

  /** The arguments' values, one per argument and in argument order, or
      the error of the first argument that cannot be evaluated. */
  function Arguments(lib: JsonLibrary, scope: Scope, arguments: seq<Value>): (r: Result<seq<Assigned>, Error>)
    ensures r.Success? <==> forall i | 0 <= i < |arguments| :: Argument(lib, scope, arguments[i]).Success?
    ensures r.Success? ==> |r.value| == |arguments| &&
                           forall i | 0 <= i < |arguments| :: r.value[i] == Argument(lib, scope, arguments[i]).value
    ensures r.Failure? ==> exists i | 0 <= i < |arguments| ::
                             (forall j | 0 <= j < i :: Argument(lib, scope, arguments[j]).Success?) &&
                             Argument(lib, scope, arguments[i]) == Failure(r.error)
    decreases |arguments|
  {
    if arguments == [] then Success([])
    else
      var first :- Argument(lib, scope, arguments[0]);
      var rest :- Arguments(lib, scope, arguments[1..]);
      assert forall i | 1 <= i < |arguments| :: arguments[i] == arguments[1..][i - 1];
      Success([first] + rest)
  }

  // ---------------------------------------------------------------------
  // Self-closing tags
  // ---------------------------------------------------------------------

  /** What `HtmlInlineTagInstruction.Execute` writes for an attribute
      value: the value object's default text, which is its type name. */
  const DefaultText := "TKOM.Structures.AST.StringValue"

  /** The attributes as the self-closing tag writes them: every value is
      the value object's default text, whatever its components. */
  function AttributesAsWritten(attributes: seq<Attribute>): string
    decreases |attributes|
  {
    if attributes == [] then ""
    else " " + attributes[0].name + "=\"" + DefaultText + "\"" + AttributesAsWritten(attributes[1..])
  }

  /** `HtmlInlineTagInstruction.Execute` as written. */
  function InlineTagAsWritten(tag: string, attributes: seq<Attribute>, level: nat, newLine: bool): (s: string)
    ensures Format(level, newLine) + "<" + tag <= s
    ensures |s| == |Format(level, newLine)| + |tag| + 3 + |AttributesAsWritten(attributes)|
    ensures s[|s| - 2..] == "/>"
  {
    Format(level, newLine) + "<" + tag + AttributesAsWritten(attributes) + "/>"
  }

  /** The self-closing tag with its attribute values built as the paired
      tag builds them; the interpreter uses this one. */
  function InlineTag(lib: JsonLibrary, scope: Scope, tag: string, attributes: seq<Attribute>,
                     level: nat, newLine: bool): (r: Result<string, Error>)
    ensures r.Success? <==> Attributes(lib, scope, attributes).Success?
    ensures r.Failure? ==> r.error == Attributes(lib, scope, attributes).error
    ensures r.Success? ==> Format(level, newLine) + "<" + tag <= r.value &&
                           |r.value| == |Format(level, newLine)| + |tag| + 3 + |Attributes(lib, scope, attributes).value| &&
                           r.value[|r.value| - 2..] == "/>"
    ensures attributes == [] ==> r == Success(InlineTagAsWritten(tag, attributes, level, newLine))
  {
    var attrs :- Attributes(lib, scope, attributes);
    Success(Format(level, newLine) + "<" + tag + attrs + "/>")
  }

  // ---------------------------------------------------------------------
  // Executing instructions
  // ---------------------------------------------------------------------

  /** Every registered block declares its variables once, as the block
      constructor guarantees. */
  predicate WellFormed(functions: map<string, Block>) {
    forall name | name in functions :: Distinct(functions[name].scope.variables)
  }

  /** A program the checker accepts registers blocks that meet this
      precondition: each block's scope holds its function's parameters,
      which the checker found distinct. */
  lemma AcceptedIsWellFormed(program: Program)
    requires Checker.CheckAST(program).Success?
    ensures WellFormed(Checker.CheckAST(program).value)
  {
    var fs := program.functions;
    Checker.ScanFunctionsSpec(fs);
    var table := Checker.ScanFunctions(fs).value;
    var out := Checker.CheckAST(program).value;
    assert Checker.Registered(fs, table) && Checker.WellDeclared(fs);
    Checker.TraverseASTSpec(table, fs);
    assert out == Checker.TraverseAST(table, fs).value;
    forall name | name in out
      ensures Distinct(out[name].scope.variables)
    {
      assert name in table.Keys;
      var i :| 0 <= i < |fs| && fs[i].identifier == name;
      assert Checker.Holds(out, table, fs);
      assert out[name].scope == table[name].scope == Checker.FreshBlock(fs[i]).scope;
    }
  }

  /** The scope one loop iteration runs in: the element name is its one
      variable, bound to the element's JSON text, and the enclosing scope
      is its upper scope. */
  function IterationScope(lib: JsonLibrary, scope: Scope, element: string, item: Json): (s: Scope)
    ensures s.variables == [element] && s.upper == Some(scope)
    ensures FindValue(s, element) == Some(TextAssigned(lib.serialize(item)))
  {
    Scope([element], map[element := TextAssigned(lib.serialize(item))], Some(scope))
  }

  /** One instruction, at nesting `level`, in `scope`. A self-closing tag
      is written by the corrected `InlineTag`, not as its source writes it. */
  function Exec(lib: JsonLibrary, functions: map<string, Block>, scope: Scope, e: Executable,
                level: nat, newLine: bool, fuel: nat): (r: Result<string, Error>)
    requires WellFormed(functions)
    ensures r.Success? && !e.IfInstruction? && !e.ForInstruction? ==> Format(level, newLine) <= r.value
    ensures e.LiteralInstruction? ==> r.Success?
    ensures e.FunctionCallInstruction? && r.Success? ==>
              e.callee in functions && Arguments(lib, scope, e.arguments).Success? && fuel > 0
    ensures e.HtmlInlineTagInstruction? || e.HtmlTagInstruction? ==>
              (r.Success? ==> InlineTag(lib, scope, e.tag, e.attributes, level, newLine).Success?)
    decreases fuel, e, 0
  {
    match e
    case IfInstruction(condition, ifBlock, elseBlock) =>
      var holds :- IsComparisonTrue(lib, scope, condition);
      if holds then ExecAll(lib, functions, scope, ifBlock, level, newLine, fuel)
      else ExecAll(lib, functions, scope, elseBlock, level, newLine, fuel)
    case ForInstruction(collection, element, block) =>
      var items :- ReturnValue(lib, scope, collection);
      if !items.JArray? then Failure(Runtime(NotAnArray))
      else Loop(lib, functions, scope, element, block.nested, items.items, level, newLine, fuel)
    case FunctionCallInstruction(callee, arguments) =>
      if callee !in functions then Failure(Library(MissingFunction(callee)))
      else
        var values :- Arguments(lib, scope, arguments);
        var b :- Initialize(functions[callee], values);
        if fuel == 0 then Failure(OutOfFuel)
        else
          var body :- ExecBlock(lib, functions, b.scope, b.nested, level, newLine, fuel - 1);
          Success(Format(level, newLine) + body)
    case HtmlInlineTagInstruction(tag, attributes) => InlineTag(lib, scope, tag, attributes, level, newLine)
    case HtmlTagInstruction(tag, attributes, body) =>
      var attrs :- Attributes(lib, scope, attributes);
      var inner :- ExecAll(lib, functions, scope, body, level, newLine, fuel);
      Success(Format(level, newLine) + "<" + tag + attrs + ">" + inner + "</" + tag + ">")
    case LiteralInstruction(content) =>
      Success(Format(level, newLine) + content)
    case ValueOfInstruction(ref) =>
      var j :- ReturnValue(lib, scope, ref);
      Success(Format(level, newLine) + lib.show(j))
  }

  /** `PerformBlock`: the instructions in list order, the first error
      ending the run. */
  function ExecAll(lib: JsonLibrary, functions: map<string, Block>, scope: Scope, es: seq<Executable>,
                   level: nat, newLine: bool, fuel: nat): (r: Result<string, Error>)
    requires WellFormed(functions)
    ensures r.Success? <==> forall i | 0 <= i < |es| :: Exec(lib, functions, scope, es[i], level, newLine, fuel).Success?
    decreases fuel, es, 0
  {
    if es == [] then Success("")
    else
      var first :- Exec(lib, functions, scope, es[0], level, newLine, fuel);
      var rest :- ExecAll(lib, functions, scope, es[1..], level, newLine, fuel);
      assert forall i | 1 <= i < |es| :: es[i] == es[1..][i - 1];
      Success(first + rest)
  }

  /** `Block.Execute`: the block's own line, then its instructions one
      level deeper. */
  function ExecBlock(lib: JsonLibrary, functions: map<string, Block>, scope: Scope, nested: seq<Executable>,
                     level: nat, newLine: bool, fuel: nat): (r: Result<string, Error>)
    requires WellFormed(functions)
    ensures r.Success? <==>
              forall i | 0 <= i < |nested| :: Exec(lib, functions, scope, nested[i], level + 1, newLine, fuel).Success?
    ensures r.Success? ==> Format(level, newLine) <= r.value
    decreases fuel, nested, 1
  {
    var inner :- ExecAll(lib, functions, scope, nested, level + 1, newLine, fuel);
    Success(Format(level, newLine) + inner)
  }

  /** The loop over the items of an array: the body block once per item,
      in order, each time in a fresh scope. */
  function Loop(lib: JsonLibrary, functions: map<string, Block>, scope: Scope, element: string,
                nested: seq<Executable>, items: seq<Json>, level: nat, newLine: bool, fuel: nat): (r: Result<string, Error>)
    requires WellFormed(functions)
    ensures r.Success? <==> forall i | 0 <= i < |items| ::
              ExecBlock(lib, functions, IterationScope(lib, scope, element, items[i]), nested, level, newLine, fuel).Success?
    decreases fuel, nested, 2 + |items|
  {
    if items == [] then Success("")
    else
      var first :- ExecBlock(lib, functions, IterationScope(lib, scope, element, items[0]), nested, level, newLine, fuel);
      var rest :- Loop(lib, functions, scope, element, nested, items[1..], level, newLine, fuel);
      assert forall i | 1 <= i < |items| :: items[i] == items[1..][i - 1];
      Success(first + rest)
  }

  // ---------------------------------------------------------------------
  // Properties
  // ---------------------------------------------------------------------

  /** Writing `x` then `y`: the first error wins. */
  function Then(x: Result<string, Error>, y: Result<string, Error>): (r: Result<string, Error>)
    ensures r.Success? <==> x.Success? && y.Success?
    ensures r.Success? ==> r.value == x.value + y.value
    ensures x.Failure? ==> r == x
    ensures x.Success? && y.Failure? ==> r == y
  {
    if x.Failure? then x else if y.Failure? then y else Success(x.value + y.value)
  }

  /** Running `a + b` runs `a`, then `b`: the output of a list is the
      output of its parts, in order, and the first error is kept. */
  lemma {:induction false} ExecAllAppend(lib: JsonLibrary, functions: map<string, Block>, scope: Scope,
                                         a: seq<Executable>, b: seq<Executable>, level: nat, newLine: bool, fuel: nat)
    requires WellFormed(functions)
    ensures ExecAll(lib, functions, scope, a + b, level, newLine, fuel) ==
            Then(ExecAll(lib, functions, scope, a, level, newLine, fuel), ExecAll(lib, functions, scope, b, level, newLine, fuel))
    decreases |a|
  {
    hide Exec;
    if a == [] {
      assert a + b == b;
      var rb := ExecAll(lib, functions, scope, b, level, newLine, fuel);
      if rb.Success? {
        assert "" + rb.value == rb.value;
      }
    } else {
      assert (a + b)[0] == a[0] && (a + b)[1..] == a[1..] + b;
      ExecAllAppend(lib, functions, scope, a[1..], b, level, newLine, fuel);
      var first := Exec(lib, functions, scope, a[0], level, newLine, fuel);
      var ra := ExecAll(lib, functions, scope, a[1..], level, newLine, fuel);
      var rb := ExecAll(lib, functions, scope, b, level, newLine, fuel);
      if first.Success? && ra.Success? && rb.Success? {
        assert first.value + (ra.value + rb.value) == (first.value + ra.value) + rb.value;
      }
    }
  }

  /** The loop over `a + b` is the loop over `a`, then over `b`. */
  lemma {:induction false} LoopAppend(lib: JsonLibrary, functions: map<string, Block>, scope: Scope, element: string,
                                      nested: seq<Executable>, a: seq<Json>, b: seq<Json>, level: nat, newLine: bool, fuel: nat)
    requires WellFormed(functions)
    ensures Loop(lib, functions, scope, element, nested, a + b, level, newLine, fuel) ==
            Then(Loop(lib, functions, scope, element, nested, a, level, newLine, fuel),
                 Loop(lib, functions, scope, element, nested, b, level, newLine, fuel))
    decreases |a|
  {
    hide Exec, ExecAll, ExecBlock;
    if a == [] {
      assert a + b == b;
      var rb := Loop(lib, functions, scope, element, nested, b, level, newLine, fuel);
      if rb.Success? {
        assert "" + rb.value == rb.value;
      }
    } else {
      assert (a + b)[0] == a[0] && (a + b)[1..] == a[1..] + b;
      LoopAppend(lib, functions, scope, element, nested, a[1..], b, level, newLine, fuel);
      var first := ExecBlock(lib, functions, IterationScope(lib, scope, element, a[0]), nested, level, newLine, fuel);
      var ra := Loop(lib, functions, scope, element, nested, a[1..], level, newLine, fuel);
      var rb := Loop(lib, functions, scope, element, nested, b, level, newLine, fuel);
      if first.Success? && ra.Success? && rb.Success? {
        assert first.value + (ra.value + rb.value) == (first.value + ra.value) + rb.value;
      }
    }
  }

  /** A loop over one item runs the body block once, in the item's own
      scope. With `LoopAppend` this makes the body run once per item, in
      array order, and not at all for an empty array. */
  lemma {:induction false} LoopOnce(lib: JsonLibrary, functions: map<string, Block>, scope: Scope, element: string,
                                    nested: seq<Executable>, item: Json, level: nat, newLine: bool, fuel: nat)
    requires WellFormed(functions)
    ensures Loop(lib, functions, scope, element, nested, [item], level, newLine, fuel) ==
            ExecBlock(lib, functions, IterationScope(lib, scope, element, item), nested, level, newLine, fuel)
  {
    assert [item][1..] == [];
    var r := ExecBlock(lib, functions, IterationScope(lib, scope, element, item), nested, level, newLine, fuel);
    if r.Success? {
      assert r.value + "" == r.value;
    }
  }

  /** The loop's collection: a lookup error is the loop's error, anything
      but an array is rejected, and an array is looped over. */
  lemma {:induction false} ForSpec(lib: JsonLibrary, functions: map<string, Block>, scope: Scope,
                                   collection: ValueOf, element: string, block: Block, level: nat, newLine: bool, fuel: nat)
    requires WellFormed(functions)
    ensures var r := Exec(lib, functions, scope, ForInstruction(collection, element, block), level, newLine, fuel);
            var c := ReturnValue(lib, scope, collection);
            (c.Failure? ==> r == Failure(c.error)) &&
            (c.Success? && !c.value.JArray? ==> r == Failure(Runtime(NotAnArray))) &&
            (c.Success? && c.value == JArray([]) ==> r == Success("")) &&
            (c.Success? && c.value.JArray? ==>
               r == Loop(lib, functions, scope, element, block.nested, c.value.items, level, newLine, fuel))
  {
  }

  /** Exactly one branch runs: when the condition holds the else branch
      is never looked at, and when it fails the if branch is never looked
      at. A condition that cannot be evaluated runs neither. */
  lemma {:induction false} OneBranchRuns(lib: JsonLibrary, functions: map<string, Block>, scope: Scope, c: Condition,
                                         a: seq<Executable>, b: seq<Executable>, other: seq<Executable>,
                                         level: nat, newLine: bool, fuel: nat)
    requires WellFormed(functions)
    ensures IsComparisonTrue(lib, scope, c) == Success(true) ==>
              Exec(lib, functions, scope, IfInstruction(c, a, b), level, newLine, fuel) ==
              Exec(lib, functions, scope, IfInstruction(c, a, other), level, newLine, fuel) ==
              ExecAll(lib, functions, scope, a, level, newLine, fuel)
    ensures IsComparisonTrue(lib, scope, c) == Success(false) ==>
              Exec(lib, functions, scope, IfInstruction(c, a, b), level, newLine, fuel) ==
              Exec(lib, functions, scope, IfInstruction(c, other, b), level, newLine, fuel) ==
              ExecAll(lib, functions, scope, b, level, newLine, fuel)
    ensures IsComparisonTrue(lib, scope, c).Failure? ==>
              Exec(lib, functions, scope, IfInstruction(c, a, b), level, newLine, fuel) ==
              Failure(IsComparisonTrue(lib, scope, c).error)
  {
  }

  /** Complementing the comparison and swapping the branches changes
      nothing. */
  lemma {:induction false} IfComplement(lib: JsonLibrary, functions: map<string, Block>, scope: Scope,
                                        lhs: ValueOf, op: ConditionType, rhs: Value,
                                        a: seq<Executable>, b: seq<Executable>, level: nat, newLine: bool, fuel: nat)
    requires WellFormed(functions)
    ensures Exec(lib, functions, scope, IfInstruction(ConditionWithValue(lhs, Negation(op), rhs), b, a), level, newLine, fuel) ==
            Exec(lib, functions, scope, IfInstruction(ConditionWithValue(lhs, op, rhs), a, b), level, newLine, fuel)
  {
    ComplementFlips(lib, scope, lhs, op, rhs);
  }

  /** A call: an unknown callee fails first; then the arguments are
      evaluated in order and the first failing one is the call's error,
      before the callee runs; then the number of values must match the
      callee's parameters. Otherwise the callee's block runs at the
      caller's level in a scope binding parameter `i` to the value of
      argument `i`, and with the same upper scope as the callee's block. */
  lemma {:induction false} CallSpec(lib: JsonLibrary, functions: map<string, Block>, scope: Scope,
                                    callee: string, arguments: seq<Value>, level: nat, newLine: bool, fuel: nat)
    requires WellFormed(functions)
    ensures var r := Exec(lib, functions, scope, FunctionCallInstruction(callee, arguments), level, newLine, fuel);
            var values := Arguments(lib, scope, arguments);
            (callee !in functions ==> r == Failure(Library(MissingFunction(callee)))) &&
            (callee in functions && values.Failure? ==> r == Failure(values.error)) &&
            (callee in functions && values.Success? && |arguments| > |functions[callee].scope.variables| ==>
               r == Failure(Semantics(TooManyValues))) &&
            (callee in functions && values.Success? && |arguments| < |functions[callee].scope.variables| ==>
               r == Failure(Semantics(TooFewValues))) &&
            (callee in functions && values.Success? && |arguments| == |functions[callee].scope.variables| && fuel > 0 ==>
               exists s: Scope ::
                 s.variables == functions[callee].scope.variables && s.upper == functions[callee].scope.upper &&
                 s.values.Keys == (set v | v in s.variables) &&
                 (forall i | 0 <= i < |arguments| :: s.values[s.variables[i]] == Argument(lib, scope, arguments[i]).value) &&
                 r == Then(Success(Format(level, newLine)),
                           ExecBlock(lib, functions, s, functions[callee].nested, level, newLine, fuel - 1)))
  {
    if callee in functions {
      var values := Arguments(lib, scope, arguments);
      if values.Success? && |arguments| == |functions[callee].scope.variables| && fuel > 0 {
        var b := Initialize(functions[callee], values.value);
        assert b.Success?;
        var s := b.value.scope;
        assert forall i | 0 <= i < |arguments| :: s.values[s.variables[i]] == Argument(lib, scope, arguments[i]).value;
      }
    }
  }

  /** The corrected self-closing tag is the paired tag without its body:
      the paired tag writes the same text up to the closing `/>`, then `>`,
      its body and the closing tag of the same name. */
  lemma {:induction false} TagExtendsInline(lib: JsonLibrary, functions: map<string, Block>, scope: Scope,
                                            tag: string, attributes: seq<Attribute>, body: seq<Executable>,
                                            level: nat, newLine: bool, fuel: nat)
    requires WellFormed(functions)
    ensures var inline := InlineTag(lib, scope, tag, attributes, level, newLine);
            var inner := ExecAll(lib, functions, scope, body, level, newLine, fuel);
            var full := Exec(lib, functions, scope, HtmlTagInstruction(tag, attributes, body), level, newLine, fuel);
            (inline.Failure? ==> full == inline) &&
            (inline.Success? ==>
               (|inline.value| >= 2 && inline.value[|inline.value| - 2..] == "/>" &&
                full == Then(Success(inline.value[..|inline.value| - 2] + ">"),
                             Then(inner, Success("</" + tag + ">")))))
  {
    var inline := InlineTag(lib, scope, tag, attributes, level, newLine);
    if inline.Success? {
      var attrs := Attributes(lib, scope, attributes).value;
      var head := Format(level, newLine) + "<" + tag + attrs;
      assert inline.value == head + "/>";
      assert inline.value[..|inline.value| - 2] == head;
      var inner := ExecAll(lib, functions, scope, body, level, newLine, fuel);
      if inner.Success? {
        assert head + ">" + inner.value + "</" + tag + ">" == (head + ">") + (inner.value + ("</" + tag + ">"));
      }
    }
  }

  /** With no attributes and an empty body a tag is `<name></name>`; with
      no attributes a self-closing tag is `<name/>`. */
  lemma {:induction false} EmptyTags(lib: JsonLibrary, functions: map<string, Block>, scope: Scope, tag: string, fuel: nat)
    requires WellFormed(functions)
    ensures Exec(lib, functions, scope, HtmlTagInstruction(tag, [], []), 0, false, fuel) ==
            Success("<" + tag + "></" + tag + ">")
    ensures Exec(lib, functions, scope, HtmlInlineTagInstruction(tag, []), 0, false, fuel) == Success("<" + tag + "/>")
  {
    assert "" + "<" + tag + "" + ">" + "" + "</" + tag + ">" == "<" + tag + "></" + tag + ">";
    assert "" + "<" + tag + "" + "/>" == "<" + tag + "/>";
  }

  /** The instructions of a block run one level deeper than the block. */
  lemma {:induction false} BlockNestsDeeper(lib: JsonLibrary, functions: map<string, Block>, scope: Scope,
                                            content: string, level: nat, fuel: nat)
    requires WellFormed(functions)
    ensures ExecBlock(lib, functions, scope, [LiteralInstruction(content)], level, true, fuel) ==
            Success("\n" + Spaces(level * SpacesForTab) + "\n" + Spaces((level + 1) * SpacesForTab) + content)
  {
    var inner := Format(level + 1, true) + content;
    assert Format(level, true) == "\n" + Spaces(level * SpacesForTab);
    assert Format(level + 1, true) == "\n" + Spaces((level + 1) * SpacesForTab);
    assert Format(level, true) + inner ==
           "\n" + Spaces(level * SpacesForTab) + "\n" + Spaces((level + 1) * SpacesForTab) + content;
    assert ExecAll(lib, functions, scope, [LiteralInstruction(content)], level + 1, true, fuel) == Success(inner) by {
      assert [LiteralInstruction(content)][1..] == [];
      assert inner + "" == inner;
    }
  }

  // ---------------------------------------------------------------------
  // The self-closing tag's attribute values
  // ---------------------------------------------------------------------

  /** As written, an attribute's value never reaches the output: the
      self-closing tag prints the value object's type name instead. */
  lemma {:induction false} AsWrittenIgnoresValue(tag: string, name: string, value: seq<StringComponent>)
    ensures InlineTagAsWritten(tag, [Attribute(name, value)], 0, false) ==
            "<" + tag + " " + name + "=\"" + DefaultText + "\"/>"
  {
    var attributes := [Attribute(name, value)];
    assert attributes[1..] == [];
    var text := " " + name + "=\"" + DefaultText + "\"";
    assert AttributesAsWritten(attributes) == text by {
      assert text + "" == text;
    }
    assert "" + "<" + tag + text + "/>" == "<" + tag + " " + name + "=\"" + DefaultText + "\"/>";
  }

  /** One attribute whose value is a single literal. */
  lemma {:induction false} OneLiteralAttribute(lib: JsonLibrary, scope: Scope, name: string, text: string)
    ensures Attributes(lib, scope, [Attribute(name, [LiteralComponent(text)])]) ==
            Success(" " + name + "=\"" + text + "\"")
  {
    var attributes := [Attribute(name, [LiteralComponent(text)])];
    assert attributes[1..] == [];
    assert Build(lib, scope, [LiteralComponent(text)]) == Success(text) by {
      assert [LiteralComponent(text)][1..] == [];
      assert text + "" == text;
    }
    var one := " " + name + "=\"" + text + "\"";
    assert one + "" == one;
  }

  /** Corrected, a literal attribute value is written as it is. */
  lemma {:induction false} InlineTagWritesValue(lib: JsonLibrary, scope: Scope, tag: string, name: string, text: string)
    ensures InlineTag(lib, scope, tag, [Attribute(name, [LiteralComponent(text)])], 0, false) ==
            Success("<" + tag + " " + name + "=\"" + text + "\"/>")
  {
    OneLiteralAttribute(lib, scope, name, text);
    var one := " " + name + "=\"" + text + "\"";
    assert "" + "<" + tag + one + "/>" == "<" + tag + " " + name + "=\"" + text + "\"/>";
  }

  /** The two disagree on `<br class="a"/>`. */
  lemma InlineTagAsWrittenLosesValue(lib: JsonLibrary, scope: Scope)
    ensures var attributes := [Attribute("class", [LiteralComponent("a")])];
            InlineTag(lib, scope, "br", attributes, 0, false) == Success("<br class=\"a\"/>") &&
            InlineTagAsWritten("br", attributes, 0, false) != "<br class=\"a\"/>"
  {
    hide InlineTag, InlineTagAsWritten, Attributes, AttributeText;
    AsWrittenIgnoresValue("br", "class", [LiteralComponent("a")]);
    InlineTagWritesValue(lib, scope, "br", "class", "a");
    BrClassTexts();
  }

  /** The `<br class="a"/>` texts: the intended one, and the one with the
      type name in place of the value, which differs from it. */
  lemma BrClassTexts()
    ensures "<" + "br" + " " + "class" + "=\"" + "a" + "\"/>" == "<br class=\"a\"/>"
    ensures "<" + "br" + " " + "class" + "=\"" + DefaultText + "\"/>" != "<br class=\"a\"/>"
  {
    assert "<" + "br" + " " + "class" + "=\"" + "a" + "\"/>" == "<br class=\"a\"/>";
    var written := "<br class=\"" + DefaultText + "\"/>";
    assert "<" + "br" + " " + "class" + "=\"" + DefaultText + "\"/>" == written;
    assert written[11] == 'T';
    assert "<br class=\"a\"/>"[11] == 'a';
  }

  // ---------------------------------------------------------------------
  // The repository's own examples
  // ---------------------------------------------------------------------

  const ElementProp := ValueOf("element", None, Some(ValueOf("prop", None, None)))

  function PropObject(n: real): Json {
    JObject([("prop", JNumber(n))])
  }

  /** One iteration of the loop below prints the element's `prop`. */
  lemma PrintsProp(lib: JsonLibrary, functions: map<string, Block>, scope: Scope, n: real, shown: string, fuel: nat)
    requires WellFormed(functions)
    requires RoundTrips(lib, PropObject(n)) && lib.show(JNumber(n)) == shown
    ensures ExecBlock(lib, functions, IterationScope(lib, scope, "element", PropObject(n)),
                      [ValueOfInstruction(ElementProp)], 0, false, fuel) == Success(shown)
  {
    var s := IterationScope(lib, scope, "element", PropObject(n));
    var path := [Field("prop")];
    assert Steps(ElementProp) == path && path[1..] == [];
    assert Descend(PropObject(n), "prop") == Success(JNumber(n));
    assert Follow(PropObject(n), path, "element") == Success(JNumber(n));
    assert lib.parse(lib.serialize(PropObject(n))) == Some(PropObject(n));
    assert ReturnValue(lib, s, ElementProp) == Success(JNumber(n));
    var body := [ValueOfInstruction(ElementProp)];
    assert body[1..] == [];
    assert Exec(lib, functions, s, body[0], 1, false, fuel) == Success(shown) by {
      assert "" + shown == shown;
    }
    assert ExecAll(lib, functions, s, body, 1, false, fuel) == Success(shown) by {
      assert shown + "" == shown;
    }
    assert "" + shown == shown;
  }

  /** Looping over `model.field1` of
      `{field1: [{prop: 2}, {prop: 5}, {prop: 8}], field2: 'val2'}` and
      printing `element.prop` prints 2, 5 and 8, once each and in order. */
  lemma ForExample(lib: JsonLibrary, functions: map<string, Block>, text: string, fuel: nat)
    requires WellFormed(functions)
    requires lib.parse(text) == Some(JObject([("field1", JArray([PropObject(2.0), PropObject(5.0), PropObject(8.0)])),
                                              ("field2", JString("val2"))]))
    requires RoundTrips(lib, PropObject(2.0)) && RoundTrips(lib, PropObject(5.0)) && RoundTrips(lib, PropObject(8.0))
    requires lib.show(JNumber(2.0)) == "2" && lib.show(JNumber(5.0)) == "5" && lib.show(JNumber(8.0)) == "8"
    ensures var scope := TextScope("model", text);
            var loop := ForInstruction(ValueOf("model", None, Some(ValueOf("field1", None, None))), "element",
                                       Block(Checker.LoopScope(Scope(["model"], map[], None), "element"),
                                             [ValueOfInstruction(ElementProp)]));
            Exec(lib, functions, scope, loop, 0, false, fuel) == Success("258")
  {
    hide ExecAll, ExecBlock, Loop;
    var scope := TextScope("model", text);
    var collection := ValueOf("model", None, Some(ValueOf("field1", None, None)));
    var items := [PropObject(2.0), PropObject(5.0), PropObject(8.0)];
    var path := [Field("field1")];
    assert Steps(collection) == path && path[1..] == [];
    assert ReturnValue(lib, scope, collection) == Success(JArray(items));
    var body := [ValueOfInstruction(ElementProp)];
    PrintsProp(lib, functions, scope, 2.0, "2", fuel);
    PrintsProp(lib, functions, scope, 5.0, "5", fuel);
    PrintsProp(lib, functions, scope, 8.0, "8", fuel);
    LoopOnce(lib, functions, scope, "element", body, PropObject(2.0), 0, false, fuel);
    LoopOnce(lib, functions, scope, "element", body, PropObject(5.0), 0, false, fuel);
    LoopOnce(lib, functions, scope, "element", body, PropObject(8.0), 0, false, fuel);
    assert items == [PropObject(2.0)] + ([PropObject(5.0)] + [PropObject(8.0)]);
    LoopAppend(lib, functions, scope, "element", body, [PropObject(5.0)], [PropObject(8.0)], 0, false, fuel);
    LoopAppend(lib, functions, scope, "element", body, [PropObject(2.0)], [PropObject(5.0)] + [PropObject(8.0)], 0, false, fuel);
    assert "2" + ("5" + "8") == "258";
  }

  /** A tag without a body: its attributes, then the closing tag. */
  lemma {:induction false} TagWithoutBody(lib: JsonLibrary, functions: map<string, Block>, scope: Scope, tag: string,
                                          attributes: seq<Attribute>, attrs: string, level: nat, newLine: bool, fuel: nat)
    requires WellFormed(functions)
    requires Attributes(lib, scope, attributes) == Success(attrs)
    ensures Exec(lib, functions, scope, HtmlTagInstruction(tag, attributes, []), level, newLine, fuel) ==
            Success(Format(level, newLine) + "<" + tag + attrs + "></" + tag + ">")
  {
    var head := Format(level, newLine) + "<" + tag + attrs + ">";
    assert head + "" + "</" + tag + ">" == Format(level, newLine) + "<" + tag + attrs + "></" + tag + ">";
  }

  /** A tag with one literal attribute whose value holds quotes prints the
      value unescaped: `<div style="{color: "blue"}"></div>`, with the line
      flag off as in the tag's test. The test also expects a line break
      before the tag; that break would come from the Node-based `Execute`,
      which is not part of this model. */
  lemma QuotedAttributeExample(lib: JsonLibrary, functions: map<string, Block>, scope: Scope, fuel: nat)
    requires WellFormed(functions)
    ensures Exec(lib, functions, scope,
                 HtmlTagInstruction("div", [Attribute("style", [LiteralComponent("{color: \"blue\"}")])], []),
                 0, false, fuel)
            == Success("<div style=\"" + "{color: \"blue\"}" + "\"></div>")
  {
    hide Exec, ExecAll, Attributes, Build;
    var value := "{color: \"blue\"}";
    OneLiteralAttribute(lib, scope, "style", value);
    var attrs := " " + "style" + "=\"" + value + "\"";
    TagWithoutBody(lib, functions, scope, "div", [Attribute("style", [LiteralComponent(value)])], attrs, 0, false, fuel);
    assert Format(0, false) == "";
    DivWithStyle(value);
  }

  /** The pieces of a `div` tag with one `style` attribute, joined. */
  lemma DivWithStyle(value: string)
    ensures "" + "<" + "div" + (" " + "style" + "=\"" + value + "\"") + "></" + "div" + ">"
            == "<div style=\"" + value + "\"></div>"
  {
    var open := "<" + "div" + " " + "style" + "=\"";
    var close := "\"" + "></" + "div" + ">";
    assert open == "<div style=\"";
    assert close == "\"></div>";
  }

  /** An argument that indexes past the end of an array fails the call
      before the callee runs: `model[2]` of `['value1', 'value2']`. */
  lemma ArgumentOutOfRangeExample(lib: JsonLibrary, functions: map<string, Block>, text: string, fuel: nat)
    requires WellFormed(functions) && "function" in functions
    requires lib.parse(text) == Some(JArray([JString("value1"), JString("value2")]))
    ensures Exec(lib, functions, TextScope("model", text),
                 FunctionCallInstruction("function", [ValueOfValue(ValueOf("model", Some(2), None))]), 0, false, fuel)
            == Failure(Runtime(IndexOutOfRange("model")))
  {
    var ref := ValueOf("model", Some(2), None);
    var path := [At(2)];
    assert Steps(ref) == path && path[1..] == [];
    assert ReturnValue(lib, TextScope("model", text), ref) == Failure(Runtime(IndexOutOfRange("model")));
    CallSpec(lib, functions, TextScope("model", text), "function", [ValueOfValue(ref)], 0, false, fuel);
  }
}

=== FILE: Ir.dfy ===
/** The intermediate representation the checker builds and the interpreter
    runs (TKOM/Structures/IR): scope prototypes, scopes, blocks and the
    executable instructions.

    A scope's variable set is a C# `HashSet<string>`. It is modelled as a
    sequence without repetitions in insertion order, which is also the
    order in which `Block.Initialize` enumerates it. */
module Ir {
  import opened Wrappers
  import opened Errors
  import opened Ast

  /** The value a variable holds: a number, or the JSON text of a value
      (`AssignedValue` with its `IsNumericValue` flag). */
  datatype Assigned =
    | NumericAssigned(number: real)
    | TextAssigned(text: string)

  datatype ScopePrototype = ScopePrototype(variables: seq<string>, functionName: string, upper: Option<ScopePrototype>)

  /** A runtime scope: declared variables, their values, and the scope a
      lookup falls back to. */
  datatype Scope = Scope(variables: seq<string>, values: map<string, Assigned>, upper: Option<Scope>)

  datatype Block = Block(scope: Scope, nested: seq<Executable>)

  /** The executable instructions. A loop owns the block its body runs in;
      the other instructions run in the scope they are executed with. */
  datatype Executable =
    | IfInstruction(condition: Condition, ifBlock: seq<Executable>, elseBlock: seq<Executable>)
    | ForInstruction(collection: ValueOf, element: string, block: Block)
    | FunctionCallInstruction(callee: string, arguments: seq<Value>)
    | HtmlInlineTagInstruction(tag: string, attributes: seq<Attribute>)
    | HtmlTagInstruction(tag: string, attributes: seq<Attribute>, body: seq<Executable>)
    | LiteralInstruction(content: string)
    | ValueOfInstruction(ref: ValueOf)

  /** No name occurs twice. */
  predicate Distinct(names: seq<string>) {
    forall i, j | 0 <= i < j < |names| :: names[i] != names[j]
  }

  // ---------------------------------------------------------------------
  // Scope prototypes (TKOM/Structures/IR/ScopePrototype.cs)
  // ---------------------------------------------------------------------

  function NewPrototype(functionName: string): (p: ScopePrototype)
    ensures p.variables == [] && p.upper == None
    ensures p.functionName == functionName
  {
    ScopePrototype([], functionName, None)
  }

  /** The parameterless constructor. */
  function NewUndefinedPrototype(): (p: ScopePrototype)
    ensures p.variables == [] && p.upper == None
    ensures p.functionName == "Undefined"
  {
    NewPrototype("Undefined")
  }

  /** Adds a variable; a name already declared is a semantic error and the
      prototype stays as it was. */
  function TryAddVariable(p: ScopePrototype, name: string): (r: Result<ScopePrototype, Error>)
    ensures r.Success? <==> name !in p.variables
    ensures r.Failure? ==> r.error == Semantics(DuplicateVariable(name))
    ensures r.Success? ==> r.value.variables == p.variables + [name]
    ensures r.Success? ==> r.value.functionName == p.functionName && r.value.upper == p.upper
  {
    if name in p.variables then Failure(Semantics(DuplicateVariable(name)))
    else Success(p.(variables := p.variables + [name]))
  }

  /** Adding a fresh name to a repetition-free set keeps it so, and adds
      exactly that name. */
  lemma {:induction false} TryAddVariableKeepsDistinct(p: ScopePrototype, name: string)
    requires Distinct(p.variables)
    ensures TryAddVariable(p, name).Success? ==>
              Distinct(TryAddVariable(p, name).value.variables) &&
              (forall v :: v in TryAddVariable(p, name).value.variables <==> v in p.variables || v == name)
  {
  }

  // ---------------------------------------------------------------------
  // Blocks (TKOM/Structures/IR/Block.cs)
  // ---------------------------------------------------------------------

  /** The index of the first name that repeats an earlier one, or the
      length when all are distinct. */
  function FirstRepeat(names: seq<string>): (k: nat)
    ensures k <= |names|
    ensures Distinct(names[..k])
    ensures k < |names| ==> names[k] in names[..k]
    decreases |names|
  {
    if names == [] then 0
    else
      var k := FirstRepeat(names[..|names| - 1]);
      if k < |names| - 1 then
        assert names[..|names| - 1][..k] == names[..k];
        k
      else if names[|names| - 1] in names[..|names| - 1] then |names| - 1
      else
        assert names[..|names|] == names;
        |names|
  }

  lemma {:induction false} FirstRepeatDistinct(names: seq<string>)
    ensures FirstRepeat(names) == |names| <==> Distinct(names)
  {
    var k := FirstRepeat(names);
    if k == |names| {
      assert names[..k] == names;
    } else {
      var i :| 0 <= i < k && names[..k][i] == names[k];
      assert names[i] == names[k];
    }
  }

  /** Declares the variables one by one, as the constructor's loop does. */
  function DeclareAll(s: Scope, names: seq<string>): (r: Result<Scope, Error>)
    decreases |names|
  {
    if names == [] then Success(s)
    else if names[0] in s.variables then Failure(Semantics(DuplicateVariable(names[0])))
    else DeclareAll(s.(variables := s.variables + [names[0]]), names[1..])
  }

  /** Declaring from a set `s` succeeds exactly when `names` repeat neither
      each other nor `s`, and then appends them in order; otherwise it
      fails on the first name that repeats. */
  lemma {:induction false} DeclareAllSpec(s: Scope, names: seq<string>)
    ensures var r := DeclareAll(s, names);
            var k := FirstRepeat(s.variables + names);
            (r.Success? <==> k == |s.variables + names|) &&
            (r.Success? ==> r.value == s.(variables := s.variables + names)) &&
            (r.Failure? ==> k < |s.variables + names| && r.error == Semantics(DuplicateVariable((s.variables + names)[k])))
    requires Distinct(s.variables)
    decreases |names|
  {
    var all := s.variables + names;
    FirstRepeatDistinct(s.variables);
    if names == [] {
      assert all == s.variables;
    } else {
      var s' := s.(variables := s.variables + [names[0]]);
      assert s'.variables + names[1..] == all;
      if names[0] in s.variables {
        FirstRepeatIs(all, |s.variables|);
      } else {
        assert Distinct(s'.variables);
        DeclareAllSpec(s', names[1..]);
      }
    }
  }

  /** When the first `k` names are distinct and name `k` repeats one of
      them, name `k` is the first repeat. */
  lemma {:induction false} FirstRepeatIs(names: seq<string>, k: nat)
    requires k < |names| && Distinct(names[..k]) && names[k] in names[..k]
    ensures FirstRepeat(names) == k
  {
  }

  /** The constructor: a scope with no values under `upper`, declaring each
      variable once, and no nested instructions yet. */
  function NewBlock(upper: Option<Scope>, variables: seq<string>): (r: Result<Block, Error>)
  {
    var s :- DeclareAll(Scope([], map[], upper), variables);
    Success(Block(s, []))
  }

  /** A block is built exactly when the variables are distinct; it then
      declares them in order, has no values and no instructions, and falls
      back to `upper`. Otherwise the first repeated name is reported. */
  lemma {:induction false} NewBlockSpec(upper: Option<Scope>, variables: seq<string>)
    ensures NewBlock(upper, variables).Success? <==> Distinct(variables)
    ensures NewBlock(upper, variables).Success? ==>
              NewBlock(upper, variables).value == Block(Scope(variables, map[], upper), [])
    ensures NewBlock(upper, variables).Failure? ==>
              var k := FirstRepeat(variables);
              k < |variables| && NewBlock(upper, variables).error == Semantics(DuplicateVariable(variables[k]))
  {
    var s := Scope([], map[], upper);
    DeclareAllSpec(s, variables);
    assert s.variables + variables == variables;
    FirstRepeatDistinct(variables);
  }

  /** Binds values to names position by position. */
  function Bind(names: seq<string>, values: seq<Assigned>): (m: map<string, Assigned>)
    requires |names| == |values|
    decreases |names|
  {
    if names == [] then map[] else Bind(names[1..], values[1..])[names[0] := values[0]]
  }

  /** With distinct names, the binding has exactly the names as keys and
      gives the i-th name the i-th value. */
  lemma {:induction false} BindSpec(names: seq<string>, values: seq<Assigned>)
    requires |names| == |values| && Distinct(names)
    ensures Bind(names, values).Keys == set n | n in names
    ensures forall i | 0 <= i < |names| :: Bind(names, values)[names[i]] == values[i]
    decreases |names|
  {
    if names != [] {
      BindSpec(names[1..], values[1..]);
      forall i | 0 < i < |names|
        ensures Bind(names, values)[names[i]] == values[i]
      {
        assert names[1..][i - 1] == names[i];
      }
    }
  }

  /** Drops the old values, then binds `arguments` to the declared
      variables in declaration order. Too many or too few values is a
      semantic error. */
  function Initialize(b: Block, arguments: seq<Assigned>): (r: Result<Block, Error>)
    requires Distinct(b.scope.variables)
    ensures r.Success? <==> |arguments| == |b.scope.variables|
    ensures |arguments| > |b.scope.variables| ==> r == Failure(Semantics(TooManyValues))
    ensures |arguments| < |b.scope.variables| ==> r == Failure(Semantics(TooFewValues))
    ensures r.Success? ==> r.value.nested == b.nested && r.value.scope.variables == b.scope.variables &&
                           r.value.scope.upper == b.scope.upper
    ensures r.Success? ==> r.value.scope.values.Keys == set v | v in b.scope.variables
    ensures r.Success? ==> forall i | 0 <= i < |arguments| ::
                             r.value.scope.values[b.scope.variables[i]] == arguments[i]
  {
    var vars := b.scope.variables;
    if |arguments| > |vars| then Failure(Semantics(TooManyValues))
    else if |arguments| < |vars| then Failure(Semantics(TooFewValues))
    else
      BindSpec(vars, arguments);
      Success(b.(scope := b.scope.(values := Bind(vars, arguments))))
  }

  /** Old values leave no trace: two blocks that differ only in their
      values initialise to the same block. */
  lemma {:induction false} InitializeForgets(b: Block, values: map<string, Assigned>, arguments: seq<Assigned>)
    requires Distinct(b.scope.variables)
    ensures Initialize(b, arguments) == Initialize(b.(scope := b.scope.(values := values)), arguments)
  {
  }

  // ---------------------------------------------------------------------
  // Variable lookup through the chain of scopes
  // ---------------------------------------------------------------------

  /** The value of a variable: from the scope itself when it holds one,
      otherwise from the upper scopes, nearest first. */
  function FindValue(s: Scope, name: string): (v: Option<Assigned>)
    decreases s
  {
    if name in s.values then Some(s.values[name])
    else if s.upper.Some? then FindValue(s.upper.value, name)
    else None
  }

  /** The scope and its upper scopes, nearest first. */
  function Chain(s: Scope): (c: seq<Scope>)
    ensures |c| >= 1 && c[0] == s
    decreases s
  {
    if s.upper.None? then [s] else [s] + Chain(s.upper.value)
  }

  /** Lookup finds the innermost scope of the chain that binds the name,
      and nothing exactly when none does. */
  lemma {:induction false} FindValueInnermost(s: Scope, name: string)
    ensures FindValue(s, name).None? <==> forall k | 0 <= k < |Chain(s)| :: name !in Chain(s)[k].values
    ensures FindValue(s, name).Some? ==>
              exists k | 0 <= k < |Chain(s)| ::
                name in Chain(s)[k].values && FindValue(s, name).value == Chain(s)[k].values[name] &&
                forall m | 0 <= m < k :: name !in Chain(s)[m].values
    decreases s
  {
    if name !in s.values && s.upper.Some? {
      var u := s.upper.value;
      FindValueInnermost(u, name);
      assert Chain(s) == [s] + Chain(u);
      if FindValue(s, name).Some? {
        var k :| 0 <= k < |Chain(u)| && name in Chain(u)[k].values &&
                 FindValue(u, name).value == Chain(u)[k].values[name] &&
                 forall m | 0 <= m < k :: name !in Chain(u)[m].values;
        assert Chain(s)[k + 1] == Chain(u)[k];
        forall m | 0 <= m < k + 1
          ensures name !in Chain(s)[m].values
        {
          if m > 0 {
            assert Chain(s)[m] == Chain(u)[m - 1];
          }
        }
      } else {
        forall k | 0 <= k < |Chain(s)|
          ensures name !in Chain(s)[k].values
        {
          if k > 0 {
            assert Chain(s)[k] == Chain(u)[k - 1];
          }
        }
      }
    } else if name in s.values {
      assert Chain(s)[0] == s;
    }
  }
}

=== FILE: Json.dfy ===
/** The JSON model the templates are rendered against, and the parts of the
    JSON library (Newtonsoft.Json) that the interpreter calls.

    A `Json` value mirrors the library's token tree: the primitive values,
    arrays, objects, and the property nodes that an object's children are
    made of. Navigation (`Children`, `Member`) follows the library's
    documented behaviour. The conversions the interpreter relies on —
    parsing, serialising, printing and the `ToObject` conversions — are
    foreign code, so they are fields of a `JsonLibrary` record passed in as a
    parameter. `Lawful` pins down only what the rest of the model needs and
    what the repository's tests state about them. */
module Json {
  import opened Wrappers
  import opened Errors

  datatype Json =
    | JNull
    | JBool(b: bool)
    | JNumber(n: real)
    | JString(s: string)
    | JArray(items: seq<Json>)
    | JObject(members: seq<(string, Json)>)
    | JProperty(name: string, value: Json)

  /** The children of a token, in order: the items of an array, the
      property nodes of an object, the value of a property, and nothing for
      a primitive. */
  function Children(j: Json): (cs: seq<Json>)
    ensures j.JArray? ==> cs == j.items
    ensures j.JObject? ==> |cs| == |j.members|
    ensures j.JObject? ==> forall i | 0 <= i < |cs| :: cs[i] == JProperty(j.members[i].0, j.members[i].1)
    ensures j.JProperty? ==> cs == [j.value]
    ensures !(j.JArray? || j.JObject? || j.JProperty?) ==> cs == []
  {
    match j
    case JArray(items) => items
    case JObject(members) => Properties(members)
    case JProperty(_, value) => [value]
    case _ => []
  }

  function Properties(members: seq<(string, Json)>): (ps: seq<Json>)
    ensures |ps| == |members|
    ensures forall i | 0 <= i < |ps| :: ps[i] == JProperty(members[i].0, members[i].1)
    decreases |members|
  {
    if members == [] then []
    else [JProperty(members[0].0, members[0].1)] + Properties(members[1..])
  }

  /** The position of the first member named `key`, or the number of
      members when there is none. */
  function FirstKey(members: seq<(string, Json)>, key: string): (i: nat)
    ensures i <= |members|
    ensures i < |members| ==> members[i].0 == key
    ensures forall k | 0 <= k < i :: members[k].0 != key
    decreases |members|
  {
    if members == [] || members[0].0 == key then 0 else 1 + FirstKey(members[1..], key)
  }

  /** The value stored under `key` in a list of members: the first one
      with that key, if any. */
  function Find(members: seq<(string, Json)>, key: string): (v: Option<Json>)
    ensures v.None? <==> forall i | 0 <= i < |members| :: members[i].0 != key
    ensures v.Some? ==> (key, v.value) in members
  {
    var i := FirstKey(members, key);
    if i < |members| then Some(members[i].1) else None
  }

  /** Indexing a token by a member name. An object answers with the member
      or with nothing; every other token makes the library throw: an array
      rejects a string key, and a primitive or a property has no named
      children. */
  function Member(j: Json, key: string): (r: Result<Option<Json>, Error>)
    ensures r.Success? <==> j.JObject?
    ensures r.Success? ==> r.value == Find(j.members, key)
    ensures j.JArray? ==> r == Failure(Library(ArrayByName))
  {
    match j
    case JObject(members) => Success(Find(members, key))
    case JArray(_) => Failure(Library(ArrayByName))
    case _ => Failure(Library(ChildOfPrimitive))
  }

  /** The foreign conversions. `parse` is `JToken.Parse` (nothing for text
      the library rejects), `serialize` is `JsonConvert.SerializeObject`,
      `show` is a token's `ToString`, `numberText` is a double's `ToString`,
      and `toBool`, `toNumber` and `toText` are `ToObject<bool>`,
      `ToObject<double>` and `ToObject<string>` (nothing where the library
      throws). */
  datatype JsonLibrary = JsonLibrary(
    parse: string -> Option<Json>,
    serialize: Json -> string,
    show: Json -> string,
    numberText: real -> string,
    toBool: Json -> Option<bool>,
    toNumber: Json -> Option<real>,
    toText: Json -> Option<string>)

  /** What the model assumes of the library: a string token prints as its
      bare text, numbers and strings convert
      to themselves, arrays and objects convert to no primitive, and the
      boolean and numeric conversions give the results the repository's
      tests expect (5 is true, 0 is false, "true" and "False" are booleans,
      the texts "5" and "5.0" are the number 5, the text "literal" is no
      number). */
  ghost predicate Lawful(lib: JsonLibrary) {
    (forall s :: lib.show(JString(s)) == s) &&
    (forall n :: lib.toNumber(JNumber(n)) == Some(n)) &&
    (forall s :: lib.toText(JString(s)) == Some(s)) &&
    (forall items :: lib.toBool(JArray(items)) == None && lib.toNumber(JArray(items)) == None &&
                     lib.toText(JArray(items)) == None) &&
    (forall members :: lib.toBool(JObject(members)) == None && lib.toNumber(JObject(members)) == None &&
                       lib.toText(JObject(members)) == None) &&
    lib.toBool(JNumber(5.0)) == Some(true) && lib.toBool(JNumber(0.0)) == Some(false) &&
    lib.toBool(JString("true")) == Some(true) && lib.toBool(JString("False")) == Some(false) &&
    lib.toNumber(JString("5")) == Some(5.0) && lib.toNumber(JString("5.0")) == Some(5.0) &&
    lib.toNumber(JString("literal")) == None
  }

  /** Serialising `j` and parsing the text gives `j` back. The library
      promises this for the values the interpreter stores; lemmas that
      need it ask for it value by value. */
  predicate RoundTrips(lib: JsonLibrary, j: Json) {
    lib.parse(lib.serialize(j)) == Some(j)
  }

  /** The boolean conversion of the library built by `LawfulExample`. */
  function ExampleToBool(j: Json): Option<bool> {
    match j
    case JNumber(n) => Some(n != 0.0)
    case JString(s) => if s == "true" then Some(true) else if s == "False" then Some(false) else None
    case _ => None
  }

  /** The numeric conversion of the library built by `LawfulExample`. */
  function ExampleToNumber(j: Json): Option<real> {
    match j
    case JNumber(n) => Some(n)
    case JString(s) => if s == "5" || s == "5.0" then Some(5.0) else None
    case _ => None
  }

  /** The textual conversion of the library built by `LawfulExample`. */
  function ExampleToText(j: Json): Option<string> {
    if j.JString? then Some(j.s) else None
  }

  /** The token printer of the library built by `LawfulExample`. */
  function ExampleShow(j: Json): string {
    if j.JString? then j.s else ""
  }

  /** A library with exactly the assumed facts and nothing else. */
  function ExampleLibrary(): JsonLibrary {
    JsonLibrary((s: string) => None, (j: Json) => "", ExampleShow, (n: real) => "",
                ExampleToBool, ExampleToNumber, ExampleToText)
  }

  lemma ExampleConverts()
    ensures var lib := ExampleLibrary();
            (forall s :: lib.show(JString(s)) == s) &&
            (forall n :: lib.toNumber(JNumber(n)) == Some(n)) &&
            (forall s :: lib.toText(JString(s)) == Some(s)) &&
            (forall items :: lib.toBool(JArray(items)) == None && lib.toNumber(JArray(items)) == None &&
                             lib.toText(JArray(items)) == None) &&
            (forall members :: lib.toBool(JObject(members)) == None && lib.toNumber(JObject(members)) == None &&
                               lib.toText(JObject(members)) == None)
  {
  }

  lemma ExampleBooleans()
    ensures var lib := ExampleLibrary();
            lib.toBool(JNumber(5.0)) == Some(true) && lib.toBool(JNumber(0.0)) == Some(false) &&
            lib.toBool(JString("true")) == Some(true) && lib.toBool(JString("False")) == Some(false)
  {
    assert "False" != "true" by { assert "False"[0] != "true"[0]; }
  }

  lemma ExampleNumbers()
    ensures var lib := ExampleLibrary();
            lib.toNumber(JString("5")) == Some(5.0) && lib.toNumber(JString("5.0")) == Some(5.0) &&
            lib.toNumber(JString("literal")) == None
  {
    assert "literal" != "5" && "literal" != "5.0";
  }

  /** `Lawful` can be met: a library built from exactly those facts. */
  lemma {:induction false} LawfulExample()
    ensures exists lib :: Lawful(lib)
  {
    hide ExampleLibrary, ExampleShow, ExampleToBool, ExampleToNumber, ExampleToText;
    ExampleConverts();
    ExampleBooleans();
    ExampleNumbers();
    assert Lawful(ExampleLibrary());
  }
}

=== FILE: Keywords.dfy ===
/** The lexical tables of the scanner (TKOM/Utils/Keywords.cs).

    The keyword automaton maps a start character to the keyword tails that
    may follow it. The special-sign dictionary maps a sign to its
    one-character token (if any) and to the second characters that extend it
    into a two-character token. Next to each table stands an independent
    reference: the spelling of every keyword and sign token. Lemmas connect
    the tables to the spellings. */
module Keywords {
  import opened Wrappers
  import opened Tokens

  datatype KeywordEntry = KeywordEntry(tail: string, kind: TokenType)

  const KeywordAutomaton: map<char, seq<KeywordEntry>> := map[
    ':' := [KeywordEntry("def", Def), KeywordEntry("for", For),
            KeywordEntry("if", If), KeywordEntry("else", Else)],
    'i' := [KeywordEntry("n", In)]
  ]

  /** An entry of the special-sign dictionary. A sign whose follower
      dictionary is null only ever yields its one-character token; the
      others may lack a one-character token (only '/'). */
  datatype SignEntry =
    | OneSign(kind: TokenType)
    | Extensible(single: Option<TokenType>, followers: map<char, TokenType>)

  const SpecialSignDict: map<char, SignEntry> := map[
    '<' := Extensible(Some(PointyBracketOpen), map['=' := LessEqualThan, '/' := TagClose]),
    '>' := Extensible(Some(PointyBracketClose), map['=' := GreaterEqualThan]),
    '=' := Extensible(Some(AssignmentMark), map['=' := Equal]),
    '/' := Extensible(None, map['>' := TagCloseInline]),
    '{' := OneSign(CurlyBracketOpen),
    '}' := OneSign(CurlyBracketClose),
    '(' := OneSign(ParenthesisOpen),
    ')' := OneSign(ParenthesisClose),
    ',' := OneSign(Coma),
    '.' := OneSign(Dot),
    '[' := OneSign(SquareBracketOpen),
    ']' := OneSign(SquareBracketClose),
    '"' := OneSign(QuotationMark),
    '!' := Extensible(Some(ExclamationMark), map['=' := NotEqual])
  ]

  /** Looks a current sign up in a table keyed by character. The end marker
      (-1, which the source casts to '￿') is never a key. */
  function Lookup<V>(m: map<char, V>, c: int): (v: Option<V>)
    ensures v.Some? <==> IsCharCode(c) && (c as char) in m
    ensures v.Some? ==> v.value == m[c as char]
  {
    if IsCharCode(c) && (c as char) in m then Some(m[c as char]) else None
  }

  predicate IsCharCode(c: int) {
    0 <= c < 0xD800 || 0xE000 <= c < 0x11_0000
  }

  // ---------------------------------------------------------------------
  // Reference spellings
  // ---------------------------------------------------------------------

  /** How each keyword token is written in a template. */
  function KeywordSpelling(t: TokenType): string
    requires IsKeyword(t)
  {
    match t
    case Def => ":def"
    case For => ":for"
    case If => ":if"
    case Else => ":else"
    case In => "in"
  }

  predicate IsSign(t: TokenType) {
    t in {PointyBracketOpen, LessEqualThan, TagClose, PointyBracketClose, GreaterEqualThan,
          AssignmentMark, Equal, TagCloseInline, CurlyBracketOpen, CurlyBracketClose,
          ParenthesisOpen, ParenthesisClose, Coma, Dot, SquareBracketOpen, SquareBracketClose,
          QuotationMark, ExclamationMark, NotEqual}
  }

  /** How each sign token is written in a template. */
  function SignSpelling(t: TokenType): string
    requires IsSign(t)
  {
    match t
    case PointyBracketOpen => "<"
    case LessEqualThan => "<="
    case TagClose => "</"
    case PointyBracketClose => ">"
    case GreaterEqualThan => ">="
    case AssignmentMark => "="
    case Equal => "=="
    case TagCloseInline => "/>"
    case CurlyBracketOpen => "{"
    case CurlyBracketClose => "}"
    case ParenthesisOpen => "("
    case ParenthesisClose => ")"
    case Coma => ","
    case Dot => "."
    case SquareBracketOpen => "["
    case SquareBracketClose => "]"
    case QuotationMark => "\""
    case ExclamationMark => "!"
    case NotEqual => "!="
  }

  // ---------------------------------------------------------------------
  // Facts about the tables
  // ---------------------------------------------------------------------

  /** The automaton has exactly two start characters, every tail is
      non-empty, and the tails under ':' begin with pairwise distinct
      characters, so at most one entry survives a first-character filter. */
  lemma {:induction false} KeywordAutomatonShape()
    ensures KeywordAutomaton.Keys == {':', 'i'}
    ensures forall c, e | c in KeywordAutomaton && e in KeywordAutomaton[c] :: |e.tail| > 0
    ensures forall c, i, j | c in KeywordAutomaton && 0 <= i < j < |KeywordAutomaton[c]| ::
              KeywordAutomaton[c][i].tail[0] != KeywordAutomaton[c][j].tail[0]
  {
  }

  /** The automaton spells exactly the keywords: each entry under `c` spells
      `c` followed by its tail, and every keyword has an entry. */
  lemma {:induction false} KeywordAutomatonSpellsKeywords()
    ensures forall c, e | c in KeywordAutomaton && e in KeywordAutomaton[c] ::
              IsKeyword(e.kind) && [c] + e.tail == KeywordSpelling(e.kind)
    ensures forall t | IsKeyword(t) :: exists c, e :: c in KeywordAutomaton && e in KeywordAutomaton[c] && e.kind == t
  {
    assert KeywordEntry("def", Def) in KeywordAutomaton[':'];
    assert KeywordEntry("for", For) in KeywordAutomaton[':'];
    assert KeywordEntry("if", If) in KeywordAutomaton[':'];
    assert KeywordEntry("else", Else) in KeywordAutomaton[':'];
    assert KeywordEntry("n", In) in KeywordAutomaton['i'];
  }

  /** No keyword spelling is a proper prefix of another, so at most one
      keyword can be spelled at any position. */
  lemma {:induction false} KeywordSpellingsPrefixFree(t: TokenType, u: TokenType)
    requires IsKeyword(t) && IsKeyword(u)
    requires KeywordSpelling(t) <= KeywordSpelling(u)
    ensures t == u
  {
    var w, v := KeywordSpelling(t), KeywordSpelling(u);
    assert w[..|w|] == v[..|w|];
    assert w[0] == v[0] && w[1] == v[1];
  }

  /** The sign dictionary spells exactly the sign tokens: a one-character
      token is its key, a two-character token is its key followed by the
      follower character, and every sign token arises this way. */
  lemma {:induction false} SpecialSignDictSpellsSigns(c: char)
    requires c in SpecialSignDict
    ensures SpecialSignDict[c].OneSign? ==>
              IsSign(SpecialSignDict[c].kind) && SignSpelling(SpecialSignDict[c].kind) == [c]
    ensures SpecialSignDict[c].Extensible? && SpecialSignDict[c].single.Some? ==>
              IsSign(SpecialSignDict[c].single.value) && SignSpelling(SpecialSignDict[c].single.value) == [c]
    ensures SpecialSignDict[c].Extensible? ==>
              forall d | d in SpecialSignDict[c].followers ::
                IsSign(SpecialSignDict[c].followers[d]) && SignSpelling(SpecialSignDict[c].followers[d]) == [c, d]
  {
    SingleSpelled(c);
    if SpecialSignDict[c].Extensible? {
      FollowersSpelled(c);
    }
  }

  lemma {:induction false} SingleSpelled(c: char)
    requires c in SpecialSignDict
    ensures SingleOf(SpecialSignDict[c]).Some? ==>
              IsSign(SingleOf(SpecialSignDict[c]).value) && SignSpelling(SingleOf(SpecialSignDict[c]).value) == [c]
  {
  }

  lemma {:induction false} FollowersSpelled(c: char)
    requires c in SpecialSignDict && SpecialSignDict[c].Extensible?
    ensures forall d | d in SpecialSignDict[c].followers ::
              IsSign(SpecialSignDict[c].followers[d]) && SignSpelling(SpecialSignDict[c].followers[d]) == [c, d]
  {
  }

  /** Every sign token starts with a key of the dictionary. */
  lemma {:induction false} SignsStartWithKeys(t: TokenType)
    requires IsSign(t)
    ensures SignSpelling(t)[0] in SpecialSignDict
  {
  }

  /** '/' is the only sign without a one-character token; the signs with a
      null follower dictionary are braces, parentheses, comma, dot, square
      brackets and the quotation mark. */
  lemma {:induction false} SpecialSignDictShape()
    ensures forall c | c in SpecialSignDict ::
              (SpecialSignDict[c].Extensible? && SpecialSignDict[c].single.None?) <==> c == '/'
    ensures forall c | c in SpecialSignDict ::
              SpecialSignDict[c].OneSign? <==> c in {'{', '}', '(', ')', ',', '.', '[', ']', '"'}
  {
  }

  /** The one-character token of a dictionary entry, if it has one. */
  function SingleOf(entry: SignEntry): Option<TokenType> {
    match entry
    case OneSign(kind) => Some(kind)
    case Extensible(single, _) => single
  }

  /** Conversely to `SpecialSignDictSpellsSigns`: every sign token comes from
      the dictionary, as the one-character token of its first sign or as a
      follower of it. */
  lemma {:induction false} SignFromDict(u: TokenType)
    requires IsSign(u)
    ensures var w := SignSpelling(u);
            1 <= |w| <= 2 && w[0] in SpecialSignDict &&
            (|w| == 1 ==> SingleOf(SpecialSignDict[w[0]]) == Some(u)) &&
            (|w| == 2 ==> SpecialSignDict[w[0]].Extensible? &&
                          w[1] in SpecialSignDict[w[0]].followers &&
                          SpecialSignDict[w[0]].followers[w[1]] == u)
  {
  }
}

=== FILE: Lexicon.dfy ===
/** The token grammar of the template language, stated over plain text
    positions, independently of the reader and of the scanner's tables.

    The scanner (Scanner.dfy) is proved to produce exactly the tokens these
    definitions describe. Positions are indices into the text; `SignAt`
    yields the end marker past the end. */
module Lexicon {
  import opened Wrappers
  import opened Tokens
  import opened StringsReader
  import opened Keywords

  /** `w` is written in `text` starting at index `i`. */
  predicate SpelledAt(text: string, i: int, w: string) {
    0 <= i && i + |w| <= |text| && text[i..i + |w|] == w
  }

  lemma {:induction false} SpelledAtSigns(text: string, i: int, w: string)
    ensures SpelledAt(text, i, w) <==> 0 <= i <= |text| && forall j | 0 <= j < |w| :: SignAt(text, i + j) == w[j] as int
  {
    if 0 <= i <= |text| && forall j | 0 <= j < |w| :: SignAt(text, i + j) == w[j] as int {
      if |w| > 0 {
        assert SignAt(text, i + (|w| - 1)) == w[|w| - 1] as int;
        assert 0 <= w[|w| - 1] as int;
        assert SignAt(text, i + (|w| - 1)) != EndOfInput;
        assert i + (|w| - 1) < |text|;
      }
      assert i + |w| <= |text|;
      forall j | 0 <= j < |w|
        ensures text[i..i + |w|][j] == w[j]
      {
        assert SignAt(text, i + j) == w[j] as int;
      }
    }
    if SpelledAt(text, i, w) {
      forall j | 0 <= j < |w|
        ensures SignAt(text, i + j) == w[j] as int
      {
        assert text[i..i + |w|][j] == text[i + j];
      }
    }
  }

  // ---------------------------------------------------------------------
  // Sign classes (TKOM/Tools/Scanner.cs, the Is* helpers and the follower
  // lists of TryReadNumber and TryReadIdentifier)
  // ---------------------------------------------------------------------

  predicate IsWhitespaceSign(c: int) {
    c == ' ' as int || c == '\n' as int || c == '\r' as int
  }

  predicate IsSpaceSign(c: int) {
    c == ' ' as int
  }

  predicate IsDigitSign(c: int) {
    '0' as int <= c <= '9' as int
  }

  predicate IsLetterSign(c: int) {
    ('A' as int <= c <= 'Z' as int) || ('a' as int <= c <= 'z' as int)
  }

  predicate IsIdentifierSign(c: int) {
    IsLetterSign(c) || IsDigitSign(c) || c == '_' as int || c == '-' as int
  }

  predicate StartsIdentifier(c: int) {
    IsLetterSign(c) || c == '_' as int
  }

  /** The signs that may follow a number. */
  predicate EndsNumber(c: int) {
    c == '.' as int || c == ' ' as int || c == ')' as int || c == ']' as int ||
    c == ',' as int || c == EndOfInput
  }

  /** The signs that may follow an identifier. */
  predicate EndsIdentifier(c: int) {
    c == '.' as int || c == '[' as int || c == ' ' as int || c == ')' as int ||
    c == '(' as int || c == ',' as int || c == '}' as int || c == '\n' as int ||
    c == '\r' as int || c == '>' as int || c == '/' as int || c == '=' as int ||
    c == EndOfInput
  }

  /** The index of the first sign at or after `i` that fails `p`. */
  function RunEnd(text: string, i: nat, p: int -> bool): (j: nat)
    requires !p(EndOfInput)
    ensures i <= j && (i <= |text| ==> j <= |text|)
    ensures forall k | i <= k < j :: p(SignAt(text, k))
    ensures !p(SignAt(text, j))
    decreases |text| - i
  {
    if i < |text| && p(text[i] as int) then RunEnd(text, i + 1, p) else i
  }

  /** A run of signs satisfying `p` ends exactly where the first sign failing
      `p` stands; any such index is the run's end. */
  lemma {:induction false} RunEndUnique(text: string, i: nat, j: nat, p: int -> bool)
    requires !p(EndOfInput) && i <= j
    requires forall k | i <= k < j :: p(SignAt(text, k))
    requires !p(SignAt(text, j))
    ensures RunEnd(text, i, p) == j
    decreases j - i
  {
    if i < j {
      assert p(SignAt(text, i));
      RunEndUnique(text, i + 1, j, p);
    }
  }

  // ---------------------------------------------------------------------
  // Keywords and signs by spelling
  // ---------------------------------------------------------------------

  predicate KeywordSpelledAt(text: string, i: int, t: TokenType) {
    IsKeyword(t) && SpelledAt(text, i, KeywordSpelling(t))
  }

  predicate NoKeywordAt(text: string, i: int) {
    forall t | IsKeyword(t) :: !SpelledAt(text, i, KeywordSpelling(t))
  }

  predicate SignSpelledAt(text: string, i: int, t: TokenType) {
    IsSign(t) && SpelledAt(text, i, SignSpelling(t))
  }

  /** `t` is the longest sign token spelled at `i` (maximal munch). */
  predicate LongestSignAt(text: string, i: int, t: TokenType) {
    SignSpelledAt(text, i, t) &&
    forall u | IsSign(u) && SpelledAt(text, i, SignSpelling(u)) :: |SignSpelling(u)| <= |SignSpelling(t)|
  }

  predicate NoSignAt(text: string, i: int) {
    forall u | IsSign(u) :: !SpelledAt(text, i, SignSpelling(u))
  }

  /** At most one keyword is spelled at a position. */
  lemma {:induction false} KeywordAtUnique(text: string, i: int, t: TokenType, u: TokenType)
    requires KeywordSpelledAt(text, i, t) && KeywordSpelledAt(text, i, u)
    ensures t == u
  {
    KeywordSigns(text, i, t);
    KeywordSigns(text, i, u);
  }

  /** Two sign tokens with the same spelling are the same token. */
  lemma {:induction false} SignSpellingsDistinct(t: TokenType, u: TokenType)
    requires IsSign(t) && IsSign(u) && SignSpelling(t) == SignSpelling(u)
    ensures t == u
  {
  }

  lemma {:induction false} LongestSignUnique(text: string, i: int, t: TokenType, u: TokenType)
    requires LongestSignAt(text, i, t) && LongestSignAt(text, i, u)
    ensures t == u
  {
    assert |SignSpelling(t)| == |SignSpelling(u)|;
    SignSpellingsDistinct(t, u);
  }

  // ---------------------------------------------------------------------
  // Numbers and identifiers
  // ---------------------------------------------------------------------

  /** A number at `i`: the maximal digit run starting there, when it is
      non-empty and followed by one of the number's follower signs. */
  function NumberAt(text: string, i: nat): Option<string>
  {
    var e := RunEnd(text, i, IsDigitSign);
    if i < e && EndsNumber(SignAt(text, e)) then Some(text[i..e]) else None
  }

  /** An identifier at `i`: a letter or '_', then the maximal run of
      identifier signs, followed by one of the identifier's follower signs. */
  function IdentifierAt(text: string, i: nat): Option<string>
  {
    if StartsIdentifier(SignAt(text, i)) then
      var e := RunEnd(text, i + 1, IsIdentifierSign);
      if EndsIdentifier(SignAt(text, e)) then Some(text[i..e]) else None
    else None
  }

  // ---------------------------------------------------------------------
  // Text and strings with escapes
  // ---------------------------------------------------------------------

  /** The characters a backslash escapes in text, and where text stops. */
  const TextEscapes: set<char> := {'{', '<', '}', '\\'}
  const TextStops: set<char> := {'<', '{'}

  /** The characters a backslash escapes in a string, and where it stops. */
  const StringEscapes: set<char> := {'"', '\\', '{'}
  const StringStops: set<char> := {'"', '{'}

  /** Reads `s` up to its end or the first unescaped stop character,
      resolving escapes: a backslash followed by an escapable character
      stands for that character; any other backslash stands for itself.
      Returns the value and the number of characters consumed. */
  function Unescape(s: string, escapes: set<char>, stops: set<char>): (res: (string, nat))
    ensures res.1 <= |s|
    decreases |s|
  {
    if |s| == 0 || s[0] in stops then ("", 0)
    else if s[0] == '\\' && |s| >= 2 && s[1] in escapes then
      var rest := Unescape(s[2..], escapes, stops);
      ([s[1]] + rest.0, rest.1 + 2)
    else
      var rest := Unescape(s[1..], escapes, stops);
      ([s[0]] + rest.0, rest.1 + 1)
  }

  /** The inverse direction: writes `v` so that it reads back unchanged,
      putting a backslash before every escapable character. */
  function Escape(v: string, escapes: set<char>): (s: string)
    ensures |s| >= |v|
  {
    if v == [] then []
    else (if v[0] in escapes then ['\\', v[0]] else [v[0]]) + Escape(v[1..], escapes)
  }

  /** Escaping then unescaping gives back the value, provided every stop
      character is escapable and the escaped text is followed by nothing or
      by a stop character. */
  lemma {:induction false} UnescapeEscape(v: string, rest: string, escapes: set<char>, stops: set<char>)
    requires stops <= escapes && '\\' in escapes && '\\' !in stops
    requires rest == [] || rest[0] in stops
    ensures Unescape(Escape(v, escapes) + rest, escapes, stops) == (v, |Escape(v, escapes)|)
    decreases |v|
  {
    if v != [] {
      var tail := Escape(v[1..], escapes) + rest;
      UnescapeEscape(v[1..], rest, escapes, stops);
      if v[0] in escapes {
        var s := ['\\', v[0]] + tail;
        assert Escape(v, escapes) == ['\\', v[0]] + Escape(v[1..], escapes);
        assert Escape(v, escapes) + rest == s;
        assert s[2..] == tail;
      } else {
        var s := [v[0]] + tail;
        assert Escape(v, escapes) == [v[0]] + Escape(v[1..], escapes);
        assert Escape(v, escapes) + rest == s;
        assert s[1..] == tail;
        assert v[0] !in stops && v[0] != '\\';
      }
      assert [v[0]] + v[1..] == v;
    } else {
      assert Escape(v, escapes) + rest == rest;
    }
  }

  function LeadingSpaces(s: string): (n: nat)
    ensures n <= |s|
    ensures forall k | 0 <= k < n :: IsSpaceSign(s[k] as int)
    ensures n < |s| ==> !IsSpaceSign(s[n] as int)
  {
    if s != [] && IsSpaceSign(s[0] as int) then 1 + LeadingSpaces(s[1..]) else 0
  }

  function LeadingWhitespace(s: string): (n: nat)
    ensures n <= |s|
    ensures forall k | 0 <= k < n :: IsWhitespaceSign(s[k] as int)
    ensures n < |s| ==> !IsWhitespaceSign(s[n] as int)
  {
    if s != [] && IsWhitespaceSign(s[0] as int) then 1 + LeadingWhitespace(s[1..]) else 0
  }

  /** Spaces at the start of `s` are followed by a line break. */
  predicate BreakAfterSpaces(s: string) {
    var sp := LeadingSpaces(s);
    sp < |s| && (s[sp] == '\n' || s[sp] == '\r')
  }

  /** The value of a text token read from `s`: leading spaces are kept,
      unless a line break follows them, in which case all leading
      whitespace is dropped; the rest is unescaped up to '<' or '{'. */
  function TextValue(s: string): string {
    var sp := LeadingSpaces(s);
    if BreakAfterSpaces(s) then
      Unescape(s[LeadingWhitespace(s)..], TextEscapes, TextStops).0
    else
      s[..sp] + Unescape(s[sp..], TextEscapes, TextStops).0
  }

  /** How many characters reading a text token from `s` consumes. */
  function TextLength(s: string): nat {
    var sp := LeadingSpaces(s);
    if BreakAfterSpaces(s) then
      var k := LeadingWhitespace(s);
      k + Unescape(s[k..], TextEscapes, TextStops).1
    else
      sp + Unescape(s[sp..], TextEscapes, TextStops).1
  }

  /** The run of spaces at `i` is the string's leading spaces. */
  lemma {:induction false} SpacesRun(text: string, i: nat)
    requires i <= |text|
    ensures RunEnd(text, i, IsSpaceSign) == i + LeadingSpaces(text[i..])
  {
    var s := text[i..];
    var n := LeadingSpaces(s);
    forall k | i <= k < i + n
      ensures IsSpaceSign(SignAt(text, k))
    {
      assert s[k - i] == text[k];
    }
    if i + n < |text| {
      assert s[n] == text[i + n];
    }
    RunEndUnique(text, i, i + n, IsSpaceSign);
  }

  /** The leading whitespace of `text[i..]`, read as signs of `text`. */
  lemma {:induction false} LeadingWhitespaceSigns(text: string, i: nat)
    requires i <= |text|
    ensures forall k | i <= k < i + LeadingWhitespace(text[i..]) :: IsWhitespaceSign(SignAt(text, k))
    ensures !IsWhitespaceSign(SignAt(text, i + LeadingWhitespace(text[i..])))
  {
    var s := text[i..];
    var n := LeadingWhitespace(s);
    forall k | i <= k < i + n
      ensures IsWhitespaceSign(SignAt(text, k))
    {
      var c := s[k - i];
      assert c == text[k];
    }
    if i + n < |text| {
      var c := s[n];
      assert c == text[i + n];
    }
  }

  lemma {:induction false} SpacesWithinWhitespace(s: string)
    ensures LeadingSpaces(s) <= LeadingWhitespace(s)
  {
  }

  /** A run that starts inside a longer run ends where the longer one does. */
  lemma {:induction false} RunEndWithin(text: string, i: nat, m: nat, j: nat, p: int -> bool)
    requires !p(EndOfInput) && i <= m <= j
    requires forall k | i <= k < j :: p(SignAt(text, k))
    requires !p(SignAt(text, j))
    ensures RunEnd(text, m, p) == j
  {
    RunEndUnique(text, m, j, p);
  }

  /** After the leading spaces, the run of whitespace reaches to the end of
      the string's leading whitespace. */
  lemma {:induction false} WhitespaceRun(text: string, i: nat)
    requires i <= |text|
    ensures RunEnd(text, i + LeadingSpaces(text[i..]), IsWhitespaceSign) == i + LeadingWhitespace(text[i..])
  {
    var sp, n := LeadingSpaces(text[i..]), LeadingWhitespace(text[i..]);
    SpacesWithinWhitespace(text[i..]);
    LeadingWhitespaceSigns(text, i);
    RunEndWithin(text, i, i + sp, i + n, IsWhitespaceSign);
    assert RunEnd(text, i + sp, IsWhitespaceSign) == i + n;
  }

  // ---------------------------------------------------------------------
  // The token at a position
  // ---------------------------------------------------------------------

  /** The keyword at `i`, decided by the signs from `i` on. */
  function KeywordAt(text: string, i: int): Option<TokenType> {
    var c := SignAt(text, i);
    if c == ':' as int then
      var c1, c2, c3 := SignAt(text, i + 1), SignAt(text, i + 2), SignAt(text, i + 3);
      if c1 == 'd' as int && c2 == 'e' as int && c3 == 'f' as int then Some(Def)
      else if c1 == 'f' as int && c2 == 'o' as int && c3 == 'r' as int then Some(For)
      else if c1 == 'i' as int && c2 == 'f' as int then Some(If)
      else if c1 == 'e' as int && c2 == 'l' as int && c3 == 's' as int && SignAt(text, i + 4) == 'e' as int then Some(Else)
      else None
    else if c == 'i' as int && SignAt(text, i + 1) == 'n' as int then Some(In)
    else None
  }

  /** A keyword is spelled exactly where its signs stand. */
  lemma {:induction false} KeywordSigns(text: string, i: int, t: TokenType)
    requires IsKeyword(t)
    ensures KeywordSpelledAt(text, i, t) <==> KeywordAt(text, i) == Some(t)
  {
    if KeywordSpelledAt(text, i, t) {
      SpelledKeywordFound(text, i, t);
    }
    if KeywordAt(text, i) == Some(t) {
      FoundKeywordSpelled(text, i, t);
    }
  }

  lemma {:induction false} SpelledKeywordFound(text: string, i: int, t: TokenType)
    requires KeywordSpelledAt(text, i, t)
    ensures KeywordAt(text, i) == Some(t)
  {
    var w := KeywordSpelling(t);
    SpelledAtSigns(text, i, w);
    assert SignAt(text, i + 0) == w[0] as int;
    assert SignAt(text, i + 1) == w[1] as int;
    if |w| > 2 {
      assert SignAt(text, i + 2) == w[2] as int;
    }
    if |w| > 3 {
      assert SignAt(text, i + 3) == w[3] as int;
    }
    if |w| > 4 {
      assert SignAt(text, i + 4) == w[4] as int;
    }
  }

  lemma {:induction false} FoundKeywordSpelled(text: string, i: int, t: TokenType)
    requires IsKeyword(t) && KeywordAt(text, i) == Some(t)
    ensures KeywordSpelledAt(text, i, t)
  {
    var w := KeywordSpelling(t);
    assert SignAt(text, i) == w[0] as int;
    forall j | 0 <= j < |w|
      ensures SignAt(text, i + j) == w[j] as int
    {
      if j > 0 {
        assert SignAt(text, i + j) == SignAt(text, i + 1 + (j - 1));
      }
    }
    SpelledAtSigns(text, i, w);
  }

  /** `KeywordAt` yields exactly the keyword spelled at `i`, if any. */
  lemma {:induction false} KeywordAtComplete(text: string, i: int, t: TokenType)
    ensures KeywordSpelledAt(text, i, t) <==> KeywordAt(text, i) == Some(t)
  {
    if IsKeyword(t) {
      KeywordSigns(text, i, t);
    }
  }

  /** `KeywordAt` yields a keyword spelled at `i`, and nothing exactly when
      no keyword is spelled there. */
  lemma {:induction false} KeywordAtSpelled(text: string, i: int)
    ensures KeywordAt(text, i).Some? ==> KeywordSpelledAt(text, i, KeywordAt(text, i).value)
    ensures KeywordAt(text, i).None? <==> NoKeywordAt(text, i)
  {
    forall t | IsKeyword(t)
      ensures KeywordSpelledAt(text, i, t) <==> KeywordAt(text, i) == Some(t)
    {
      KeywordSigns(text, i, t);
    }
    if KeywordAt(text, i).Some? {
      KeywordSigns(text, i, KeywordAt(text, i).value);
    }
  }

  /** The sign token for the sign `c` followed by `d`: two-sign tokens
      before one-sign tokens. */
  function SignTokenOf(c: int, d: int): Option<TokenType> {
    if c == '<' as int && d == '=' as int then Some(LessEqualThan)
    else if c == '<' as int && d == '/' as int then Some(TagClose)
    else if c == '>' as int && d == '=' as int then Some(GreaterEqualThan)
    else if c == '=' as int && d == '=' as int then Some(Equal)
    else if c == '/' as int && d == '>' as int then Some(TagCloseInline)
    else if c == '!' as int && d == '=' as int then Some(NotEqual)
    else if c == '<' as int then Some(PointyBracketOpen)
    else if c == '>' as int then Some(PointyBracketClose)
    else if c == '=' as int then Some(AssignmentMark)
    else if c == '{' as int then Some(CurlyBracketOpen)
    else if c == '}' as int then Some(CurlyBracketClose)
    else if c == '(' as int then Some(ParenthesisOpen)
    else if c == ')' as int then Some(ParenthesisClose)
    else if c == ',' as int then Some(Coma)
    else if c == '.' as int then Some(Dot)
    else if c == '[' as int then Some(SquareBracketOpen)
    else if c == ']' as int then Some(SquareBracketClose)
    else if c == '"' as int then Some(QuotationMark)
    else if c == '!' as int then Some(ExclamationMark)
    else None
  }

  /** The sign token at `i`, decided by the sign there and the one after. */
  function SignTokenAt(text: string, i: int): Option<TokenType> {
    SignTokenOf(SignAt(text, i), SignAt(text, i + 1))
  }

  /** A sign token's spelling stands at `i` exactly when its signs do. */
  lemma {:induction false} SignSigns(text: string, i: int, u: TokenType)
    requires IsSign(u)
    ensures var w := SignSpelling(u);
            SpelledAt(text, i, w) <==>
              0 <= i && SignAt(text, i) == w[0] as int && (|w| == 2 ==> SignAt(text, i + 1) == w[1] as int)
  {
    var w := SignSpelling(u);
    SpelledAtSigns(text, i, w);
    if 0 <= i && SignAt(text, i) == w[0] as int && (|w| == 2 ==> SignAt(text, i + 1) == w[1] as int) {
      assert i < |text|;
      forall j | 0 <= j < |w|
        ensures SignAt(text, i + j) == w[j] as int
      {
      }
    }
    if SpelledAt(text, i, w) {
      assert SignAt(text, i + 0) == w[0] as int;
      if |w| == 2 {
        assert SignAt(text, i + 1) == w[1] as int;
      }
    }
  }

  /** `SignTokenAt` yields a sign spelled at `i`. */
  lemma {:induction false} SignTokenAtSpelled(text: string, i: int)
    requires 0 <= i
    ensures SignTokenAt(text, i).Some? ==> SignSpelledAt(text, i, SignTokenAt(text, i).value)
  {
    if SignTokenAt(text, i).Some? {
      SignSigns(text, i, SignTokenAt(text, i).value);
    }
  }

  /** `SignTokenAt` yields the longest sign spelled at `i`, and nothing
      exactly when no sign is spelled there. */
  lemma {:induction false} SignTokenAtLongest(text: string, i: int)
    requires 0 <= i
    ensures SignTokenAt(text, i).Some? ==> LongestSignAt(text, i, SignTokenAt(text, i).value)
    ensures SignTokenAt(text, i).None? <==> NoSignAt(text, i)
  {
    SignTokenAtSpelled(text, i);
    forall u | IsSign(u) && SpelledAt(text, i, SignSpelling(u))
      ensures SignTokenAt(text, i).Some? && |SignSpelling(u)| <= |SignSpelling(SignTokenAt(text, i).value)|
    {
      SpelledSignFound(text, i, u);
    }
  }

  /** Every spelled sign is found, and a two-sign spelling is found as a
      two-sign token. */
  lemma {:induction false} SpelledSignFound(text: string, i: int, u: TokenType)
    requires IsSign(u) && SpelledAt(text, i, SignSpelling(u))
    ensures SignTokenAt(text, i).Some?
    ensures |SignSpelling(u)| <= |SignSpelling(SignTokenAt(text, i).value)|
  {
    SignSigns(text, i, u);
  }

  /** What the scanner should produce at `i` (after whitespace): its kind,
      its value and the number of signs it spans. */
  datatype Lexeme = Lexeme(kind: TokenType, value: string, length: nat)

  function LexemeAt(text: string, i: nat): (l: Lexeme)
    ensures l.kind == Eof <==> |text| <= i
    ensures l.kind == Invalid ==> l.length == 0
    ensures l.kind != Eof && l.kind != Invalid ==> 0 < l.length && i + l.length <= |text|
  {
    if |text| <= i then Lexeme(Eof, "", 0)
    else if KeywordAt(text, i).Some? then
      Lexeme(KeywordAt(text, i).value, "", |KeywordSpelling(KeywordAt(text, i).value)|)
    else if SignTokenAt(text, i).Some? then
      Lexeme(SignTokenAt(text, i).value, "", |SignSpelling(SignTokenAt(text, i).value)|)
    else if NumberAt(text, i).Some? then
      Lexeme(Number, NumberAt(text, i).value, |NumberAt(text, i).value|)
    else if IdentifierAt(text, i).Some? then
      Lexeme(Identifier, IdentifierAt(text, i).value, |IdentifierAt(text, i).value|)
    else Lexeme(Invalid, "", 0)
  }

  /** The alternatives of `LexemeAt`, one at a time. */
  lemma {:induction false} LexemeIsKeyword(text: string, i: nat)
    requires i < |text| && KeywordAt(text, i).Some?
    ensures LexemeAt(text, i) == Lexeme(KeywordAt(text, i).value, "", |KeywordSpelling(KeywordAt(text, i).value)|)
  {
  }

  lemma {:induction false} LexemeIsSign(text: string, i: nat)
    requires i < |text| && KeywordAt(text, i).None? && SignTokenAt(text, i).Some?
    ensures LexemeAt(text, i) == Lexeme(SignTokenAt(text, i).value, "", |SignSpelling(SignTokenAt(text, i).value)|)
  {
  }

  lemma {:induction false} LexemeIsNumber(text: string, i: nat)
    requires i < |text| && KeywordAt(text, i).None? && SignTokenAt(text, i).None?
    requires NumberAt(text, i).Some?
    ensures LexemeAt(text, i) == Lexeme(Number, NumberAt(text, i).value, |NumberAt(text, i).value|)
  {
  }

  lemma {:induction false} LexemeIsIdentifierOrInvalid(text: string, i: nat)
    requires i < |text| && KeywordAt(text, i).None? && SignTokenAt(text, i).None?
    requires NumberAt(text, i).None?
    ensures LexemeAt(text, i) ==
              if IdentifierAt(text, i).Some?
              then Lexeme(Identifier, IdentifierAt(text, i).value, |IdentifierAt(text, i).value|)
              else Lexeme(Invalid, "", 0)
  {
  }

  /** One step of `Unescape` on a suffix of `text`, in terms of indices. */
  lemma {:induction false} UnescapeStep(text: string, h: nat, escapes: set<char>, stops: set<char>)
    requires h < |text| && text[h] !in stops
    ensures Unescape(text[h..], escapes, stops) ==
              if text[h] == '\\' && h + 1 < |text| && text[h + 1] in escapes then
                var rest := Unescape(text[h + 2..], escapes, stops);
                ([text[h + 1]] + rest.0, rest.1 + 2)
              else
                var rest := Unescape(text[h + 1..], escapes, stops);
                ([text[h]] + rest.0, rest.1 + 1)
  {
    var s := text[h..];
    assert s[1..] == text[h + 1..];
    if h + 1 < |text| {
      assert s[2..] == text[h + 2..];
    }
  }

  /** The value of a string token read from `s`: it is unescaped up to '"'
      or '{'. */
  function StringValue(s: string): string {
    Unescape(s, StringEscapes, StringStops).0
  }

  /** Escaped text reads back as the value that was escaped, as long as it
      does not start with whitespace and is followed by nothing, '<' or
      '{'. */
  lemma {:induction false} TextValueEscape(v: string, rest: string)
    requires v == [] || !IsWhitespaceSign(v[0] as int)
    requires rest == [] || rest[0] in TextStops
    ensures TextValue(Escape(v, TextEscapes) + rest) == v
    ensures TextLength(Escape(v, TextEscapes) + rest) == |Escape(v, TextEscapes)|
  {
    var s := Escape(v, TextEscapes) + rest;
    UnescapeEscape(v, rest, TextEscapes, TextStops);
    if v != [] {
      assert s[0] == if v[0] in TextEscapes then '\\' else v[0];
    }
    assert LeadingSpaces(s) == 0;
    assert s[..0] == [] && s[0..] == s;
  }

  /** Escaped string contents read back as the value that was escaped. */
  lemma {:induction false} StringValueEscape(v: string, rest: string)
    requires rest == [] || rest[0] in StringStops
    ensures StringValue(Escape(v, StringEscapes) + rest) == v
  {
    UnescapeEscape(v, rest, StringEscapes, StringStops);
  }
}

=== FILE: Parser.dfy ===
/** The recursive-descent parser of function definitions
    (TKOM/Tools/Parser.cs).

    A template is a sequence of definitions
    `<:def name(arg, ...)> body </:def>`. The parser looks at the current
    token and asks the scanner for the next one. It sees the scanner through
    a `Cursor`: the text, the index of the reader's current sign, and the
    kind and value of the current token. `Next` and `ReadText` move a cursor
    the way the scanner's `ReadNextToken` and `TryReadText` move the reader.
    `NextAgrees` and `ReadTextAgrees` prove that they do.

    The statement parsers for conditions, loops, tags and value references
    are empty stubs in the source, so a statement is a literal or an empty
    stub.

    The source reads one token too many after the '>' of the closing tag,
    which swallows the '<' that opens the next definition.
    `ParseDefClosingTagAsWritten` keeps that behaviour. `ParseDefClosingTag`
    is the corrected version, and the rest of the model uses it. The
    parser's partner is a printer, `Templates`: parsing printed definitions
    gives them back. */
module Parser {
  import opened Wrappers
  import opened Tokens
  import opened Errors
  import opened StringsReader
  import opened Lexicon
  import opened Scanner

  datatype Statement =
    | Literal(content: string)
    | EmptyIf
    | EmptyFor
    | EmptyInlineTag
    | EmptyValueOf

  datatype Function = Function(identifier: string, arguments: seq<string>, instructions: seq<Statement>)

  /** The parser's view of the scanner. */
  datatype Cursor = Cursor(text: string, here: nat, kind: TokenType, value: string)

  predicate Ok(c: Cursor) {
    c.here <= |c.text|
  }

  /** The cursor before the first token. Its kind is never looked at. */
  function Start(text: string): (c: Cursor)
    ensures Ok(c) && c.text == text && c.here == 0
  {
    Cursor(text, 0, Invalid, "")
  }

  /** The token kinds that span no signs. */
  predicate Empty(k: TokenType) {
    k == Eof || k == Invalid
  }

  /** Skips whitespace and takes the lexeme there. */
  function Next(c: Cursor): (res: Cursor)
    requires Ok(c)
    ensures Ok(res) && res.text == c.text && c.here <= res.here
    ensures res.here == c.here ==> Empty(res.kind)
  {
    var i := RunEnd(c.text, c.here, IsWhitespaceSign);
    var l := LexemeAt(c.text, i);
    Cursor(c.text, i + l.length, l.kind, l.value)
  }

  lemma {:induction false} TextLengthWithin(s: string)
    ensures TextLength(s) <= |s|
    ensures TextValue(s) != "" ==> TextLength(s) > 0
  {
    var sp := LeadingSpaces(s);
    if BreakAfterSpaces(s) {
      var k := LeadingWhitespace(s);
      assert |s[k..]| == |s| - k;
    } else {
      assert |s[sp..]| == |s| - sp;
    }
  }

  /** Reads free text at the cursor: a text token when the text's value is
      non-empty, and the current token unchanged otherwise. */
  function ReadText(c: Cursor): (res: (bool, Cursor))
    requires Ok(c)
    ensures Ok(res.1) && res.1.text == c.text && c.here <= res.1.here
    ensures res.0 ==> c.here < res.1.here
    ensures res.0 <==> TextValue(c.text[c.here..]) != ""
    ensures res.0 ==> res.1.kind == Text && res.1.value == TextValue(c.text[c.here..])
    ensures !res.0 ==> res.1.kind == c.kind && res.1.value == c.value
  {
    var s := c.text[c.here..];
    TextLengthWithin(s);
    var v := TextValue(s);
    var moved := c.(here := c.here + TextLength(s));
    if v != "" then (true, moved.(kind := Text, value := v)) else (false, moved)
  }

  // ---------------------------------------------------------------------
  // The cursor follows the scanner
  // ---------------------------------------------------------------------

  /** How the parser sees a scanner that has read a token. */
  function View(sc: ScannerState): (c: Cursor)
    requires Valid(sc.reader) && sc.token.Some?
    ensures Ok(c)
  {
    Cursor(sc.reader.text, Here(sc.reader), sc.token.value.kind, sc.token.value.value)
  }

  lemma {:induction false} NextAgrees(sc: ScannerState)
    requires Valid(sc.reader) && sc.token.Some?
    ensures View(ReadNextToken(sc)) == Next(View(sc))
  {
  }

  lemma {:induction false} StartAgrees(text: string)
    ensures View(ReadNextToken(NewScanner(New(text)))) == Next(Start(text))
  {
  }

  lemma {:induction false} ReadTextAgrees(sc: ScannerState)
    requires Valid(sc.reader) && sc.token.Some?
    ensures TryReadText(sc).0 == ReadText(View(sc)).0
    ensures View(TryReadText(sc).1) == ReadText(View(sc)).1
  {
  }

  // ---------------------------------------------------------------------
  // Parsing
  // ---------------------------------------------------------------------

  /** What is left to read, counting a token that spans signs as half a
      sign more. Every round of the parser's loops lowers it. */
  function Remaining(c: Cursor): nat
    requires Ok(c)
  {
    2 * (|c.text| + 1 - c.here) + (if Empty(c.kind) then 0 else 1)
  }

  /** `d` is further on than `c`, or at the same place when `c`'s token
      spans signs (the next token read will then be further on). */
  predicate Progress(c: Cursor, d: Cursor) {
    c.here < d.here || (!Empty(c.kind) && c.here <= d.here)
  }

  /** The kinds of the current token and of the `n - 1` tokens after it. */
  function Ahead(c: Cursor, n: nat): (ks: seq<TokenType>)
    requires Ok(c)
    ensures |ks| == n
    ensures n > 0 ==> ks[0] == c.kind
    decreases n
  {
    if n == 0 then [] else [c.kind] + Ahead(Next(c), n - 1)
  }

  /** Checks the current token's kind and reads the next token. */
  function Expect(c: Cursor, expected: TokenType): (res: Result<Cursor, Error>)
    requires Ok(c)
    ensures res.Success? <==> c.kind == expected
    ensures res.Failure? ==> res.error == Parsing(UnexpectedToken(expected, c.kind))
    ensures res.Success? ==> res.value == Next(c)
  {
    if c.kind != expected then Failure(Parsing(UnexpectedToken(expected, c.kind)))
    else Success(Next(c))
  }

  /** The tokens every definition opens with, and those that close it. */
  const HeaderKinds: seq<TokenType> := [PointyBracketOpen, Def, Identifier, ParenthesisOpen]
  const ClosingKinds: seq<TokenType> := [TagClose, Def, PointyBracketClose]

  /** The argument list after '(': identifiers up to ')', each optionally
      followed by a comma. Stops with ')' as the current token. */
  function ParseArguments(c: Cursor): (res: Result<(seq<string>, Cursor), Error>)
    requires Ok(c)
    ensures res.Success? ==>
              Ok(res.value.1) && res.value.1.kind == ParenthesisClose &&
              res.value.1.text == c.text && c.here <= res.value.1.here
    ensures res.Failure? ==>
              res.error.Parsing? && res.error.parsing.UnexpectedToken? &&
              res.error.parsing.expected == Identifier &&
              res.error.parsing.found != Identifier && res.error.parsing.found != ParenthesisClose
    ensures c.kind == ParenthesisClose ==> res == Success(([], c))
    ensures res.Success? && c.kind == Identifier ==>
              |res.value.0| >= 1 && res.value.0[0] == c.value
    decreases Remaining(c)
  {
    if c.kind == ParenthesisClose then Success(([], c))
    else if c.kind != Identifier then Failure(Parsing(UnexpectedToken(Identifier, c.kind)))
    else
      var c1 := Next(c);
      var c2 := if c1.kind == Coma then Next(c1) else c1;
      var rest :- ParseArguments(c2);
      Success(([c.value] + rest.0, rest.1))
  }

  /** The opening tag `< :def name ( args ) >`. On success the first four
      tokens were the header kinds, the name is the identifier's value and
      '>' is the current token. */
  function ParseDefOpeningTag(c: Cursor): (res: Result<(string, seq<string>, Cursor), Error>)
    requires Ok(c)
    ensures res.Success? ==>
              Ahead(c, 4) == HeaderKinds && res.value.0 == Next(Next(c)).value &&
              Ok(res.value.2) && res.value.2.kind == PointyBracketClose &&
              res.value.2.text == c.text && c.here < res.value.2.here
  {
    var c1 :- Expect(c, PointyBracketOpen);
    var c2 :- Expect(c1, Def);
    var name := c2.value;
    var c3 :- Expect(c2, Identifier);
    var c4 :- Expect(c3, ParenthesisOpen);
    AheadFour(c);
    var args :- ParseArguments(c4);
    var c5 := Next(args.1);
    if c5.kind != PointyBracketClose then Failure(Parsing(UnexpectedToken(PointyBracketClose, c5.kind)))
    else Success((name, args.0, c5))
  }

  /** The kinds of the four tokens from the current one on. */
  lemma {:induction false} AheadFour(c: Cursor)
    requires Ok(c)
    ensures Ahead(c, 4) == [c.kind, Next(c).kind, Next(Next(c)).kind, Next(Next(Next(c))).kind]
  {
    var c1 := Next(c);
    var c2 := Next(c1);
    var c3 := Next(c2);
    assert Ahead(c3, 1) == [c3.kind];
    assert Ahead(c2, 2) == [c2.kind] + Ahead(c3, 1);
    assert Ahead(c1, 3) == [c1.kind] + Ahead(c2, 2);
  }

  /** A header that is not exactly `< :def identifier (` fails at the first
      token of the wrong kind, naming the kind expected there and the kind
      found. */
  lemma {:induction false} HeaderFails(c: Cursor)
    requires Ok(c)
    ensures var c1 := Next(c);
            var c2 := Next(c1);
            var c3 := Next(c2);
            var res := ParseDefOpeningTag(c);
            (c.kind != PointyBracketOpen ==>
               res == Failure(Parsing(UnexpectedToken(PointyBracketOpen, c.kind)))) &&
            (c.kind == PointyBracketOpen && c1.kind != Def ==>
               res == Failure(Parsing(UnexpectedToken(Def, c1.kind)))) &&
            (c.kind == PointyBracketOpen && c1.kind == Def && c2.kind != Identifier ==>
               res == Failure(Parsing(UnexpectedToken(Identifier, c2.kind)))) &&
            (c.kind == PointyBracketOpen && c1.kind == Def && c2.kind == Identifier &&
             c3.kind != ParenthesisOpen ==>
               res == Failure(Parsing(UnexpectedToken(ParenthesisOpen, c3.kind))))
  {
  }

  // ---------------------------------------------------------------------
  // Statements and bodies
  // ---------------------------------------------------------------------

  /** The stub a statement opening with '<' becomes, by the keyword or
      identifier after the '<'. */
  function TagStub(k: TokenType): Option<Statement> {
    match k
    case If => Some(EmptyIf)
    case For => Some(EmptyFor)
    case Identifier => Some(EmptyInlineTag)
    case _ => None
  }

  /** One statement of a body. Free text before the next token is a
      literal; otherwise the current token must open a tag ('<' followed by
      `:if`, `:for` or an identifier) or a value reference ('{'). */
  function ParseStatement(c: Cursor): (res: Result<(Statement, Cursor), Error>)
    requires Ok(c)
    ensures res.Success? ==> Ok(res.value.1) && res.value.1.text == c.text && Progress(c, res.value.1)
  {
    var (isText, c1) := ReadText(c);
    if isText then Success((Literal(c1.value), c1))
    else if c1.kind == PointyBracketOpen then
      var c2 := Next(c1);
      match TagStub(c2.kind)
      case Some(stub) => Success((stub, c2))
      case None => Failure(Parsing(ExpectedKeywordOrIdentifier(c2.kind)))
    else if c1.kind == CurlyBracketOpen then
      Success((EmptyValueOf, Next(c1)))
    else
      Failure(Parsing(ParsingFailed))
  }

  /** Free text before the next token is a literal holding the text's
      value. */
  lemma {:induction false} StatementText(c: Cursor)
    requires Ok(c) && ReadText(c).0
    ensures ParseStatement(c) == Success((Literal(TextValue(c.text[c.here..])), ReadText(c).1))
  {
  }

  /** Without free text, '<' opens a tag whose stub is named by the token
      after it; anything other than `:if`, `:for` or an identifier there
      fails, naming what was found. */
  lemma {:induction false} StatementTag(c: Cursor)
    requires Ok(c) && !ReadText(c).0 && c.kind == PointyBracketOpen
    ensures var next := Next(ReadText(c).1).kind;
            (ParseStatement(c).Success? <==> next == If || next == For || next == Identifier) &&
            (ParseStatement(c).Success? ==> ParseStatement(c).value.0 == TagStub(next).value) &&
            (ParseStatement(c).Failure? ==>
               ParseStatement(c).error == Parsing(ExpectedKeywordOrIdentifier(next)))
  {
    var c2 := Next(ReadText(c).1);
    TagStubKinds(c2.kind);
  }

  lemma {:induction false} TagStubKinds(k: TokenType)
    ensures TagStub(k).Some? <==> k == If || k == For || k == Identifier
  {
  }

  /** Without free text, '{' opens a value reference. */
  lemma {:induction false} StatementValueOf(c: Cursor)
    requires Ok(c) && !ReadText(c).0 && c.kind == CurlyBracketOpen
    ensures ParseStatement(c).Success? && ParseStatement(c).value.0 == EmptyValueOf
  {
  }

  /** Without free text, any token other than '<' or '{' fails. */
  lemma {:induction false} StatementOther(c: Cursor)
    requires Ok(c) && !ReadText(c).0 && c.kind != PointyBracketOpen && c.kind != CurlyBracketOpen
    ensures ParseStatement(c) == Failure(Parsing(ParsingFailed))
  {
  }

  /** The statements of a body, up to the closing tag's '</'. */
  function ParseBody(c: Cursor): (res: Result<(seq<Statement>, Cursor), Error>)
    requires Ok(c)
    ensures res.Success? ==>
              Ok(res.value.1) && res.value.1.kind == TagClose &&
              res.value.1.text == c.text && c.here <= res.value.1.here
    ensures c.kind == TagClose ==> res == Success(([], c))
    decreases Remaining(c)
  {
    if c.kind == TagClose then Success(([], c))
    else
      var st :- ParseStatement(c);
      var rest :- ParseBody(Next(st.1));
      Success(([st.0] + rest.0, rest.1))
  }

  /** A body that runs into the end of the text fails. */
  lemma {:induction false} BodyAtEndFails(c: Cursor)
    requires Ok(c) && c.here == |c.text| && c.kind != TagClose
    ensures ParseBody(c).Failure? && ParseBody(c).error.Parsing?
  {
    var s := c.text[c.here..];
    assert s == [];
    var e := Next(c);
    assert e.here == c.here && e.kind == Eof;
    if c.kind == CurlyBracketOpen {
      assert ParseBody(e) == Failure(Parsing(ParsingFailed));
    }
  }

  // ---------------------------------------------------------------------
  // Definitions
  // ---------------------------------------------------------------------

  /** A definition up to its closing tag: the opening tag, the free text
      right after it as the first literal, then the statements up to '</'.
      '</' is the current token on success. */
  function ParseDefinition(c: Cursor): (res: Result<(Function, Cursor), Error>)
    requires Ok(c)
    ensures res.Success? ==>
              Ok(res.value.1) && res.value.1.kind == TagClose &&
              res.value.1.text == c.text && c.here < res.value.1.here
  {
    var header :- ParseDefOpeningTag(c);
    var (isText, c1) := ReadText(header.2);
    var first := if isText then [Literal(c1.value)] else [];
    var body :- ParseBody(Next(c1));
    Success((Function(header.0, header.1, first + body.0), body.1))
  }

  /** The current token and the two after it are `</ :def >`. */
  predicate ClosingAt(c: Cursor)
    requires Ok(c)
  {
    c.kind == TagClose && Next(c).kind == Def && Next(Next(c)).kind == PointyBracketClose
  }

  lemma {:induction false} ClosingAtKinds(c: Cursor)
    requires Ok(c)
    ensures ClosingAt(c) <==> Ahead(c, 3) == ClosingKinds
  {
    var c1 := Next(c);
    var c2 := Next(c1);
    assert Ahead(c2, 1) == [c2.kind];
    assert Ahead(c1, 2) == [c1.kind] + Ahead(c2, 1);
    assert Ahead(c, 3) == [c.kind, c1.kind, c2.kind];
  }

  /** The closing tag `</ :def >` as written: the token after '>' is read
      as well. */
  function ParseDefClosingTagAsWritten(c: Cursor): (res: Result<Cursor, Error>)
    requires Ok(c)
    ensures res.Success? <==> ClosingAt(c)
    ensures res.Success? ==> res.value == Next(Next(Next(c)))
  {
    var c1 :- Expect(c, TagClose);
    var c2 :- Expect(c1, Def);
    var c3 :- Expect(c2, PointyBracketClose);
    Success(c3)
  }

  /** The corrected closing tag: '>' stays the current token, as it does
      after the opening tag, so that the next definition starts with the
      token after it. */
  function ParseDefClosingTag(c: Cursor): (res: Result<Cursor, Error>)
    requires Ok(c)
    ensures res.Success? <==> ClosingAt(c)
    ensures res.Success? ==> res.value == Next(Next(c))
  {
    var c1 :- Expect(c, TagClose);
    var c2 :- Expect(c1, Def);
    if c2.kind != PointyBracketClose then Failure(Parsing(UnexpectedToken(PointyBracketClose, c2.kind)))
    else Success(c2)
  }

  /** The next definition, or none when only whitespace is left. */
  function ParseFunction(c: Cursor): (res: Result<(Option<Function>, Cursor), Error>)
    requires Ok(c)
    ensures res.Success? ==> Ok(res.value.1) && res.value.1.text == c.text
    ensures res.Success? && res.value.0.Some? ==> c.here < res.value.1.here
    ensures (res.Success? && res.value.0.None?) <==> Blank(c.text, c.here)
  {
    var c0 := Next(c);
    BlankIsEof(c);
    if c0.kind == Eof then Success((None, c0))
    else
      var d :- ParseDefinition(c0);
      var e :- ParseDefClosingTag(d.1);
      Success((Some(d.0), e))
  }

  function ParseFunctionAsWritten(c: Cursor): (res: Result<(Option<Function>, Cursor), Error>)
    requires Ok(c)
    ensures res.Success? ==> Ok(res.value.1) && res.value.1.text == c.text
    ensures res.Success? && res.value.0.Some? ==> c.here < res.value.1.here
    ensures (res.Success? && res.value.0.None?) <==> Blank(c.text, c.here)
  {
    var c0 := Next(c);
    BlankIsEof(c);
    if c0.kind == Eof then Success((None, c0))
    else
      var d :- ParseDefinition(c0);
      var e :- ParseDefClosingTagAsWritten(d.1);
      Success((Some(d.0), e))
  }

  /** Only whitespace is left from index `i` on. */
  predicate Blank(text: string, i: nat) {
    forall k | i <= k < |text| :: IsWhitespaceSign(text[k] as int)
  }

  lemma {:induction false} BlankIsEof(c: Cursor)
    requires Ok(c)
    ensures Next(c).kind == Eof <==> Blank(c.text, c.here)
  {
    var j := RunEnd(c.text, c.here, IsWhitespaceSign);
    if j < |c.text| {
      assert !IsWhitespaceSign(c.text[j] as int);
    } else {
      forall k | c.here <= k < |c.text|
        ensures IsWhitespaceSign(c.text[k] as int)
      {
        assert IsWhitespaceSign(SignAt(c.text, k));
      }
    }
  }

  /** The definitions from the cursor on, in the order they are written. */
  function ParseFrom(c: Cursor): (res: Result<seq<Function>, Error>)
    requires Ok(c)
    ensures Blank(c.text, c.here) ==> res == Success([])
    decreases |c.text| - c.here
  {
    var f :- ParseFunction(c);
    if f.0.None? then Success([])
    else
      var rest :- ParseFrom(f.1);
      Success([f.0.value] + rest)
  }

  function ParseFromAsWritten(c: Cursor): (res: Result<seq<Function>, Error>)
    requires Ok(c)
    ensures Blank(c.text, c.here) ==> res == Success([])
    decreases |c.text| - c.here
  {
    var f :- ParseFunctionAsWritten(c);
    if f.0.None? then Success([])
    else
      var rest :- ParseFromAsWritten(f.1);
      Success([f.0.value] + rest)
  }

  /** The definitions of a template; empty or blank text has none. */
  function Parse(text: string): (res: Result<seq<Function>, Error>)
    ensures Blank(text, 0) ==> res == Success([])
  {
    ParseFrom(Start(text))
  }

  function ParseAsWritten(text: string): (res: Result<seq<Function>, Error>)
    ensures Blank(text, 0) ==> res == Success([])
  {
    ParseFromAsWritten(Start(text))
  }
}

=== FILE: ParserRoundTrip.dfy ===
/** A printer for function definitions, the parser's partner
    (TKOM/Tools/Parser.cs).

    `Templates` writes definitions as template text; `ParsePrinted` proves
    that parsing the text gives them back. The printer writes what the
    parser can read back: names are identifiers that do not start with
    the keyword `in` (`InNameRejected` shows that such names do not read
    back at all), and a body is empty or one literal. Its text is
    escaped, does not start with whitespace (leading whitespace is
    trimmed on reading) and does not start with '=' (which would turn the
    '>' before it into '>='). The closing tag as written does not survive
    a second definition: `AsWrittenFailsOnTwo` shows it. */
module ParserRoundTrip {
  import opened Wrappers
  import opened Tokens
  import opened Errors
  import opened StringsReader
  import opened Keywords
  import opened Lexicon
  import opened Parser

  // ---------------------------------------------------------------------
  // Lexemes of printed text
  // ---------------------------------------------------------------------

  lemma {:induction false} SpelledChar(text: string, i: int, w: string, k: nat)
    requires SpelledAt(text, i, w) && k < |w|
    ensures text[i + k] == w[k]
  {
    assert text[i..i + |w|][k] == text[i + k];
  }

  /** '<' followed by ':' is the one-sign token '<'. */
  lemma {:induction false} LexemeOpen(text: string, i: nat)
    requires SpelledAt(text, i, "<:")
    ensures LexemeAt(text, i) == Lexeme(PointyBracketOpen, "", 1)
  {
    SpelledTwo(text, i, '<', ':');
    LexemeIsSign(text, i);
  }

  lemma {:induction false} LexemeTagClose(text: string, i: nat)
    requires SpelledAt(text, i, "</")
    ensures LexemeAt(text, i) == Lexeme(TagClose, "", 2)
  {
    SpelledTwo(text, i, '<', '/');
    LexemeIsSign(text, i);
  }

  lemma {:induction false} LexemeDef(text: string, i: nat)
    requires SpelledAt(text, i, ":def")
    ensures LexemeAt(text, i) == Lexeme(Def, "", 4)
  {
    KeywordSigns(text, i, Def);
    LexemeIsKeyword(text, i);
  }

  /** '>' not followed by '=' is the one-sign token '>'. */
  lemma {:induction false} LexemeClose(text: string, i: nat)
    requires i < |text| && text[i] == '>' && SignAt(text, i + 1) != '=' as int
    ensures LexemeAt(text, i) == Lexeme(PointyBracketClose, "", 1)
  {
    LexemeIsSign(text, i);
  }

  /** The signs that are tokens on their own whatever follows them. */
  predicate IsLoneSign(w: char) {
    w == '(' || w == ')' || w == ','
  }

  function LoneSignKind(w: char): TokenType
    requires IsLoneSign(w)
  {
    if w == '(' then ParenthesisOpen else if w == ')' then ParenthesisClose else Coma
  }

  lemma {:induction false} LexemeLoneSign(text: string, i: nat)
    requires i < |text| && IsLoneSign(text[i])
    ensures LexemeAt(text, i) == Lexeme(LoneSignKind(text[i]), "", 1)
  {
    LexemeIsSign(text, i);
  }

  lemma {:induction false} SpelledTwo(text: string, i: nat, a: char, b: char)
    ensures SpelledAt(text, i, [a, b]) <==> SignAt(text, i) == a as int && SignAt(text, i + 1) == b as int
  {
    if i + 1 < |text| { assert text[i..i + 2] == [text[i], text[i + 1]]; }
  }

  /** A name the printer may write: an identifier that the keyword `in`
      does not swallow. */
  predicate PrintableName(name: string) {
    |name| > 0 && StartsIdentifier(name[0] as int) &&
    (forall k | 1 <= k < |name| :: IsIdentifierSign(name[k] as int)) &&
    !(|name| >= 2 && name[0] == 'i' && name[1] == 'n')
  }

  /** A name followed by a sign that may end an identifier is the
      identifier token holding the name. */
  lemma {:induction false} LexemeName(text: string, i: nat, name: string)
    requires PrintableName(name) && SpelledAt(text, i, name)
    requires EndsIdentifier(SignAt(text, i + |name|))
    ensures LexemeAt(text, i) == Lexeme(Identifier, name, |name|)
  {
    NameNotKeyword(text, i, name);
    NameNotSignOrNumber(text, i, name);
    NameIsIdentifier(text, i, name);
    LexemeIsIdentifierOrInvalid(text, i);
  }

  /** A name starts with neither a sign nor a digit. */
  lemma {:induction false} NameNotSignOrNumber(text: string, i: nat, name: string)
    requires PrintableName(name) && SpelledAt(text, i, name)
    ensures i < |text| && SignTokenAt(text, i).None? && NumberAt(text, i).None?
  {
    SpelledChar(text, i, name, 0);
    LetterNotSign(text, i);
    LetterNotNumber(text, i);
  }

  lemma {:induction false} LetterNotSign(text: string, i: nat)
    requires StartsIdentifier(SignAt(text, i))
    ensures SignTokenAt(text, i).None?
  {
  }

  lemma {:induction false} LetterNotNumber(text: string, i: nat)
    requires StartsIdentifier(SignAt(text, i))
    ensures NumberAt(text, i).None?
  {
    assert RunEnd(text, i, IsDigitSign) == i;
  }

  lemma {:induction false} NameIsIdentifier(text: string, i: nat, name: string)
    requires PrintableName(name) && SpelledAt(text, i, name)
    requires EndsIdentifier(SignAt(text, i + |name|))
    ensures IdentifierAt(text, i) == Some(name)
  {
    SpelledChar(text, i, name, 0);
    forall k | i + 1 <= k < i + |name|
      ensures IsIdentifierSign(SignAt(text, k))
    {
      SpelledChar(text, i, name, k - i);
    }
    RunEndUnique(text, i + 1, i + |name|, IsIdentifierSign);
  }

  /** A name starts with neither ':' nor "in". */
  lemma {:induction false} NameNotKeyword(text: string, i: nat, name: string)
    requires PrintableName(name) && SpelledAt(text, i, name)
    requires EndsIdentifier(SignAt(text, i + |name|))
    ensures KeywordAt(text, i).None?
  {
    SpelledChar(text, i, name, 0);
    if |name| >= 2 {
      SpelledChar(text, i, name, 1);
    }
  }

  // ---------------------------------------------------------------------
  // Reading printed text token by token
  // ---------------------------------------------------------------------

  lemma {:induction false} SpelledSplit(text: string, i: int, x: string, y: string)
    requires SpelledAt(text, i, x + y)
    ensures SpelledAt(text, i, x) && SpelledAt(text, i + |x|, y)
  {
    assert text[i..i + |x|] == text[i..i + |x + y|][..|x|] == (x + y)[..|x|] == x;
    assert text[i + |x|..i + |x| + |y|] == text[i..i + |x + y|][|x|..] == (x + y)[|x|..] == y;
  }

  predicate WhitespaceBetween(text: string, i: int, j: int) {
    forall k | i <= k < j :: IsWhitespaceSign(SignAt(text, k))
  }

  /** Whitespace before the next token does not change what is read. */
  lemma {:induction false} NextSkips(c: Cursor, p: nat)
    requires Ok(c) && c.here <= p <= |c.text| && WhitespaceBetween(c.text, c.here, p)
    ensures Next(c) == Next(c.(here := p))
  {
    SkipsTo(c.text, c.here, p);
  }

  lemma {:induction false} SkipsTo(text: string, h: nat, p: nat)
    requires h <= p <= |text| && WhitespaceBetween(text, h, p)
    ensures RunEnd(text, h, IsWhitespaceSign) == RunEnd(text, p, IsWhitespaceSign)
  {
    var j := RunEnd(text, p, IsWhitespaceSign);
    RunEndWithin(text, h, p, j, IsWhitespaceSign);
  }

  /** A cursor standing right before a sign that is not whitespace reads
      the lexeme there. */
  lemma {:induction false} StepAt(c: Cursor)
    requires Ok(c) && !IsWhitespaceSign(SignAt(c.text, c.here))
    ensures var l := LexemeAt(c.text, c.here);
            Next(c) == Cursor(c.text, c.here + l.length, l.kind, l.value)
  {
  }

  // ---------------------------------------------------------------------
  // The printer
  // ---------------------------------------------------------------------

  /** The arguments separated by ", ". */
  function ArgumentList(args: seq<string>): (s: string)
  {
    if args == [] then ""
    else if |args| == 1 then args[0]
    else args[0] + (", " + ArgumentList(args[1..]))
  }

  /** Reading on from `c`, the argument parser gives back `args` and stops
      at a ')' that ends at `end`. */
  predicate ArgumentsRead(c: Cursor, args: seq<string>, end: nat)
    requires Ok(c)
  {
    ParseArguments(Next(c)) == Success((args, Cursor(c.text, end, ParenthesisClose, "")))
  }

  /** `args` are written from `p` on as the printer writes them, followed
      by ')', which ends at `end`. */
  predicate ListSpelled(text: string, p: nat, args: seq<string>, end: nat)
    decreases |args|
  {
    if args == [] then SpelledAt(text, p, ")") && end == p + 1
    else if |args| == 1 then SpelledAt(text, p, args[0] + ")") && end == p + |args[0]| + 1
    else SpelledAt(text, p, args[0] + ", ") && ListSpelled(text, p + |args[0]| + 2, args[1..], end)
  }

  lemma {:induction false} ArgumentListSpelled(text: string, p: nat, args: seq<string>)
    requires SpelledAt(text, p, ArgumentList(args) + ")")
    ensures ListSpelled(text, p, args, p + |ArgumentList(args)| + 1)
    decreases |args|
  {
    if |args| >= 2 {
      var a, rest := args[0], args[1..];
      var tail := ArgumentList(rest) + ")";
      assert ArgumentList(args) + ")" == (a + ", ") + tail;
      SpelledSplit(text, p, a + ", ", tail);
      ArgumentListSpelled(text, p + |a| + 2, rest);
    }
  }

  /** The token the argument parser meets first when `args` are written
      from `p` on and their list ends at `end`. */
  function FirstToken(text: string, p: nat, args: seq<string>, end: nat): (d: Cursor)
    ensures args == [] ==> d.kind == ParenthesisClose
    ensures args != [] ==> d.kind == Identifier && d.value == args[0]
  {
    if args == [] then Cursor(text, end, ParenthesisClose, "")
    else Cursor(text, p + |args[0]|, Identifier, args[0])
  }

  /** Reading from `c`, which stands right at written arguments, gives their
      first token, and the argument parser goes on from there to `args`. */
  predicate ListRead(c: Cursor, args: seq<string>, end: nat)
    requires Ok(c)
  {
    var d := FirstToken(c.text, c.here, args, end);
    Next(c) == d && Ok(d) &&
    ParseArguments(d) == Success((args, Cursor(c.text, end, ParenthesisClose, "")))
  }

  /** Every argument the parser reads back from printed text is the one
      printed, up to the ')' after their list. */
  lemma {:induction false} ArgumentsRoundTrip(c: Cursor, p: nat, args: seq<string>, end: nat)
    requires Ok(c) && c.here <= p && WhitespaceBetween(c.text, c.here, p)
    requires forall a | a in args :: PrintableName(a)
    requires SpelledAt(c.text, p, ArgumentList(args) + ")") && end == p + |ArgumentList(args)| + 1
    ensures ArgumentsRead(c, args, end)
  {
    ArgumentListSpelled(c.text, p, args);
    ArgumentsFromList(c.(here := p), args, end);
    NextSkips(c, p);
  }

  lemma {:induction false} ArgumentsFromList(c: Cursor, args: seq<string>, end: nat)
    requires Ok(c)
    requires forall a | a in args :: PrintableName(a)
    requires ListSpelled(c.text, c.here, args, end)
    ensures ListRead(c, args, end)
    decreases |args|, 1
  {
    if args == [] {
      ListNone(c, end);
    } else if |args| == 1 {
      ListOne(c, args, end);
    } else {
      ListSeveral(c, args, end);
    }
  }

  lemma {:induction false} ListNone(c: Cursor, end: nat)
    requires Ok(c) && SpelledAt(c.text, c.here, ")") && end == c.here + 1
    ensures ListRead(c, [], end)
  {
    SignStep(c, ")");
  }

  lemma {:induction false} ListOne(c: Cursor, args: seq<string>, end: nat)
    requires Ok(c) && |args| == 1 && PrintableName(args[0]) && SpelledAt(c.text, c.here, args[0] + ")")
    requires end == c.here + |args[0]| + 1
    ensures ListRead(c, args, end)
  {
    NameThenSign(c, args[0], ")");
    ListOneRead(c, args, end);
  }

  /** The list of the first name and those after it, by the induction
      hypothesis on the shorter list. */
  lemma {:induction false} ListSeveral(c: Cursor, args: seq<string>, end: nat)
    requires Ok(c) && |args| >= 2
    requires forall a | a in args :: PrintableName(a)
    requires SpelledAt(c.text, c.here, args[0] + ", ")
    requires ListSpelled(c.text, c.here + |args[0]| + 2, args[1..], end)
    ensures ListRead(c, args, end)
    decreases |args|, 0
  {
    var a, rest := args[0], args[1..];
    var spaced := Cursor(c.text, c.here + |a| + 2, Coma, "");
    assert forall b | b in rest :: PrintableName(b) by {
      assert forall b | b in rest :: b in args;
    }
    ArgumentsFromList(spaced, rest, end);
    FirstOfSeveral(c, a);
    ListMoreRead(c, args, end);
  }

  /** A single name read up to ')'. */
  lemma {:induction false} ListOneRead(c: Cursor, args: seq<string>, end: nat)
    requires Ok(c) && |args| == 1
    requires var id := Cursor(c.text, c.here + |args[0]|, Identifier, args[0]);
             Next(c) == id && Next(id) == Cursor(c.text, end, ParenthesisClose, "")
    requires end == c.here + |args[0]| + 1
    ensures ListRead(c, args, end)
  {
    var close := Cursor(c.text, end, ParenthesisClose, "");
    assert ParseArguments(close) == Success(([], close));
    assert [args[0]] + [] == args;
  }

  /** One more name in front of a list already read, joined by ", ". */
  lemma {:induction false} ListMoreRead(c: Cursor, args: seq<string>, end: nat)
    requires Ok(c) && |args| >= 2
    requires var id := Cursor(c.text, c.here + |args[0]| , Identifier, args[0]);
             var comma := Cursor(c.text, c.here + |args[0]| + 1, Coma, "");
             var spaced := Cursor(c.text, c.here + |args[0]| + 2, Coma, "");
             Ok(spaced) && Next(c) == id && Next(id) == comma && Next(comma) == Next(spaced) &&
             ListRead(spaced, args[1..], end)
    ensures ListRead(c, args, end)
  {
    hide Next;
    assert [args[0]] + args[1..] == args;
  }

  /** The steps over a name, a comma and a space. */
  lemma {:induction false} FirstOfSeveral(c: Cursor, a: string)
    requires Ok(c) && PrintableName(a) && SpelledAt(c.text, c.here, a + ", ")
    ensures var id := Cursor(c.text, c.here + |a| , Identifier, a);
            var comma := Cursor(c.text, c.here + |a| + 1, Coma, "");
            var spaced := Cursor(c.text, c.here + |a| + 2, Coma, "");
            Ok(spaced) && Next(c) == id && Next(id) == comma && Next(comma) == Next(spaced)
  {
    SpaceAfterComma(c, a);
    NameThenSign(c, a, ", ");
  }

  /** The space after a comma is skipped. */
  lemma {:induction false} SpaceAfterComma(c: Cursor, a: string)
    requires Ok(c) && SpelledAt(c.text, c.here, a + ", ")
    ensures var comma := Cursor(c.text, c.here + |a| + 1, Coma, "");
            Next(comma) == Next(comma.(here := c.here + |a| + 2))
  {
    hide Next;
    var comma := Cursor(c.text, c.here + |a| + 1, Coma, "");
    SpelledChar(c.text, c.here, a + ", ", |a| + 1);
    assert (a + ", ")[|a| + 1] == ' ';
    NextSkips(comma, c.here + |a| + 2);
  }

  /** A name and the lone sign after it, read one after the other. */
  lemma {:induction false} NameThenSign(c: Cursor, a: string, w: string)
    requires Ok(c) && PrintableName(a) && |w| > 0 && IsLoneSign(w[0]) && SpelledAt(c.text, c.here, a + w)
    ensures var id := Cursor(c.text, c.here + |a|, Identifier, a);
            Next(c) == id && Next(id) == Cursor(c.text, c.here + |a| + 1, LoneSignKind(w[0]), "")
  {
    var id := Cursor(c.text, c.here + |a|, Identifier, a);
    SpelledSplit(c.text, c.here, a, w);
    SignStep(id, w);
    NameStep(c, a, w);
  }

  /** Reading a lone sign right at the cursor. */
  lemma {:induction false} SignStep(c: Cursor, w: string)
    requires Ok(c) && |w| > 0 && IsLoneSign(w[0]) && SpelledAt(c.text, c.here, w)
    ensures Next(c) == Cursor(c.text, c.here + 1, LoneSignKind(w[0]), "")
  {
    SpelledChar(c.text, c.here, w, 0);
    LexemeLoneSign(c.text, c.here);
    StepAt(c);
  }

  /** Reading a name right at the cursor, followed by a lone sign. */
  lemma {:induction false} NameStep(c: Cursor, a: string, after: string)
    requires Ok(c) && PrintableName(a) && SpelledAt(c.text, c.here, a) && SpelledAt(c.text, c.here + |a|, after)
    requires |after| > 0 && IsLoneSign(after[0])
    ensures Next(c) == Cursor(c.text, c.here + |a|, Identifier, a)
  {
    SpelledChar(c.text, c.here + |a|, after, 0);
    LexemeName(c.text, c.here, a);
    SpelledChar(c.text, c.here, a, 0);
    StepAt(c);
  }

  // ---------------------------------------------------------------------
  // Printing whole definitions
  // ---------------------------------------------------------------------

  /** The opening tag `<:def name(args)>`. */
  function Header(name: string, args: seq<string>): string {
    "<:def " + name + "(" + (ArgumentList(args) + ")") + ">"
  }

  const ClosingTag: string := "</:def>"

  /** The body of a definition as text: its literal, escaped. */
  function BodyText(f: Function): string {
    if f.instructions == [] || !f.instructions[0].Literal? then ""
    else Escape(f.instructions[0].content, TextEscapes)
  }

  function Template(f: Function): string {
    Header(f.identifier, f.arguments) + BodyText(f) + ClosingTag
  }

  /** The definitions written one after the other. */
  function Templates(fs: seq<Function>): string
    decreases |fs|
  {
    if fs == [] then "" else Template(fs[0]) + Templates(fs[1..])
  }

  /** A literal the printer may write as a body: non-empty, not starting
      with whitespace (which reading trims) or '=' (which would join the
      '>' before it into '>='). */
  predicate PrintableBody(v: string) {
    v != "" && !IsWhitespaceSign(v[0] as int) && v[0] != '='
  }

  /** A definition the printer writes so that it reads back. */
  predicate Printable(f: Function) {
    PrintableName(f.identifier) && (forall a | a in f.arguments :: PrintableName(a)) &&
    (f.instructions == [] ||
     (|f.instructions| == 1 && f.instructions[0].Literal? && PrintableBody(f.instructions[0].content)))
  }

  lemma {:induction false} SpelledSub(text: string, i: int, w: string, a: nat, b: nat)
    requires SpelledAt(text, i, w) && a <= b <= |w|
    ensures SpelledAt(text, i + a, w[a..b])
  {
    var t := text[i..i + |w|];
    forall k | 0 <= k < b - a
      ensures t[a..b][k] == text[i + a..i + b][k]
    {
    }
    assert t[a..b] == text[i + a..i + b];
  }

  /** The pieces of an opening tag, at their offsets. */
  lemma {:induction false} HeaderPieces(text: string, h: nat, name: string, args: seq<string>)
    requires SpelledAt(text, h, Header(name, args))
    ensures var q := h + 7 + |name|;
            SpelledAt(text, h, "<:") && SpelledAt(text, h + 1, ":def") && SignAt(text, h + 5) == ' ' as int &&
            SpelledAt(text, h + 6, name) && SpelledAt(text, h + 6 + |name|, "(") &&
            SpelledAt(text, q, ArgumentList(args) + ")") &&
            SpelledAt(text, q + |ArgumentList(args)| + 1, ">") &&
            |Header(name, args)| == q + |ArgumentList(args)| + 2 - h
  {
    var lead := "<:def ";
    var x := ArgumentList(args) + ")";
    SpelledSplit(text, h, lead + name + "(" + x, ">");
    SpelledSplit(text, h, lead + name + "(", x);
    SpelledSplit(text, h, lead + name, "(");
    SpelledSplit(text, h, lead, name);
    SpelledSub(text, h, lead, 0, 2);
    SpelledSub(text, h, lead, 1, 5);
    SpelledChar(text, h, lead, 5);
    assert lead[0..2] == "<:" && lead[1..5] == ":def";
  }

  /** The cursors the opening tag passes through: '<' and ':def'. */
  lemma {:induction false} HeaderOpenTokens(c: Cursor, name: string, args: seq<string>, o: Cursor, d: Cursor)
    requires Ok(c) && SpelledAt(c.text, c.here, Header(name, args))
    requires o == Cursor(c.text, c.here + 1, PointyBracketOpen, "") && d == Cursor(c.text, c.here + 5, Def, "")
    ensures Next(c) == o && Next(o) == d
  {
    var h, text := c.here, c.text;
    HeaderPieces(text, h, name, args);
    SpelledChar(text, h, "<:", 0);
    LexemeOpen(text, h);
    StepAt(c);
    SpelledChar(text, h + 1, ":def", 0);
    LexemeDef(text, h + 1);
    StepAt(o);
  }

  /** The cursors after ':def': the name and '('. */
  lemma {:induction false} HeaderNameTokens(c: Cursor, name: string, args: seq<string>, d: Cursor, n: Cursor, p: Cursor)
    requires Ok(c) && PrintableName(name) && SpelledAt(c.text, c.here, Header(name, args))
    requires d == Cursor(c.text, c.here + 5, Def, "") && n == Cursor(c.text, c.here + 6 + |name|, Identifier, name)
    requires p == Cursor(c.text, c.here + 7 + |name|, ParenthesisOpen, "")
    ensures Next(d) == n && Next(n) == p
  {
    var h, text := c.here, c.text;
    HeaderPieces(text, h, name, args);
    NextSkips(d, h + 6);
    NameStep(d.(here := h + 6), name, "(");
    SignStep(n, "(");
  }

  /** The opening tag parser over the tokens it meets. */
  lemma {:induction false} OpeningFromTokens(o: Cursor, d: Cursor, n: Cursor, p: Cursor, args: seq<string>, end: nat,
                                             close: Cursor, g: Cursor)
    requires Ok(o) && o.kind == PointyBracketOpen
    requires Next(o) == d && d.kind == Def && Next(d) == n && n.kind == Identifier
    requires Next(n) == p && p.kind == ParenthesisOpen && Ok(p)
    requires ArgumentsRead(p, args, end) && close == Cursor(p.text, end, ParenthesisClose, "") && Ok(close)
    requires Next(close) == g && g.kind == PointyBracketClose
    ensures ParseDefOpeningTag(o) == Success((n.value, args, g))
  {
    hide Next;
  }

  /** The arguments of an opening tag and the ')' after them. */
  lemma {:induction false} HeaderArgumentsSpelled(text: string, h: nat, name: string, args: seq<string>)
    requires SpelledAt(text, h, Header(name, args))
    ensures SpelledAt(text, h + 7 + |name|, ArgumentList(args) + ")")
  {
    HeaderPieces(text, h, name, args);
  }

  /** The '>' that ends an opening tag. */
  lemma {:induction false} HeaderClose(c: Cursor, name: string, args: seq<string>, close: Cursor, g: Cursor)
    requires Ok(c) && SpelledAt(c.text, c.here, Header(name, args))
    requires SignAt(c.text, c.here + |Header(name, args)|) != '=' as int
    requires close == Cursor(c.text, c.here + 7 + |name| + |ArgumentList(args)| + 1, ParenthesisClose, "")
    requires g == Cursor(c.text, c.here + |Header(name, args)|, PointyBracketClose, "")
    ensures Ok(close) && Next(close) == g
  {
    var text := c.text;
    var end := c.here + 7 + |name| + |ArgumentList(args)| + 1;
    HeaderPieces(text, c.here, name, args);
    SpelledChar(text, end, ">", 0);
    LexemeClose(text, end);
    StepAt(close);
  }

  /** The tokens of an opening tag, one after the other. */
  lemma {:induction false} HeaderSteps(c: Cursor, name: string, args: seq<string>, o: Cursor, d: Cursor, n: Cursor,
                                       p: Cursor, q: nat, end: nat, close: Cursor, g: Cursor)
    requires Ok(c) && PrintableName(name) && (forall a | a in args :: PrintableName(a))
    requires SpelledAt(c.text, c.here, Header(name, args))
    requires SignAt(c.text, c.here + |Header(name, args)|) != '=' as int
    requires o == Cursor(c.text, c.here + 1, PointyBracketOpen, "") && d == Cursor(c.text, c.here + 5, Def, "")
    requires n == Cursor(c.text, c.here + 6 + |name|, Identifier, name)
    requires q == c.here + 7 + |name| && p == Cursor(c.text, q, ParenthesisOpen, "")
    requires end == q + |ArgumentList(args)| + 1 && close == Cursor(c.text, end, ParenthesisClose, "")
    requires g == Cursor(c.text, c.here + |Header(name, args)|, PointyBracketClose, "")
    ensures Next(c) == o && Next(o) == d && Next(d) == n && Next(n) == p && Ok(p)
    ensures ArgumentsRead(p, args, end) && Ok(close) && Next(close) == g
  {
    hide Next, ParseArguments;
    HeaderOpenTokens(c, name, args, o, d);
    HeaderNameTokens(c, name, args, d, n, p);
    HeaderArgumentsSpelled(c.text, c.here, name, args);
    ArgumentsRoundTrip(p, q, args, end);
    HeaderClose(c, name, args, close, g);
  }

  /** The opening tag reads back as its name and arguments, with '>' as
      the current token. */
  lemma {:induction false} HeaderRead(c: Cursor, name: string, args: seq<string>, o: Cursor, g: Cursor)
    requires Ok(c) && PrintableName(name) && (forall a | a in args :: PrintableName(a))
    requires SpelledAt(c.text, c.here, Header(name, args))
    requires SignAt(c.text, c.here + |Header(name, args)|) != '=' as int
    requires o == Cursor(c.text, c.here + 1, PointyBracketOpen, "")
    requires g == Cursor(c.text, c.here + |Header(name, args)|, PointyBracketClose, "")
    ensures Next(c) == o && ParseDefOpeningTag(o) == Success((name, args, g))
  {
    var d := Cursor(c.text, c.here + 5, Def, "");
    var n := Cursor(c.text, c.here + 6 + |name|, Identifier, name);
    var q := c.here + 7 + |name|;
    var p := Cursor(c.text, q, ParenthesisOpen, "");
    var end := q + |ArgumentList(args)| + 1;
    var close := Cursor(c.text, end, ParenthesisClose, "");
    HeaderSteps(c, name, args, o, d, n, p, q, end, close, g);
    OpeningFromTokens(o, d, n, p, args, end, close, g);
  }

  /** The literal a printable definition holds, or "" for an empty body. */
  function BodyValue(f: Function): string {
    if f.instructions == [] || !f.instructions[0].Literal? then "" else f.instructions[0].content
  }

  /** The pieces of a written definition, at their offsets. */
  lemma {:induction false} TemplatePieces(text: string, h: nat, f: Function)
    requires SpelledAt(text, h, Template(f))
    ensures SpelledAt(text, h, Header(f.identifier, f.arguments))
    ensures SpelledAt(text, h + |Header(f.identifier, f.arguments)|, BodyText(f) + ClosingTag)
    ensures |Template(f)| == |Header(f.identifier, f.arguments)| + |BodyText(f)| + 7
  {
    var hd := Header(f.identifier, f.arguments);
    assert Template(f) == hd + (BodyText(f) + ClosingTag);
    SpelledSplit(text, h, hd, BodyText(f) + ClosingTag);
  }

  /** The first sign of an escaped body is a backslash or the body's own
      first sign. */
  lemma {:induction false} EscapeFirst(v: string, escapes: set<char>)
    requires v != []
    ensures Escape(v, escapes)[0] == if v[0] in escapes then '\\' else v[0]
  {
  }

  /** The sign after an opening tag is never '='. */
  lemma {:induction false} AfterHeader(text: string, h: nat, f: Function)
    requires Printable(f) && SpelledAt(text, h, Template(f))
    ensures SignAt(text, h + |Header(f.identifier, f.arguments)|) != '=' as int
  {
    var e := h + |Header(f.identifier, f.arguments)|;
    TemplatePieces(text, h, f);
    var w := BodyText(f) + ClosingTag;
    SpelledChar(text, e, w, 0);
    if BodyText(f) != "" {
      EscapeFirst(BodyValue(f), TextEscapes);
    }
  }

  /** The free text after the opening tag reads back as the body's
      literal. */
  lemma {:induction false} BodyRead(g: Cursor, v: string, c1: Cursor)
    requires Ok(g) && g.kind == PointyBracketClose && g.value == ""
    requires v == [] || !IsWhitespaceSign(v[0] as int)
    requires SpelledAt(g.text, g.here, Escape(v, TextEscapes) + ClosingTag)
    requires c1 == if v != "" then Cursor(g.text, g.here + |Escape(v, TextEscapes)|, Text, v)
                   else Cursor(g.text, g.here + |Escape(v, TextEscapes)|, PointyBracketClose, "")
    ensures ReadText(g) == (v != "", c1)
  {
    BodyTextValue(g.text, g.here, v);
  }

  /** The free text after an opening tag is the escaped body, up to the
      closing tag. */
  lemma {:induction false} BodyTextValue(text: string, h: nat, v: string)
    requires v == [] || !IsWhitespaceSign(v[0] as int)
    requires SpelledAt(text, h, Escape(v, TextEscapes) + ClosingTag)
    ensures h <= |text| && TextValue(text[h..]) == v && TextLength(text[h..]) == |Escape(v, TextEscapes)|
  {
    var esc := Escape(v, TextEscapes);
    var k := h + |esc|;
    SpelledSplit(text, h, esc, ClosingTag);
    var rest := text[k..];
    assert text[h..] == esc + rest by {
      assert text[h..] == text[h..k] + text[k..];
    }
    SpelledChar(text, k, ClosingTag, 0);
    TextValueEscape(v, rest);
  }

  /** '</' right after the body. */
  lemma {:induction false} BodyClose(g: Cursor, v: string, c1: Cursor)
    requires Ok(g) && SpelledAt(g.text, g.here, Escape(v, TextEscapes) + ClosingTag)
    requires c1.text == g.text && c1.here == g.here + |Escape(v, TextEscapes)|
    ensures Ok(c1) && Next(c1) == Cursor(g.text, c1.here + 2, TagClose, "")
  {
    var text, k := g.text, c1.here;
    SpelledSplit(text, g.here, Escape(v, TextEscapes), ClosingTag);
    SpelledSub(text, k, ClosingTag, 0, 2);
    assert ClosingTag[0..2] == "</";
    SpelledChar(text, k, ClosingTag, 0);
    LexemeTagClose(text, k);
    StepAt(c1);
  }

  /** The closing tag reads as `</ :def >`; the corrected parser stops at
      its '>'. */
  lemma {:induction false} ClosingRead(t: Cursor)
    requires Ok(t) && t.kind == TagClose && 2 <= t.here
    requires SpelledAt(t.text, t.here - 2, ClosingTag) && SignAt(t.text, t.here + 5) != '=' as int
    ensures Next(t) == Cursor(t.text, t.here + 4, Def, "")
    ensures Next(Cursor(t.text, t.here + 4, Def, "")) == Cursor(t.text, t.here + 5, PointyBracketClose, "")
    ensures ParseDefClosingTag(t) == Success(Cursor(t.text, t.here + 5, PointyBracketClose, ""))
  {
    var text, s := t.text, t.here - 2;
    SpelledSub(text, s, ClosingTag, 2, 6);
    assert ClosingTag[2..6] == ":def";
    SpelledChar(text, s, ClosingTag, 2);
    LexemeDef(text, t.here);
    StepAt(t);
    var d := Cursor(text, t.here + 4, Def, "");
    SpelledChar(text, s, ClosingTag, 6);
    LexemeClose(text, t.here + 4);
    StepAt(d);
  }

  /** A definition parser over the pieces it reads. */
  lemma {:induction false} DefinitionFromPieces(o: Cursor, name: string, args: seq<string>, g: Cursor,
                                                isText: bool, c1: Cursor, t: Cursor)
    requires Ok(o) && ParseDefOpeningTag(o) == Success((name, args, g))
    requires Ok(g) && ReadText(g) == (isText, c1) && Ok(c1) && ParseBody(Next(c1)) == Success(([], t))
    ensures ParseDefinition(o) == Success((Function(name, args, if isText then [Literal(c1.value)] else []), t))
  {
    hide Next, ReadText, ParseDefOpeningTag, ParseBody;
    var first := if isText then [Literal(c1.value)] else [];
    assert first + [] == first;
  }

  /** A function parser over the definition and closing tag it reads. */
  lemma {:induction false} FunctionFromPieces(c: Cursor, o: Cursor, f: Function, t: Cursor, e: Cursor)
    requires Ok(c) && Next(c) == o && o.kind != Eof
    requires ParseDefinition(o) == Success((f, t)) && Ok(t) && ParseDefClosingTag(t) == Success(e)
    ensures ParseFunction(c) == Success((Some(f), e))
  {
  }

  /** The body of a written definition, read from the '>' of its opening
      tag, up to the '</' of its closing tag. */
  lemma {:induction false} BodyPart(text: string, h: nat, f: Function, g: Cursor, c1: Cursor, t: Cursor)
    requires Printable(f) && SpelledAt(text, h, Template(f))
    requires g == Cursor(text, h + |Header(f.identifier, f.arguments)|, PointyBracketClose, "")
    requires c1 == if BodyValue(f) != "" then Cursor(text, g.here + |BodyText(f)|, Text, BodyValue(f))
                   else Cursor(text, g.here + |BodyText(f)|, PointyBracketClose, "")
    requires t == Cursor(text, g.here + |BodyText(f)| + 2, TagClose, "")
    ensures Ok(g) && ReadText(g) == (BodyValue(f) != "", c1) && Ok(c1) && Next(c1) == t
  {
    var v := BodyValue(f);
    TemplatePieces(text, h, f);
    assert BodyText(f) == Escape(v, TextEscapes);
    BodyRead(g, v, c1);
    BodyClose(g, v, c1);
  }

  /** The closing tag of a written definition. */
  lemma {:induction false} ClosingPart(text: string, h: nat, f: Function, t: Cursor, e: Cursor)
    requires SpelledAt(text, h, Template(f))
    requires SignAt(text, h + |Template(f)|) != '=' as int
    requires t == Cursor(text, h + |Header(f.identifier, f.arguments)| + |BodyText(f)| + 2, TagClose, "")
    requires e == Cursor(text, h + |Template(f)|, PointyBracketClose, "")
    ensures Ok(t) && ParseDefClosingTag(t) == Success(e)
  {
    TemplatePieces(text, h, f);
    SpelledSplit(text, h + |Header(f.identifier, f.arguments)|, BodyText(f), ClosingTag);
    ClosingRead(t);
  }

  /** A written definition reads back as itself up to its closing tag. */
  lemma {:induction false} DefinitionRead(c: Cursor, f: Function, o: Cursor, t: Cursor)
    requires Ok(c) && Printable(f) && SpelledAt(c.text, c.here, Template(f))
    requires o == Cursor(c.text, c.here + 1, PointyBracketOpen, "")
    requires t == Cursor(c.text, c.here + |Header(f.identifier, f.arguments)| + |BodyText(f)| + 2, TagClose, "")
    ensures Next(c) == o && ParseDefinition(o) == Success((f, t))
  {
    var text, h := c.text, c.here;
    var v := BodyValue(f);
    TemplatePieces(text, h, f);
    AfterHeader(text, h, f);
    var g := Cursor(text, h + |Header(f.identifier, f.arguments)|, PointyBracketClose, "");
    HeaderRead(c, f.identifier, f.arguments, o, g);
    var c1 := if v != "" then Cursor(text, g.here + |BodyText(f)|, Text, v)
              else Cursor(text, g.here + |BodyText(f)|, PointyBracketClose, "");
    BodyPart(text, h, f, g, c1, t);
    DefinitionFromPieces(o, f.identifier, f.arguments, g, v != "", c1, t);
    PrintableInstructions(f);
  }

  /** A written definition reads back as itself, leaving the '>' of its
      closing tag as the current token. */
  lemma {:induction false} FunctionRoundTrip(c: Cursor, f: Function)
    requires Ok(c) && Printable(f) && SpelledAt(c.text, c.here, Template(f))
    requires SignAt(c.text, c.here + |Template(f)|) != '=' as int
    ensures ParseFunction(c) == Success((Some(f), Cursor(c.text, c.here + |Template(f)|, PointyBracketClose, "")))
  {
    hide Next, ParseDefinition, ParseDefClosingTag;
    var o := Cursor(c.text, c.here + 1, PointyBracketOpen, "");
    var t := Cursor(c.text, c.here + |Header(f.identifier, f.arguments)| + |BodyText(f)| + 2, TagClose, "");
    var e := Cursor(c.text, c.here + |Template(f)|, PointyBracketClose, "");
    ClosingPart(c.text, c.here, f, t, e);
    DefinitionRead(c, f, o, t);
    FunctionFromPieces(c, o, f, t, e);
  }

  /** A printable definition is its name, its arguments and its body
      value. */
  lemma {:induction false} PrintableInstructions(f: Function)
    requires Printable(f)
    ensures f == Function(f.identifier, f.arguments, if BodyValue(f) != "" then [Literal(BodyValue(f))] else [])
  {
    if f.instructions != [] {
      assert f.instructions == [Literal(BodyValue(f))];
    }
  }

  // ---------------------------------------------------------------------
  // Whole templates
  // ---------------------------------------------------------------------

  lemma {:induction false} TemplatesStart(fs: seq<Function>)
    requires fs != []
    ensures Templates(fs) == Template(fs[0]) + Templates(fs[1..])
    ensures |Templates(fs)| > 0 && Templates(fs)[0] == '<'
  {
    assert Template(fs[0])[0] == '<';
  }

  /** The sign after a written definition, within written definitions
      that run to the end of the text, is '<' or the end marker. */
  lemma {:induction false} AfterTemplate(text: string, h: nat, fs: seq<Function>)
    requires fs != [] && SpelledAt(text, h, Templates(fs)) && h + |Templates(fs)| == |text|
    ensures SpelledAt(text, h, Template(fs[0])) && SpelledAt(text, h + |Template(fs[0])|, Templates(fs[1..]))
    ensures h + |Template(fs[0])| + |Templates(fs[1..])| == |text|
    ensures SignAt(text, h + |Template(fs[0])|) != '=' as int
  {
    TemplatesStart(fs);
    SpelledSplit(text, h, Template(fs[0]), Templates(fs[1..]));
    if fs[1..] != [] {
      TemplatesStart(fs[1..]);
      SpelledChar(text, h + |Template(fs[0])|, Templates(fs[1..]), 0);
    }
  }

  /** One definition, then the rest. */
  lemma {:induction false} ParseFromStep(c: Cursor, f: Function, e: Cursor, rest: seq<Function>)
    requires Ok(c) && ParseFunction(c) == Success((Some(f), e)) && Ok(e) && ParseFrom(e) == Success(rest)
    ensures ParseFrom(c) == Success([f] + rest)
  {
  }

  /** The first of several written definitions reads back, and the rest
      are written after it. */
  lemma {:induction false} PrintedHead(c: Cursor, fs: seq<Function>, e: Cursor)
    requires Ok(c) && fs != [] && (forall f | f in fs :: Printable(f))
    requires SpelledAt(c.text, c.here, Templates(fs)) && c.here + |Templates(fs)| == |c.text|
    requires e == Cursor(c.text, c.here + |Template(fs[0])|, PointyBracketClose, "")
    ensures Ok(e) && (forall f | f in fs[1..] :: Printable(f))
    ensures SpelledAt(e.text, e.here, Templates(fs[1..])) && e.here + |Templates(fs[1..])| == |e.text|
    ensures ParseFunction(c) == Success((Some(fs[0]), e))
  {
    hide Next, ParseFunction;
    PrintedHeadText(c.text, c.here, fs);
    FunctionRoundTrip(c, fs[0]);
  }

  /** The text facts behind `PrintedHead`. */
  lemma {:induction false} PrintedHeadText(text: string, h: nat, fs: seq<Function>)
    requires fs != [] && (forall f | f in fs :: Printable(f))
    requires SpelledAt(text, h, Templates(fs)) && h + |Templates(fs)| == |text|
    ensures Printable(fs[0]) && (forall f | f in fs[1..] :: Printable(f))
    ensures SpelledAt(text, h, Template(fs[0])) && SignAt(text, h + |Template(fs[0])|) != '=' as int
    ensures SpelledAt(text, h + |Template(fs[0])|, Templates(fs[1..]))
    ensures h + |Template(fs[0])| + |Templates(fs[1..])| == |text|
  {
    AfterTemplate(text, h, fs);
    assert fs[0] in fs;
    assert forall g | g in fs[1..] :: g in fs;
  }

  /** Written definitions that run to the end of the text read back as
      themselves, in order. */
  lemma {:induction false} ParseFromPrinted(c: Cursor, fs: seq<Function>)
    requires Ok(c) && (forall f | f in fs :: Printable(f))
    requires SpelledAt(c.text, c.here, Templates(fs)) && c.here + |Templates(fs)| == |c.text|
    ensures ParseFrom(c) == Success(fs)
    decreases |fs|
  {
    if fs == [] {
      assert Blank(c.text, c.here);
    } else {
      var e := Cursor(c.text, c.here + |Template(fs[0])|, PointyBracketClose, "");
      assert [fs[0]] + fs[1..] == fs;
      PrintedHead(c, fs, e);
      ParseFromPrinted(e, fs[1..]);
      ParseFromStep(c, fs[0], e, fs[1..]);
    }
  }

  /** Parsing the printed definitions gives them back. */
  lemma {:induction false} ParsePrinted(fs: seq<Function>)
    requires forall f | f in fs :: Printable(f)
    ensures Parse(Templates(fs)) == Success(fs)
  {
    var text := Templates(fs);
    assert text[0..|text|] == text;
    ParseFromPrinted(Start(text), fs);
  }

  /** The parser as written over a first definition: the closing tag
      reads on to the token after its '>'. */
  lemma {:induction false} AsWrittenFirst(c: Cursor, o: Cursor, f: Function, t: Cursor, e: Cursor, o2: Cursor)
    requires Ok(c) && Next(c) == o && o.kind != Eof
    requires ParseDefinition(o) == Success((f, t)) && Ok(t) && ParseDefClosingTag(t) == Success(e) && Ok(e)
    requires Next(e) == o2
    ensures ParseFunctionAsWritten(c) == Success((Some(f), o2))
  {
    assert ParseDefClosingTagAsWritten(t) == Success(o2);
  }

  /** The parser as written, standing on the '<' of a definition, sees
      ':def' where it expects '<'. */
  lemma {:induction false} AsWrittenSecond(o2: Cursor, d2: Cursor)
    requires Ok(o2) && Next(o2) == d2 && d2.kind == Def
    ensures ParseFromAsWritten(o2) == Failure(Parsing(UnexpectedToken(PointyBracketOpen, Def)))
  {
    assert ParseDefinition(d2) == Failure(Parsing(UnexpectedToken(PointyBracketOpen, Def)));
    assert ParseFunctionAsWritten(o2) == Failure(Parsing(UnexpectedToken(PointyBracketOpen, Def)));
  }

  lemma {:induction false} AsWrittenThen(c: Cursor, f: Function, o2: Cursor)
    requires Ok(c) && ParseFunctionAsWritten(c) == Success((Some(f), o2)) && Ok(o2)
    requires ParseFromAsWritten(o2) == Failure(Parsing(UnexpectedToken(PointyBracketOpen, Def)))
    ensures ParseFromAsWritten(c) == Failure(Parsing(UnexpectedToken(PointyBracketOpen, Def)))
  {
  }

  /** The first of two or more written definitions, read with either
      closing tag. */
  lemma {:induction false} FirstOfTwo(fs: seq<Function>, c: Cursor, o: Cursor, t: Cursor, e: Cursor)
    requires |fs| >= 2 && (forall f | f in fs :: Printable(f))
    requires c == Start(Templates(fs)) && o == Cursor(c.text, 1, PointyBracketOpen, "")
    requires t == Cursor(c.text, |Header(fs[0].identifier, fs[0].arguments)| + |BodyText(fs[0])| + 2, TagClose, "")
    requires e == Cursor(c.text, |Template(fs[0])|, PointyBracketClose, "")
    ensures Ok(t) && ParseDefClosingTag(t) == Success(e)
    ensures Next(c) == o && ParseDefinition(o) == Success((fs[0], t))
  {
    hide Next, ParseDefinition, ParseDefClosingTag;
    var text := c.text;
    assert text[0..|text|] == text;
    AfterTemplate(text, 0, fs);
    assert Printable(fs[0]);
    ClosingPart(text, 0, fs[0], t, e);
    DefinitionRead(c, fs[0], o, t);
  }

  /** The opening '<' and ':def' of the second written definition. */
  lemma {:induction false} SecondOfTwo(fs: seq<Function>, e: Cursor, o2: Cursor, d2: Cursor)
    requires |fs| >= 2
    requires e == Cursor(Templates(fs), |Template(fs[0])|, PointyBracketClose, "")
    requires o2 == Cursor(e.text, e.here + 1, PointyBracketOpen, "") && d2 == Cursor(e.text, e.here + 5, Def, "")
    ensures Ok(e) && Next(e) == o2 && Next(o2) == d2
  {
    hide Next;
    var text := e.text;
    assert text[0..|text|] == text;
    AfterTemplate(text, 0, fs);
    AfterTemplate(text, e.here, fs[1..]);
    TemplatePieces(text, e.here, fs[1]);
    HeaderOpenTokens(e, fs[1].identifier, fs[1].arguments, o2, d2);
  }

  /** Two or more printed definitions read back with the corrected closing
      tag, but the closing tag as written fails on them: it reads the '<'
      that opens the second definition, so that definition appears to
      start with ':def'. */
  lemma {:induction false} AsWrittenFailsOnTwo(fs: seq<Function>)
    requires |fs| >= 2 && forall f | f in fs :: Printable(f)
    ensures Parse(Templates(fs)) == Success(fs)
    ensures ParseAsWritten(Templates(fs)) == Failure(Parsing(UnexpectedToken(PointyBracketOpen, Def)))
  {
    hide Next, ParseFunction, ParseDefinition, ParseDefClosingTag, ParseDefClosingTagAsWritten;
    var text := Templates(fs);
    var c := Start(text);
    var f := fs[0];
    var o := Cursor(text, 1, PointyBracketOpen, "");
    var t := Cursor(text, |Header(f.identifier, f.arguments)| + |BodyText(f)| + 2, TagClose, "");
    var e := Cursor(text, |Template(f)|, PointyBracketClose, "");
    var o2 := Cursor(text, e.here + 1, PointyBracketOpen, "");
    var d2 := Cursor(text, e.here + 5, Def, "");
    SecondOfTwo(fs, e, o2, d2);
    FirstOfTwo(fs, c, o, t, e);
    AsWrittenFirst(c, o, f, t, e, o2);
    AsWrittenSecond(o2, d2);
    AsWrittenThen(c, f, o2);
    ParsePrinted(fs);
  }

  /** Two small definitions, one empty and one with a body. */
  function ExampleFunctions(): seq<Function> {
    [Function("a", [], []), Function("b", ["x"], [Literal("hi")])]
  }

  lemma {:induction false} ExampleFirst()
    ensures Template(Function("a", [], [])) == "<:def a()></:def>"
    ensures Printable(Function("a", [], []))
  {
  }

  lemma {:induction false} ExampleSecond()
    ensures Template(Function("b", ["x"], [Literal("hi")])) == "<:def b(x)>hi</:def>"
    ensures Printable(Function("b", ["x"], [Literal("hi")]))
  {
    assert Escape("hi", TextEscapes) == "hi";
  }

  lemma {:induction false} ExamplePrinted()
    ensures Templates(ExampleFunctions()) == "<:def a()></:def><:def b(x)>hi</:def>"
    ensures |ExampleFunctions()| == 2 && forall f | f in ExampleFunctions() :: Printable(f)
  {
    var fs := ExampleFunctions();
    ExampleFirst();
    ExampleSecond();
    assert fs[1..][1..] == [];
    assert Templates(fs[1..]) == Template(fs[1]) + Templates(fs[1..][1..]);
  }

  /** The smallest instance: an empty definition followed by one whose body
      is a literal. */
  lemma {:induction false} AsWrittenFailsOnExample()
    ensures ParseAsWritten("<:def a()></:def><:def b(x)>hi</:def>") ==
            Failure(Parsing(UnexpectedToken(PointyBracketOpen, Def)))
    ensures Parse("<:def a()></:def><:def b(x)>hi</:def>") == Success(ExampleFunctions())
  {
    ExamplePrinted();
    AsWrittenFailsOnTwo(ExampleFunctions());
  }

  // ---------------------------------------------------------------------
  // Names starting with "in"
  // ---------------------------------------------------------------------

  /** A name starting with "in" reads as the keyword `in`, whatever sign
      follows it: the keyword step does not look past the keyword's tail. */
  lemma {:induction false} LexemeIn(text: string, i: nat, name: string)
    requires |name| >= 2 && name[..2] == "in" && SpelledAt(text, i, name)
    ensures LexemeAt(text, i) == Lexeme(In, "", 2)
  {
    SpelledSub(text, i, name, 0, 2);
    assert name[0..2] == KeywordSpelling(In);
    KeywordSigns(text, i, In);
    LexemeIsKeyword(text, i);
  }

  /** An opening tag that fails to parse makes the whole template fail
      with the same error, with either closing tag. */
  lemma {:induction false} HeaderRejected(text: string, o: Cursor, err: Error)
    requires Next(Start(text)) == o && o.kind != Eof && Ok(o)
    requires ParseDefOpeningTag(o) == Failure(err)
    ensures Parse(text) == Failure(err) && ParseAsWritten(text) == Failure(err)
  {
    hide Next, ParseDefOpeningTag;
    assert ParseDefinition(o) == Failure(err);
  }

  /** An opening tag whose third token is `in` fails where the name is
      expected. */
  lemma {:induction false} NameKeywordFails(o: Cursor, d: Cursor)
    requires Ok(o) && o.kind == PointyBracketOpen && Next(o) == d && d.kind == Def && Ok(d)
    requires Next(d).kind == In
    ensures ParseDefOpeningTag(o) == Failure(Parsing(UnexpectedToken(Identifier, In)))
  {
    hide Next;
  }

  /** An opening tag whose argument list starts with `in` fails where the
      first argument is expected. */
  lemma {:induction false} ArgumentKeywordFails(o: Cursor, d: Cursor, n: Cursor, p: Cursor)
    requires Ok(o) && o.kind == PointyBracketOpen && Next(o) == d && d.kind == Def
    requires Next(d) == n && n.kind == Identifier && Next(n) == p && p.kind == ParenthesisOpen && Ok(p)
    requires Next(p).kind == In
    ensures ParseDefOpeningTag(o) == Failure(Parsing(UnexpectedToken(Identifier, In)))
  {
    hide Next;
  }

  /** After ':def', a name starting with "in" reads as `in`. */
  lemma {:induction false} NameAfterDef(d: Cursor, h: nat, name: string, args: seq<string>)
    requires SpelledAt(d.text, h, Header(name, args)) && d == Cursor(d.text, h + 5, Def, "")
    requires |name| >= 2 && name[..2] == "in"
    ensures Ok(d) && Next(d) == Cursor(d.text, h + 8, In, "")
  {
    hide LexemeAt, Header;
    HeaderPieces(d.text, h, name, args);
    NextSkips(d, h + 6);
    LexemeIn(d.text, h + 6, name);
    SpelledChar(d.text, h + 6, name, 0);
    StepAt(d.(here := h + 6));
  }

  /** After '(', a first argument starting with "in" reads as `in`. */
  lemma {:induction false} ArgumentAfterParenthesis(p: Cursor, h: nat, name: string, args: seq<string>)
    requires SpelledAt(p.text, h, Header(name, args)) && p == Cursor(p.text, h + 7 + |name|, ParenthesisOpen, "")
    requires args != [] && |args[0]| >= 2 && args[0][..2] == "in"
    ensures Ok(p) && Next(p) == Cursor(p.text, p.here + 2, In, "")
  {
    hide LexemeAt, Header;
    var text, q := p.text, p.here;
    HeaderPieces(text, h, name, args);
    ArgumentListSpelled(text, q, args);
    if |args| == 1 {
      SpelledSplit(text, q, args[0], ")");
    } else {
      SpelledSplit(text, q, args[0], ", ");
    }
    LexemeIn(text, q, args[0]);
    SpelledChar(text, q, args[0], 0);
    StepAt(p);
  }

  /** A written definition's text starts with its opening tag. */
  lemma {:induction false} TemplateHeader(f: Function)
    ensures SpelledAt(Template(f), 0, Header(f.identifier, f.arguments))
  {
    var text := Template(f);
    assert text[0..|text|] == text;
    TemplatePieces(text, 0, f);
  }

  /** A definition whose name starts with "in" does not read back: after
      ':def' the parser meets the keyword `in` where it expects the name. */
  lemma {:induction false} InNameRejected(f: Function)
    requires |f.identifier| >= 2 && f.identifier[..2] == "in"
    ensures Parse(Template(f)) == Failure(Parsing(UnexpectedToken(Identifier, In)))
    ensures ParseAsWritten(Template(f)) == Failure(Parsing(UnexpectedToken(Identifier, In)))
  {
    hide Next, Parse, ParseAsWritten, ParseDefOpeningTag, Template, Header;
    var text := Template(f);
    var o := Cursor(text, 1, PointyBracketOpen, "");
    var d := Cursor(text, 5, Def, "");
    TemplateHeader(f);
    HeaderOpenTokens(Start(text), f.identifier, f.arguments, o, d);
    NameAfterDef(d, 0, f.identifier, f.arguments);
    NameKeywordFails(o, d);
    HeaderRejected(text, o, Parsing(UnexpectedToken(Identifier, In)));
  }

  /** A definition whose first argument starts with "in" does not read
      back either: after '(' the argument parser meets the keyword `in`. */
  lemma {:induction false} InArgumentRejected(f: Function)
    requires PrintableName(f.identifier) && f.arguments != []
    requires |f.arguments[0]| >= 2 && f.arguments[0][..2] == "in"
    ensures Parse(Template(f)) == Failure(Parsing(UnexpectedToken(Identifier, In)))
    ensures ParseAsWritten(Template(f)) == Failure(Parsing(UnexpectedToken(Identifier, In)))
  {
    hide Next, Parse, ParseAsWritten, ParseDefOpeningTag, Template, Header;
    var text, name, args := Template(f), f.identifier, f.arguments;
    var c := Start(text);
    var o := Cursor(text, 1, PointyBracketOpen, "");
    var d := Cursor(text, 5, Def, "");
    var n := Cursor(text, 6 + |name|, Identifier, name);
    var p := Cursor(text, 7 + |name|, ParenthesisOpen, "");
    TemplateHeader(f);
    HeaderOpenTokens(c, name, args, o, d);
    HeaderNameTokens(c, name, args, d, n, p);
    ArgumentAfterParenthesis(p, 0, name, args);
    ArgumentKeywordFails(o, d, n, p);
    HeaderRejected(text, o, Parsing(UnexpectedToken(Identifier, In)));
  }

  lemma {:induction false} InExampleTexts()
    ensures Template(Function("index", [], [])) == "<:def index()></:def>"
    ensures Template(Function("f", ["input"], [])) == "<:def f(input)></:def>"
  {
  }

  /** The smallest instances: `<:def index()></:def>` and
      `<:def f(input)></:def>`. */
  lemma {:induction false} InNameExample()
    ensures Parse("<:def index()></:def>") == Failure(Parsing(UnexpectedToken(Identifier, In)))
  {
    hide Parse, Template;
    InExampleTexts();
    InNameRejected(Function("index", [], []));
  }

  lemma {:induction false} InArgumentExample()
    ensures Parse("<:def f(input)></:def>") == Failure(Parsing(UnexpectedToken(Identifier, In)))
  {
    hide Parse, Template;
    InExampleTexts();
    assert PrintableName("f");
    InArgumentRejected(Function("f", ["input"], []));
  }
}

=== FILE: Scanner.dfy ===
/** The scanner of the template language (TKOM/Tools/Scanner.cs).

    The scanner wraps a reader. `ReadNextToken` skips whitespace and reads
    one token, trying in turn the end of input, a keyword, a special sign,
    a number and an identifier; `TryReadText` and `TryReadString` are called
    by the parser where free text or string contents may appear. Each
    operation is a function from scanner state to scanner state; the
    `bool` that the source's `TryRead*` methods return is paired with the
    new state.

    Every operation is proved to agree with the reference token grammar of
    Lexicon.dfy. The scanner reads through the corrected reader of
    StringsReader.dfy, so every rewind it performs succeeds. Over the
    reader as written the steps that rewind differ at the end of the text;
    ScannerAsWritten.dfy models them. */
module Scanner {
  import opened Wrappers
  import opened Tokens
  import opened StringsReader
  import opened Keywords
  import opened Lexicon

  /** The scanner's fields: its reader, the last token (null until the
      first one is read), and the line and column the reader had when the
      current token started. */
  datatype ScannerState = ScannerState(reader: Reader, token: Option<Token>, line: int, column: int)

  function NewScanner(r: Reader): (sc: ScannerState)
    ensures sc.reader == r && sc.token == None
  {
    ScannerState(r, None, 1, 1)
  }

  /** The index of the reader's current sign in the text. */
  function Here(r: Reader): int {
    r.pos - 1
  }

  /** Rewinds over signs this scanner itself has read; such a rewind never
      fails. */
  function Back(r: Reader, n: nat): (r': Reader)
    requires n < r.pos
    ensures Rewind(r, n) == Success(r')
  {
    Rewind(r, n).value
  }

  // ---------------------------------------------------------------------
  // Runs of signs
  // ---------------------------------------------------------------------

  /** Takes signs while they satisfy `p`, returning the reader after them
      and the signs taken. */
  function ScanWhile(r: Reader, p: int -> bool): (res: (Reader, string))
    requires Valid(r) && !p(EndOfInput)
    ensures Scanned(r, p, res)
    decreases |r.text| + 1 - r.pos
  {
    if p(r.current) then
      ReadKeepsValid(r);
      var rest := ScanWhile(Read(r), p);
      ScanStep(r, p, rest);
      (rest.0, [r.text[r.pos - 1]] + rest.1)
    else
      RunEndUnique(r.text, Here(r), Here(r), p);
      (r, "")
  }

  /** `res` holds the reader after the maximal run of signs satisfying `p`
      from the current sign on, and the signs of that run. */
  predicate Scanned(r: Reader, p: int -> bool, res: (Reader, string))
    requires Valid(r) && !p(EndOfInput)
  {
    Valid(res.0) && res.0 == ReadN(r, |res.1|) &&
    Here(res.0) == RunEnd(r.text, Here(r), p) &&
    res.1 == r.text[Here(r)..Here(res.0)]
  }

  /** One step of `ScanWhile`: a run after the current sign, with the
      current sign in front, is the run from the current sign. */
  lemma {:induction false} ScanStep(r: Reader, p: int -> bool, rest: (Reader, string))
    requires Valid(r) && !p(EndOfInput) && p(r.current) && Valid(Read(r))
    requires Scanned(Read(r), p, rest)
    ensures Scanned(r, p, (rest.0, [r.text[r.pos - 1]] + rest.1))
  {
    ReadsAfterFirst(r, |rest.1|);
    ConsSlice(r.text, Here(r), Here(rest.0));
  }

  /** Skips spaces, carriage returns and line feeds. */
  function SkipWhitespaces(r: Reader): (r': Reader)
    requires Valid(r)
    ensures Valid(r') && r'.text == r.text
    ensures Here(r') == RunEnd(r.text, Here(r), IsWhitespaceSign)
  {
    ScanWhile(r, IsWhitespaceSign).0
  }

  lemma {:induction false} WhitespaceAfterSpaces(r: Reader, r1: Reader)
    requires Valid(r) && r1.text == r.text
    requires Here(r1) == Here(r) + LeadingSpaces(r.text[Here(r)..])
    ensures RunEnd(r.text, Here(r1), IsWhitespaceSign) == Here(r) + LeadingWhitespace(r.text[Here(r)..])
  {
    WhitespaceRun(r.text, Here(r));
  }

  /** Collects leading spaces; if a line break follows them, skips all
      whitespace and yields nothing instead. */
  function ReadWhitespacesUnlessNewLine(r: Reader): (res: (Reader, string))
    requires Valid(r)
    ensures Valid(res.0) && res.0.text == r.text
    ensures var s := r.text[Here(r)..];
            if BreakAfterSpaces(s)
            then res.1 == "" && Here(res.0) == Here(r) + LeadingWhitespace(s)
            else res.1 == s[..LeadingSpaces(s)] && Here(res.0) == Here(r) + LeadingSpaces(s)
  {
    var (r1, spaces) := ScanWhile(r, IsSpaceSign);
    SpacesScanned(r);
    if r1.current == '\n' as int || r1.current == '\r' as int then
      WhitespaceAfterSpaces(r, r1);
      (SkipWhitespaces(r1), "")
    else
      (r1, spaces)
  }

  /** The spaces `ReadWhitespacesUnlessNewLine` collects are the leading
      spaces of the rest of the text, and a line break follows them exactly
      when the sign after them is '\n' or '\r'. */
  lemma {:induction false} SpacesScanned(r: Reader)
    requires Valid(r)
    ensures var (r1, spaces) := ScanWhile(r, IsSpaceSign);
            var s := r.text[Here(r)..];
            Here(r1) == Here(r) + LeadingSpaces(s) && spaces == s[..LeadingSpaces(s)] &&
            (BreakAfterSpaces(s) <==> r1.current == '\n' as int || r1.current == '\r' as int)
  {
    var r1 := ScanWhile(r, IsSpaceSign).0;
    SpacesRun(r.text, Here(r));
    SuffixPrefix(r.text, Here(r), LeadingSpaces(r.text[Here(r)..]));
    SignAfterSpaces(r.text, Here(r), r1.current);
  }

  lemma {:induction false} SuffixPrefix(text: string, h: nat, n: nat)
    requires h + n <= |text|
    ensures text[h..h + n] == text[h..][..n]
  {
  }

  lemma {:induction false} SignAfterSpaces(text: string, h: nat, c: int)
    requires h <= |text|
    requires c == SignAt(text, h + LeadingSpaces(text[h..]))
    ensures BreakAfterSpaces(text[h..]) <==> c == '\n' as int || c == '\r' as int
  {
    var s := text[h..];
    assert LeadingSpaces(s) < |s| ==> s[LeadingSpaces(s)] == text[h + LeadingSpaces(s)];
  }

  // ---------------------------------------------------------------------
  // Keywords
  // ---------------------------------------------------------------------

  /** The entries whose tail starts with the sign `c`, in table order. */
  function FilterByFirst(entries: seq<KeywordEntry>, c: int): (res: seq<KeywordEntry>)
    ensures forall e :: e in res <==> e in entries && |e.tail| > 0 && e.tail[0] as int == c
  {
    if entries == [] then []
    else
      var rest := FilterByFirst(entries[1..], c);
      var e := entries[0];
      if |e.tail| > 0 && e.tail[0] as int == c then [e] + rest else rest
  }

  /** `tail[j]` stands at index `p + j` of `text` for every `j` from `k` on,
      checked sign by sign as the scanner does. */
  predicate TailAt(text: string, p: int, tail: string, k: nat)
    decreases |tail| - k
  {
    k >= |tail| || (SignAt(text, p + k) == tail[k] as int && TailAt(text, p, tail, k + 1))
  }

  lemma {:induction false} TailAtSigns(text: string, p: int, tail: string, k: nat)
    ensures TailAt(text, p, tail, k) <==> forall j | k <= j < |tail| :: SignAt(text, p + j) == tail[j] as int
    decreases |tail| - k
  {
    if k < |tail| {
      TailAtSigns(text, p, tail, k + 1);
    }
  }

  /** Compares the rest of a keyword tail, sign by sign, from `tail[k]` on;
      the reader's next sign is the one to compare with `tail[k]`. Returns
      the reader, the count of tail signs read, and whether matching
      failed. */
  function MatchTail(r: Reader, tail: string, k: nat): (res: (Reader, nat, bool))
    requires 1 <= k <= |tail|
    ensures k <= res.1 <= |tail| && res.0 == ReadN(r, res.1 - k)
    ensures !res.2 <==> TailAt(r.text, r.pos - k, tail, k)
    ensures !res.2 ==> res.1 == |tail|
    decreases |tail| - k
  {
    if k == |tail| then (r, k, false)
    else
      var r' := Read(r);
      if r'.current != tail[k] as int then (r', k + 1, true)
      else MatchTail(r', tail, k + 1)
  }

  /** Where each keyword lives in the automaton. */
  function EntryOf(t: TokenType): (res: (char, KeywordEntry))
    requires IsKeyword(t)
    ensures res.0 in KeywordAutomaton && res.1 in KeywordAutomaton[res.0]
    ensures res.1.kind == t && [res.0] + res.1.tail == KeywordSpelling(t)
  {
    KeywordAutomatonSpellsKeywords();
    match t
    case Def => (':', KeywordEntry("def", Def))
    case For => (':', KeywordEntry("for", For))
    case If => (':', KeywordEntry("if", If))
    case Else => (':', KeywordEntry("else", Else))
    case In => ('i', KeywordEntry("n", In))
  }

  /** An automaton entry under `c` whose tail follows `c` in the text spells
      its keyword there; and conversely a spelled keyword's tail follows
      its start character. */
  lemma {:induction false} EntrySpelled(text: string, i: nat, c: char, e: KeywordEntry)
    requires c in KeywordAutomaton && e in KeywordAutomaton[c]
    ensures IsKeyword(e.kind) && [c] + e.tail == KeywordSpelling(e.kind)
    ensures KeywordSpelledAt(text, i, e.kind) <==> SignAt(text, i) == c as int && TailAt(text, i + 1, e.tail, 0)
  {
    KeywordAutomatonSpellsKeywords();
    SpelledAtSigns(text, i, [c] + e.tail);
    if SignAt(text, i) == c as int && TailAt(text, i + 1, e.tail, 0) {
      TailSpells(text, i, c, e.tail);
    }
    if KeywordSpelledAt(text, i, e.kind) {
      SpellsTail(text, i, c, e.tail);
    }
  }

  lemma {:induction false} TailSpells(text: string, i: nat, c: char, tail: string)
    requires SignAt(text, i) == c as int && TailAt(text, i + 1, tail, 0)
    ensures forall j | 0 <= j < |[c] + tail| :: SignAt(text, i + j) == ([c] + tail)[j] as int
  {
    var w := [c] + tail;
    TailAtSigns(text, i + 1, tail, 0);
    forall j | 0 <= j < |w|
      ensures SignAt(text, i + j) == w[j] as int
    {
      if j > 0 {
        assert w[j] == tail[j - 1];
        assert SignAt(text, (i + 1) + (j - 1)) == tail[j - 1] as int;
      }
    }
  }

  lemma {:induction false} SpellsTail(text: string, i: nat, c: char, tail: string)
    requires forall j | 0 <= j < |[c] + tail| :: SignAt(text, i + j) == ([c] + tail)[j] as int
    ensures SignAt(text, i) == c as int && TailAt(text, i + 1, tail, 0)
  {
    var w := [c] + tail;
    assert SignAt(text, i + 0) == w[0] as int;
    forall j | 0 <= j < |tail|
      ensures SignAt(text, (i + 1) + j) == tail[j] as int
    {
      assert w[j + 1] == tail[j];
      assert SignAt(text, i + (j + 1)) == w[j + 1] as int;
    }
    TailAtSigns(text, i + 1, tail, 0);
  }

  /** A keyword spelled at `i` survives the first-character filter of the
      scanner and is the first (indeed the only) survivor. */
  lemma {:induction false} SpelledKeywordIsCandidate(text: string, i: nat, t: TokenType)
    requires KeywordSpelledAt(text, i, t)
    ensures SignAt(text, i) == EntryOf(t).0 as int
    ensures var survivors := FilterByFirst(KeywordAutomaton[EntryOf(t).0], SignAt(text, i + 1));
            survivors != [] && survivors[0] == EntryOf(t).1
  {
    var (c, e) := EntryOf(t);
    EntrySpelled(text, i, c, e);
    assert SignAt(text, (i + 1) + 0) == e.tail[0] as int;
    var survivors := FilterByFirst(KeywordAutomaton[c], SignAt(text, i + 1));
    assert e in survivors;
    assert survivors[0] in survivors;
    KeywordAutomatonShape();
  }

  /** What reading a keyword at the current sign achieves: on success the
      keyword at the reader's place is the token and the reader stands after
      it; on failure there is no keyword there and the reader is back at its
      start, although the line and column counters keep the reads. */
  predicate KeywordRead(sc: ScannerState, res: (bool, ScannerState))
    requires Valid(sc.reader)
  {
    var i := Here(sc.reader);
    var k := KeywordAt(sc.reader.text, i);
    res.1.line == sc.line && res.1.column == sc.column && res.1.reader.text == sc.reader.text &&
    Valid(res.1.reader) &&
    (res.0 <==> k.Some?) &&
    (res.0 ==>
       res.1.token == Some(MakeToken(k.value, "", sc.line, sc.column)) &&
       res.1.reader == ReadN(sc.reader, |KeywordSpelling(k.value)|) &&
       Here(res.1.reader) == i + |KeywordSpelling(k.value)|) &&
    (!res.0 ==> SamePlace(res.1.reader, sc.reader) && res.1.token == sc.token)
  }

  /** Reads a keyword at the current sign: looks the sign up in the
      automaton, filters the candidates by the next sign and matches the
      first survivor's tail. */
  function TryReadKeyword(sc: ScannerState): (res: (bool, ScannerState))
    requires Valid(sc.reader)
    ensures KeywordRead(sc, res)
  {
    var r := sc.reader;
    match Lookup(KeywordAutomaton, r.current)
    case None =>
      NoKeywordUnlessStart(r.text, Here(r));
      (false, sc)
    case Some(candidates) =>
      TryReadCandidates(sc, r.current as char)
  }

  function TryReadCandidates(sc: ScannerState, c: char): (res: (bool, ScannerState))
    requires Valid(sc.reader) && c in KeywordAutomaton && sc.reader.current == c as int
    ensures KeywordRead(sc, res)
  {
    var r := sc.reader;
    var r1 := Read(r);
    var survivors := FilterByFirst(KeywordAutomaton[c], r1.current);
    if survivors == [] then
      NoKeywordUnlessSurvivor(r.text, Here(r), c);
      (false, sc.(reader := Back(r1, 1)))
    else
      TryReadTail(sc, c, survivors[0])
  }

  function TryReadTail(sc: ScannerState, c: char, e: KeywordEntry): (res: (bool, ScannerState))
    requires Valid(sc.reader) && c in KeywordAutomaton && sc.reader.current == c as int
    requires var survivors := FilterByFirst(KeywordAutomaton[c], SignAt(sc.reader.text, sc.reader.pos));
             survivors != [] && survivors[0] == e
    ensures KeywordRead(sc, res)
  {
    var (r2, counter, failed) := MatchTail(Read(sc.reader), e.tail, 1);
    if failed then
      TailMismatch(sc, c, e);
      (false, sc.(reader := Back(r2, counter)))
    else
      TailMatch(sc, c, e);
      (true, sc.(reader := Read(r2), token := Some(MakeToken(e.kind, "", sc.line, sc.column))))
  }

  lemma {:induction false} TailMismatch(sc: ScannerState, c: char, e: KeywordEntry)
    requires Valid(sc.reader) && c in KeywordAutomaton && sc.reader.current == c as int
    requires var survivors := FilterByFirst(KeywordAutomaton[c], SignAt(sc.reader.text, sc.reader.pos));
             survivors != [] && survivors[0] == e
    requires MatchTail(Read(sc.reader), e.tail, 1).2
    ensures var m := MatchTail(Read(sc.reader), e.tail, 1);
            m.1 < m.0.pos && KeywordRead(sc, (false, sc.(reader := Back(m.0, m.1))))
  {
    var r := sc.reader;
    var m := MatchTail(Read(r), e.tail, 1);
    assert Read(r).pos - 1 == r.pos;
    MismatchNoKeyword(r, c, e);
    MismatchReads(r, e.tail, m);
  }

  /** The keyword half of `TailMismatch`. */
  lemma {:induction false} MismatchNoKeyword(r: Reader, c: char, e: KeywordEntry)
    requires Valid(r) && c in KeywordAutomaton && r.current == c as int
    requires var survivors := FilterByFirst(KeywordAutomaton[c], SignAt(r.text, r.pos));
             survivors != [] && survivors[0] == e
    requires !TailAt(r.text, r.pos, e.tail, 1)
    ensures KeywordAt(r.text, Here(r)).None?
  {
    NoKeywordUnlessTail(r.text, r.pos - 1, c, e);
  }

  /** The reader half of `TailMismatch`. */
  lemma {:induction false} MismatchReads(r: Reader, tail: string, m: (Reader, nat, bool))
    requires Valid(r) && 1 <= |tail| && m == MatchTail(Read(r), tail, 1)
    ensures m.1 < m.0.pos && Valid(Back(m.0, m.1)) && SamePlace(Back(m.0, m.1), r)
  {
    assert m.0 == ReadN(Read(r), m.1 - 1);
    ReadsAfterFirst(r, m.1 - 1);
    BackOverReads(r, m.0, m.1);
  }

  /** Going back over `n` reads returns to where they started. */
  lemma {:induction false} BackOverReads(r: Reader, r': Reader, n: nat)
    requires Valid(r) && r' == ReadN(r, n)
    ensures n < r'.pos && Valid(Back(r', n)) && SamePlace(Back(r', n), r)
  {
    RewindUndoesReads(r, n, n);
  }

  lemma {:induction false} TailMatch(sc: ScannerState, c: char, e: KeywordEntry)
    requires Valid(sc.reader) && c in KeywordAutomaton && sc.reader.current == c as int
    requires var survivors := FilterByFirst(KeywordAutomaton[c], SignAt(sc.reader.text, sc.reader.pos));
             survivors != [] && survivors[0] == e
    requires !MatchTail(Read(sc.reader), e.tail, 1).2
    ensures var m := MatchTail(Read(sc.reader), e.tail, 1);
            KeywordRead(sc, (true, sc.(reader := Read(m.0), token := Some(MakeToken(e.kind, "", sc.line, sc.column)))))
  {
    var r := sc.reader;
    var survivors := FilterByFirst(KeywordAutomaton[c], SignAt(r.text, r.pos));
    assert e in survivors;
    var m := MatchTail(Read(r), e.tail, 1);
    KeywordMatched(r.text, Here(r), c, e);
    var n := |e.tail|;
    assert m.0 == ReadN(Read(r), n - 1);
    ReadsAfterFirst(r, n - 1);
    ReadNThenRead(r, n);
    assert Read(m.0) == ReadN(r, n + 1);
    ReadNValid(r, n + 1);
  }

  /** Reads that stay within the text and its end marker keep the reader
      valid. */
  lemma {:induction false} ReadNValid(r: Reader, n: nat)
    requires Valid(r) && n > 0 && r.pos + n <= |r.text| + 1
    ensures Valid(ReadN(r, n))
  {
  }

  /** `n` reads after the first one are `n + 1` reads. */
  lemma {:induction false} ReadsAfterFirst(r: Reader, n: nat)
    ensures ReadN(Read(r), n) == ReadN(r, n + 1)
  {
  }

  /** A surviving entry whose whole tail matched spells its keyword, which
      is therefore the keyword at `i`. */
  lemma {:induction false} KeywordMatched(text: string, i: nat, c: char, e: KeywordEntry)
    requires c in KeywordAutomaton && SignAt(text, i) == c as int
    requires var survivors := FilterByFirst(KeywordAutomaton[c], SignAt(text, i + 1));
             survivors != [] && survivors[0] == e
    requires TailAt(text, i + 1, e.tail, 1)
    ensures KeywordAt(text, i) == Some(e.kind)
    ensures |KeywordSpelling(e.kind)| == |e.tail| + 1 && i + |e.tail| + 1 <= |text|
  {
    var survivors := FilterByFirst(KeywordAutomaton[c], SignAt(text, i + 1));
    assert e in survivors;
    assert TailAt(text, i + 1, e.tail, 0) by {
      assert SignAt(text, i + 1 + 0) == e.tail[0] as int;
    }
    EntrySpelled(text, i, c, e);
    KeywordAtComplete(text, i, e.kind);
  }

  /** Every keyword starts with a key of the automaton. */
  lemma {:induction false} NoKeywordUnlessStart(text: string, i: nat)
    requires !(IsCharCode(SignAt(text, i)) && (SignAt(text, i) as char) in KeywordAutomaton)
    ensures KeywordAt(text, i).None?
  {
    assert ':' in KeywordAutomaton && 'i' in KeywordAutomaton;
  }

  /** Every keyword's second sign survives the first-character filter. */
  lemma {:induction false} NoKeywordUnlessSurvivor(text: string, i: nat, c: char)
    requires c in KeywordAutomaton && SignAt(text, i) == c as int
    requires FilterByFirst(KeywordAutomaton[c], SignAt(text, i + 1)) == []
    ensures KeywordAt(text, i).None?
  {
    KeywordAutomatonShape();
    if c == ':' {
      assert KeywordEntry("def", Def) in KeywordAutomaton[c];
      assert KeywordEntry("for", For) in KeywordAutomaton[c];
      assert KeywordEntry("if", If) in KeywordAutomaton[c];
      assert KeywordEntry("else", Else) in KeywordAutomaton[c];
    } else {
      assert KeywordEntry("n", In) in KeywordAutomaton[c];
    }
  }

  /** A keyword spelled at `i` is the first survivor, whose tail matches. */
  lemma {:induction false} NoKeywordUnlessTail(text: string, i: nat, c: char, e: KeywordEntry)
    requires c in KeywordAutomaton && SignAt(text, i) == c as int
    requires var survivors := FilterByFirst(KeywordAutomaton[c], SignAt(text, i + 1));
             survivors != [] && survivors[0] == e
    requires !TailAt(text, i + 1, e.tail, 1)
    ensures KeywordAt(text, i).None?
  {
    KeywordAtSpelled(text, i);
    if KeywordAt(text, i).Some? {
      var t := KeywordAt(text, i).value;
      SpelledKeywordIsCandidate(text, i, t);
      var (c', e') := EntryOf(t);
      assert c' == c && e' == e;
      EntrySpelled(text, i, c, e);
    }
  }

  // ---------------------------------------------------------------------
  // Special signs
  // ---------------------------------------------------------------------

  /** The token a dictionary entry yields when the next sign is `d`: the
      follower token when `d` is a follower, else the one-character token. */
  function EntryYields(entry: SignEntry, d: int): Option<TokenType> {
    var follower := if entry.Extensible? then Lookup(entry.followers, d) else None;
    if follower.Some? then follower else SingleOf(entry)
  }

  /** A sign spelled at the position of a dictionary key `c` is the
      one-character token of `c`, or a follower of `c`. */
  lemma {:induction false} SpelledSignInEntry(text: string, i: nat, c: char, u: TokenType)
    requires c in SpecialSignDict && SignAt(text, i) == c as int
    requires IsSign(u) && SpelledAt(text, i, SignSpelling(u))
    ensures var entry := SpecialSignDict[c];
            (|SignSpelling(u)| == 1 ==> SingleOf(entry) == Some(u)) &&
            (|SignSpelling(u)| == 2 ==> EntryYields(entry, SignAt(text, i + 1)) == Some(u)) &&
            EntryYields(entry, SignAt(text, i + 1)).Some?
  {
    var w := SignSpelling(u);
    SignFromDict(u);
    SpelledAtSigns(text, i, w);
    assert SignAt(text, i + 0) == w[0] as int;
    if |w| == 2 {
      assert SignAt(text, i + 1) == w[1] as int;
    }
  }

  /** What `EntryYields` gives is spelled at `i`, and nothing longer is. */
  lemma {:induction false} EntryYieldsLongest(text: string, i: nat, c: char)
    requires c in SpecialSignDict && SignAt(text, i) == c as int
    requires EntryYields(SpecialSignDict[c], SignAt(text, i + 1)).Some?
    ensures LongestSignAt(text, i, EntryYields(SpecialSignDict[c], SignAt(text, i + 1)).value)
  {
    var entry := SpecialSignDict[c];
    var d := SignAt(text, i + 1);
    var k := EntryYields(entry, d).value;
    SpecialSignDictSpellsSigns(c);
    var w := SignSpelling(k);
    SpelledAtSigns(text, i, w);
    if entry.Extensible? && Lookup(entry.followers, d).Some? {
      assert |w| == 2 && w[0] == c && d == w[1] as int;
      assert SignAt(text, i + 1) == w[1] as int;
    } else {
      assert w == [c];
    }
    forall u | IsSign(u) && SpelledAt(text, i, SignSpelling(u))
      ensures |SignSpelling(u)| <= |w|
    {
      SignFromDict(u);
      SpelledSignInEntry(text, i, c, u);
    }
  }

  /** The dictionary entry of the sign at `i` yields the longest sign token
      there. */
  lemma {:induction false} SignFromEntry(text: string, i: nat, c: char)
    requires c in SpecialSignDict && SignAt(text, i) == c as int
    ensures SignTokenAt(text, i) == EntryYields(SpecialSignDict[c], SignAt(text, i + 1))
  {
    var expected := EntryYields(SpecialSignDict[c], SignAt(text, i + 1));
    SignTokenAtLongest(text, i);
    if expected.Some? {
      EntryYieldsLongest(text, i, c);
      LongestSignUnique(text, i, expected.value, SignTokenAt(text, i).value);
    } else if SignTokenAt(text, i).Some? {
      SpelledSignInEntry(text, i, c, SignTokenAt(text, i).value);
    }
  }

  /** What reading a sign token promises: the longest sign token at the
      current sign, if any, is read and the reader stands after it;
      otherwise the reader is back where it started. */
  predicate SignRead(sc: ScannerState, res: (bool, ScannerState))
    requires Valid(sc.reader)
  {
    var k := SignTokenAt(sc.reader.text, Here(sc.reader));
    res.1.line == sc.line && res.1.column == sc.column && res.1.reader.text == sc.reader.text &&
    Valid(res.1.reader) &&
    (res.0 <==> k.Some?) &&
    (res.0 ==>
       IsSign(k.value) &&
       res.1.token == Some(MakeToken(k.value, "", sc.line, sc.column)) &&
       res.1.reader == ReadN(sc.reader, |SignSpelling(k.value)|) &&
       Here(res.1.reader) == Here(sc.reader) + |SignSpelling(k.value)|) &&
    (!res.0 ==> SamePlace(res.1.reader, sc.reader) && res.1.token == sc.token)
  }

  /** Reads the longest sign token at the current sign. On failure the
      reader is back where it started. */
  function TryReadSpecialSign(sc: ScannerState): (res: (bool, ScannerState))
    requires Valid(sc.reader)
    ensures SignRead(sc, res)
  {
    var r := sc.reader;
    match Lookup(SpecialSignDict, r.current)
    case None =>
      NoSignUnlessKey(r.text, Here(r));
      (false, sc)
    case Some(entry) =>
      var c := r.current as char;
      var r1 := Read(r);
      match entry
      case OneSign(kind) =>
        SignOfEntry(sc, c, kind, 1);
        (true, sc.(reader := r1, token := Some(MakeToken(kind, "", sc.line, sc.column))))
      case Extensible(single, followers) =>
        match Lookup(followers, r1.current)
        case Some(kind) =>
          SignOfEntry(sc, c, kind, 2);
          (true, sc.(reader := Read(r1), token := Some(MakeToken(kind, "", sc.line, sc.column))))
        case None =>
          if single.Some? then
            SignOfEntry(sc, c, single.value, 1);
            (true, sc.(reader := r1, token := Some(MakeToken(single.value, "", sc.line, sc.column))))
          else
            NoSignOfEntry(sc, c);
            (false, sc.(reader := Back(r1, 1)))
  }

  /** The token the dictionary entry of the current sign yields is read
      with `n` reads, one for each of its signs. */
  lemma {:induction false} SignOfEntry(sc: ScannerState, c: char, k: TokenType, n: nat)
    requires Valid(sc.reader) && c in SpecialSignDict && sc.reader.current == c as int
    requires n == 1 || n == 2
    requires var entry := SpecialSignDict[c];
             var follower := if entry.Extensible? then Lookup(entry.followers, SignAt(sc.reader.text, sc.reader.pos)) else None;
             if n == 2 then follower == Some(k) else follower.None? && SingleOf(entry) == Some(k)
    ensures ReadN(sc.reader, 1) == Read(sc.reader) && ReadN(sc.reader, 2) == Read(Read(sc.reader))
    ensures SignRead(sc, (true, sc.(reader := ReadN(sc.reader, n), token := Some(MakeToken(k, "", sc.line, sc.column)))))
  {
    var r := sc.reader;
    var i := Here(r);
    assert i + 1 == r.pos;
    assert EntryYields(SpecialSignDict[c], SignAt(r.text, i + 1)) == Some(k);
    SignFromEntry(r.text, i, c);
    EntryTokenLength(r.text, i, c, k, n);
    ReadsAfterFirst(r, 0);
    ReadsAfterFirst(r, 1);
    ReadsAfterFirst(Read(r), 0);
    ReadNValid(r, n);
  }

  /** The spelling of the token an entry yields has one sign, or two when a
      follower matched; it stands in the text. */
  lemma {:induction false} EntryTokenLength(text: string, i: nat, c: char, k: TokenType, n: nat)
    requires c in SpecialSignDict && SignAt(text, i) == c as int
    requires n == 1 || n == 2
    requires var entry := SpecialSignDict[c];
             var follower := if entry.Extensible? then Lookup(entry.followers, SignAt(text, i + 1)) else None;
             if n == 2 then follower == Some(k) else follower.None? && SingleOf(entry) == Some(k)
    ensures IsSign(k) && |SignSpelling(k)| == n && i + n <= |text|
  {
    SpecialSignDictSpellsSigns(c);
    if n == 2 {
      assert IsCharCode(SignAt(text, i + 1));
    }
  }

  /** '/' without '>' after it is no sign token; the reader goes back. */
  lemma {:induction false} NoSignOfEntry(sc: ScannerState, c: char)
    requires Valid(sc.reader) && c in SpecialSignDict && sc.reader.current == c as int
    requires var entry := SpecialSignDict[c];
             entry.Extensible? && Lookup(entry.followers, SignAt(sc.reader.text, sc.reader.pos)).None? &&
             entry.single.None?
    ensures 1 < Read(sc.reader).pos
    ensures SignRead(sc, (false, sc.(reader := Back(Read(sc.reader), 1))))
  {
    var r := sc.reader;
    var i := Here(r);
    assert i + 1 == r.pos;
    assert EntryYields(SpecialSignDict[c], SignAt(r.text, i + 1)).None?;
    SignFromEntry(r.text, i, c);
    BackOverReads(r, Read(r), 1);
  }

  /** Every sign token starts with a key of the dictionary. */
  lemma {:induction false} NoSignUnlessKey(text: string, i: nat)
    requires !(IsCharCode(SignAt(text, i)) && (SignAt(text, i) as char) in SpecialSignDict)
    ensures SignTokenAt(text, i).None?
  {
    assert '<' in SpecialSignDict && '>' in SpecialSignDict && '=' in SpecialSignDict && '/' in SpecialSignDict;
    assert '!' in SpecialSignDict && '{' in SpecialSignDict && '}' in SpecialSignDict;
    assert '(' in SpecialSignDict && ')' in SpecialSignDict && ',' in SpecialSignDict;
    assert '.' in SpecialSignDict && '[' in SpecialSignDict && ']' in SpecialSignDict && '"' in SpecialSignDict;
  }

  // ---------------------------------------------------------------------
  // Numbers and identifiers
  // ---------------------------------------------------------------------

  /** What reading a number or an identifier promises, given what the text
      holds at the current sign (`found`): on success the token of `kind`
      carries the found signs and the reader stands after them; on failure
      the reader is back where it started. */
  predicate RunRead(sc: ScannerState, res: (bool, ScannerState), kind: TokenType, found: Option<string>)
    requires Valid(sc.reader)
  {
    res.1.line == sc.line && res.1.column == sc.column && res.1.reader.text == sc.reader.text &&
    Valid(res.1.reader) &&
    (res.0 <==> found.Some?) &&
    (res.0 ==>
       res.1.token == Some(MakeToken(kind, found.value, sc.line, sc.column)) &&
       res.1.reader == ReadN(sc.reader, |found.value|) &&
       Here(res.1.reader) == Here(sc.reader) + |found.value|) &&
    (!res.0 ==> SamePlace(res.1.reader, sc.reader) && res.1.token == sc.token)
  }

  /** Reads a maximal run of digits; it is a number only when one of the
      number's follower signs comes next, otherwise the reader is rewound
      over the digits. */
  function TryReadNumber(sc: ScannerState): (res: (bool, ScannerState))
    requires Valid(sc.reader)
    ensures RunRead(sc, res, Number, NumberAt(sc.reader.text, Here(sc.reader)))
  {
    var r := sc.reader;
    var (r1, digits) := ScanWhile(r, IsDigitSign);
    if |digits| > 0 then
      if EndsNumber(r1.current) then
        NumberAccepted(sc, r1, digits);
        (true, sc.(reader := r1, token := Some(MakeToken(Number, digits, sc.line, sc.column))))
      else
        NumberRejected(sc, r1, digits);
        (false, sc.(reader := Back(r1, |digits|)))
    else
      NoDigits(sc, r1, digits);
      (false, sc)
  }

  lemma {:induction false} NumberAccepted(sc: ScannerState, r1: Reader, digits: string)
    requires Valid(sc.reader) && (r1, digits) == ScanWhile(sc.reader, IsDigitSign)
    requires |digits| > 0 && EndsNumber(r1.current)
    ensures RunRead(sc, (true, sc.(reader := r1, token := Some(MakeToken(Number, digits, sc.line, sc.column)))),
                    Number, NumberAt(sc.reader.text, Here(sc.reader)))
  {
  }

  lemma {:induction false} NumberRejected(sc: ScannerState, r1: Reader, digits: string)
    requires Valid(sc.reader) && (r1, digits) == ScanWhile(sc.reader, IsDigitSign)
    requires |digits| > 0 && !EndsNumber(r1.current)
    ensures |digits| < r1.pos
    ensures RunRead(sc, (false, sc.(reader := Back(r1, |digits|))), Number, NumberAt(sc.reader.text, Here(sc.reader)))
  {
    BackOverReads(sc.reader, r1, |digits|);
  }

  lemma {:induction false} NoDigits(sc: ScannerState, r1: Reader, digits: string)
    requires Valid(sc.reader) && (r1, digits) == ScanWhile(sc.reader, IsDigitSign)
    requires |digits| == 0
    ensures RunRead(sc, (false, sc), Number, NumberAt(sc.reader.text, Here(sc.reader)))
  {
  }

  /** Reads a letter or '_' and then a maximal run of identifier signs; it
      is an identifier only when one of the identifier's follower signs
      comes next, otherwise the reader is rewound over it. */
  function TryReadIdentifier(sc: ScannerState): (res: (bool, ScannerState))
    requires Valid(sc.reader)
    ensures RunRead(sc, res, Identifier, IdentifierAt(sc.reader.text, Here(sc.reader)))
  {
    var r := sc.reader;
    if StartsIdentifier(r.current) then
      ReadKeepsValid(r);
      var (r2, rest) := ScanWhile(Read(r), IsIdentifierSign);
      var name := [r.text[Here(r)]] + rest;
      if EndsIdentifier(r2.current) then
        IdentifierAccepted(sc, r2, rest);
        (true, sc.(reader := r2, token := Some(MakeToken(Identifier, name, sc.line, sc.column))))
      else
        IdentifierRejected(sc, r2, rest);
        (false, sc.(reader := Back(r2, |name|)))
    else
      (false, sc)
  }

  lemma {:induction false} IdentifierAccepted(sc: ScannerState, r2: Reader, rest: string)
    requires Valid(sc.reader) && StartsIdentifier(sc.reader.current) && Valid(Read(sc.reader))
    requires (r2, rest) == ScanWhile(Read(sc.reader), IsIdentifierSign)
    requires EndsIdentifier(r2.current)
    ensures var name := [sc.reader.text[Here(sc.reader)]] + rest;
            RunRead(sc, (true, sc.(reader := r2, token := Some(MakeToken(Identifier, name, sc.line, sc.column)))),
                    Identifier, IdentifierAt(sc.reader.text, Here(sc.reader)))
  {
    IdentifierRead(sc.reader, r2, rest);
  }

  lemma {:induction false} IdentifierRejected(sc: ScannerState, r2: Reader, rest: string)
    requires Valid(sc.reader) && StartsIdentifier(sc.reader.current) && Valid(Read(sc.reader))
    requires (r2, rest) == ScanWhile(Read(sc.reader), IsIdentifierSign)
    requires !EndsIdentifier(r2.current)
    ensures |rest| + 1 < r2.pos
    ensures RunRead(sc, (false, sc.(reader := Back(r2, |rest| + 1))), Identifier, IdentifierAt(sc.reader.text, Here(sc.reader)))
  {
    IdentifierRead(sc.reader, r2, rest);
    BackOverReads(sc.reader, r2, |rest| + 1);
  }

  /** The signs `TryReadIdentifier` collects are the text from the
      identifier's start to the end of the run. */
  lemma {:induction false} IdentifierRead(r: Reader, r2: Reader, rest: string)
    requires Valid(r) && StartsIdentifier(r.current) && Valid(Read(r))
    requires Scanned(Read(r), IsIdentifierSign, (r2, rest))
    ensures r2 == ReadN(r, |rest| + 1)
    ensures IdentifierAt(r.text, Here(r)) ==
              if EndsIdentifier(r2.current) then Some([r.text[Here(r)]] + rest) else None
  {
    var i, e := Here(r), Here(r2);
    assert i + 1 == Here(Read(r));
    ReadsAfterFirst(r, |rest|);
    IdentifierValue(r.text, i, e, rest, r2.current);
  }

  lemma {:induction false} IdentifierValue(text: string, i: nat, e: nat, rest: string, c: int)
    requires StartsIdentifier(SignAt(text, i)) && e == RunEnd(text, i + 1, IsIdentifierSign)
    requires e <= |text| && rest == text[i + 1..e] && c == SignAt(text, e)
    ensures IdentifierAt(text, i) == if EndsIdentifier(c) then Some([text[i]] + rest) else None
  {
    ConsSlice(text, i, e);
  }

  lemma {:induction false} ConsSlice(text: string, i: nat, e: nat)
    requires i < e <= |text|
    ensures [text[i]] + text[i + 1..e] == text[i..e]
  {
  }

  // ---------------------------------------------------------------------
  // The next token
  // ---------------------------------------------------------------------

  /** Skips whitespace, remembers the reader's line and column, and reads
      the next token: end of input, else a keyword, a sign, a number or an
      identifier, tried in that order; if none matches the token is
      `Invalid` and the reader stays where the token would start. */
  function ReadNextToken(sc: ScannerState): (res: ScannerState)
    requires Valid(sc.reader)
    ensures Valid(res.reader) && res.reader.text == sc.reader.text
    ensures var i := RunEnd(sc.reader.text, Here(sc.reader), IsWhitespaceSign);
            var l := LexemeAt(sc.reader.text, i);
            res.token == Some(MakeToken(l.kind, l.value, res.line, res.column)) &&
            Here(res.reader) == i + l.length
    ensures res.line == SkipWhitespaces(sc.reader).line && res.column == SkipWhitespaces(sc.reader).column
  {
    var r := SkipWhitespaces(sc.reader);
    var start := ScannerState(r, sc.token, r.line, r.column);
    if r.current == EndOfInput then
      start.(token := Some(MakeToken(Eof, "", r.line, r.column)))
    else
      ReadTokenAt(start)
  }

  /** The scanner's token alternatives, from the keyword on. Each of the
      following functions is entered when the alternatives before it
      failed and left the reader in place. */
  function ReadTokenAt(sc: ScannerState): (res: ScannerState)
    requires Valid(sc.reader) && sc.reader.current != EndOfInput
    ensures Valid(res.reader) && res.reader.text == sc.reader.text
    ensures res.line == sc.line && res.column == sc.column
    ensures var l := LexemeAt(sc.reader.text, Here(sc.reader));
            res.token == Some(MakeToken(l.kind, l.value, sc.line, sc.column)) &&
            Here(res.reader) == Here(sc.reader) + l.length
  {
    var (isKeyword, next) := TryReadKeyword(sc);
    if isKeyword then
      LexemeIsKeyword(sc.reader.text, Here(sc.reader));
      next
    else ReadSignOnward(next)
  }

  function ReadSignOnward(sc: ScannerState): (res: ScannerState)
    requires Valid(sc.reader) && sc.reader.current != EndOfInput
    requires KeywordAt(sc.reader.text, Here(sc.reader)).None?
    ensures Valid(res.reader) && res.reader.text == sc.reader.text
    ensures res.line == sc.line && res.column == sc.column
    ensures var l := LexemeAt(sc.reader.text, Here(sc.reader));
            res.token == Some(MakeToken(l.kind, l.value, sc.line, sc.column)) &&
            Here(res.reader) == Here(sc.reader) + l.length
  {
    var (isSign, next) := TryReadSpecialSign(sc);
    if isSign then
      LexemeIsSign(sc.reader.text, Here(sc.reader));
      next
    else ReadNumberOnward(next)
  }

  function ReadNumberOnward(sc: ScannerState): (res: ScannerState)
    requires Valid(sc.reader) && sc.reader.current != EndOfInput
    requires KeywordAt(sc.reader.text, Here(sc.reader)).None?
    requires SignTokenAt(sc.reader.text, Here(sc.reader)).None?
    ensures Valid(res.reader) && res.reader.text == sc.reader.text
    ensures res.line == sc.line && res.column == sc.column
    ensures var l := LexemeAt(sc.reader.text, Here(sc.reader));
            res.token == Some(MakeToken(l.kind, l.value, sc.line, sc.column)) &&
            Here(res.reader) == Here(sc.reader) + l.length
  {
    var (isNumber, next) := TryReadNumber(sc);
    if isNumber then
      LexemeIsNumber(sc.reader.text, Here(sc.reader));
      next
    else ReadIdentifierOnward(next)
  }

  function ReadIdentifierOnward(sc: ScannerState): (res: ScannerState)
    requires Valid(sc.reader) && sc.reader.current != EndOfInput
    requires KeywordAt(sc.reader.text, Here(sc.reader)).None?
    requires SignTokenAt(sc.reader.text, Here(sc.reader)).None?
    requires NumberAt(sc.reader.text, Here(sc.reader)).None?
    ensures Valid(res.reader) && res.reader.text == sc.reader.text
    ensures res.line == sc.line && res.column == sc.column
    ensures var l := LexemeAt(sc.reader.text, Here(sc.reader));
            res.token == Some(MakeToken(l.kind, l.value, sc.line, sc.column)) &&
            Here(res.reader) == Here(sc.reader) + l.length
  {
    var (isIdentifier, next) := TryReadIdentifier(sc);
    LexemeIsIdentifierOrInvalid(sc.reader.text, Here(sc.reader));
    if isIdentifier then next
    else next.(token := Some(MakeToken(Invalid, "", sc.line, sc.column)))
  }

  // ---------------------------------------------------------------------
  // Text and strings
  // ---------------------------------------------------------------------

  /** The current sign is one of `chars`. */
  predicate CurrentIn(r: Reader, chars: set<char>)
    requires Valid(r)
  {
    Here(r) < |r.text| && r.text[Here(r)] in chars
  }

  /** At a backslash, looks at the next sign: if it is escapable, the
      reader moves onto it; otherwise the reader is put back on the
      backslash. */
  function EscapeIfNeeded(r: Reader, escapes: set<char>): (r': Reader)
    requires Valid(r) && r.current != EndOfInput
    ensures Valid(r') && r'.text == r.text && r'.current != EndOfInput
    ensures var h := Here(r);
            if r.text[h] == '\\' && h + 1 < |r.text| && r.text[h + 1] in escapes
            then Here(r') == h + 1 else Here(r') == h
  {
    if r.current == '\\' as int then
      ReadKeepsValid(r);
      var r1 := Read(r);
      if r1.current != EndOfInput && CurrentIn(r1, escapes) then r1 else Back(r1, 1)
    else r
  }

  /** Collects signs until the end of input or a stop sign, resolving
      escapes. */
  function Collect(r: Reader, escapes: set<char>, stops: set<char>): (res: (Reader, string))
    requires Valid(r)
    ensures Valid(res.0) && res.0.text == r.text
    ensures var u := Unescape(r.text[Here(r)..], escapes, stops);
            res.1 == u.0 && Here(res.0) == Here(r) + u.1
    decreases |r.text| + 1 - r.pos, 1
  {
    if r.current == EndOfInput || CurrentIn(r, stops) then
      assert r.text[Here(r)..] == [] || r.text[Here(r)..][0] in stops;
      (r, "")
    else
      CollectSign(r, escapes, stops)
  }

  /** One round of `Collect` away from the end and from stop signs: the
      sign at the reader, or the one after a backslash that escapes it,
      then the rest. */
  function CollectSign(r: Reader, escapes: set<char>, stops: set<char>): (res: (Reader, string))
    requires Valid(r) && r.current != EndOfInput && !CurrentIn(r, stops)
    ensures Valid(res.0) && res.0.text == r.text
    ensures var u := Unescape(r.text[Here(r)..], escapes, stops);
            res.1 == u.0 && Here(res.0) == Here(r) + u.1
    decreases |r.text| + 1 - r.pos, 0
  {
    var r1 := EscapeIfNeeded(r, escapes);
    var c := r1.text[Here(r1)];
    ReadKeepsValid(r1);
    var rest := Collect(Read(r1), escapes, stops);
    CollectStep(r.text, Here(r), Here(r1), escapes, stops);
    (rest.0, [c] + rest.1)
  }

  /** One round of `Collect`: the sign appended is the one after the
      backslash when it is escapable, else the current sign. */
  lemma {:induction false} CollectStep(text: string, h: nat, h1: nat, escapes: set<char>, stops: set<char>)
    requires h < |text| && text[h] !in stops
    requires h1 == if text[h] == '\\' && h + 1 < |text| && text[h + 1] in escapes then h + 1 else h
    ensures h1 < |text|
    ensures var rest := Unescape(text[h1 + 1..], escapes, stops);
            Unescape(text[h..], escapes, stops) == ([text[h1]] + rest.0, rest.1 + (h1 + 1 - h))
  {
    UnescapeStep(text, h, escapes, stops);
  }

  /** Reads free text: the leading spaces unless a line break follows them,
      then everything up to the end of input, '<' or '{', with `\{`, `\<`,
      `\}` and `\\` unescaped. A text token is produced only when
      something was collected; the token keeps the line and column of the
      previous token. The reader moves even when nothing is collected (it
      may skip whitespace). */
  function TryReadText(sc: ScannerState): (res: (bool, ScannerState))
    requires Valid(sc.reader)
    ensures Valid(res.1.reader) && res.1.reader.text == sc.reader.text
    ensures res.1.line == sc.line && res.1.column == sc.column
    ensures var s := sc.reader.text[Here(sc.reader)..];
            (res.0 <==> TextValue(s) != "") &&
            Here(res.1.reader) == Here(sc.reader) + TextLength(s) &&
            res.1.token == if res.0 then Some(MakeToken(Text, TextValue(s), sc.line, sc.column)) else sc.token
  {
    var r := sc.reader;
    var (r1, spaces) := ReadWhitespacesUnlessNewLine(r);
    var (r2, body) := Collect(r1, TextEscapes, TextStops);
    TextParts(r.text, Here(r), Here(r1), spaces);
    var buffer := spaces + body;
    if |buffer| > 0 then
      (true, sc.(reader := r2, token := Some(MakeToken(Text, buffer, sc.line, sc.column))))
    else
      (false, sc.(reader := r2))
  }

  /** How `TextValue` and `TextLength` split into the leading whitespace and
      the unescaped rest. */
  lemma {:induction false} TextParts(text: string, h: nat, h1: nat, spaces: string)
    requires h <= |text|
    requires var s := text[h..];
             if BreakAfterSpaces(s)
             then spaces == "" && h1 == h + LeadingWhitespace(s)
             else spaces == s[..LeadingSpaces(s)] && h1 == h + LeadingSpaces(s)
    ensures h1 <= |text|
    ensures var s := text[h..];
            var u := Unescape(text[h1..], TextEscapes, TextStops);
            TextValue(s) == spaces + u.0 && TextLength(s) == (h1 - h) + u.1
  {
    var s := text[h..];
    if BreakAfterSpaces(s) {
      var k := LeadingWhitespace(s);
      assert text[h1..] == s[k..];
    } else {
      var sp := LeadingSpaces(s);
      assert text[h1..] == s[sp..];
    }
  }

  /** Reads the contents of a string literal: everything up to the end of
      input, '"' or '{', with `\"`, `\\` and `\{` unescaped. The token
      produced is a text token. */
  function TryReadString(sc: ScannerState): (res: (bool, ScannerState))
    requires Valid(sc.reader)
    ensures Valid(res.1.reader) && res.1.reader.text == sc.reader.text
    ensures res.1.line == sc.line && res.1.column == sc.column
    ensures var s := sc.reader.text[Here(sc.reader)..];
            var u := Unescape(s, StringEscapes, StringStops);
            (res.0 <==> StringValue(s) != "") &&
            Here(res.1.reader) == Here(sc.reader) + u.1 &&
            res.1.token == if res.0 then Some(MakeToken(Text, StringValue(s), sc.line, sc.column)) else sc.token
  {
    var (r1, buffer) := Collect(sc.reader, StringEscapes, StringStops);
    if |buffer| > 0 then
      (true, sc.(reader := r1, token := Some(MakeToken(Text, buffer, sc.line, sc.column))))
    else
      (false, sc.(reader := r1))
  }
}

=== FILE: ScannerAsWritten.dfy ===
/** The scanner steps that rewind, over the reader as written
    (TKOM/Tools/Scanner.cs with TKOM/Readers/StringsReader.cs).

    The source's reader stops advancing its position at the end of the
    text, so a rewind that follows a read past the end lands one sign too
    early, or fails when it would land before the first sign. The steps
    of the scanner that rewind are the keyword step, the sign step and the
    escape step of free text and strings. This module models them over
    `ReadAsWritten` and `RewindAsWritten`, proves that away from the end of
    the text they agree with the steps of Scanner.dfy, and exhibits what
    they do at the end: a trailing 'i', ':' or '/' (or ":d") makes the
    scanner throw, a trailing 'i' after another sign makes it read that
    sign a second time, and a trailing backslash makes the text loop run
    forever. */
module ScannerAsWritten {
  import opened Wrappers
  import opened Errors
  import opened Tokens
  import opened StringsReader
  import opened Keywords
  import opened Lexicon
  import opened Scanner

  /** The index of the sign the as-written reader stands on; the length of
      the text once the text is exhausted. */
  function HereAsWritten(r: Reader): int {
    if r.current == EndOfInput then r.pos else r.pos - 1
  }

  /** Away from the end the as-written invariant is the corrected one. */
  lemma {:induction false} ValidBeforeEnd(r: Reader)
    requires ValidAsWritten(r) && r.pos < |r.text|
    ensures Valid(r) && HereAsWritten(r) == Scanner.Here(r)
  {
  }

  /** Before the end of the text the two rewinds agree. */
  lemma {:induction false} RewindAgreesBeforeEnd(r: Reader, n: int)
    requires 1 <= r.pos - n <= |r.text|
    ensures RewindAsWritten(r, n) == Rewind(r, n)
  {
  }

  // ---------------------------------------------------------------------
  // Keywords
  // ---------------------------------------------------------------------

  /** `Scanner.MatchTail` over the as-written reader. */
  function MatchTailAsWritten(r: Reader, tail: string, k: nat): (res: (Reader, nat, bool))
    requires 1 <= k <= |tail|
    ensures k <= res.1 <= |tail| && res.0.text == r.text
    ensures !res.2 ==> res.1 == |tail|
    ensures ValidAsWritten(r) ==> ValidAsWritten(res.0) && res.0.pos <= r.pos + (res.1 - k)
    decreases |tail| - k
  {
    if k == |tail| then (r, k, false)
    else
      var r' := ReadAsWritten(r);
      if r'.current != tail[k] as int then (r', k + 1, true)
      else MatchTailAsWritten(r', tail, k + 1)
  }

  /** While every read it makes stays before the end of the text, matching
      a tail reads as the corrected matcher does. */
  lemma {:induction false} MatchTailAgrees(r: Reader, tail: string, k: nat)
    requires 1 <= k <= |tail| && r.pos + (|tail| - k) <= |r.text|
    ensures MatchTailAsWritten(r, tail, k) == Scanner.MatchTail(r, tail, k)
    decreases |tail| - k
  {
    hide TailAt, ReadN;
    if k < |tail| {
      ReadAgreesBeforeEnd(r);
      if Read(r).current == tail[k] as int {
        MatchTailAgrees(Read(r), tail, k + 1);
      }
    }
  }

  /** What a step that may rewind promises as written: it throws only the
      rewind-before-start exception; otherwise the reader stays within the
      same text and the counters the step started with are kept; a step
      that reports no match keeps the old token, and a match sets one. */
  predicate SteppedAsWritten(sc: ScannerState, res: Result<(bool, ScannerState), Error>) {
    (res.Failure? ==> res.error == RewindBeforeStart) &&
    (res.Success? ==>
       var next := res.value.1;
       ValidAsWritten(next.reader) && next.reader.text == sc.reader.text &&
       next.line == sc.line && next.column == sc.column &&
       (!res.value.0 ==> next.token == sc.token) &&
       (res.value.0 ==> next.token.Some?))
  }

  /** Gives up a step: rewinds `n` signs, which can throw. */
  function GiveUpAsWritten(sc: ScannerState, r: Reader, n: nat): (res: Result<(bool, ScannerState), Error>)
    requires ValidAsWritten(r) && r.text == sc.reader.text
    ensures SteppedAsWritten(sc, res) && (res.Success? ==> !res.value.0)
    ensures res.Success? <==> r.pos - n >= 1
  {
    var back :- RewindAsWritten(r, n);
    RewindAsWrittenKeepsValid(r, n);
    Success((false, sc.(reader := back)))
  }

  /** The keyword step as written: look the sign up in the automaton, read
      once, filter the candidates by the new sign, match the first
      survivor's tail, and rewind over every sign read when matching
      fails. The rewind can throw. */
  function TryReadKeywordAsWritten(sc: ScannerState): (res: Result<(bool, ScannerState), Error>)
    requires ValidAsWritten(sc.reader)
    ensures SteppedAsWritten(sc, res)
    ensures res.Success? && res.value.0 ==> IsKeyword(res.value.1.token.value.kind)
  {
    match Lookup(KeywordAutomaton, sc.reader.current)
    case None => Success((false, sc))
    case Some(_) => KeywordCandidatesAsWritten(sc, sc.reader.current as char)
  }

  function KeywordCandidatesAsWritten(sc: ScannerState, c: char): (res: Result<(bool, ScannerState), Error>)
    requires ValidAsWritten(sc.reader) && c in KeywordAutomaton
    ensures SteppedAsWritten(sc, res)
    ensures res.Success? && res.value.0 ==> IsKeyword(res.value.1.token.value.kind)
  {
    var r1 := ReadAsWritten(sc.reader);
    ReadAsWrittenKeepsValid(sc.reader);
    var survivors := FilterByFirst(KeywordAutomaton[c], r1.current);
    if survivors == [] then GiveUpAsWritten(sc, r1, 1)
    else
      SurvivorIsKeyword(c, r1.current, survivors);
      KeywordTailAsWritten(sc, r1, survivors[0])
  }

  function KeywordTailAsWritten(sc: ScannerState, r1: Reader, e: KeywordEntry): (res: Result<(bool, ScannerState), Error>)
    requires ValidAsWritten(r1) && r1.text == sc.reader.text && IsKeyword(e.kind) && |e.tail| > 0
    ensures SteppedAsWritten(sc, res)
    ensures res.Success? && res.value.0 ==> res.value.1.token == Some(MakeToken(e.kind, "", sc.line, sc.column))
  {
    var m := MatchTailAsWritten(r1, e.tail, 1);
    if m.2 then GiveUpAsWritten(sc, m.0, m.1)
    else
      ReadAsWrittenKeepsValid(m.0);
      Success((true, sc.(reader := ReadAsWritten(m.0), token := Some(MakeToken(e.kind, "", sc.line, sc.column)))))
  }

  /** Every survivor of the first-sign filter is a keyword's entry. */
  lemma {:induction false} SurvivorIsKeyword(c: char, d: int, survivors: seq<KeywordEntry>)
    requires c in KeywordAutomaton && survivors == FilterByFirst(KeywordAutomaton[c], d) && survivors != []
    ensures survivors[0] in KeywordAutomaton[c] && IsKeyword(survivors[0].kind) && |survivors[0].tail| > 0
  {
    assert survivors[0] in survivors;
    KeywordAutomatonSpellsKeywords();
  }

  /** Five signs or more after the current one, the keyword step as written
      reads exactly as the corrected one, so it cannot throw and it reads
      the keyword standing at the current sign, if any. */
  lemma {:induction false} KeywordAgreesAwayFromEnd(sc: ScannerState)
    requires ValidAsWritten(sc.reader) && sc.reader.pos + 5 <= |sc.reader.text|
    ensures Valid(sc.reader)
    ensures TryReadKeywordAsWritten(sc) == Success(Scanner.TryReadKeyword(sc))
  {
    var r := sc.reader;
    ValidBeforeEnd(r);
    if Lookup(KeywordAutomaton, r.current).Some? {
      var c := r.current as char;
      var candidates := KeywordAutomaton[c];
      ReadAgreesBeforeEnd(r);
      var r1 := Read(r);
      var survivors := FilterByFirst(candidates, r1.current);
      if survivors == [] {
        RewindAgreesBeforeEnd(r1, 1);
      } else {
        var e := survivors[0];
        KeywordAutomatonSpellsKeywords();
        assert e in candidates;
        TailAtMostFour(c, e);
        MatchTailAgrees(r1, e.tail, 1);
        var m := Scanner.MatchTail(r1, e.tail, 1);
        assert m.0 == ReadN(r1, m.1 - 1);
        RewindAgreesBeforeEnd(m.0, m.1);
        ReadAgreesBeforeEnd(m.0);
      }
    }
  }

  /** No keyword tail has more than four signs. */
  lemma {:induction false} TailAtMostFour(c: char, e: KeywordEntry)
    requires c in KeywordAutomaton && e in KeywordAutomaton[c]
    ensures |e.tail| <= 4
  {
    assert KeywordAutomaton[c] == [KeywordEntry("def", Def), KeywordEntry("for", For),
                                   KeywordEntry("if", If), KeywordEntry("else", Else)] ||
           KeywordAutomaton[c] == [KeywordEntry("n", In)];
  }

  /** On a trailing ':' or 'i' the keyword step reads past the end, finds
      no survivor, and rewinds one sign from a position that did not move:
      it throws when the text is that one sign, and otherwise lands on the
      sign before, which the scanner then reads a second time. */
  lemma {:induction false} KeywordAtLastSignAsWritten(sc: ScannerState)
    requires ValidAsWritten(sc.reader) && sc.reader.pos == |sc.reader.text|
    requires sc.reader.current == ':' as int || sc.reader.current == 'i' as int
    ensures |sc.reader.text| == 1 ==> TryReadKeywordAsWritten(sc) == Failure(RewindBeforeStart)
    ensures |sc.reader.text| > 1 ==>
              var res := TryReadKeywordAsWritten(sc);
              var r := sc.reader;
              res.Success? && !res.value.0 &&
              res.value.1.reader.pos == r.pos - 1 &&
              res.value.1.reader.current == r.text[|r.text| - 2] as int
  {
    var r := sc.reader;
    var c := r.current as char;
    assert c in KeywordAutomaton;
    var r1 := ReadAsWritten(r);
    assert r1.current == EndOfInput;
    NoSurvivorAtEnd(c);
  }

  /** No keyword tail starts with the end marker. */
  lemma {:induction false} NoSurvivorAtEnd(c: char)
    requires c in KeywordAutomaton
    ensures FilterByFirst(KeywordAutomaton[c], EndOfInput) == []
  {
  }

  /** The corrected keyword step on the same trailing sign finds no keyword
      and leaves the reader on that sign. */
  lemma {:induction false} KeywordAtLastSignCorrected(sc: ScannerState)
    requires ValidAsWritten(sc.reader) && sc.reader.pos == |sc.reader.text|
    requires sc.reader.current == ':' as int || sc.reader.current == 'i' as int
    ensures Valid(sc.reader)
    ensures var res := Scanner.TryReadKeyword(sc);
            !res.0 && SamePlace(res.1.reader, sc.reader)
  {
    var r := sc.reader;
    assert SignAt(r.text, r.pos) == EndOfInput;
    assert KeywordAt(r.text, Scanner.Here(r)).None?;
  }

  /** A text that is a lone 'i' or ':' makes the keyword step throw: the
      source rejects these inputs with an exception instead of reading an
      identifier or an invalid token. */
  lemma {:induction false} KeywordThrowsOnLoneSign()
    ensures TryReadKeywordAsWritten(NewScanner(NewAsWritten("i"))) == Failure(RewindBeforeStart)
    ensures TryReadKeywordAsWritten(NewScanner(NewAsWritten(":"))) == Failure(RewindBeforeStart)
  {
    KeywordAtLastSignAsWritten(NewScanner(NewAsWritten("i")));
    KeywordAtLastSignAsWritten(NewScanner(NewAsWritten(":")));
  }

  /** On ":d" the first survivor is `def`; matching its second sign reads
      past the end, and rewinding the two signs counted throws. */
  lemma {:induction false} KeywordThrowsOnColonD()
    ensures TryReadKeywordAsWritten(NewScanner(NewAsWritten(":d"))) == Failure(RewindBeforeStart)
  {
    var sc := NewScanner(NewAsWritten(":d"));
    var r1 := ReadAsWritten(sc.reader);
    assert r1.pos == 2 && r1.current == 'd' as int;
    var def := KeywordEntry("def", Def);
    var survivors := FilterByFirst(KeywordAutomaton[':'], r1.current);
    assert def in survivors;
    assert survivors[0] in survivors;
    assert survivors[0] == def;
    var m := MatchTailAsWritten(r1, "def", 1);
    assert ReadAsWritten(r1).current == EndOfInput;
    assert m.0.pos == 2 && m.1 == 2 && m.2;
  }

  // ---------------------------------------------------------------------
  // Special signs
  // ---------------------------------------------------------------------

  /** The sign step as written: look the sign up in the dictionary, read
      once, and either take a one-sign token, take a two-sign token with
      one more read, or rewind one sign. The rewind can throw. */
  function TryReadSpecialSignAsWritten(sc: ScannerState): (res: Result<(bool, ScannerState), Error>)
    requires ValidAsWritten(sc.reader)
    ensures res.Failure? ==> res.error == RewindBeforeStart
    ensures res.Success? ==>
              var next := res.value.1;
              ValidAsWritten(next.reader) && next.reader.text == sc.reader.text &&
              next.line == sc.line && next.column == sc.column &&
              (!res.value.0 ==> next.token == sc.token) &&
              (res.value.0 ==> next.token.Some? && IsSign(next.token.value.kind))
  {
    var r := sc.reader;
    match Lookup(SpecialSignDict, r.current)
    case None => Success((false, sc))
    case Some(entry) =>
      SpecialSignDictSpellsSigns(r.current as char);
      var r1 := ReadAsWritten(r);
      ReadAsWrittenKeepsValid(r);
      match entry
      case OneSign(kind) =>
        Success((true, sc.(reader := r1, token := Some(MakeToken(kind, "", sc.line, sc.column)))))
      case Extensible(single, followers) =>
        match Lookup(followers, r1.current)
        case Some(kind) =>
          ReadAsWrittenKeepsValid(r1);
          Success((true, sc.(reader := ReadAsWritten(r1), token := Some(MakeToken(kind, "", sc.line, sc.column)))))
        case None =>
          if single.Some? then
            Success((true, sc.(reader := r1, token := Some(MakeToken(single.value, "", sc.line, sc.column)))))
          else
            var back :- RewindAsWritten(r1, 1);
            RewindAsWrittenKeepsValid(r1, 1);
            Success((false, sc.(reader := back)))
  }

  /** Two signs or more after the current one, the sign step as written
      reads exactly as the corrected one, so it cannot throw and it reads
      the longest sign token at the current sign, if any. */
  lemma {:induction false} SignAgreesAwayFromEnd(sc: ScannerState)
    requires ValidAsWritten(sc.reader) && sc.reader.pos + 2 <= |sc.reader.text|
    ensures Valid(sc.reader)
    ensures TryReadSpecialSignAsWritten(sc) == Success(TryReadSpecialSign(sc))
  {
    var r := sc.reader;
    ValidBeforeEnd(r);
    ReadAgreesBeforeEnd(r);
    ReadAgreesBeforeEnd(Read(r));
    RewindAgreesBeforeEnd(Read(r), 1);
  }

  /** On a trailing '/' the sign step reads past the end, finds no '>' and
      rewinds one sign from a position that did not move: it throws when
      the text is that one sign, and otherwise lands on the sign before.
      The corrected step leaves the reader on the '/'. */
  lemma {:induction false} SlashAtLastSignAsWritten(sc: ScannerState)
    requires ValidAsWritten(sc.reader) && sc.reader.pos == |sc.reader.text|
    requires sc.reader.current == '/' as int
    ensures |sc.reader.text| == 1 ==> TryReadSpecialSignAsWritten(sc) == Failure(RewindBeforeStart)
    ensures |sc.reader.text| > 1 ==>
              var res := TryReadSpecialSignAsWritten(sc);
              var r := sc.reader;
              res.Success? && !res.value.0 &&
              res.value.1.reader.pos == r.pos - 1 &&
              res.value.1.reader.current == r.text[|r.text| - 2] as int
    ensures Valid(sc.reader)
    ensures var res := TryReadSpecialSign(sc);
            !res.0 && SamePlace(res.1.reader, sc.reader)
  {
    var r := sc.reader;
    assert Lookup(SpecialSignDict, r.current) == Some(Extensible(None, map['>' := TagCloseInline]));
    assert ReadAsWritten(r).current == EndOfInput;
    assert SignAt(r.text, r.pos) == EndOfInput;
  }

  /** A template that ends in a lone '/' makes the sign step throw. */
  lemma {:induction false} SignThrowsOnLoneSlash()
    ensures TryReadSpecialSignAsWritten(NewScanner(NewAsWritten("/"))) == Failure(RewindBeforeStart)
  {
    SlashAtLastSignAsWritten(NewScanner(NewAsWritten("/")));
  }

  /** On "<:def main(i", once the scanner has read '(' and stands on the
      trailing 'i', the keyword step lands back on '(' and the sign step
      then yields a second '(' token where the corrected scanner reads the
      identifier `i`. */
  lemma {:induction false} ParenthesisReadTwice(line: nat, column: nat)
    ensures var text := "<:def main(i";
            var sc := ScannerState(Reader(text, 12, 'i' as int, line, column), None, line, column);
            var k := TryReadKeywordAsWritten(sc);
            k.Success? && !k.value.0 && k.value.1.reader.current == '(' as int &&
            var s := TryReadSpecialSignAsWritten(k.value.1);
            s.Success? && s.value.0 &&
            s.value.1.token == Some(MakeToken(ParenthesisOpen, "", line, column))
  {
    var text := "<:def main(i";
    var sc := ScannerState(Reader(text, 12, 'i' as int, line, column), None, line, column);
    KeywordAtLastSignAsWritten(sc);
    var next := TryReadKeywordAsWritten(sc).value.1;
    assert next.reader.current == '(' as int;
    assert Lookup(SpecialSignDict, '(' as int) == Some(OneSign(ParenthesisOpen));
  }

  // ---------------------------------------------------------------------
  // Text and strings
  // ---------------------------------------------------------------------

  /** The sign `c` is one of `chars`; the end marker is in no set. */
  predicate SignIn(c: int, chars: set<char>) {
    IsCharCode(c) && (c as char) in chars
  }

  /** The escape step as written: at a backslash, read; if the new sign is
      not escapable, rewind one sign. The rewind can throw. */
  function EscapeIfNeededAsWritten(r: Reader, escapes: set<char>): (res: Result<Reader, Error>)
    requires ValidAsWritten(r) && r.current != EndOfInput
    ensures res.Failure? ==> res.error == RewindBeforeStart
    ensures res.Success? ==>
              ValidAsWritten(res.value) && res.value.text == r.text && res.value.current != EndOfInput
    ensures res.Success? && r.current != '\\' as int ==> res.value == r
  {
    if r.current == '\\' as int then
      var r1 := ReadAsWritten(r);
      ReadAsWrittenKeepsValid(r);
      if SignIn(r1.current, escapes) then Success(r1)
      else
        var back :- RewindAsWritten(r1, 1);
        RewindAsWrittenKeepsValid(r1, 1);
        Success(back)
    else Success(r)
  }

  /** The text and string loop as written: while the sign is neither the
      end marker nor a stop sign, resolve an escape, append the sign and
      read. The loop is bounded by `fuel` rounds; running out of rounds
      stands for a loop that does not end. */
  function CollectAsWritten(r: Reader, escapes: set<char>, stops: set<char>, fuel: nat): (res: Result<(Reader, string), Error>)
    requires ValidAsWritten(r)
    ensures res.Failure? ==> res.error == RewindBeforeStart || res.error == OutOfFuel
    ensures res.Success? ==>
              ValidAsWritten(res.value.0) && res.value.0.text == r.text &&
              (res.value.0.current == EndOfInput || SignIn(res.value.0.current, stops))
    decreases fuel
  {
    if r.current == EndOfInput || SignIn(r.current, stops) then Success((r, ""))
    else if fuel == 0 then Failure(OutOfFuel)
    else
      var r1 :- EscapeIfNeededAsWritten(r, escapes);
      var c := r1.text[r1.pos - 1];
      ReadAsWrittenKeepsValid(r1);
      var rest :- CollectAsWritten(ReadAsWritten(r1), escapes, stops, fuel - 1);
      Success((rest.0, [c] + rest.1))
  }

  /** One round of the loop as written, away from the end marker and the
      stop signs: the sign after the escape step, then what the rest of
      the loop collects from the sign after it; a failure of the rest is
      the failure of the whole. */
  lemma {:induction false} CollectRound(r: Reader, escapes: set<char>, stops: set<char>, fuel: nat)
    requires ValidAsWritten(r) && r.current != EndOfInput && !SignIn(r.current, stops) && fuel > 0
    requires EscapeIfNeededAsWritten(r, escapes).Success?
    ensures var r1 := EscapeIfNeededAsWritten(r, escapes).value;
            var r2 := ReadAsWritten(r1);
            var rest := CollectAsWritten(r2, escapes, stops, fuel - 1);
            1 <= r1.pos <= |r1.text| && ValidAsWritten(r2) &&
            HereAsWritten(r2) == HereAsWritten(r1) + 1 &&
            (rest.Failure? ==> CollectAsWritten(r, escapes, stops, fuel) == Failure(rest.error)) &&
            (rest.Success? ==>
               CollectAsWritten(r, escapes, stops, fuel) == Success((rest.value.0, [r1.text[r1.pos - 1]] + rest.value.1)))
  {
    hide EscapeIfNeededAsWritten, ReadAsWritten;
    var r1 := EscapeIfNeededAsWritten(r, escapes).value;
    ReadAsWrittenKeepsValid(r1);
  }

  /** The text does not end in a backslash. */
  predicate NoTrailingBackslash(text: string) {
    |text| == 0 || text[|text| - 1] != '\\'
  }

  /** `res` is what the reference unescaping yields from the as-written
      reader's place: the value collected, and a reader past the signs it
      consumed. */
  predicate CollectedAsUnescaped(r: Reader, escapes: set<char>, stops: set<char>, res: Result<(Reader, string), Error>)
    requires 0 <= HereAsWritten(r) <= |r.text|
  {
    var u := Unescape(r.text[HereAsWritten(r)..], escapes, stops);
    res.Success? && res.value.1 == u.0 && HereAsWritten(res.value.0) == HereAsWritten(r) + u.1
  }

  /** Unless the text ends in a backslash, the loop as written ends, within
      one round per sign left, and collects what the reference unescaping
      yields, stopping where it stops. */
  lemma {:induction false} CollectAsWrittenAgrees(r: Reader, escapes: set<char>, stops: set<char>, fuel: nat)
    requires ValidAsWritten(r) && NoTrailingBackslash(r.text)
    requires fuel >= |r.text| - HereAsWritten(r)
    ensures 0 <= HereAsWritten(r) <= |r.text|
    ensures CollectedAsUnescaped(r, escapes, stops, CollectAsWritten(r, escapes, stops, fuel))
    decreases fuel
  {
    hide CollectAsWritten, EscapeIfNeededAsWritten, ReadAsWritten, CollectedAsUnescaped;
    if r.current == EndOfInput || SignIn(r.current, stops) {
      CollectAtStop(r, escapes, stops, fuel);
    } else {
      NextRound(r, escapes, stops, fuel);
      var r2 := ReadAsWritten(EscapeIfNeededAsWritten(r, escapes).value);
      CollectAsWrittenAgrees(r2, escapes, stops, fuel - 1);
      CollectAgreesStep(r, escapes, stops, fuel);
    }
  }

  /** A round away from the stop signs and a trailing backslash does not
      throw, and leaves enough rounds for the signs after it. */
  lemma {:induction false} NextRound(r: Reader, escapes: set<char>, stops: set<char>, fuel: nat)
    requires ValidAsWritten(r) && NoTrailingBackslash(r.text)
    requires fuel >= |r.text| - HereAsWritten(r)
    requires r.current != EndOfInput && !SignIn(r.current, stops)
    ensures 0 <= HereAsWritten(r) <= |r.text|
    ensures EscapeIfNeededAsWritten(r, escapes).Success?
    ensures var r2 := ReadAsWritten(EscapeIfNeededAsWritten(r, escapes).value);
            fuel > 0 && ValidAsWritten(r2) && r2.text == r.text && fuel - 1 >= |r.text| - HereAsWritten(r2)
  {
    EscapeAgrees(r, escapes);
    CollectRound(r, escapes, stops, fuel);
  }

  /** The inductive step of `CollectAsWrittenAgrees`: a round, followed by
      a rest that matches the reference unescaping from where the round
      ends, matches the reference as a whole. */
  lemma {:induction false} CollectAgreesStep(r: Reader, escapes: set<char>, stops: set<char>, fuel: nat)
    requires ValidAsWritten(r) && NoTrailingBackslash(r.text) && fuel > 0
    requires r.current != EndOfInput && !SignIn(r.current, stops)
    requires EscapeIfNeededAsWritten(r, escapes).Success?
    requires var r2 := ReadAsWritten(EscapeIfNeededAsWritten(r, escapes).value);
             0 <= HereAsWritten(r2) <= |r2.text| &&
             CollectedAsUnescaped(r2, escapes, stops, CollectAsWritten(r2, escapes, stops, fuel - 1))
    ensures 0 <= HereAsWritten(r) <= |r.text|
    ensures CollectedAsUnescaped(r, escapes, stops, CollectAsWritten(r, escapes, stops, fuel))
  {
    hide CollectAsWritten, EscapeIfNeededAsWritten, ReadAsWritten, Unescape;
    EscapeAgrees(r, escapes);
    CollectRound(r, escapes, stops, fuel);
    var r1 := EscapeIfNeededAsWritten(r, escapes).value;
    CollectStep(r.text, HereAsWritten(r), HereAsWritten(r1), escapes, stops);
  }

  /** At the end marker or a stop sign the loop as written collects
      nothing, as the reference unescaping does. */
  lemma {:induction false} CollectAtStop(r: Reader, escapes: set<char>, stops: set<char>, fuel: nat)
    requires ValidAsWritten(r) && (r.current == EndOfInput || SignIn(r.current, stops))
    ensures 0 <= HereAsWritten(r) <= |r.text|
    ensures CollectAsWritten(r, escapes, stops, fuel) == Success((r, ""))
    ensures CollectedAsUnescaped(r, escapes, stops, Success((r, "")))
  {
    var h := HereAsWritten(r);
    assert r.text[h..] == [] || r.text[h..][0] in stops;
  }

  /** Away from a trailing backslash the escape step as written moves as
      the reference unescaping does. */
  lemma {:induction false} EscapeAgrees(r: Reader, escapes: set<char>)
    requires ValidAsWritten(r) && NoTrailingBackslash(r.text) && r.current != EndOfInput
    ensures var h := HereAsWritten(r);
            var res := EscapeIfNeededAsWritten(r, escapes);
            0 <= h < |r.text| && res.Success? &&
            HereAsWritten(res.value) == (if r.text[h] == '\\' && h + 1 < |r.text| && r.text[h + 1] in escapes then h + 1 else h)
  {
  }

  /** A backslash as the last sign, after at least one other sign, makes
      the loop run forever: the escape step reads past the end, rewinds
      onto the sign before, appends it, and reads back onto the
      backslash, with the reader where it started. */
  lemma {:induction false} TrailingBackslashNeverEnds(r: Reader, escapes: set<char>, stops: set<char>, fuel: nat)
    requires ValidAsWritten(r) && |r.text| >= 2 && r.pos == |r.text| && r.current == '\\' as int
    requires '\\' !in stops
    ensures CollectAsWritten(r, escapes, stops, fuel) == Failure(OutOfFuel)
    decreases fuel
  {
    if fuel > 0 {
      var r1 := EscapeIfNeededAsWritten(r, escapes).value;
      assert r1.pos == |r.text| - 1;
      var r2 := ReadAsWritten(r1);
      assert SamePlace(r2, r);
      CollectRound(r, escapes, stops, fuel);
      TrailingBackslashNeverEnds(r2, escapes, stops, fuel - 1);
    }
  }

  /** "a\\" as free text and as string contents: the loop as written never
      ends, whatever bound is put on its rounds. */
  lemma {:induction false} TrailingBackslashExample(fuel: nat)
    ensures CollectAsWritten(NewAsWritten("a\\"), TextEscapes, TextStops, fuel) == Failure(OutOfFuel)
    ensures CollectAsWritten(NewAsWritten("a\\"), StringEscapes, StringStops, fuel) == Failure(OutOfFuel)
  {
    SignThenTrailingBackslash(TextEscapes, TextStops, fuel);
    SignThenTrailingBackslash(StringEscapes, StringStops, fuel);
  }

  lemma {:induction false} SignThenTrailingBackslash(escapes: set<char>, stops: set<char>, fuel: nat)
    requires 'a' !in stops && '\\' !in stops
    ensures CollectAsWritten(NewAsWritten("a\\"), escapes, stops, fuel) == Failure(OutOfFuel)
  {
    var r := NewAsWritten("a\\");
    assert r.current == 'a' as int && r.pos == 1;
    if fuel > 0 {
      assert EscapeIfNeededAsWritten(r, escapes) == Success(r);
      CollectRound(r, escapes, stops, fuel);
      TrailingBackslashNeverEnds(ReadAsWritten(r), escapes, stops, fuel - 1);
    }
  }

  /** The corrected loop on the same text collects both signs. */
  lemma {:induction false} TrailingBackslashCorrected()
    ensures Collect(New("a\\"), TextEscapes, TextStops).1 == "a\\"
    ensures Collect(New("a\\"), StringEscapes, StringStops).1 == "a\\"
  {
    var s: string := "a\\";
    assert New(s).pos == 1 && s[0..] == s;
    UnescapeTrailingBackslash(TextEscapes, TextStops);
    UnescapeTrailingBackslash(StringEscapes, StringStops);
  }

  lemma {:induction false} UnescapeTrailingBackslash(escapes: set<char>, stops: set<char>)
    requires 'a' !in stops && '\\' !in stops
    ensures Unescape("a\\", escapes, stops).0 == "a\\"
  {
    var s: string := "a\\";
    assert s[1..] == "\\" && s[1..][1..] == [];
    assert Unescape(s[1..][1..], escapes, stops).0 == [];
    assert Unescape(s[1..], escapes, stops).0 == "\\";
  }

  /** A lone backslash makes the loop throw: the escape step rewinds from
      the first sign. */
  lemma {:induction false} LoneBackslashThrows(fuel: nat)
    requires fuel > 0
    ensures CollectAsWritten(NewAsWritten("\\"), TextEscapes, TextStops, fuel) == Failure(RewindBeforeStart)
    ensures CollectAsWritten(NewAsWritten("\\"), StringEscapes, StringStops, fuel) == Failure(RewindBeforeStart)
  {
  }
}

=== FILE: StreamExamples.dfy ===
/** The earlier scanner's tests (TKOM.Test/Parser/ScannerTest.cs), restated.
    Each header is first lexed with arbitrary identifiers standing for the
    function's and the arguments' names. The tests' own strings are then
    instances, and ScanTokensAgree carries the result over to the
    reader-based scanner. */
module StreamExamples {
  import opened Wrappers
  import opened StreamKeywords
  import opened StreamLexicon
  import opened BufferedReader
  import StreamScanner
  import Lexicon

  /** A name the scanner reads as one identifier: a letter or '_', then
      letters, digits, '_' and '-'. */
  predicate IsName(name: string) {
    0 < |name| && Lexicon.StartsIdentifier(name[0] as int)
    && forall k | 1 <= k < |name| :: Lexicon.IsIdentifierSign(name[k] as int)
  }

  /** `k + 1` tokens are the first lexeme's token and `k` tokens after it. */
  lemma {:induction false} LexTokensStep(u: string, k: nat)
    ensures LexTokens(u, k + 1) == [LexemeAt(u).token] + LexTokens(u[LexemeAt(u).length..], k)
  {
  }

  /** After `b` leading blanks, the end of input or the first lexeme. */
  lemma {:induction false} LexemeAfterBlanks(u: string, b: nat)
    requires b <= |u|
    requires forall k | 0 <= k < b :: Lexicon.IsWhitespaceSign(u[k] as int)
    requires b < |u| ==> !Lexicon.IsWhitespaceSign(u[b] as int)
    ensures b == |u| ==> LexemeAt(u) == Lexeme(Token(Eof, None), b)
    ensures b < |u| ==> LexemeAt(u) == FirstLexeme(u[b..]).(length := b + FirstLexeme(u[b..]).length)
  {
    forall k | 0 <= k < b ensures Lexicon.IsWhitespaceSign(SignAt(u, k)) {
    }
    Lexicon.RunEndUnique(u, 0, b, Lexicon.IsWhitespaceSign);
  }

  /** Nothing but blanks: the end marker alone. */
  lemma {:induction false} EndOnly(blanks: string)
    requires forall i | 0 <= i < |blanks| :: Lexicon.IsWhitespaceSign(blanks[i] as int)
    ensures LexTokens(blanks, 1) == [Token(Eof, None)]
  {
    hide LexTokens, LexemeAt;
    LexemeAfterBlanks(blanks, |blanks|);
    LexTokensStep(blanks, 0);
    assert LexTokens(blanks[|blanks|..], 0) == [];
    assert [Token(Eof, None)] + [] == [Token(Eof, None)];
  }

  /** A written keyword is the first lexeme. */
  lemma {:induction false} KeywordFirst(v: string, t: TokenType)
    requires IsKeyword(t) && KeywordWritten(v, Spelling(t).value)
    ensures v != [] && FirstLexeme(v) == Lexeme(Token(t, None), |Spelling(t).value|)
  {
    WrittenKeywordFound(v, t);
  }

  /** A one-character sign that neither starts a keyword candidate nor,
      with the next character, a two-character sign is the first lexeme. */
  lemma {:induction false} SignFirst(v: string, t: TokenType)
    requires v != [] && IsOneCharSign(t) && Spelling(t) == Some([v[0]])
    requires !StartsKeyword(v[0] as int)
    requires 2 <= |v| ==> v[1] != '='
    ensures FirstLexeme(v) == Lexeme(Token(t, None), 1)
  {
    OneCharSignAtSpelled(v, t);
    assert v[..1] == [v[0]];
    if 2 <= |v| && v[0] in FollowedSignDict && v[1] in FollowedSignDict[v[0]] {
      TwoCharSignsEndInEqual(v[0], v[1]);
    }
  }

  /** A name followed by an identifier follower is the first lexeme. When a
      space follows, the name must not start like a keyword, since `in` and
      `not` are then keywords. */
  lemma {:induction false} NameFirst(v: string, name: string)
    requires IsName(name) && |name| < |v| && v[..|name|] == name
    requires IdentifierFollower(v[|name|] as int)
    requires v[|name|] == ' ' ==> !StartsKeyword(name[0] as int)
    ensures FirstLexeme(v) == Lexeme(Token(Identifier, Some(name)), |name|)
  {
    assert v[0] == name[0];
    if StartsKeyword(v[0] as int) {
      var j := Lexicon.RunEnd(v, 1, InKeyword);
      assert !InKeyword(SignAt(v, |name|));
      assert j <= |name|;
      if j < |name| {
        assert v[j] == name[j];
      }
    }
    assert KeywordAt(v).None?;
    IdentifierAtName(v, name);
  }

  /** A keyword and what follows it: the keyword's token, then the rest's. */
  lemma {:induction false} KeywordThen(t: TokenType, rest: string, k: nat)
    requires IsKeyword(t) && KeywordWritten(Spelling(t).value + rest, Spelling(t).value)
    ensures LexTokens(Spelling(t).value + rest, k + 1) == [Token(t, None)] + LexTokens(rest, k)
  {
    hide LexTokens, LexemeAt, FirstLexeme;
    var u := Spelling(t).value + rest;
    KeywordFirst(u, t);
    LexemeAfterBlanks(u, 0);
    assert u[0..] == u && u[|Spelling(t).value|..] == rest;
    LexTokensStep(u, k);
  }

  /** A one-character sign and what follows it. */
  lemma {:induction false} SignThen(c: char, t: TokenType, rest: string, k: nat)
    requires IsOneCharSign(t) && Spelling(t) == Some([c]) && !StartsKeyword(c as int)
    requires rest != [] ==> rest[0] != '='
    ensures LexTokens([c] + rest, k + 1) == [Token(t, None)] + LexTokens(rest, k)
  {
    hide LexTokens, LexemeAt, FirstLexeme;
    var u := [c] + rest;
    SignFirst(u, t);
    LexemeAfterBlanks(u, 0);
    assert u[0..] == u && u[1..] == rest;
    LexTokensStep(u, k);
  }

  /** Blanks, a name and what follows it: the identifier, then the rest's
      tokens. */
  lemma {:induction false} NameThen(blanks: string, name: string, rest: string, k: nat)
    requires forall i | 0 <= i < |blanks| :: Lexicon.IsWhitespaceSign(blanks[i] as int)
    requires IsName(name) && rest != [] && IdentifierFollower(rest[0] as int)
    requires rest[0] == ' ' ==> !StartsKeyword(name[0] as int)
    ensures LexTokens(blanks + name + rest, k + 1) == [Token(Identifier, Some(name))] + LexTokens(rest, k)
  {
    hide LexTokens, LexemeAt, FirstLexeme;
    var u := blanks + name + rest;
    var b := |blanks|;
    assert u[b..] == name + rest;
    NameFirst(u[b..], name) by {
      assert (name + rest)[..|name|] == name;
    }
    LexemeAfterBlanks(u, b);
    assert u[b + |name|..] == rest;
    LexTokensStep(u, k);
  }

  /** A function header with one argument and the text after it: the
      keyword, the name, '(', the argument, ')' and '>' come first. */
  lemma {:induction false} DefHeaderThen(name: string, arg: string, tail: string, k: nat)
    requires IsName(name) && IsName(arg)
    requires tail != [] ==> tail[0] != '='
    ensures LexTokens("<:def " + name + "(" + arg + ")>" + tail, 6 + k)
            == [Token(FunctionOpen, None), Token(Identifier, Some(name)), Token(ParenthesisOpen, None),
                Token(Identifier, Some(arg)), Token(ParenthesisClose, None), Token(GreaterThan, None)]
               + LexTokens(tail, k)
  {
    hide LexTokens;
    var rest := LexTokens(tail, k);
    var u3 := arg + ")>" + tail;
    var u2 := "(" + u3;
    var u1 := " " + name + u2;
    OneArgumentThen(arg, tail, k);
    var args := [Token(Identifier, Some(arg)), Token(ParenthesisClose, None), Token(GreaterThan, None)];
    assert u2 == ['('] + u3;
    SignThen('(', ParenthesisOpen, u3, 3 + k);
    assert LexTokens(u2, 4 + k) == [Token(ParenthesisOpen, None)] + args + rest;
    NameThen(" ", name, u2, 4 + k);
    assert LexTokens(u1, 5 + k) == [Token(Identifier, Some(name)), Token(ParenthesisOpen, None)] + args + rest;
    assert "<:def " + name + "(" + arg + ")>" + tail == "<:def" + u1;
    KeywordThen(FunctionOpen, u1, 5 + k) by {
      assert ("<:def" + u1)[..5] == "<:def";
    }
  }

  /** One argument, ')' and '>', then the text after them. */
  lemma {:induction false} OneArgumentThen(arg: string, tail: string, k: nat)
    requires IsName(arg)
    requires tail != [] ==> tail[0] != '='
    ensures LexTokens(arg + ")>" + tail, 3 + k)
            == [Token(Identifier, Some(arg)), Token(ParenthesisClose, None), Token(GreaterThan, None)]
               + LexTokens(tail, k)
  {
    hide LexTokens;
    var rest := LexTokens(tail, k);
    var u5 := ">" + tail;
    var u4 := ")" + u5;
    assert u5 == ['>'] + tail;
    SignThen('>', GreaterThan, tail, k);
    assert u4 == [')'] + u5;
    SignThen(')', ParenthesisClose, u5, 1 + k);
    assert LexTokens(u4, 2 + k) == [Token(ParenthesisClose, None), Token(GreaterThan, None)] + rest;
    assert arg + ")>" + tail == "" + arg + u4;
    NameThen("", arg, u4, 2 + k);
  }

  /** Three arguments, separated by a comma and a space, closed by ')' and
      '>': eight tokens ending in the end marker. */
  lemma {:induction false} ArgumentsThen(a: string, b: string, c: string)
    requires IsName(a) && IsName(b) && IsName(c)
    ensures LexTokens(a + ", " + b + ", " + c + ")>", 8)
            == [Token(Identifier, Some(a)), Token(Coma, None), Token(Identifier, Some(b)), Token(Coma, None),
                Token(Identifier, Some(c)), Token(ParenthesisClose, None), Token(GreaterThan, None),
                Token(Eof, None)]
  {
    hide LexTokens;
    var u8 := ")>";
    var u6 := ", " + c + u8;
    var u4 := ", " + b + u6;
    assert a + ", " + b + ", " + c + ")>" == "" + a + u4;
    NameThen("", a, u4, 7);
    assert u4 == [','] + (" " + b + u6);
    SignThen(',', Coma, " " + b + u6, 6);
    NameThen(" ", b, u6, 5);
    assert u6 == [','] + (" " + c + u8);
    SignThen(',', Coma, " " + c + u8, 4);
    NameThen(" ", c, u8, 3);
    assert u8 == [')'] + ">";
    SignThen(')', ParenthesisClose, ">", 2);
    assert ">" == ['>'] + "";
    SignThen('>', GreaterThan, "", 1);
    EndOnly("");
  }

  /** A function header with three arguments is eleven tokens ending in the
      end marker. */
  lemma {:induction false} DefHeaderThreeArgs(name: string, a: string, b: string, c: string)
    requires IsName(name) && IsName(a) && IsName(b) && IsName(c)
    ensures LexTokens("<:def " + name + "(" + a + ", " + b + ", " + c + ")>", 11)
            == [Token(FunctionOpen, None), Token(Identifier, Some(name)), Token(ParenthesisOpen, None),
                Token(Identifier, Some(a)), Token(Coma, None), Token(Identifier, Some(b)), Token(Coma, None),
                Token(Identifier, Some(c)), Token(ParenthesisClose, None), Token(GreaterThan, None),
                Token(Eof, None)]
  {
    hide LexTokens;
    var u3 := a + ", " + b + ", " + c + ")>";
    var u2 := "(" + u3;
    var u1 := " " + name + u2;
    assert "<:def " + name + "(" + a + ", " + b + ", " + c + ")>" == "<:def" + u1;
    KeywordThen(FunctionOpen, u1, 10) by {
      assert ("<:def" + u1)[..5] == "<:def";
    }
    NameThen(" ", name, u2, 9);
    assert u2 == ['('] + u3;
    SignThen('(', ParenthesisOpen, u3, 8);
    ArgumentsThen(a, b, c);
  }

  // ---------------------------------------------------------------------
  // The tests' own strings, scanned from a fresh reader
  // ---------------------------------------------------------------------

  /** An empty stream gives the end marker. */
  lemma ScansEof()
    ensures StreamScanner.ScanTokens(New(""), 1) == Success([Token(Eof, None)])
  {
    hide StreamScanner.ScanTokens, LexTokens, LexemeAt, New;
    StreamScanner.ScanTokensAgree(New(""), 1);
    EndOnly("");
  }

  /** "<:def " gives the function-open keyword, then the end marker. */
  lemma ScansFunctionOpen()
    ensures StreamScanner.ScanTokens(New("<:def "), 2) == Success([Token(FunctionOpen, None), Token(Eof, None)])
  {
    hide StreamScanner.ScanTokens, LexTokens, LexemeAt, FirstLexeme, New;
    var s := "<:def ";
    StreamScanner.ScanTokensAgree(New(s), 2);
    assert s == Spelling(FunctionOpen).value + " ";
    KeywordThen(FunctionOpen, " ", 1);
    EndOnly(" ");
    assert [Token(FunctionOpen, None)] + [Token(Eof, None)] == [Token(FunctionOpen, None), Token(Eof, None)];
  }

  /** "</:def>" gives the function-close keyword, then the end marker. */
  lemma ScansFunctionClose()
    ensures StreamScanner.ScanTokens(New("</:def>"), 2) == Success([Token(FunctionClose, None), Token(Eof, None)])
  {
    hide StreamScanner.ScanTokens, LexTokens, LexemeAt, FirstLexeme, New;
    var s := "</:def>";
    StreamScanner.ScanTokensAgree(New(s), 2);
    assert s == Spelling(FunctionClose).value + "";
    KeywordThen(FunctionClose, "", 1);
    EndOnly("");
    assert [Token(FunctionClose, None)] + [Token(Eof, None)] == [Token(FunctionClose, None), Token(Eof, None)];
  }

  /** Scanning a fresh reader gives the reference's tokens of the whole
      stream. */
  lemma {:induction false} FreshScan(s: string, k: nat, ts: seq<Token>)
    requires LexTokens(s, k) == ts
    ensures StreamScanner.ScanTokens(New(s), k) == Success(ts)
  {
    hide StreamScanner.ScanTokens, LexTokens, New;
    StreamScanner.ScanTokensAgree(New(s), k);
  }

  /** The six tokens of the tests' header "<:def function(arg1)>". */
  function HeaderTokens(): seq<Token> {
    [Token(FunctionOpen, None), Token(Identifier, Some("function")), Token(ParenthesisOpen, None),
     Token(Identifier, Some("arg1")), Token(ParenthesisClose, None), Token(GreaterThan, None)]
  }

  lemma HeaderLexed(tail: string, k: nat)
    requires tail != [] ==> tail[0] != '='
    ensures LexTokens("<:def function(arg1)>" + tail, 6 + k) == HeaderTokens() + LexTokens(tail, k)
  {
    hide LexTokens;
    assert IsName("function") && IsName("arg1");
    assert "<:def function(arg1)>" == "<:def " + "function" + "(" + "arg1" + ")>";
    DefHeaderThen("function", "arg1", tail, k);
  }

  /** "<:def function(arg1)>" gives seven tokens. */
  lemma ScansFunctionWithOneArgument()
    ensures StreamScanner.ScanTokens(New("<:def function(arg1)>"), 7) == Success(HeaderTokens() + [Token(Eof, None)])
  {
    hide StreamScanner.ScanTokens, LexTokens, New, HeaderTokens;
    HeaderLexed("", 1);
    assert "<:def function(arg1)>" + "" == "<:def function(arg1)>";
    EndOnly("");
    FreshScan("<:def function(arg1)>", 7, HeaderTokens() + [Token(Eof, None)]);
  }

  lemma MultipleArgumentsLexed()
    ensures LexTokens("<:def function(arg1, _arg2, _3)>", 11)
            == [Token(FunctionOpen, None), Token(Identifier, Some("function")), Token(ParenthesisOpen, None),
                Token(Identifier, Some("arg1")), Token(Coma, None), Token(Identifier, Some("_arg2")),
                Token(Coma, None), Token(Identifier, Some("_3")), Token(ParenthesisClose, None),
                Token(GreaterThan, None), Token(Eof, None)]
  {
    hide LexTokens;
    assert IsName("function") && IsName("arg1") && IsName("_arg2") && IsName("_3");
    assert "<:def function(arg1, _arg2, _3)>" == "<:def " + "function" + "(" + "arg1" + ", " + "_arg2" + ", " + "_3" + ")>";
    DefHeaderThreeArgs("function", "arg1", "_arg2", "_3");
  }

  /** "<:def function(arg1, _arg2, _3)>" gives eleven tokens. */
  lemma ScansFunctionWithMultipleArguments()
    ensures StreamScanner.ScanTokens(New("<:def function(arg1, _arg2, _3)>"), 11)
            == Success([Token(FunctionOpen, None), Token(Identifier, Some("function")), Token(ParenthesisOpen, None),
                        Token(Identifier, Some("arg1")), Token(Coma, None), Token(Identifier, Some("_arg2")),
                        Token(Coma, None), Token(Identifier, Some("_3")), Token(ParenthesisClose, None),
                        Token(GreaterThan, None), Token(Eof, None)])
  {
    hide StreamScanner.ScanTokens, LexTokens, New;
    MultipleArgumentsLexed();
    FreshScan("<:def function(arg1, _arg2, _3)>", 11, LexTokens("<:def function(arg1, _arg2, _3)>", 11));
  }

  /** A function body after the header: the newline is skipped as a blank
      and the first word is an identifier, since a space follows it. */
  lemma ScansFunctionBody()
    ensures StreamScanner.ScanTokens(New("<:def function(arg1)>\nwhatever inside\n</:def>"), 7)
            == Success(HeaderTokens() + [Token(Identifier, Some("whatever"))])
  {
    hide StreamScanner.ScanTokens, LexTokens, New, HeaderTokens;
    var tail := "\nwhatever inside\n</:def>";
    HeaderLexed(tail, 1);
    assert "<:def function(arg1)>" + tail == "<:def function(arg1)>\nwhatever inside\n</:def>";
    BodyStartLexed();
    FreshScan("<:def function(arg1)>\nwhatever inside\n</:def>", 7, HeaderTokens() + [Token(Identifier, Some("whatever"))]);
  }

  lemma BodyStartLexed()
    ensures LexTokens("\nwhatever inside\n</:def>", 1) == [Token(Identifier, Some("whatever"))]
  {
    hide LexTokens;
    assert IsName("whatever");
    assert "\nwhatever inside\n</:def>" == "\n" + "whatever" + " inside\n</:def>";
    NameThen("\n", "whatever", " inside\n</:def>", 0);
    assert LexTokens(" inside\n</:def>", 0) == [];
    assert [Token(Identifier, Some("whatever"))] + [] == [Token(Identifier, Some("whatever"))];
  }
}

=== FILE: StreamKeywords.dfy ===
/** Tokens and lexical tables of the earlier lexer (TKOM/Parser/Token.cs,
    TKOM/Parser/Keywords.cs).
    Keywords are whole strings, brackets included. The sign table maps a
    one-character sign to its token. The followed-sign table maps a first
    character to the second characters that complete a two-character sign.
    An independent reference, `Spelling`, writes out every keyword and sign
    token. Lemmas connect each table to it in both directions. */
module StreamKeywords {
  import opened Wrappers

  datatype TokenType =
    | Text | Number | Identifier
    | CurlyBracketOpen | CurlyBracketClose
    | ParenthesisOpen | ParenthesisClose
    | Coma | Dot | QuotationMark
    | SquareBracketOpen | SquareBracketClose
    | GreaterThan | LessThan | GreaterEqualThan | LessEqualThan | Equal
    | FunctionOpen | FunctionClose
    | ForExprOpen | ForExprClose
    | IfExprOpen | IfExprClose
    | ElseExprOpen | ElseExprClose
    | In | Not
    | Eof | Invalid

  /** A token. Kinds that carry no value have `None`, where the source leaves
      the value null. The source's line and column are never set and are not
      modelled. */
  datatype Token = Token(kind: TokenType, value: Option<string>)

  const KeywordDict: map<string, TokenType> := map[
    "<:def" := FunctionOpen, "</:def>" := FunctionClose,
    "<:for" := ForExprOpen, "</:for>" := ForExprClose,
    "<:if" := IfExprOpen, "</:if>" := IfExprClose,
    "<:else>" := ElseExprOpen, "</:else>" := ElseExprClose,
    "in" := In, "not" := Not
  ]

  const SignDict: map<char, TokenType> := map[
    '{' := CurlyBracketOpen, '}' := CurlyBracketClose,
    '(' := ParenthesisOpen, ')' := ParenthesisClose,
    ',' := Coma, '.' := Dot,
    '[' := SquareBracketOpen, ']' := SquareBracketClose,
    '>' := GreaterThan, '<' := LessThan
  ]

  const FollowedSignDict: map<char, map<char, TokenType>> := map[
    '<' := map['=' := LessEqualThan],
    '>' := map['=' := GreaterEqualThan],
    '=' := map['=' := Equal]
  ]

  // ---------------------------------------------------------------------
  // The reference spelling
  // ---------------------------------------------------------------------

  predicate IsKeyword(t: TokenType) {
    t.FunctionOpen? || t.FunctionClose? || t.ForExprOpen? || t.ForExprClose?
    || t.IfExprOpen? || t.IfExprClose? || t.ElseExprOpen? || t.ElseExprClose?
    || t.In? || t.Not?
  }

  predicate IsOneCharSign(t: TokenType) {
    t.CurlyBracketOpen? || t.CurlyBracketClose? || t.ParenthesisOpen? || t.ParenthesisClose?
    || t.Coma? || t.Dot? || t.SquareBracketOpen? || t.SquareBracketClose?
    || t.GreaterThan? || t.LessThan?
  }

  predicate IsTwoCharSign(t: TokenType) {
    t.LessEqualThan? || t.GreaterEqualThan? || t.Equal?
  }

  /** How each keyword and sign token is written; `None` for the kinds that
      carry a value, for the quotation mark (no table lists it) and for the
      markers. */
  function Spelling(t: TokenType): (w: Option<string>)
    ensures w.Some? <==> IsKeyword(t) || IsOneCharSign(t) || IsTwoCharSign(t)
  {
    match t
    case FunctionOpen => Some("<:def")
    case FunctionClose => Some("</:def>")
    case ForExprOpen => Some("<:for")
    case ForExprClose => Some("</:for>")
    case IfExprOpen => Some("<:if")
    case IfExprClose => Some("</:if>")
    case ElseExprOpen => Some("<:else>")
    case ElseExprClose => Some("</:else>")
    case In => Some("in")
    case Not => Some("not")
    case CurlyBracketOpen => Some("{")
    case CurlyBracketClose => Some("}")
    case ParenthesisOpen => Some("(")
    case ParenthesisClose => Some(")")
    case Coma => Some(",")
    case Dot => Some(".")
    case SquareBracketOpen => Some("[")
    case SquareBracketClose => Some("]")
    case GreaterThan => Some(">")
    case LessThan => Some("<")
    case LessEqualThan => Some("<=")
    case GreaterEqualThan => Some(">=")
    case Equal => Some("==")
    case _ => None
  }

  // ---------------------------------------------------------------------
  // The tables against the spelling
  // ---------------------------------------------------------------------

  /** Every entry of the keyword table is a keyword spelled as its key. */
  lemma {:induction false} KeywordDictSpelled(w: string)
    requires w in KeywordDict
    ensures IsKeyword(KeywordDict[w]) && Spelling(KeywordDict[w]) == Some(w)
  {
  }

  /** Every keyword is in the keyword table under its spelling. */
  lemma {:induction false} KeywordInDict(t: TokenType)
    requires IsKeyword(t)
    ensures Spelling(t).value in KeywordDict && KeywordDict[Spelling(t).value] == t
  {
  }

  /** Every entry of the sign table is a one-character sign spelled as its
      key, and every one-character sign is in the table. */
  lemma {:induction false} SignDictSpelled(c: char, t: TokenType)
    ensures (c in SignDict && SignDict[c] == t) <==> (IsOneCharSign(t) && Spelling(t) == Some([c]))
  {
  }

  /** The followed-sign table holds exactly the two-character signs, each
      under its first and second character. */
  lemma {:induction false} FollowedSignDictSpelled(c: char, d: char, t: TokenType)
    ensures (c in FollowedSignDict && d in FollowedSignDict[c] && FollowedSignDict[c][d] == t)
            <==> (IsTwoCharSign(t) && Spelling(t) == Some([c, d]))
  {
  }

  /** '=' starts a two-character sign but is not a sign on its own, and no
      other character is a starter without being a sign. */
  lemma {:induction false} LoneEqualIsNoSign(c: char)
    ensures (c in FollowedSignDict && c !in SignDict) <==> c == '='
  {
  }

  /** Each two-character sign goes on with '='. */
  lemma {:induction false} TwoCharSignsEndInEqual(c: char, d: char)
    requires c in FollowedSignDict && d in FollowedSignDict[c]
    ensures d == '=' && IsTwoCharSign(FollowedSignDict[c][d])
  {
  }
}

=== FILE: StreamLexicon.dfy ===
/** The token grammar of the earlier lexer (TKOM/Parser/Scanner.cs), stated
    over the text that is still to be read, independently of the buffered
    reader. StreamScanner.dfy proves that the reader-based scanner produces
    exactly the tokens described here.
    Each recognizer looks at the start of a text and either finds a lexeme (a
    token and the number of characters it spans) or finds nothing. Next to
    each recognizer stands a lemma that says, without running it, when it
    finds what. */
module StreamLexicon {
  import opened Wrappers
  import opened StreamKeywords
  import StringsReader
  import Lexicon
  import Keywords

  datatype Lexeme = Lexeme(token: Token, length: nat)

  /** The sign at index `i`, or -1 past the end. */
  function SignAt(u: string, i: int): int {
    StringsReader.SignAt(u, i)
  }

  // ---------------------------------------------------------------------
  // Sign classes of the earlier scanner (TKOM/Parser/Scanner.cs, the Is*
  // helpers and the follower lists of ReadNumber and ReadIdentifier).
  // Whitespace, letters, digits and identifier characters are the same as
  // in the newer scanner and come from Lexicon.dfy.
  // ---------------------------------------------------------------------

  /** The characters a keyword candidate may start with. */
  predicate StartsKeyword(c: int) {
    c == '<' as int || c == 'n' as int || c == 'i' as int
  }

  /** The characters a keyword candidate goes on with. */
  predicate InKeyword(c: int) {
    Lexicon.IsLetterSign(c) || c == '/' as int || c == ':' as int
  }

  /** The signs that may follow a number. */
  predicate NumberFollower(c: int) {
    c == '.' as int || c == ' ' as int || c == ')' as int || c == ']' as int
  }

  /** The signs that may follow an identifier. */
  predicate IdentifierFollower(c: int) {
    c == '.' as int || c == '[' as int || c == ' ' as int || c == ')' as int
    || c == '(' as int || c == ',' as int || c == '}' as int
  }

  /** The characters a backslash escapes in text. */
  predicate Escapable(c: int) {
    c == '{' as int || c == '<' as int || c == '}' as int || c == '>' as int
    || c == '"' as int || c == '\\' as int
  }

  /** The signs that end a text: the end of input and every character that
      starts a sign. Keywords starting with '<' are covered by '<'. */
  predicate StopsText(c: int) {
    c == StringsReader.EndOfInput
    || Keywords.Lookup(SignDict, c).Some?
    || Keywords.Lookup(FollowedSignDict, c).Some?
  }

  /** Spelled out: the signs that stop a text. */
  lemma {:induction false} StopsTextSigns(c: char)
    ensures StopsText(c as int) <==>
              c == '{' || c == '}' || c == '(' || c == ')' || c == ',' || c == '.'
              || c == '[' || c == ']' || c == '>' || c == '<' || c == '='
  {
    assert Keywords.IsCharCode(c as int);
    assert (c as int) as char == c;
  }

  // ---------------------------------------------------------------------
  // Recognizers
  // ---------------------------------------------------------------------

  /** A keyword: a candidate starting with '<', 'n' or 'i', going on with
      letters, '/' and ':', and taking a closing '>' if one follows. A
      candidate without '>' must be followed by a space. The candidate must
      be in the keyword table. */
  function KeywordAt(u: string): Option<Lexeme> {
    if u != [] && StartsKeyword(u[0] as int) then
      var j := Lexicon.RunEnd(u, 1, InKeyword);
      if SignAt(u, j) == '>' as int then
        if u[..j + 1] in KeywordDict then Some(Lexeme(Token(KeywordDict[u[..j + 1]], None), j + 1)) else None
      else if SignAt(u, j) == ' ' as int && u[..j] in KeywordDict then
        Some(Lexeme(Token(KeywordDict[u[..j]], None), j))
      else None
    else None
  }

  /** A two-character sign: a starter of the followed-sign table and a
      second character that completes it. */
  function TwoCharSignAt(u: string): Option<Lexeme> {
    if 2 <= |u| && u[0] in FollowedSignDict && u[1] in FollowedSignDict[u[0]]
    then Some(Lexeme(Token(FollowedSignDict[u[0]][u[1]], None), 2))
    else None
  }

  function OneCharSignAt(u: string): Option<Lexeme> {
    if u != [] && u[0] in SignDict then Some(Lexeme(Token(SignDict[u[0]], None), 1)) else None
  }

  /** A run of digits that a number follower ends. */
  function NumberAt(u: string): Option<Lexeme> {
    if u != [] && Lexicon.IsDigitSign(u[0] as int) then
      var j := Lexicon.RunEnd(u, 0, Lexicon.IsDigitSign);
      if NumberFollower(SignAt(u, j)) then Some(Lexeme(Token(Number, Some(u[..j])), j)) else None
    else None
  }

  /** A letter or '_', then identifier characters, ended by an identifier
      follower. */
  function IdentifierAt(u: string): Option<Lexeme> {
    if u != [] && Lexicon.StartsIdentifier(u[0] as int) then
      var j := Lexicon.RunEnd(u, 1, Lexicon.IsIdentifierSign);
      if IdentifierFollower(SignAt(u, j)) then Some(Lexeme(Token(Identifier, Some(u[..j])), j)) else None
    else None
  }

  /** One character of text: a backslash before an escapable character
      stands for that character; any other character stands for itself. */
  function TextSign(u: string): (res: (char, nat))
    requires u != []
    ensures 1 <= res.1 <= |u|
  {
    if u[0] == '\\' && Escapable(SignAt(u, 1)) then (u[1], 2) else (u[0], 1)
  }

  /** Text: at least one character, then more until a stop sign. */
  function TextAt(u: string): (res: (string, nat))
    requires u != []
    ensures 1 <= res.1 <= |u| && 1 <= |res.0| <= res.1
    decreases |u|
  {
    var (c, k) := TextSign(u);
    if !StopsText(SignAt(u, k)) then
      var (s, n) := TextAt(u[k..]);
      ([c] + s, k + n)
    else ([c], k)
  }

  /** The number of leading spaces, newlines and carriage returns. */
  function Blanks(u: string): (b: nat)
    ensures b <= |u|
  {
    Lexicon.RunEnd(u, 0, Lexicon.IsWhitespaceSign)
  }

  /** The token at the start of a text that does not start with a blank
      and is not empty: a keyword, a two-character sign, a one-character
      sign, a number, an identifier and text are tried in that order. */
  function FirstLexeme(v: string): (l: Lexeme)
    requires v != []
    ensures 1 <= l.length <= |v| && l.token.kind != Eof
  {
    LexemeBounds(v);
    if KeywordAt(v).Some? then KeywordAt(v).value
    else if TwoCharSignAt(v).Some? then TwoCharSignAt(v).value
    else if OneCharSignAt(v).Some? then OneCharSignAt(v).value
    else if NumberAt(v).Some? then NumberAt(v).value
    else if IdentifierAt(v).Some? then IdentifierAt(v).value
    else Lexeme(Token(Text, Some(TextAt(v).0)), TextAt(v).1)
  }

  /** The token at the start of `u`: blanks are skipped, then the end of
      input is recognized or the first lexeme is read. The length counts the
      skipped blanks. */
  function LexemeAt(u: string): (l: Lexeme)
    ensures Blanks(u) <= l.length <= |u|
    ensures l.token.kind == Eof <==> Blanks(u) == |u|
    ensures l.token.kind != Eof ==> Blanks(u) < l.length
  {
    var b := Blanks(u);
    if b == |u| then Lexeme(Token(Eof, None), b)
    else
      var l := FirstLexeme(u[b..]);
      l.(length := b + l.length)
  }

  /** Every recognizer that finds something spans at least one character of
      `v` and names a kind other than the end marker. */
  lemma {:induction false} LexemeBounds(v: string)
    ensures KeywordAt(v).Some? ==> 1 <= KeywordAt(v).value.length <= |v| && KeywordAt(v).value.token.kind != Eof
    ensures TwoCharSignAt(v).Some? ==> TwoCharSignAt(v).value.length == 2 <= |v| && TwoCharSignAt(v).value.token.kind != Eof
    ensures OneCharSignAt(v).Some? ==> OneCharSignAt(v).value.length == 1 <= |v| && OneCharSignAt(v).value.token.kind != Eof
    ensures NumberAt(v).Some? ==> 1 <= NumberAt(v).value.length <= |v| && NumberAt(v).value.token.kind == Number
    ensures IdentifierAt(v).Some? ==> 1 <= IdentifierAt(v).value.length <= |v| && IdentifierAt(v).value.token.kind == Identifier
  {
    if KeywordAt(v).Some? {
      var w := if SignAt(v, Lexicon.RunEnd(v, 1, InKeyword)) == '>' as int
               then v[..Lexicon.RunEnd(v, 1, InKeyword) + 1] else v[..Lexicon.RunEnd(v, 1, InKeyword)];
      KeywordDictSpelled(w);
    }
    if TwoCharSignAt(v).Some? {
      TwoCharSignsEndInEqual(v[0], v[1]);
    }
    if OneCharSignAt(v).Some? {
      assert SignDict[v[0]] != Eof;
    }
  }

  // ---------------------------------------------------------------------
  // What each recognizer finds, stated without running it
  // ---------------------------------------------------------------------

  /** A keyword is found exactly when the text starts with a keyword's
      spelling that ends in '>' or is followed by a space. */
  lemma {:induction false} KeywordAtSpelled(u: string, t: TokenType)
    ensures (KeywordAt(u).Some? && KeywordAt(u).value.token.kind == t) <==>
              (IsKeyword(t) && KeywordWritten(u, Spelling(t).value))
    ensures KeywordAt(u).Some? ==> KeywordAt(u).value.token.value == None
                                   && KeywordAt(u).value.length == |Spelling(KeywordAt(u).value.token.kind).value|
  {
    if KeywordAt(u).Some? {
      var j := Lexicon.RunEnd(u, 1, InKeyword);
      var w := if SignAt(u, j) == '>' as int then u[..j + 1] else u[..j];
      KeywordDictSpelled(w);
      assert w == u[..|w|];
    }
    if IsKeyword(t) && KeywordWritten(u, Spelling(t).value) {
      WrittenKeywordFound(u, t);
    }
  }

  /** `u` starts with the keyword spelling `w`, and `w` ends in '>' or a
      space follows it. */
  predicate KeywordWritten(u: string, w: string) {
    0 < |w| <= |u| && u[..|w|] == w
    && (w[|w| - 1] == '>' || SignAt(u, |w|) == ' ' as int)
  }

  /** The characters of every keyword after the first continue a candidate,
      except a final '>'. */
  lemma {:induction false} KeywordShape(t: TokenType)
    requires IsKeyword(t)
    ensures var w := Spelling(t).value;
            1 <= |w| && StartsKeyword(w[0] as int)
            && (w[|w| - 1] == '>' ==> forall k | 1 <= k < |w| - 1 :: InKeyword(w[k] as int))
            && (w[|w| - 1] != '>' ==> forall k | 1 <= k < |w| :: InKeyword(w[k] as int))
  {
  }

  lemma {:induction false} WrittenKeywordFound(u: string, t: TokenType)
    requires IsKeyword(t) && KeywordWritten(u, Spelling(t).value)
    ensures KeywordAt(u) == Some(Lexeme(Token(t, None), |Spelling(t).value|))
  {
    var w := Spelling(t).value;
    KeywordShape(t);
    KeywordInDict(t);
    if w[|w| - 1] == '>' {
      ClosedKeywordRun(u, w);
      assert u[..|w| - 1 + 1] == w;
    } else {
      OpenKeywordRun(u, w);
    }
  }

  /** A keyword written with a closing '>' is a candidate run up to the '>'. */
  lemma {:induction false} ClosedKeywordRun(u: string, w: string)
    requires 2 <= |w| <= |u| && u[..|w|] == w && w[|w| - 1] == '>'
    requires forall k | 1 <= k < |w| - 1 :: InKeyword(w[k] as int)
    ensures Lexicon.RunEnd(u, 1, InKeyword) == |w| - 1 && SignAt(u, |w| - 1) == '>' as int
  {
    forall k | 1 <= k < |w| - 1 ensures InKeyword(SignAt(u, k)) {
      assert u[k] == w[k];
    }
    assert u[|w| - 1] == w[|w| - 1];
    Lexicon.RunEndUnique(u, 1, |w| - 1, InKeyword);
  }

  /** A keyword written without '>' and followed by a space is a whole
      candidate run. */
  lemma {:induction false} OpenKeywordRun(u: string, w: string)
    requires 1 <= |w| <= |u| && u[..|w|] == w && SignAt(u, |w|) == ' ' as int
    requires forall k | 1 <= k < |w| :: InKeyword(w[k] as int)
    ensures Lexicon.RunEnd(u, 1, InKeyword) == |w|
  {
    forall k | 1 <= k < |w| ensures InKeyword(SignAt(u, k)) {
      assert u[k] == w[k];
    }
    Lexicon.RunEndUnique(u, 1, |w|, InKeyword);
  }

  /** A two-character sign is found exactly when the text starts with its
      spelling. */
  lemma {:induction false} TwoCharSignAtSpelled(u: string, t: TokenType)
    ensures (TwoCharSignAt(u).Some? && TwoCharSignAt(u).value.token.kind == t) <==>
              (IsTwoCharSign(t) && 2 <= |u| && Spelling(t) == Some(u[..2]))
  {
    if 2 <= |u| {
      FollowedSignDictSpelled(u[0], u[1], t);
      assert u[..2] == [u[0], u[1]];
    }
  }

  /** A one-character sign is found exactly when the text starts with its
      spelling. */
  lemma {:induction false} OneCharSignAtSpelled(u: string, t: TokenType)
    ensures (OneCharSignAt(u).Some? && OneCharSignAt(u).value.token.kind == t) <==>
              (IsOneCharSign(t) && 1 <= |u| && Spelling(t) == Some(u[..1]))
  {
    if 1 <= |u| {
      SignDictSpelled(u[0], t);
      assert u[..1] == [u[0]];
    }
  }

  /** A number is found exactly when the text is a non-empty run of digits
      followed by a number follower; the token carries the digits. */
  lemma {:induction false} NumberAtDigits(u: string, digits: string)
    ensures NumberAt(u) == Some(Lexeme(Token(Number, Some(digits)), |digits|)) <==>
              (0 < |digits| <= |u| && u[..|digits|] == digits
               && (forall k | 0 <= k < |digits| :: Lexicon.IsDigitSign(digits[k] as int))
               && NumberFollower(SignAt(u, |digits|)))
  {
    if 0 < |digits| <= |u| && u[..|digits|] == digits
       && (forall k | 0 <= k < |digits| :: Lexicon.IsDigitSign(digits[k] as int))
       && NumberFollower(SignAt(u, |digits|)) {
      forall k | 0 <= k < |digits| ensures Lexicon.IsDigitSign(SignAt(u, k)) {
        assert u[k] == digits[k];
      }
      Lexicon.RunEndUnique(u, 0, |digits|, Lexicon.IsDigitSign);
    }
    if NumberAt(u) == Some(Lexeme(Token(Number, Some(digits)), |digits|)) {
      var j := Lexicon.RunEnd(u, 0, Lexicon.IsDigitSign);
      assert digits == u[..j];
      forall k | 0 <= k < |digits| ensures Lexicon.IsDigitSign(digits[k] as int) {
        assert SignAt(u, k) == digits[k] as int;
      }
    }
  }

  /** An identifier is found exactly when the text is a letter or '_', then
      identifier characters, then an identifier follower; the token carries
      the name. */
  lemma {:induction false} IdentifierAtName(u: string, name: string)
    ensures IdentifierAt(u) == Some(Lexeme(Token(Identifier, Some(name)), |name|)) <==>
              (0 < |name| <= |u| && u[..|name|] == name
               && Lexicon.StartsIdentifier(name[0] as int)
               && (forall k | 1 <= k < |name| :: Lexicon.IsIdentifierSign(name[k] as int))
               && IdentifierFollower(SignAt(u, |name|)))
  {
    if 0 < |name| <= |u| && u[..|name|] == name
       && Lexicon.StartsIdentifier(name[0] as int)
       && (forall k | 1 <= k < |name| :: Lexicon.IsIdentifierSign(name[k] as int))
       && IdentifierFollower(SignAt(u, |name|)) {
      forall k | 1 <= k < |name| ensures Lexicon.IsIdentifierSign(SignAt(u, k)) {
        assert u[k] == name[k];
      }
      Lexicon.RunEndUnique(u, 1, |name|, Lexicon.IsIdentifierSign);
    }
    if IdentifierAt(u) == Some(Lexeme(Token(Identifier, Some(name)), |name|)) {
      var j := Lexicon.RunEnd(u, 1, Lexicon.IsIdentifierSign);
      assert name == u[..j];
      forall k | 1 <= k < |name| ensures Lexicon.IsIdentifierSign(name[k] as int) {
        assert SignAt(u, k) == name[k] as int;
      }
    }
  }

  // ---------------------------------------------------------------------
  // Text and its escapes
  // ---------------------------------------------------------------------

  /** Writes a value as text: a backslash goes before every escapable
      character. */
  function EscapeText(s: string): (t: string)
    ensures |s| <= |t|
    ensures t == [] <==> s == []
  {
    if s == [] then []
    else (if Escapable(s[0] as int) then ['\\', s[0]] else [s[0]]) + EscapeText(s[1..])
  }

  /** The characters text can carry: any character that does not stop text,
      and the stops that have an escape. */
  predicate Writable(s: string) {
    forall k | 0 <= k < |s| :: !StopsText(s[k] as int) || Escapable(s[k] as int)
  }

  /** The first character of escaped text is read back as the value's first
      character, and the reading goes on at the escape of the rest. */
  lemma {:induction false} TextSignEscape(s: string, rest: string)
    requires s != []
    ensures var u := EscapeText(s) + rest;
            var k := |EscapeText(s)| - |EscapeText(s[1..])|;
            TextSign(u) == (s[0], k) && u[k..] == EscapeText(s[1..]) + rest
  {
    var head := if Escapable(s[0] as int) then ['\\', s[0]] else [s[0]];
    var u := EscapeText(s) + rest;
    assert u == head + (EscapeText(s[1..]) + rest);
    if Escapable(s[0] as int) {
      assert u[0] == '\\' && u[1] == s[0];
    } else {
      assert u[0] == s[0] != '\\';
    }
  }

  /** One step of reading text. */
  lemma {:induction false} TextAtStep(u: string)
    requires u != []
    ensures var k := TextSign(u).1;
            StopsText(SignAt(u, k)) ==> TextAt(u) == ([TextSign(u).0], k)
    ensures var k := TextSign(u).1;
            !StopsText(SignAt(u, k)) ==> k < |u| && TextAt(u) == ([TextSign(u).0] + TextAt(u[k..]).0, k + TextAt(u[k..]).1)
  {
  }

  /** Reading escaped text gives back the value, and the reading stops
      exactly at the end of the escaped text when a stop sign or the end of
      input follows. */
  lemma {:induction false} TextAtEscape(s: string, rest: string)
    requires s != [] && Writable(s)
    requires StopsText(SignAt(rest, 0))
    ensures TextAt(EscapeText(s) + rest) == (s, |EscapeText(s)|)
    decreases |s|
  {
    hide TextSign, StopsText, TextAt, EscapeText;
    var u := EscapeText(s) + rest;
    TextSignEscape(s, rest);
    TextAtStep(u);
    var k := |EscapeText(s)| - |EscapeText(s[1..])|;
    var u' := u[k..];
    assert u' == EscapeText(s[1..]) + rest;
    if |s| == 1 {
      assert s[1..] == [];
      assert u' == rest;
      assert SignAt(u, k) == SignAt(rest, 0);
      assert [s[0]] == s;
    } else {
      assert Writable(s[1..]) by {
        forall i | 0 <= i < |s[1..]| ensures !StopsText(s[1..][i] as int) || Escapable(s[1..][i] as int) {
          assert s[1..][i] == s[i + 1];
        }
      }
      TextAtEscape(s[1..], rest);
      EscapeTextStart(s[1..]);
      assert SignAt(u, k) == u'[0] as int;
      assert [s[0]] + s[1..] == s;
    }
  }

  /** Escaped text starts with a backslash or with a character that does not
      stop text. */
  lemma {:induction false} EscapeTextStart(s: string)
    requires s != [] && Writable(s)
    ensures !StopsText(EscapeText(s)[0] as int)
  {
    assert !StopsText(s[0] as int) || Escapable(s[0] as int);
    StopsTextSigns('\\');
  }

  // ---------------------------------------------------------------------
  // A whole text as a token sequence
  // ---------------------------------------------------------------------

  /** The first `k` tokens of `u`; after the end every further token is the
      end marker. */
  function LexTokens(u: string, k: nat): (ts: seq<Token>)
    ensures |ts| == k
    decreases k
  {
    if k == 0 then []
    else
      var l := LexemeAt(u);
      [l.token] + LexTokens(u[l.length..], k - 1)
  }
}

=== FILE: StreamScanner.dfy ===
/** The scanner of the earlier lexer (TKOM/Parser/Scanner.cs).
    The scanner wraps a buffered reader. `ReadNextToken` discards spaces,
    newlines and carriage returns, recognizes the end of the stream, and
    then tries a keyword, a two-character sign, a one-character sign, a
    number, an identifier and text, in that order. A recognizer that does
    not find its token rewinds the reader by what it read. Text always
    succeeds, so every call yields a token.
    Each recognizer is a function from a reader to an `Attempt`, the reader
    after the attempt and the token found, if any. A recognizer returns a
    `Result`, because the reader's `Rewind` can fail.
    The scanner is proved to agree with the reference grammar of
    StreamLexicon.dfy. It yields that grammar's token and consumes exactly
    that token's characters. So every rewind it performs succeeds. */
module StreamScanner {
  import opened Wrappers
  import opened Errors
  import opened StreamKeywords
  import opened StreamLexicon
  import opened BufferedReader
  import Lexicon
  import Keywords

  datatype Attempt = Attempt(reader: Reader, token: Option<Token>)

  /** A recognizer's outcome agrees with the reference: it succeeds with a
      valid reader; when the reference finds a lexeme, the recognizer yields
      its token and moves past its characters; otherwise the recognizer
      yields nothing and the upcoming text is what it was. */
  predicate Recognized(r: Reader, res: Result<Attempt, Error>, found: Option<Lexeme>)
    requires Valid(r)
  {
    res.Success? && Valid(res.value.reader)
    && match found
       case Some(l) =>
         res.value.token == Some(l.token) && l.length <= |Upcoming(r)|
         && Upcoming(res.value.reader) == Upcoming(r)[l.length..]
       case None =>
         res.value.token == None && Upcoming(res.value.reader) == Upcoming(r)
  }

  /** A token read agrees with the reference lexeme `l`. */
  predicate Agrees(r: Reader, res: Result<(Token, Reader), Error>, l: Lexeme)
    requires Valid(r)
  {
    res.Success? && res.value.0 == l.token && Valid(res.value.1)
    && l.length <= |Upcoming(r)| && Upcoming(res.value.1) == Upcoming(r)[l.length..]
  }

  // ---------------------------------------------------------------------
  // Reader helpers
  // ---------------------------------------------------------------------

  /** Reads while the peeked sign satisfies `p`. This is the loop of the
      source's Read* helpers; `p` never holds at the end of the stream. */
  function ReadWhile(r: Reader, p: int -> bool): (res: (string, Reader))
    requires Valid(r) && !p(-1)
    ensures Valid(res.1)
    decreases |Upcoming(r)|
  {
    if p(Peek(r)) then
      var (c, r1) := Read(r);
      var (s, r2) := ReadWhile(r1, p);
      ([c] + s, r2)
    else ([], r)
  }

  /** One level of `ReadWhile`: a sign satisfying `p` is read and the loop
      goes on; any other sign ends it. */
  lemma {:induction false} ReadWhileStep(r: Reader, p: int -> bool)
    requires Valid(r) && !p(-1)
    ensures p(Peek(r)) ==> ReadWhile(r, p).0 == [Read(r).0] + ReadWhile(Read(r).1, p).0
                           && ReadWhile(r, p).1 == ReadWhile(Read(r).1, p).1
    ensures !p(Peek(r)) ==> ReadWhile(r, p) == ([], r)
  {
  }

  /** Reading while `p` holds takes the run of `p` signs and nothing more. */
  lemma {:induction false} ReadWhileRuns(r: Reader, p: int -> bool, text: string, i: nat)
    requires Valid(r) && !p(-1) && i <= |text| && Upcoming(r) == text[i..]
    ensures var j := Lexicon.RunEnd(text, i, p);
            var res := ReadWhile(r, p);
            res.0 == text[i..j] && Upcoming(res.1) == text[j..]
            && Consumed(res.1) == Consumed(r) + text[i..j]
    decreases |text| - i
  {
    hide ReadWhile, Read, Peek;
    ReadWhileStep(r, p);
    if p(Peek(r)) {
      var first := Read(r);
      assert text[i..] != [] && first.0 == text[i];
      assert Upcoming(first.1) == text[i + 1..];
      ReadWhileRuns(first.1, p, text, i + 1);
      var j := Lexicon.RunEnd(text, i, p);
      assert j == Lexicon.RunEnd(text, i + 1, p);
      assert text[i..j] == [text[i]] + text[i + 1..j];
    } else {
      assert Lexicon.RunEnd(text, i, p) == i;
    }
  }

  /** A rewind by what was read since `r0` succeeds and restores the text
      that was upcoming at `r0`. */
  lemma {:induction false} RewindRestores(r0: Reader, r: Reader, w: string)
    requires Valid(r0) && Valid(r)
    requires Consumed(r) == Consumed(r0) + w && Upcoming(r0) == w + Upcoming(r)
    ensures Rewind(r, |w|).Success? && Upcoming(Rewind(r, |w|).value) == Upcoming(r0)
  {
    var c := Consumed(r);
    assert c[|c| - |w|..] == w;
  }

  /** The cast of a peeked sign to a character, as the dictionary lookups
      apply it, finds a key exactly when the upcoming text starts with it. */
  lemma {:induction false} LookupPeek<V>(r: Reader, m: map<char, V>)
    requires Valid(r)
    ensures Keywords.Lookup(m, Peek(r)).Some? <==> Upcoming(r) != [] && Upcoming(r)[0] in m
    ensures Keywords.Lookup(m, Peek(r)).Some? ==> Keywords.Lookup(m, Peek(r)).value == m[Upcoming(r)[0]]
  {
    var u := Upcoming(r);
    if u != [] {
      assert Keywords.IsCharCode(u[0] as int);
      assert (u[0] as int) as char == u[0];
    }
  }

  // ---------------------------------------------------------------------
  // Whitespace
  // ---------------------------------------------------------------------

  /** Reads and discards spaces, newlines and carriage returns, clearing the
      buffer after each. */
  function SkipWhitespaces(r: Reader): (r': Reader)
    requires Valid(r)
    ensures Valid(r')
    decreases |Upcoming(r)|
  {
    if Lexicon.IsWhitespaceSign(Peek(r)) then SkipWhitespaces(ClearBuffer(Read(r).1)) else r
  }

  /** Skipping whitespace leaves exactly the text after the leading blanks. */
  lemma {:induction false} SkipWhitespacesSkips(r: Reader, text: string, i: nat)
    requires Valid(r) && i <= |text| && Upcoming(r) == text[i..]
    ensures Upcoming(SkipWhitespaces(r)) == text[Lexicon.RunEnd(text, i, Lexicon.IsWhitespaceSign)..]
    decreases |text| - i
  {
    hide SkipWhitespaces, Read, ClearBuffer, Peek;
    SkipWhitespacesStep(r);
    if Lexicon.IsWhitespaceSign(Peek(r)) {
      var r1 := ClearBuffer(Read(r).1);
      assert Upcoming(r1) == text[i + 1..];
      SkipWhitespacesSkips(r1, text, i + 1);
    }
  }

  /** One step of skipping whitespace. */
  lemma {:induction false} SkipWhitespacesStep(r: Reader)
    requires Valid(r)
    ensures Lexicon.IsWhitespaceSign(Peek(r)) ==> SkipWhitespaces(r) == SkipWhitespaces(ClearBuffer(Read(r).1))
    ensures !Lexicon.IsWhitespaceSign(Peek(r)) ==> SkipWhitespaces(r) == r
  {
  }

  // ---------------------------------------------------------------------
  // Keywords
  // ---------------------------------------------------------------------

  function ReadKeyword(r: Reader): (res: Result<Attempt, Error>)
    requires Valid(r)
    ensures res.Success? ==> Valid(res.value.reader)
  {
    if StartsKeyword(Peek(r)) then KeywordCandidate(r)
    else
      match Rewind(r, 0)
      case Success(r1) => Success(Attempt(r1, None))
      case Failure(e) => Failure(e)
  }

  /** Reads the first character of a keyword candidate and the run after
      it, then closes the candidate. */
  function KeywordCandidate(r: Reader): (res: Result<Attempt, Error>)
    requires Valid(r)
    ensures res.Success? ==> Valid(res.value.reader)
  {
    var first := Read(r);
    var run := ReadWhile(first.1, InKeyword);
    CloseKeyword(run.1, [first.0] + run.0)
  }

  /** After the candidate's run: a following '>' joins the candidate; a
      candidate without '>' must be followed by a space. */
  function CloseKeyword(r: Reader, buffer: string): (res: Result<Attempt, Error>)
    requires Valid(r)
    ensures res.Success? ==> Valid(res.value.reader)
  {
    if Peek(r) == '>' as int then
      var (g, r1) := Read(r);
      KeywordOrRewind(r1, buffer + [g])
    else if Peek(r) != ' ' as int then
      var r1 :- Rewind(r, |buffer|);
      Success(Attempt(r1, None))
    else KeywordOrRewind(r, buffer)
  }

  /** The end of ReadKeyword: a candidate in the table is the token and the
      buffer is cleared; otherwise the reader is rewound by the candidate. */
  function KeywordOrRewind(r: Reader, buffer: string): (res: Result<Attempt, Error>)
    requires Valid(r)
    ensures res.Success? ==> Valid(res.value.reader)
  {
    if buffer in KeywordDict then Success(Attempt(ClearBuffer(r), Some(Token(KeywordDict[buffer], None))))
    else
      var r1 :- Rewind(r, |buffer|);
      Success(Attempt(r1, None))
  }

  /** After a candidate was read from `r0` to `r`, KeywordOrRewind finds the
      keyword the candidate spells, or restores the upcoming text. */
  lemma {:induction false} KeywordOrRewindAgrees(r0: Reader, r: Reader, w: string)
    requires Valid(r0) && Valid(r)
    requires Consumed(r) == Consumed(r0) + w && Upcoming(r0) == w + Upcoming(r)
    ensures Recognized(r0, KeywordOrRewind(r, w),
                       if w in KeywordDict then Some(Lexeme(Token(KeywordDict[w], None), |w|)) else None)
  {
    if w in KeywordDict {
      assert Upcoming(r0)[|w|..] == Upcoming(r);
    } else {
      RewindRestores(r0, r, w);
    }
  }

  /** A first character and the run of `p` signs after it, read from `r`:
      the keyword candidate and the identifier are read this way. */
  lemma {:induction false} CandidateRead(r: Reader, p: int -> bool)
    requires Valid(r) && !p(-1) && Upcoming(r) != []
    ensures var u := Upcoming(r);
            var j := Lexicon.RunEnd(u, 1, p);
            var first := Read(r);
            var run := ReadWhile(first.1, p);
            [first.0] + run.0 == u[..j] && Upcoming(run.1) == u[j..]
            && Consumed(run.1) == Consumed(r) + u[..j] && Peek(run.1) == SignAt(u, j)
  {
    hide Read, ReadWhile, Peek;
    var u := Upcoming(r);
    var first := Read(r);
    ReadWhileRuns(first.1, p, u, 1);
    var j := Lexicon.RunEnd(u, 1, p);
    assert u[..j] == [u[0]] + u[1..j];
    assert Consumed(r) + [first.0] + u[1..j] == Consumed(r) + u[..j];
  }

  /** Closing a candidate run read from `r0` agrees with the reference. */
  lemma {:induction false} CloseKeywordAgrees(r0: Reader, r: Reader, w: string)
    requires Valid(r0) && Valid(r)
    requires var u := Upcoming(r0);
             u != [] && StartsKeyword(u[0] as int) && w == u[..Lexicon.RunEnd(u, 1, InKeyword)]
    requires Consumed(r) == Consumed(r0) + w && Upcoming(r0) == w + Upcoming(r)
    ensures Recognized(r0, CloseKeyword(r, w), KeywordAt(Upcoming(r0)))
  {
    hide Read, Rewind, ClearBuffer, KeywordOrRewind;
    var u := Upcoming(r0);
    var j := |w|;
    assert Upcoming(r) == u[j..];
    assert Peek(r) == SignAt(u, j);
    if Peek(r) == '>' as int {
      var (g, r1) := Read(r);
      assert w + [g] == u[..j + 1];
      assert u[..j + 1] + u[j + 1..] == u;
      KeywordOrRewindAgrees(r0, r1, u[..j + 1]);
    } else if Peek(r) != ' ' as int {
      RewindRestores(r0, r, w);
    } else {
      KeywordOrRewindAgrees(r0, r, w);
    }
  }

  lemma {:induction false} ReadKeywordAgrees(r: Reader)
    requires Valid(r)
    ensures Recognized(r, ReadKeyword(r), KeywordAt(Upcoming(r)))
  {
    hide Read, ReadWhile, Rewind, Peek, CloseKeyword, KeywordCandidate;
    var u := Upcoming(r);
    if StartsKeyword(Peek(r)) {
      KeywordCandidateAgrees(r);
    } else {
      assert u != [] ==> !StartsKeyword(u[0] as int);
      RewindRestores(r, r, []);
    }
  }

  lemma {:induction false} KeywordCandidateAgrees(r: Reader)
    requires Valid(r) && Upcoming(r) != [] && StartsKeyword(Upcoming(r)[0] as int)
    ensures Recognized(r, KeywordCandidate(r), KeywordAt(Upcoming(r)))
  {
    hide Read, ReadWhile, Peek, CloseKeyword;
    var u := Upcoming(r);
    CandidateRead(r, InKeyword);
    var first := Read(r);
    var run := ReadWhile(first.1, InKeyword);
    assert u[..Lexicon.RunEnd(u, 1, InKeyword)] + Upcoming(run.1) == u;
    CloseKeywordAgrees(r, run.1, [first.0] + run.0);
  }

  // ---------------------------------------------------------------------
  // Signs
  // ---------------------------------------------------------------------

  function ReadSpecialTwoCharSign(r: Reader): (res: Result<Attempt, Error>)
    requires Valid(r)
    ensures res.Success? ==> Valid(res.value.reader)
  {
    match Keywords.Lookup(FollowedSignDict, Peek(r))
    case Some(followers) =>
      var (_, r1) := Read(r);
      (match Keywords.Lookup(followers, Peek(r1))
       case Some(t) =>
         var (_, r2) := Read(r1);
         Success(Attempt(ClearBuffer(r2), Some(Token(t, None))))
       case None =>
         var r2 :- Rewind(r1, 1);
         Success(Attempt(r2, None)))
    case None =>
      match Rewind(r, 0)
      case Success(r1) => Success(Attempt(r1, None))
      case Failure(e) => Failure(e)
  }

  lemma {:induction false} ReadSpecialTwoCharSignAgrees(r: Reader)
    requires Valid(r)
    ensures Recognized(r, ReadSpecialTwoCharSign(r), TwoCharSignAt(Upcoming(r)))
  {
    var u := Upcoming(r);
    LookupPeek(r, FollowedSignDict);
    if u != [] && u[0] in FollowedSignDict {
      var (c, r1) := Read(r);
      LookupPeek(r1, FollowedSignDict[u[0]]);
      if 2 <= |u| && u[1] in FollowedSignDict[u[0]] {
        var (d, r2) := Read(r1);
        assert u[1..][1..] == u[2..];
      } else {
        assert [u[0]] + u[1..] == u;
        RewindRestores(r, r1, [u[0]]);
      }
    } else {
      RewindRestores(r, r, []);
    }
  }

  function ReadSpecialOneCharSign(r: Reader): (res: Attempt)
    requires Valid(r)
    ensures Valid(res.reader)
  {
    match Keywords.Lookup(SignDict, Peek(r))
    case Some(t) => Attempt(ClearBuffer(Read(r).1), Some(Token(t, None)))
    case None => Attempt(r, None)
  }

  lemma {:induction false} ReadSpecialOneCharSignAgrees(r: Reader)
    requires Valid(r)
    ensures Recognized(r, Success(ReadSpecialOneCharSign(r)), OneCharSignAt(Upcoming(r)))
  {
    LookupPeek(r, SignDict);
  }

  // ---------------------------------------------------------------------
  // Numbers and identifiers
  // ---------------------------------------------------------------------

  /** The source's do-while loop first tests IsDigit, so it reads the same
      digits as a while loop. */
  function ReadNumber(r: Reader): (res: Result<Attempt, Error>)
    requires Valid(r)
    ensures res.Success? ==> Valid(res.value.reader)
  {
    if Lexicon.IsDigitSign(Peek(r)) then
      var (digits, r1) := ReadWhile(r, Lexicon.IsDigitSign);
      if NumberFollower(Peek(r1)) then Success(Attempt(ClearBuffer(r1), Some(Token(Number, Some(digits)))))
      else
        var r2 :- Rewind(r1, |digits|);
        Success(Attempt(r2, None))
    else Success(Attempt(r, None))
  }

  lemma {:induction false} ReadNumberAgrees(r: Reader)
    requires Valid(r)
    ensures Recognized(r, ReadNumber(r), NumberAt(Upcoming(r)))
  {
    var u := Upcoming(r);
    if Lexicon.IsDigitSign(Peek(r)) {
      ReadWhileRuns(r, Lexicon.IsDigitSign, u, 0);
      var j := Lexicon.RunEnd(u, 0, Lexicon.IsDigitSign);
      var (digits, r1) := ReadWhile(r, Lexicon.IsDigitSign);
      assert u[0..j] == u[..j] && u[0..] == u;
      if !NumberFollower(Peek(r1)) {
        assert u[..j] + u[j..] == u;
        RewindRestores(r, r1, u[..j]);
      }
    }
  }

  function ReadIdentifier(r: Reader): (res: Result<Attempt, Error>)
    requires Valid(r)
    ensures res.Success? ==> Valid(res.value.reader)
  {
    if Lexicon.StartsIdentifier(Peek(r)) then
      var first := Read(r);
      var run := ReadWhile(first.1, Lexicon.IsIdentifierSign);
      var buffer := [first.0] + run.0;
      if IdentifierFollower(Peek(run.1)) then Success(Attempt(ClearBuffer(run.1), Some(Token(Identifier, Some(buffer)))))
      else
        var r1 :- Rewind(run.1, |buffer|);
        Success(Attempt(r1, None))
    else Success(Attempt(r, None))
  }

  lemma {:induction false} ReadIdentifierAgrees(r: Reader)
    requires Valid(r)
    ensures Recognized(r, ReadIdentifier(r), IdentifierAt(Upcoming(r)))
  {
    hide Read, ReadWhile, Rewind, ClearBuffer, Peek;
    var u := Upcoming(r);
    if Lexicon.StartsIdentifier(Peek(r)) {
      CandidateRead(r, Lexicon.IsIdentifierSign);
      var j := Lexicon.RunEnd(u, 1, Lexicon.IsIdentifierSign);
      var first := Read(r);
      var run := ReadWhile(first.1, Lexicon.IsIdentifierSign);
      if !IdentifierFollower(Peek(run.1)) {
        assert u[..j] + u[j..] == u;
        RewindRestores(r, run.1, u[..j]);
      }
    }
  }

  // ---------------------------------------------------------------------
  // Text
  // ---------------------------------------------------------------------

  /** A backslash before an escapable character is consumed; a backslash
      before anything else is given back. */
  function EscapeCharacterIfNeeded(r: Reader): (res: Result<Reader, Error>)
    requires Valid(r)
    ensures res.Success? ==> Valid(res.value)
  {
    if Peek(r) == '\\' as int then
      var (_, r1) := Read(r);
      if Escapable(Peek(r1)) then Success(r1) else Rewind(r1, 1)
    else Success(r)
  }

  /** Escaping leaves the reader just before the character the reference
      reads as the next character of text. */
  lemma {:induction false} EscapeAgrees(r: Reader)
    requires Valid(r) && Upcoming(r) != []
    ensures EscapeCharacterIfNeeded(r).Success?
    ensures var u := Upcoming(r);
            var r1 := EscapeCharacterIfNeeded(r).value;
            Upcoming(r1) == u[TextSign(u).1 - 1..]
            && Read(r1).0 == TextSign(u).0 && Upcoming(Read(r1).1) == u[TextSign(u).1..]
  {
    var u := Upcoming(r);
    if Peek(r) == '\\' as int {
      var (b, r1) := Read(r);
      if !Escapable(Peek(r1)) {
        assert [u[0]] + u[1..] == u;
        RewindRestores(r, r1, [u[0]]);
      }
    }
  }

  /** The loop of ReadText: escape if needed and read, as long as the next
      sign does not stop text. */
  function CollectText(r: Reader): (res: Result<(string, Reader), Error>)
    requires Valid(r)
    ensures res.Success? ==> Valid(res.value.1)
    decreases |Upcoming(r)|
  {
    match EscapeCharacterIfNeeded(r)
    case Failure(e) => Failure(e)
    case Success(r1) =>
      var (c, r2) := Read(r1);
      if !StopsText(Peek(r2)) then
        assert Upcoming(r2) != [];
        assert |Upcoming(r1)| <= |Upcoming(r)| by { EscapeShrinks(r); }
        var rest :- CollectText(r2);
        Success(([c] + rest.0, rest.1))
      else Success(([c], r2))
  }

  /** Escaping never makes the upcoming text longer. */
  lemma {:induction false} EscapeShrinks(r: Reader)
    requires Valid(r)
    ensures EscapeCharacterIfNeeded(r).Success? ==>
              |Upcoming(EscapeCharacterIfNeeded(r).value)| <= |Upcoming(r)|
  {
    if Peek(r) == '\\' as int {
      var (_, r1) := Read(r);
      if !Escapable(Peek(r1)) && Rewind(r1, 1).Success? {
        assert |Consumed(r1)| >= 1;
        assert Consumed(r1)[|Consumed(r1)| - 1..] == [Read(r).0];
      }
    }
  }

  lemma {:induction false} CollectTextAgrees(r: Reader)
    requires Valid(r) && Upcoming(r) != []
    ensures CollectText(r).Success?
    ensures var u := Upcoming(r);
            CollectText(r).value.0 == TextAt(u).0 && Upcoming(CollectText(r).value.1) == u[TextAt(u).1..]
    decreases |Upcoming(r)|
  {
    hide Read, EscapeCharacterIfNeeded, TextAt, TextSign, Peek;
    var u := Upcoming(r);
    EscapeAgrees(r);
    TextAtStep(u);
    var r1 := EscapeCharacterIfNeeded(r).value;
    var (c, r2) := Read(r1);
    var k := TextSign(u).1;
    assert Peek(r2) == SignAt(u, k);
    if !StopsText(Peek(r2)) {
      CollectTextAgrees(r2);
      assert u[k..][TextAt(u[k..]).1..] == u[k + TextAt(u[k..]).1..];
    }
  }

  function ReadText(r: Reader): (res: Result<(Token, Reader), Error>)
    requires Valid(r)
    ensures res.Success? ==> Valid(res.value.1)
  {
    var collected :- CollectText(r);
    Success((Token(Text, Some(collected.0)), ClearBuffer(collected.1)))
  }

  // ---------------------------------------------------------------------
  // The next token
  // ---------------------------------------------------------------------

  /** Reads the next token. Spaces, newlines and carriage returns before it
      are discarded; at the end of the stream the token is Eof. */
  function ReadNextToken(r: Reader): (res: Result<(Token, Reader), Error>)
    requires Valid(r)
    ensures res.Success? ==> Valid(res.value.1)
  {
    var r0 := SkipWhitespaces(r);
    if IsEndOfStream(r0) then Success((Token(Eof, None), r0))
    else KeywordOnward(r0)
  }

  /** The recognizers from the keyword on, each tried when the one before
      found nothing. */
  function KeywordOnward(r: Reader): (res: Result<(Token, Reader), Error>)
    requires Valid(r)
    ensures res.Success? ==> Valid(res.value.1)
  {
    var k :- ReadKeyword(r);
    if k.token.Some? then Success((k.token.value, k.reader)) else TwoCharSignOnward(k.reader)
  }

  function TwoCharSignOnward(r: Reader): (res: Result<(Token, Reader), Error>)
    requires Valid(r)
    ensures res.Success? ==> Valid(res.value.1)
  {
    var t :- ReadSpecialTwoCharSign(r);
    if t.token.Some? then Success((t.token.value, t.reader)) else OneCharSignOnward(t.reader)
  }

  function OneCharSignOnward(r: Reader): (res: Result<(Token, Reader), Error>)
    requires Valid(r)
    ensures res.Success? ==> Valid(res.value.1)
  {
    var o := ReadSpecialOneCharSign(r);
    if o.token.Some? then Success((o.token.value, o.reader)) else NumberOnward(o.reader)
  }

  function NumberOnward(r: Reader): (res: Result<(Token, Reader), Error>)
    requires Valid(r)
    ensures res.Success? ==> Valid(res.value.1)
  {
    var n :- ReadNumber(r);
    if n.token.Some? then Success((n.token.value, n.reader)) else IdentifierOnward(n.reader)
  }

  function IdentifierOnward(r: Reader): (res: Result<(Token, Reader), Error>)
    requires Valid(r)
    ensures res.Success? ==> Valid(res.value.1)
  {
    var i :- ReadIdentifier(r);
    if i.token.Some? then Success((i.token.value, i.reader)) else ReadText(i.reader)
  }

  lemma {:induction false} IdentifierOnwardAgrees(r: Reader)
    requires Valid(r) && Upcoming(r) != []
    requires var v := Upcoming(r);
             KeywordAt(v).None? && TwoCharSignAt(v).None? && OneCharSignAt(v).None? && NumberAt(v).None?
    ensures Agrees(r, IdentifierOnward(r), FirstLexeme(Upcoming(r)))
  {
    ReadIdentifierAgrees(r);
    var v := Upcoming(r);
    if IdentifierAt(v).None? {
      var r1 := ReadIdentifier(r).value.reader;
      CollectTextAgrees(r1);
    }
  }

  lemma {:induction false} NumberOnwardAgrees(r: Reader)
    requires Valid(r) && Upcoming(r) != []
    requires var v := Upcoming(r);
             KeywordAt(v).None? && TwoCharSignAt(v).None? && OneCharSignAt(v).None?
    ensures Agrees(r, NumberOnward(r), FirstLexeme(Upcoming(r)))
  {
    hide IdentifierOnward;
    ReadNumberAgrees(r);
    if NumberAt(Upcoming(r)).None? {
      IdentifierOnwardAgrees(ReadNumber(r).value.reader);
    }
  }

  lemma {:induction false} OneCharSignOnwardAgrees(r: Reader)
    requires Valid(r) && Upcoming(r) != []
    requires var v := Upcoming(r);
             KeywordAt(v).None? && TwoCharSignAt(v).None?
    ensures Agrees(r, OneCharSignOnward(r), FirstLexeme(Upcoming(r)))
  {
    hide NumberOnward;
    ReadSpecialOneCharSignAgrees(r);
    if OneCharSignAt(Upcoming(r)).None? {
      NumberOnwardAgrees(ReadSpecialOneCharSign(r).reader);
    }
  }

  lemma {:induction false} TwoCharSignOnwardAgrees(r: Reader)
    requires Valid(r) && Upcoming(r) != []
    requires KeywordAt(Upcoming(r)).None?
    ensures Agrees(r, TwoCharSignOnward(r), FirstLexeme(Upcoming(r)))
  {
    hide OneCharSignOnward;
    ReadSpecialTwoCharSignAgrees(r);
    if TwoCharSignAt(Upcoming(r)).None? {
      OneCharSignOnwardAgrees(ReadSpecialTwoCharSign(r).value.reader);
    }
  }

  lemma {:induction false} KeywordOnwardAgrees(r: Reader)
    requires Valid(r) && Upcoming(r) != []
    ensures Agrees(r, KeywordOnward(r), FirstLexeme(Upcoming(r)))
  {
    hide TwoCharSignOnward;
    ReadKeywordAgrees(r);
    if KeywordAt(Upcoming(r)).None? {
      TwoCharSignOnwardAgrees(ReadKeyword(r).value.reader);
    }
  }

  /** The scanner yields the reference token of the upcoming text and
      consumes exactly its characters; no rewind on the way fails. */
  lemma {:induction false} ReadNextTokenAgrees(r: Reader)
    requires Valid(r)
    ensures Agrees(r, ReadNextToken(r), LexemeAt(Upcoming(r)))
  {
    hide KeywordOnward, SkipWhitespaces, FirstLexeme, IsEndOfStream;
    var u := Upcoming(r);
    SkipWhitespacesSkips(r, u, 0);
    assert u[0..] == u;
    var r0 := SkipWhitespaces(r);
    var b := Blanks(u);
    if b < |u| {
      KeywordOnwardAgrees(r0);
      var l := FirstLexeme(u[b..]);
      assert u[b..][l.length..] == u[b + l.length..];
    }
  }

  // ---------------------------------------------------------------------
  // Several tokens
  // ---------------------------------------------------------------------

  /** Reads `k` tokens in a row. */
  function ScanTokens(r: Reader, k: nat): (res: Result<seq<Token>, Error>)
    requires Valid(r)
    decreases k
  {
    if k == 0 then Success([])
    else
      match ReadNextToken(r)
      case Failure(e) => Failure(e)
      case Success((t, r1)) =>
        var ts :- ScanTokens(r1, k - 1);
        Success([t] + ts)
  }

  /** Scanning `k` tokens from a reader gives the reference's first `k`
      tokens of the upcoming text. */
  lemma {:induction false} ScanTokensAgree(r: Reader, k: nat)
    requires Valid(r)
    ensures ScanTokens(r, k) == Success(LexTokens(Upcoming(r), k))
    decreases k
  {
    hide ReadNextToken, LexemeAt;
    if k > 0 {
      ReadNextTokenAgrees(r);
      var (t, r1) := ReadNextToken(r).value;
      ScanTokensAgree(r1, k - 1);
    }
  }
}

=== FILE: StringsReader.dfy ===
/** The string reader with push-back that feeds the scanner
    (TKOM/Readers/StringsReader.cs).

    A reader holds the text, a position (the number of signs taken so far),
    the current sign, and line and column counters. The current sign is a
    character code, or `EndOfInput` (-1) once the text is exhausted.

    The source's `Read` stops advancing the position at the end of the text,
    so a later `Rewind` lands one sign too early. `ReadAsWritten` and
    `RewindAsWritten` model the code as it stands. `Read` and `Rewind`
    are the corrected pair: the position always advances, and rewinding
    undoes exactly the reads it names. The scanner uses the corrected pair. */
module StringsReader {
  import opened Wrappers
  import opened Errors

  const EndOfInput: int := -1

  datatype Reader = Reader(text: string, pos: nat, current: int, line: nat, column: nat)

  /** The sign at index `i` of `text`, or `EndOfInput` outside the text. */
  function SignAt(text: string, i: int): (c: int)
    ensures c == EndOfInput <==> !(0 <= i < |text|)
  {
    if 0 <= i < |text| then text[i] as int else EndOfInput
  }

  /** Two readers stand at the same place of the same text; the line and
      column counters may differ. */
  predicate SamePlace(a: Reader, b: Reader) {
    a.text == b.text && a.pos == b.pos && a.current == b.current
  }

  /** Every read bumps exactly one counter: the line counter when the new
      current sign is a newline, the column counter otherwise. The column
      counter is never reset. */
  predicate CountersStep(before: Reader, after: Reader) {
    if after.current == '\n' as int
    then after.line == before.line + 1 && after.column == before.column
    else after.line == before.line && after.column == before.column + 1
  }

  // ---------------------------------------------------------------------
  // The reader as written
  // ---------------------------------------------------------------------

  /** The state the as-written reader keeps between operations: the position
      never passes the end of the text, and the current sign is the one just
      before the position unless the text is exhausted. */
  predicate ValidAsWritten(r: Reader) {
    r.pos <= |r.text| &&
    ((r.pos == |r.text| && r.current == EndOfInput) ||
     (1 <= r.pos && r.current == r.text[r.pos - 1] as int))
  }

  function ReadAsWritten(r: Reader): (r': Reader)
    ensures r'.text == r.text
    ensures r.pos < |r.text| ==> r'.pos == r.pos + 1 && r'.current == r.text[r.pos] as int
    ensures |r.text| <= r.pos ==> r'.pos == r.pos && r'.current == EndOfInput
    ensures CountersStep(r, r')
  {
    var (pos', current') :=
      if |r.text| <= r.pos then (r.pos, EndOfInput) else (r.pos + 1, r.text[r.pos] as int);
    if current' == '\n' as int
    then Reader(r.text, pos', current', r.line + 1, r.column)
    else Reader(r.text, pos', current', r.line, r.column + 1)
  }

  /** The constructor: all counters at zero, then one read. */
  function NewAsWritten(s: string): (r: Reader)
    ensures r.text == s
    ensures r.current == SignAt(s, 0)
    ensures r.pos == if s == [] then 0 else 1
    ensures r.line + r.column == 1
    ensures ValidAsWritten(r)
  {
    ReadAsWritten(Reader(s, 0, 0, 0, 0))
  }

  function RewindAsWritten(r: Reader, n: int): (res: Result<Reader, Error>)
    ensures r.pos - n < 1 ==> res == Failure(RewindBeforeStart)
    ensures 1 <= r.pos - n <= |r.text| ==>
              res.Success? && res.value.pos == r.pos - n &&
              res.value.current == r.text[r.pos - n - 1] as int
    ensures res.Success? ==>
              res.value.text == r.text && res.value.line == r.line && res.value.column == r.column
  {
    var pos' := r.pos - n;
    if pos' < 1 then Failure(RewindBeforeStart)
    else if pos' - 1 >= |r.text| then Failure(SignOutOfRange)
    else Success(Reader(r.text, pos', r.text[pos' - 1] as int, r.line, r.column))
  }

  /** Reading keeps the as-written invariant, so the position stays within
      0..|text|. */
  lemma {:induction false} ReadAsWrittenKeepsValid(r: Reader)
    requires ValidAsWritten(r)
    ensures ValidAsWritten(ReadAsWritten(r))
  {
  }

  /** A successful rewind keeps the as-written invariant. */
  lemma {:induction false} RewindAsWrittenKeepsValid(r: Reader, n: int)
    requires ValidAsWritten(r)
    requires RewindAsWritten(r, n).Success?
    ensures ValidAsWritten(RewindAsWritten(r, n).value)
  {
  }

  /** Once the text is exhausted, reading again changes neither the position
      nor the current sign. */
  lemma {:induction false} ReadAsWrittenStopsAtEnd(r: Reader)
    requires ValidAsWritten(r) && r.current == EndOfInput
    ensures SamePlace(ReadAsWritten(r), r)
  {
  }

  /** The reader's own examples on "example 123": after the constructor and
      two reads the current sign is 'a'; rewinding one sign gives 'x' and
      rewinding two gives 'e'. */
  lemma {:induction false} ExampleReadRewindAsWritten()
    ensures NewAsWritten("example 123").current == 'e' as int
    ensures NewAsWritten("").current == EndOfInput
    ensures ReadAsWritten(ReadAsWritten(NewAsWritten("example 123"))).current == 'a' as int
    ensures RewindAsWritten(ReadAsWritten(ReadAsWritten(NewAsWritten("example 123"))), 1)
            == Success(Reader("example 123", 2, 'x' as int, 0, 3))
    ensures RewindAsWritten(ReadAsWritten(ReadAsWritten(NewAsWritten("example 123"))), 2)
            == Success(Reader("example 123", 1, 'e' as int, 0, 3))
  {
  }

  /** The defect: on "ab", after the constructor and two reads the text is
      exhausted. Rewinding one sign should give back 'b', the sign current
      one read earlier, but gives 'a'. On "i", one read past the end followed
      by a one-sign rewind fails although only one sign was read. */
  lemma {:induction false} RewindAfterEndAsWrittenLandsEarly()
    ensures ReadAsWritten(NewAsWritten("ab")).current == 'b' as int
    ensures RewindAsWritten(ReadAsWritten(ReadAsWritten(NewAsWritten("ab"))), 1)
            == Success(Reader("ab", 1, 'a' as int, 0, 3))
    ensures RewindAsWritten(ReadAsWritten(NewAsWritten("i")), 1) == Failure(RewindBeforeStart)
  {
  }

  // ---------------------------------------------------------------------
  // The corrected reader
  // ---------------------------------------------------------------------

  /** The corrected invariant: at least one sign has been taken, the current
      sign is the one just before the position, and the position is at most
      one past the end of the text (the scanner never reads beyond the end
      marker). */
  predicate Valid(r: Reader) {
    1 <= r.pos <= |r.text| + 1 && r.current == SignAt(r.text, r.pos - 1)
  }

  /** Reads one sign. Unlike the source, the position advances even at the
      end of the text. */
  function Read(r: Reader): (r': Reader)
    ensures r'.text == r.text
    ensures r'.pos == r.pos + 1 && r'.current == SignAt(r.text, r.pos)
    ensures CountersStep(r, r')
  {
    var c := SignAt(r.text, r.pos);
    if c == '\n' as int
    then Reader(r.text, r.pos + 1, c, r.line + 1, r.column)
    else Reader(r.text, r.pos + 1, c, r.line, r.column + 1)
  }

  function New(s: string): (r: Reader)
    ensures r.text == s && r.pos == 1
    ensures r.current == SignAt(s, 0)
    ensures r.line + r.column == 1
    ensures Valid(r)
  {
    Read(Reader(s, 0, 0, 0, 0))
  }

  /** Moves `n` signs back. Rewinding to before the first sign fails, as in
      the source; a position past the end yields the end marker instead of
      an index error. */
  function Rewind(r: Reader, n: int): (res: Result<Reader, Error>)
    ensures res.Success? <==> r.pos - n >= 1
    ensures res.Failure? ==> res.error == RewindBeforeStart
    ensures res.Success? ==>
              res.value.text == r.text && res.value.pos == r.pos - n &&
              res.value.current == SignAt(r.text, r.pos - n - 1) &&
              res.value.line == r.line && res.value.column == r.column
  {
    var pos' := r.pos - n;
    if pos' < 1 then Failure(RewindBeforeStart)
    else Success(Reader(r.text, pos', SignAt(r.text, pos' - 1), r.line, r.column))
  }

  /** A read before the end marker keeps the corrected invariant. */
  lemma {:induction false} ReadKeepsValid(r: Reader)
    requires Valid(r) && r.current != EndOfInput
    ensures Valid(Read(r))
  {
  }

  /** `n` reads in a row. */
  function ReadN(r: Reader, n: nat): (r': Reader)
    ensures r'.text == r.text && r'.pos == r.pos + n
    ensures n > 0 ==> r'.current == SignAt(r.text, r.pos + n - 1)
    ensures n == 0 ==> r' == r
    ensures r'.line + r'.column == r.line + r.column + n
    decreases n
  {
    if n == 0 then r else ReadN(Read(r), n - 1)
  }

  /** One more read after `n` reads is `n + 1` reads. */
  lemma {:induction false} ReadNThenRead(r: Reader, n: nat)
    ensures Read(ReadN(r, n)) == ReadN(r, n + 1)
    decreases n
  {
    if n > 0 {
      ReadNThenRead(Read(r), n - 1);
    }
  }

  /** Reads compose: `a` reads then `b` reads are `a + b` reads. */
  lemma {:induction false} ReadNAdd(r: Reader, a: nat, b: nat)
    ensures ReadN(ReadN(r, a), b) == ReadN(r, a + b)
    decreases a
  {
    if a > 0 {
      assert ReadN(r, a) == ReadN(Read(r), a - 1);
      assert ReadN(r, a + b) == ReadN(Read(r), a - 1 + b);
      ReadNAdd(Read(r), a - 1, b);
    }
  }

  /** Rewinding `n` signs after `k >= n` reads from a valid reader lands on
      the place reached after only `k - n` reads: rewind replays exactly. */
  lemma {:induction false} RewindUndoesReads(r: Reader, k: nat, n: nat)
    requires Valid(r) && n <= k
    ensures Rewind(ReadN(r, k), n).Success?
    ensures SamePlace(Rewind(ReadN(r, k), n).value, ReadN(r, k - n))
  {
  }

  /** The corrected reader on the example where the source goes wrong:
      on "ab", rewinding one sign after reading past the end gives 'b', and
      on "i" the rewind succeeds and gives back 'i'. */
  lemma {:induction false} RewindAfterEndCorrected()
    ensures Read(New("ab")).current == 'b' as int
    ensures Rewind(Read(Read(New("ab"))), 1).Success?
    ensures Rewind(Read(Read(New("ab"))), 1).value.current == 'b' as int
    ensures Rewind(Read(New("i")), 1).Success?
    ensures Rewind(Read(New("i")), 1).value.current == 'i' as int
  {
  }

  /** Before the end of the text the two readers agree. */
  lemma {:induction false} ReadAgreesBeforeEnd(r: Reader)
    requires r.pos < |r.text|
    ensures ReadAsWritten(r) == Read(r)
  {
  }
}

=== FILE: Tokens.dfy ===
/** Tokens of the template language (TKOM/Utils/Token.cs). */
module Tokens {

  /** The token kinds. The keyword tables call the single '<' and '>' tokens
      LessThan and GreaterThan; the token enumeration and the parser call them
      PointyBracketOpen and PointyBracketClose, and so does this model. */
  datatype TokenType =
    | Text | Number | Identifier
    | CurlyBracketOpen | CurlyBracketClose
    | ParenthesisOpen | ParenthesisClose
    | Coma | Dot | ExclamationMark | AssignmentMark | QuotationMark
    | SquareBracketOpen | SquareBracketClose
    | PointyBracketClose | PointyBracketOpen
    | GreaterEqualThan | LessEqualThan | Equal | NotEqual
    | TagClose | TagCloseInline
    | Def | For | If | Else | In
    | Eof | Invalid

  /** A token. `value` is the empty string for kinds that carry no value
      (the source leaves it null). The stored column is one less than the
      column the scanner passes in. */
  datatype Token = Token(kind: TokenType, value: string, line: int, column: int)

  function MakeToken(kind: TokenType, value: string, line: int, column: int): (t: Token)
    ensures t.kind == kind && t.value == value
    ensures t.line == line && t.column == column - 1
  {
    Token(kind, value, line, column - 1)
  }

  predicate IsKeyword(t: TokenType) {
    t == Def || t == For || t == If || t == Else || t == In
  }
}

=== FILE: Values.dfy ===
/** Resolving value references against the JSON model
    (TKOM/Structures/IR/ValueOfInstruction.cs) and building quoted strings
    from their components (TKOM/Structures/IR/StringValueBuilder.cs).

    A reference `name[i].member[j]…` is a chain of `ValueOf` segments. The
    walk applies a segment's own index, then steps into the next segment's
    member. Its partner is a flat path of steps, `Steps`, followed one at a
    time by `Follow`; `WalkFollowsSteps` proves the two agree. */
module Values {
  import opened Wrappers
  import opened Errors
  import opened Json
  import opened Ast
  import opened Ir

  /** One step of a path: a position among the children, or a member name. */
  datatype Step = At(index: int) | Field(name: string)

  /** Indexing a token's children. A position past the end is the
      interpreter's runtime error (naming the segment); a negative position
      makes the list indexer throw. */
  function IndexInto(j: Json, i: int, segment: string): (r: Result<Json, Error>)
    ensures r.Success? <==> 0 <= i < |Children(j)|
    ensures r.Success? ==> r.value == Children(j)[i]
    ensures |Children(j)| <= i ==> r == Failure(Runtime(IndexOutOfRange(segment)))
    ensures i < 0 ==> r == Failure(Library(NegativeIndex))
  {
    var children := Children(j);
    if |children| <= i then Failure(Runtime(IndexOutOfRange(segment)))
    else if i < 0 then Failure(Library(NegativeIndex))
    else Success(children[i])
  }

  /** Stepping into a member: a missing member is the interpreter's runtime
      error; a token without named members makes the library throw. */
  function Descend(j: Json, name: string): (r: Result<Json, Error>)
    ensures r.Success? <==> j.JObject? && Find(j.members, name).Some?
    ensures r.Success? ==> (name, r.value) in j.members
    ensures j.JObject? && Find(j.members, name).None? ==> r == Failure(Runtime(MissingMember(name)))
  {
    var m :- Member(j, name);
    if m.None? then Failure(Runtime(MissingMember(name))) else Success(m.value)
  }

  /** The walk of the source's do-while loop, from the token of the current
      segment. */
  function Walk(j: Json, segment: ValueOf): (r: Result<Json, Error>)
    decreases segment
  {
    var here :- if segment.index.Some? then IndexInto(j, segment.index.value, segment.name) else Success(j);
    match segment.nested
    case None => Success(here)
    case Some(next) =>
      var there :- Descend(here, next.name);
      Walk(there, next)
  }

  /** The reference as a flat path: each segment's index, then the next
      segment's name, and so on. The root name is not part of the path. */
  function Steps(segment: ValueOf): (p: seq<Step>)
    decreases segment
  {
    (if segment.index.Some? then [At(segment.index.value)] else []) +
    (match segment.nested
     case None => []
     case Some(next) => [Field(next.name)] + Steps(next))
  }

  /** Follows a path one step at a time. `segments` names the segment each
      index belongs to, for the error of an index past the end. */
  function Follow(j: Json, path: seq<Step>, owner: string): (r: Result<Json, Error>)
    decreases |path|
  {
    if path == [] then Success(j)
    else
      var next :- match path[0]
                  case At(i) => IndexInto(j, i, owner)
                  case Field(name) => Descend(j, name);
      Follow(next, path[1..], if path[0].Field? then path[0].name else owner)
  }

  /** The walk is the path followed step by step. */
  lemma {:induction false} WalkFollowsSteps(j: Json, segment: ValueOf)
    ensures Walk(j, segment) == Follow(j, Steps(segment), segment.name)
    decreases segment
  {
    var rest := match segment.nested
                case None => []
                case Some(next) => [Field(next.name)] + Steps(next);
    var path := Steps(segment);
    if segment.index.Some? {
      assert path == [At(segment.index.value)] + rest;
      assert path[1..] == rest;
      var here := IndexInto(j, segment.index.value, segment.name);
      if here.Success? {
        FollowFields(here.value, segment, segment.name);
      }
    } else {
      assert path == rest;
      FollowFields(j, segment, segment.name);
    }
  }

  /** The part of the walk after a segment's index. */
  lemma {:induction false} FollowFields(here: Json, segment: ValueOf, owner: string)
    ensures (match segment.nested
             case None => Success(here)
             case Some(next) =>
               var there :- Descend(here, next.name);
               Walk(there, next)) ==
            Follow(here, match segment.nested
                         case None => []
                         case Some(next) => [Field(next.name)] + Steps(next), owner)
    decreases segment, 0
  {
    if segment.nested.Some? {
      var next := segment.nested.value;
      var path := [Field(next.name)] + Steps(next);
      assert path[0] == Field(next.name) && path[1..] == Steps(next);
      var there := Descend(here, next.name);
      if there.Success? {
        WalkFollowsSteps(there.value, next);
      }
    }
  }

  /** Following a concatenated path is following its parts in turn. */
  lemma {:induction false} FollowAppend(j: Json, a: seq<Step>, b: seq<Step>, owner: string)
    ensures Follow(j, a + b, owner) ==
            match Follow(j, a, owner)
            case Failure(e) => Failure(e)
            case Success(k) => Follow(k, b, LastOwner(a, owner))
    decreases |a|
  {
    if a == [] {
      assert a + b == b;
    } else {
      assert (a + b)[0] == a[0] && (a + b)[1..] == a[1..] + b;
      var next := match a[0]
                  case At(i) => IndexInto(j, i, owner)
                  case Field(name) => Descend(j, name);
      if next.Success? {
        FollowAppend(next.value, a[1..], b, if a[0].Field? then a[0].name else owner);
      }
    }
  }

  /** The owner of the indices after a path: the last member name on it. */
  function LastOwner(path: seq<Step>, owner: string): string
    decreases |path|
  {
    if path == [] then owner else LastOwner(path[1..], if path[0].Field? then path[0].name else owner)
  }

  /** Resolves a reference in a scope. A numeric variable yields its text
      and admits neither an index nor a member; a variable holding JSON text
      is parsed and walked. */
  function ReturnValue(lib: JsonLibrary, scope: Scope, ref: ValueOf): (r: Result<Json, Error>)
    ensures FindValue(scope, ref.name).None? ==> r == Failure(Runtime(VariableNotFound(ref.name)))
    ensures FindValue(scope, ref.name).Some? && FindValue(scope, ref.name).value.NumericAssigned? ==>
              r == if ref.index.Some? || ref.nested.Some? then Failure(Runtime(MembersOfNumber))
                   else Success(JString(lib.numberText(FindValue(scope, ref.name).value.number)))
    ensures FindValue(scope, ref.name).Some? && FindValue(scope, ref.name).value.TextAssigned? ==>
              var parsed := lib.parse(FindValue(scope, ref.name).value.text);
              r == if parsed.None? then Failure(Library(UnparsableJson))
                   else Follow(parsed.value, Steps(ref), ref.name)
  {
    match FindValue(scope, ref.name)
    case None => Failure(Runtime(VariableNotFound(ref.name)))
    case Some(NumericAssigned(n)) =>
      if ref.index.Some? || ref.nested.Some? then Failure(Runtime(MembersOfNumber))
      else Success(JString(lib.numberText(n)))
    case Some(TextAssigned(t)) =>
      match lib.parse(t)
      case None => Failure(Library(UnparsableJson))
      case Some(j) =>
        WalkFollowsSteps(j, ref);
        Walk(j, ref)
  }

  // ---------------------------------------------------------------------
  // Quoted strings
  // ---------------------------------------------------------------------

  /** What one component contributes: a literal its content, a reference
      the text of its value. */
  function Piece(lib: JsonLibrary, scope: Scope, c: StringComponent): (r: Result<string, Error>)
  {
    match c
    case LiteralComponent(content) => Success(content)
    case ValueOfComponent(ref) =>
      var j :- ReturnValue(lib, scope, ref);
      Success(lib.show(j))
  }

  /** Appends the pieces in order; the first failing reference ends the
      build with its error. */
  function Build(lib: JsonLibrary, scope: Scope, components: seq<StringComponent>): (r: Result<string, Error>)
    decreases |components|
  {
    if components == [] then Success("")
    else
      var first :- Piece(lib, scope, components[0]);
      var rest :- Build(lib, scope, components[1..]);
      Success(first + rest)
  }

  /** Building is a homomorphism: the build of `a + b` is the build of `a`
      followed by the build of `b`, failing with the first error. */
  lemma {:induction false} BuildAppend(lib: JsonLibrary, scope: Scope, a: seq<StringComponent>, b: seq<StringComponent>)
    ensures Build(lib, scope, a + b) ==
            match Build(lib, scope, a)
            case Failure(e) => Failure(e)
            case Success(x) =>
              match Build(lib, scope, b)
              case Failure(e) => Failure(e)
              case Success(y) => Success(x + y)
    decreases |a|
  {
    if a == [] {
      assert a + b == b;
      var y := Build(lib, scope, b);
      if y.Success? {
        assert "" + y.value == y.value;
      }
    } else {
      assert (a + b)[0] == a[0] && (a + b)[1..] == a[1..] + b;
      BuildAppend(lib, scope, a[1..], b);
      var first := Piece(lib, scope, a[0]);
      if first.Success? {
        var x := Build(lib, scope, a[1..]);
        var y := Build(lib, scope, b);
        if x.Success? && y.Success? {
          assert first.value + (x.value + y.value) == (first.value + x.value) + y.value;
        }
      }
    }
  }

  /** The text of the literal components, concatenated. */
  function LiteralText(components: seq<StringComponent>): string
    decreases |components|
  {
    if components == [] then ""
    else (if components[0].LiteralComponent? then components[0].content else "") + LiteralText(components[1..])
  }

  /** A string of literals only builds to their contents, in order, in
      any scope. */
  lemma {:induction false} BuildLiterals(lib: JsonLibrary, scope: Scope, components: seq<StringComponent>)
    requires forall i | 0 <= i < |components| :: components[i].LiteralComponent?
    ensures Build(lib, scope, components) == Success(LiteralText(components))
    decreases |components|
  {
    if components != [] {
      BuildLiterals(lib, scope, components[1..]);
    }
  }

  /** The build fails exactly when some reference fails to resolve, and
      then with the error of the first such reference. */
  lemma {:induction false} BuildFailsOnFirstBadReference(lib: JsonLibrary, scope: Scope, components: seq<StringComponent>)
    ensures Build(lib, scope, components).Failure? <==>
            exists i | 0 <= i < |components| :: Piece(lib, scope, components[i]).Failure?
    ensures Build(lib, scope, components).Failure? ==>
            exists i | 0 <= i < |components| ::
              Piece(lib, scope, components[i]).Failure? &&
              Build(lib, scope, components).error == Piece(lib, scope, components[i]).error &&
              forall k | 0 <= k < i :: Piece(lib, scope, components[k]).Success?
    decreases |components|
  {
    if components != [] {
      BuildFailsOnFirstBadReference(lib, scope, components[1..]);
      var tail := components[1..];
      if Piece(lib, scope, components[0]).Success? {
        if Build(lib, scope, tail).Failure? {
          var i :| 0 <= i < |tail| && Piece(lib, scope, tail[i]).Failure? &&
                   Build(lib, scope, tail).error == Piece(lib, scope, tail[i]).error &&
                   forall k | 0 <= k < i :: Piece(lib, scope, tail[k]).Success?;
          assert components[i + 1] == tail[i];
          forall k | 0 <= k < i + 1
            ensures Piece(lib, scope, components[k]).Success?
          {
            if k > 0 {
              assert components[k] == tail[k - 1];
            }
          }
        } else {
          forall i | 0 <= i < |components|
            ensures Piece(lib, scope, components[i]).Success?
          {
            if i > 0 {
              assert components[i] == tail[i - 1];
            }
          }
        }
      }
    }
  }

  // ---------------------------------------------------------------------
  // The repository's own examples
  // ---------------------------------------------------------------------

  /** A scope of one variable holding JSON text, with no upper scope. */
  function TextScope(name: string, text: string): (s: Scope)
    ensures FindValue(s, name) == Some(TextAssigned(text))
  {
    Scope([name], map[name := TextAssigned(text)], None)
  }

  /** `array[2]` of `[1,3,6]` is 6. */
  lemma ArrayIndexExample(lib: JsonLibrary, text: string)
    requires lib.parse(text) == Some(JArray([JNumber(1.0), JNumber(3.0), JNumber(6.0)]))
    ensures ReturnValue(lib, TextScope("array", text), ValueOf("array", Some(2), None)) == Success(JNumber(6.0))
  {
    assert Steps(ValueOf("array", Some(2), None)) == [At(2)];
  }

  /** `array.object[1].n` of `{object: [{el: 1, n: 1}, {el: 2, n: 2}]}` is 2. */
  lemma NestedMemberExample(lib: JsonLibrary, text: string)
    requires lib.parse(text) ==
             Some(JObject([("object", JArray([JObject([("el", JNumber(1.0)), ("n", JNumber(1.0))]),
                                              JObject([("el", JNumber(2.0)), ("n", JNumber(2.0))])]))]))
    ensures ReturnValue(lib, TextScope("array", text),
                        ValueOf("array", None, Some(ValueOf("object", Some(1), Some(ValueOf("n", None, None))))))
            == Success(JNumber(2.0))
  {
    var ref := ValueOf("array", None, Some(ValueOf("object", Some(1), Some(ValueOf("n", None, None)))));
    assert Steps(ref) == [Field("object"), At(1), Field("n")];
  }

  /** A variable bound only in the upper scope is found there; one bound
      nowhere is a runtime error naming it. */
  lemma UpperScopeExample(lib: JsonLibrary, text: string, text2: string)
    requires lib.parse(text) == Some(JString("value"))
    ensures var s := Scope(["arg2"], map["arg2" := TextAssigned(text2)], Some(TextScope("arg", text)));
            ReturnValue(lib, s, ValueOf("arg", None, None)) == Success(JString("value")) &&
            ReturnValue(lib, s, ValueOf("arg3", None, None)) == Failure(Runtime(VariableNotFound("arg3")))
  {
    var s := Scope(["arg2"], map["arg2" := TextAssigned(text2)], Some(TextScope("arg", text)));
    assert "arg3" != "arg2" && "arg3" != "arg" && "arg" != "arg2";
    assert FindValue(s, "arg") == Some(TextAssigned(text));
    assert FindValue(s, "arg3") == None;
  }

  /** A member of a model object, referenced as `name.key`, contributes
      the printed member. */
  lemma MemberPiece(lib: JsonLibrary, name: string, text: string, members: seq<(string, Json)>, key: string)
    requires lib.parse(text) == Some(JObject(members))
    requires Find(members, key).Some?
    ensures Piece(lib, TextScope(name, text), ValueOfComponent(ValueOf(name, None, Some(ValueOf(key, None, None)))))
            == Success(lib.show(Find(members, key).value))
  {
    var ref := ValueOf(name, None, Some(ValueOf(key, None, None)));
    var path := [Field(key)];
    assert Steps(ref) == path && path[1..] == [];
    var j := JObject(members);
    assert Descend(j, key) == Success(Find(members, key).value);
    assert Follow(j, path, name) == Success(Find(members, key).value);
    assert ReturnValue(lib, TextScope(name, text), ref) == Success(Find(members, key).value);
  }

  /** Two components build to their pieces, one after the other. */
  lemma BuildTwo(lib: JsonLibrary, scope: Scope, x: StringComponent, y: StringComponent, px: string, py: string)
    requires Piece(lib, scope, x) == Success(px) && Piece(lib, scope, y) == Success(py)
    ensures Build(lib, scope, [x, y]) == Success(px + py)
  {
    var cs := [x, y];
    assert cs[1..] == [y] && cs[1..][1..] == [];
    assert Build(lib, scope, cs[1..]) == Success(py + "");
    assert py + "" == py;
  }

  /** The two references of the example below contribute `aaa` and `bbb`. */
  lemma ModelPieces(lib: JsonLibrary, text: string)
    requires Lawful(lib)
    requires lib.parse(text) == Some(JObject([("val1", JString("aaa")), ("val2", JString("bbb"))]))
    ensures Piece(lib, TextScope("model", text), ValueOfComponent(ValueOf("model", None, Some(ValueOf("val1", None, None)))))
            == Success("aaa")
    ensures Piece(lib, TextScope("model", text), ValueOfComponent(ValueOf("model", None, Some(ValueOf("val2", None, None)))))
            == Success("bbb")
    ensures Piece(lib, TextScope("model", text), LiteralComponent("literal_")) == Success("literal_")
    ensures Piece(lib, TextScope("model", text), LiteralComponent("_end")) == Success("_end")
  {
    var members := [("val1", JString("aaa")), ("val2", JString("bbb"))];
    assert Find(members, "val1") == Some(JString("aaa"));
    assert Find(members, "val2") == Some(JString("bbb")) by {
      assert members[0].0 != "val2";
    }
    MemberPiece(lib, "model", text, members, "val1");
    MemberPiece(lib, "model", text, members, "val2");
  }

  /** `"literal_" + model.val1 + model.val2 + "_end"` builds to
      `literal_aaabbb_end` for the model `{val1: 'aaa', val2: 'bbb'}`. */
  lemma AlternatingBuildExample(lib: JsonLibrary, text: string)
    requires Lawful(lib)
    requires lib.parse(text) == Some(JObject([("val1", JString("aaa")), ("val2", JString("bbb"))]))
    ensures Build(lib, TextScope("model", text),
                  [LiteralComponent("literal_"),
                   ValueOfComponent(ValueOf("model", None, Some(ValueOf("val1", None, None)))),
                   ValueOfComponent(ValueOf("model", None, Some(ValueOf("val2", None, None)))),
                   LiteralComponent("_end")])
            == Success("literal_aaabbb_end")
  {
    hide Build, Piece, ReturnValue, Lawful, FindValue, TextScope;
    ModelPieces(lib, text);
    var scope := TextScope("model", text);
    var c1 := ValueOfComponent(ValueOf("model", None, Some(ValueOf("val1", None, None))));
    var c2 := ValueOfComponent(ValueOf("model", None, Some(ValueOf("val2", None, None))));
    var a := [LiteralComponent("literal_"), c1];
    var b := [c2, LiteralComponent("_end")];
    BuildTwo(lib, scope, LiteralComponent("literal_"), c1, "literal_", "aaa");
    BuildTwo(lib, scope, c2, LiteralComponent("_end"), "bbb", "_end");
    assert "literal_" + "aaa" == "literal_aaa" && "bbb" + "_end" == "bbb_end";
    BuildAppend(lib, scope, a, b);
    assert "literal_aaa" + "bbb_end" == "literal_aaabbb_end";
    assert a + b == [LiteralComponent("literal_"), c1, c2, LiteralComponent("_end")];
  }
}

=== FILE: Wrappers.dfy ===
/** Failure-compatible wrappers. `Option` stands for a C# reference that may be
    null; `Result` stands for a computation that may end in an exception. */
module Wrappers {

  datatype Option<+T> = None | Some(value: T) {

    predicate IsFailure() {
      None?
    }

    function PropagateFailure<U>(): Option<U>
      requires None?
    {
      None
    }

    function Extract(): T
      requires Some?
    {
      value
    }
  }

  datatype Result<+R, +E> = Success(value: R) | Failure(error: E) {

    predicate IsFailure() {
      Failure?
    }

    function PropagateFailure<U>(): Result<U, E>
      requires Failure?
    {
      Failure(error)
    }

    function Extract(): R
      requires Success?
    {
      value
    }
  }
}
